=== FILE: README.md ===
# LibraCore core logic in Dafny

LibraCore is a self-hosted music server. It keeps tracks, albums, videos,
artists, playlists and users in a SQLite or PostgreSQL database. It fetches
search results, metadata, lyrics and content from media sources: YouTube
through a Python helper script, local files, web sources and Spotify. It
stores downloaded content and covers on disk, evicting old content once the
store is over its size limit. Accounts sign in with a password or through
an OAuth provider and receive a signed JWT.

This project models the decision logic of that server as pure functions over
immutable data, and proves properties of it:

- the helper script's argument handling and its round-robin merge of
  per-category search results (`ScriptArgs`, `SearchMerge`);
- the schema-migration state machine and the ordering of migration files
  (`Migrations`, `MigrationFiles`);
- the record store behind the database interface, for both engines, with
  its not-found and too-many rules, its per-user filtering, the PostgreSQL
  lower-casing of lookups and the token blacklist (`Store`);
- the small parsers and formatters:
  - versions (`Versions`);
  - human-readable durations, with Go's signed 64-bit wrap-around (`Durations`, `Numbers`);
  - linked sources (`LinkedSources`);
  - feed routes and OpenAPI path templates (`FeedRoutes`);
  - the OpenAPI document post-processing (`OpenAPI`);
  - the configuration rules (`Config`);
  - the canonical JWS `alg` names of section 3.1 of RFC 7518, plus EdDSA from section 3.1 of RFC 8037, and key selection (`Signing`);
- the media-source capability predicates and the source manager (`Sources`);
- the YouTube result mapping and metadata completion, current and earlier
  variant (`YouTube`, `YouTubeMetadata`, `LegacyYouTube`);
- the account handlers and the OAuth provider configuration rules
  (`AuthHandlers`, `AuthProviders`);
- the content store and its eviction (`Storage`);
- the domain records (`Media`) and random ids (`Ids`).

What the model does with things it cannot see:

- The clock, the database contents, the script runner, file downloads and
  the walk that sums the store's size are parameters.
- Go's map iteration order is a parameter. Where it could matter, a lemma
  shows that the result does not depend on it.
- The random generator is a nondeterministic choice.

Where the source's behaviour looks unintended, the model keeps the code as
written beside a corrected version; see "Findings".

The search script's merge loop exits only once the limit is reached. With
fewer results in total it never ends, and with the limit "all" (None) its
comparison raises. `SearchMerge.WrittenLoop` follows the code. The corrected
`SearchMerge.Merge` stops when every list is empty and returns
min(limit, total) results.

## Model

| member | source | states |
|---|---|---|
| Versions.String | types/version.go:16-18 | the printed form starts with the major number and a dot and ends with the suffix exactly as stored |
| Versions.IsAtLeastReflexive | types/version.go:20-40 | every version is at least itself |
| Versions.IsAtLeastTotal | types/version.go:20-40 | of any two versions, one is at least the other |
| Versions.IsAtLeastAntisymmetric | types/version.go:20-40 | two versions each at least the other are equal |
| Versions.IsAtLeastTransitive | types/version.go:20-40 | the comparison is transitive, so it is a total order |
| Versions.SplitSuffix | types/version.go:47-51 | the text splits at the first "-" into a dash-free numeric part and a suffix that is empty or starts with "-" and keeps every later "-" |
| Versions.ParseVersion | types/version.go:42-79 | parsing succeeds exactly when each of the first three dot components is an integer; the suffix is the text from the first "-" on and the components fit in 64 bits |
| Versions.ParseString | types/version.go:16-79 | parsing the printed form of a version with non-negative components and an empty or dash-led suffix gives the version back |
| Versions.ParseMajorOnly | types/version.go:53-71 | missing minor and patch components read as 0 |
| Versions.ParseIgnoresExtra | types/version.go:53-71 | components after the third do not affect the result, whatever they contain |
| LinkedSources.ID | media/linkedsource.go:5-11 | without "::" the id is empty; with it, the id is the text before the first "::" |
| LinkedSources.URL | media/linkedsource.go:13-19 | without "::" the url is the whole string; with it, the url is the text between the first and the second "::" |
| LinkedSources.RoundTrip | types/linkedsource.go:7-21 | joining an id that does not end in ":" with a "::"-free url and reading both back gives id and url |
| LinkedSources.TrailingColonBreaksRoundTrip | media/linkedsource.go:5-19 | an id ending in ":" does not survive the round trip: "a:" and "b" read back as "a" and ":b" |
| Config.NormalizeParams | config/config.go:173-175 | blank parameters (every character white space as unicode.IsSpace has it, U+00A0 and U+3000 included) are kept; any other value ends up starting with "?", and the value is either kept or has exactly "?" put in front |
| Config.NormalizeParamsIdempotent | config/config.go:173-175 | normalising twice is normalising once |
| Config.NormalizeParamsChanges | config/config.go:173-175 | the value changes exactly when it is non-blank and lacks the leading "?", and then only by the prepended "?" |
| Config.DecodeHook | config/config.go:222-230 | only a string decoded into a duration or a byte size can fail; every other value passes unchanged; a decoded duration is an int64 count of nanoseconds |
| Config.DecodeDuration | config/config.go:223-225 | a string decoded into a duration succeeds exactly when the human duration parser accepts it, and yields that parser's value |
| Config.DecodeClock | config/config.go:223-225 | a "minutes:seconds" string decodes to that many nanoseconds |
| Durations.Chunks | config/durations.go:51-59 | every match of the chunk pattern is a non-empty digit run followed by the non-digits up to the next digit |
| Durations.ChunkDuration | config/durations.go:61-74 | one chunk reads as an int64 count of nanoseconds with a multiplier of 1, 24 (day letter) or 168 (week letter), or is rejected |
| Durations.AccumulateIsWrappedTotal | config/durations.go:60-77 | the summing loop fails exactly when some chunk is rejected, and otherwise yields the exact total of the chunks' values wrapped to int64 |
| Durations.ExactTotalDefined | config/durations.go:71-74 | the exact total exists exactly when every chunk was accepted |
| Durations.ParseDuration | config/durations.go:44-83 | a parsed duration is an int64 |
| Durations.ParseDurationUnsigned | config/durations.go:51-77 | on unsigned text without a decimal point the result is the int64 sum of the chunks' readings |
| Durations.ParseDurationFailsIff | config/durations.go:71-74 | the whole call fails exactly when one of the chunks is rejected |
| Durations.ParseDurationNegate | config/durations.go:45-81 | for text not starting with "-", a leading "-" negates the result in int64 arithmetic and does not change whether parsing succeeds |
| Durations.ChunksNoDigits | config/durations.go:59 | text with no digits has no chunks, so it parses to zero |
| Durations.ParseDurationOrderIndependent | config/durations.go:52-69 | the result does not depend on the order in which Go walks the unit table |
| Durations.ChunkOrderIndependent | config/durations.go:63-69 | a single chunk reads the same under every walk order of the unit table |
| Durations.LetterSurvives | config/durations.go:63-71 | a chunk holding both a day and a week letter keeps one of them after the rewrite to "h", and time.ParseDuration rejects it |
| Durations.DayChunk | config/durations.go:53-76 | "<n>d" is n times 24 hours |
| Durations.OnePlainChunk | config/durations.go:59-77 | a single "<digits><Go unit>" chunk parses to that many units |
| Durations.TwoPlainChunks | config/durations.go:59-77 | two chunks with Go units add up |
| Durations.ThreePlainChunks | config/durations.go:59-77 | three chunks with Go units add up |
| Durations.HumanRewriteDropsSeparators | config/durations.go:24-35 | the word rewriting leaves no comma and no space |
| Durations.ParseHumanDuration | config/durations.go:10-39 | a parsed human duration is an int64 |
| Durations.HumanEmpty | config/durations.go:11-13 | the empty text is read as "0s" |
| Durations.HumanTwoPieces | config/durations.go:14-18 | text with one colon is read as minutes then seconds |
| Durations.HumanThreePieces | config/durations.go:14-21 | text with two colons is read as hours, minutes and seconds |
| Durations.HumanWords | config/durations.go:23-36 | any other non-integer text is rewritten (separators dropped, unit words shortened) before parsing |
| Durations.HumanInteger | config/durations.go:23-38 | an integer text is read with an "s" appended |
| Durations.EmptyIsZero | config/durations.go:11-13 | the empty text is the zero duration |
| Durations.MinutesSeconds | config/durations.go:14-17 | "a:b" is a minutes and b seconds |
| Durations.HoursMinutesSeconds | config/durations.go:14-20 | "a:b:c" is a hours, b minutes and c seconds |
| Durations.IntegerIsSeconds | config/durations.go:23-38 | a plain integer is that many seconds |
| FeedRoutes.ParamAtEnd | api/routes/feeds.go:33-37 | a segment "pre:name" becomes "{name}": the text before the first colon is dropped |
| FeedRoutes.ParamThenMore | api/routes/feeds.go:33-40 | a segment "pre:name:rest" becomes "{name}" followed by the remaining colon pieces run together |
| FeedRoutes.SegmentBodyClean | api/routes/feeds.go:33-44 | every non-empty segment yields a clean body (no "/" or ":"), and a segment without ":" is written unchanged |
| FeedRoutes.ConvertShape | api/routes/feeds.go:25-47 | a converted path holds no ":", is empty or starts with "/", and has neither "//" nor a trailing "/" |
| FeedRoutes.ConvertIdempotent | api/routes/feeds.go:25-47 | converting a converted path changes nothing |
| FeedRoutes.ConvertJoin | api/routes/feeds.go:28-45 | the conversion works segment by segment: joining two paths with "/" joins their conversions |
| FeedRoutes.ConvertRoot | api/routes/feeds.go:28-31 | "" and "/" both convert to "" |
| FeedRoutes.ConvertClean | api/routes/feeds.go:41-44 | a segment without ":" becomes "/" followed by the segment |
| FeedRoutes.ConvertParam | api/routes/feeds.go:33-37 | a trailing ":name" segment becomes "/{name}" after the conversion of the rest |
| FeedRoutes.ConvertParamSegment | api/routes/feeds.go:33-37 | the lone segment ":name" becomes "/{name}" |
| FeedRoutes.ConvertPrefixed | api/routes/feeds.go:28-45 | appending already clean "/"-prefixed segments appends them unchanged to the conversion |
| FeedRoutes.FeedDoc | api/routes/feeds.go:50-57 | a documentation entry carries the feed type it was made for |
| FeedRoutes.CreateFeedRoutes | api/routes/feeds.go:49-96 | the four feed routes are appended in order, both to the documentation list and as GET routes on base path plus feed route, and nothing earlier changes |
| FeedRoutes.FeedDocPaths | api/routes/feeds.go:51-88 | each documented path is the converted base path followed by "/feed", "/feed/rss", "/feed/atom" or "/feed/json" |
| FeedRoutes.FeedSummary | api/routes/feeds.go:55 | a summary with a leading "{}" names the feed type in its place |
| FeedRoutes.GroupPath | api/routes/feeds.go:50-58 | the i-th new entry of a group documents the i-th feed route under the converted base path |
| FeedRoutes.ParamGroupPath | api/routes/feeds.go:50-58 | under a base path ending in ":name", every documented feed path carries "{name}" before the feed route |
| Media.ToAPIUser | types/user.go:36-51 | converting a stored user to the API form and back with its own hash gives the stored user back |
| Media.ToDatabaseUser | types/user.go:53-69 | the stored form carries exactly the hash it was given |
| Media.UserRoundTrip | types/user.go:36-69 | converting an API user to the stored form with any hash and back gives the same user |
| Media.APIUserForgetsOnlyHash | types/user.go:36-51 | two stored users with the same API form are equal exactly when their hashes are |
| Media.TypeNameDeterminesKind | types/track.go:28-30 | two records have the same type name ("track", "album", "video", "artist", "playlist" or "user") exactly when they are of the same kind |
| Media.UserReleaseDate | types/user.go:91-97 | a user's release date is the decimal form of its creation time and reads back as its addition date |
| Media.UsersAreBare | types/user.go:75-115 | only users lack a view count; a user has no tags and no metadata, is never temporary and owns itself |
| Media.TemporaryIffNoID | types/track.go:68-70 | a record is temporary exactly when it is not a user and its id is empty |
| Ids.CharsetIsAlphanumeric | media/playable.go:40-41 | the id alphabet has 62 characters, all ASCII letters or digits |
| Ids.GenerateID | utils/utils.go:13-17 | a generated id has exactly the requested length and every character comes from the 62-character alphabet, so a length of 0 gives "" |
| Ids.ExecCommand | utils/utils.go:20-27 | an empty command fails with "no command provided" without running anything; any other runs its first element with the rest as arguments; see YouTube.ScriptCommandRuns for why the first branch is never taken by the source scripts |
| MigrationFiles.Filter | db/database.go:213-222 | a name is kept exactly when it is not marked for the other direction (".down." going up, ".up." going down), with no name added |
| MigrationFiles.Sort | db/database.go:224 | the result is in ascending byte order and is a permutation of its input |
| MigrationFiles.ReverseOrder | db/database.go:225-228 | reversing an ascending list gives a descending permutation of it |
| MigrationFiles.OrderedFiles | db/database.go:211-230 | up-migrations come out ascending and down-migrations descending, and the result is a permutation of the names kept for that direction |
| MigrationFiles.OrderedFilesMembers | db/database.go:213-222 | a name is listed exactly when the directory holds it and it is not marked for the other direction |
| MigrationFiles.UnmarkedInBoth | db/database.go:215-221 | a name with neither marker is listed in both directions |
| MigrationFiles.AscendingUnique | db/database.go:224 | two ascending lists with the same names are the same list, so the sorted order is fully determined |
| MigrationFiles.OrderedFilesListingIndependent | db/database.go:211-230 | the result does not depend on the order in which the directory lists its entries |
| Migrations.CurrentVersion | db/sqlite.go:107-137 | an empty table gives ErrNotFound; otherwise the row read is one of the table's rows with the highest version |
| Migrations.SetVersion | db/sqlite.go:139-156 | the table is left with exactly one row |
| Migrations.SetVersionCurrent | db/sqlite.go:139-156 | after setting a version, the table holds exactly that (version, dirty) row, and reading it back gives that row |
| Migrations.StartState | db/sqlite.go:163-166 | a missing row counts as version 0, clean; otherwise the highest row is used |
| Migrations.FileVersion | db/sqlite.go:179-183 | a file's version is the text before its first "_" read as a uint64, so it is below 2^64 |
| Migrations.FileVersionOf | db/sqlite.go:179-180 | a name "<digits>_<rest>" carries the version its digits spell |
| Migrations.UpLoop | db/sqlite.go:177-220 | at most `steps` files are applied when steps is non-negative; a run that applied something ends with exactly one clean row holding the version of the last file applied; a run that applied nothing leaves the table as it was; a failing script leaves exactly one dirty row holding that script's version |
| Migrations.MigrateUp | db/sqlite.go:158-223 | a dirty table is refused without change; at most `steps` files are applied; success records the last applied file's version as clean, and a failing script records its own version as dirty |
| Migrations.FailureBlocksLaterRuns | db/sqlite.go:167-169 | after a failed up-migration every later migration in either direction refuses to run; see also db/sqlite.go:210-236 |
| Migrations.Pending | db/sqlite.go:185-187 | only files whose version is above the current one are candidates for applying |
| Migrations.MigrateUpApplies | db/sqlite.go:175-220 | with every name parsable and every script succeeding, a clean run applies exactly the first `steps` pending files in ascending order (all when steps < 0) and records the last one's version as clean, or leaves the table as it was when none is pending |
| Migrations.DownLoop | db/sqlite.go:244-295 | at most `steps` files are reverted; a failing script records its own version as dirty; a run that reverted n files records, clean, the version of files[n] (0 past the end) as written, and the version of the file after the last one reverted when corrected |
| Migrations.MigrateDownAsWritten | db/sqlite.go:225-298 | a dirty table is refused without change; at most `steps` files are reverted; after reverting n files the version recorded is that of files[n], or 0 when there is no such file, whichever files were reverted; a failing script records its own version as dirty |
| Migrations.MigrateDown | db/sqlite.go:225-298 | the same guards; after a run that reverted something, the version recorded is that of the file following the last one reverted in the list, or 0 after the last file |
| Migrations.MigrateDownAtNewest | db/sqlite.go:282-289 | when no file is newer than the current version, the written and corrected down paths behave identically |
| Migrations.DownRecordsRevertedVersion | db/sqlite.go:282-289 | with one newer file listed first, reverting one step as written records the reverted migration's own version, while the corrected path records the next older one |
| Migrations.DownLoopRecordsNext | db/sqlite.go:281-292 | the corrected down path, reverting the file at position i, records the version of the next file in the list as clean, or 0 after the last file |
| Migrations.Revertible | db/sqlite.go:245-254 | only files whose version is at or below the current one are candidates for reverting |
| Migrations.MigrateDownReverts | db/sqlite.go:242-295 | with every name parsable and every script succeeding, a clean down run reverts exactly the first `steps` files at or below the current version, in the descending order of the list (all when steps < 0), as written and corrected alike |
| OpenAPI.UpdateReference | api/server/openapi.go:154-164 | a reference stays inside the schema components exactly when it started there, and any other reference is unchanged |
| OpenAPI.UpdateReferenceNames | api/server/openapi.go:154-164 | a component reference is rewritten by name: the fake playable becomes "Playable" and one "media." prefix is dropped |
| OpenAPI.UpdateReferenceStripsOnce | api/server/openapi.go:158-160 | only one "media." goes: "media.media.X" becomes "media.X" |
| OpenAPI.RenameKey | api/server/openapi.go:54-59 | a key that is absent or has no "media." prefix leaves the schemas unchanged |
| OpenAPI.RenameAllState | api/server/openapi.go:54-60 | after visiting any set of keys, a name is present exactly when it was present and not a visited "media." key, or its "media." form was visited; in that case it holds the moved schema |
| OpenAPI.ProcessSchemas | api/server/openapi.go:50-75 | "Playable" is the union of the six record schemas and the fake playable is gone |
| OpenAPI.ProcessSchemasNames | api/server/openapi.go:53-74 | every name other than "Playable" is kept exactly when it or its "media." form existed, and the "media." form's schema wins |
| OpenAPI.NoMediaLeft | api/server/openapi.go:53-60 | no schema name keeps the "media." prefix |
| OpenAPI.ProcessSchemasOrderIrrelevant | api/server/openapi.go:54-60 | the result does not depend on Go's map iteration order |
| OpenAPI.ReferencesResolve | api/server/openapi.go:50-75 | a rewritten reference to any schema that existed names a schema that still exists; see also api/server/openapi.go:154-164 |
| OpenAPI.UpdateStringItems | api/server/openapi.go:139-145 | the oneOf loop keeps the length and leaves every item that is not a bare string untouched |
| OpenAPI.UpdateRefField | api/server/openapi.go:136-148 | a "$ref" held by an object is replaced by its rewrite, and no other key is added or removed |
| OpenAPI.ProcessSchemaAsWritten | api/server/openapi.go:135-151 | processSchema as the program runs it: the schema keeps its keys, its own "$ref" comes back rewritten by the prefix rule, and in a oneOf schema the list keeps its length and every object alternative comes back unchanged, so its "$ref" is never rewritten (see OpenAPI.OneOfRefsKept and OpenAPI.SpecOneOfRef) |
| OpenAPI.ProcessSchema | api/server/openapi.go:135-151 | the corrected schema rewrite keeps the schema's keys |
| OpenAPI.OneOfRefsKept | api/server/openapi.go:138-145 | as written, the "$ref" of a oneOf alternative that is an object is left as it was |
| OpenAPI.OneOfRefDangles | api/server/openapi.go:53-59 | as written, a oneOf alternative referring to "media.Track" still refers to it after processing, although that schema has been renamed away; see also api/server/openapi.go:138-145 |
| OpenAPI.OneOfRefsUpdated | api/server/openapi.go:138-145 | the corrected loop rewrites the reference of every oneOf alternative |
| OpenAPI.OneOfRefsResolve | api/server/openapi.go:138-145 | with the correction, every oneOf alternative that named an existing schema still names one; see also api/server/openapi.go:50-75 |
| OpenAPI.ProcessResponse | api/server/openapi.go:110-132 | a response without a JSON content schema is unchanged; otherwise its schema goes through processSchema, the program's (AsWritten) or the corrected one |
| OpenAPI.ProcessResponseOnlySchema | api/server/openapi.go:110-132 | only the JSON content schema changes, under either rewrite: putting the old schema back restores the response |
| OpenAPI.ProcessResponses | api/server/openapi.go:103-105 | every response code is kept, under either rewrite |
| OpenAPI.ProcessOperation | api/server/openapi.go:93-106 | an operation without responses is unchanged, under either rewrite |
| OpenAPI.ProcessPaths | api/server/openapi.go:78-89 | the paths are the old ones minus "/fake", under either rewrite |
| OpenAPI.ProcessPathsResponses | api/server/openapi.go:82-106 | every response of every remaining operation keeps its place and has its JSON schema processed by the chosen rewrite |
| OpenAPI.ProcessPathsSchemas | api/server/openapi.go:82-131 | the JSON schema of every response outside "/fake" is the loaded one passed through the chosen processSchema, and no response gains a schema |
| OpenAPI.FeedContentShape | api/server/openapi.go:192-224 | "JSON" feeds get application/json with an object schema and "JSON feed response"; every other type gets application/xml with a string schema and "<type> XML feed response" |
| OpenAPI.NonSuccess | api/server/openapi.go:244-251 | exactly the responses other than "200", with their values |
| OpenAPI.CopyBasePathInfo | api/server/openapi.go:227-253 | with no base path or no base GET nothing changes; otherwise the base parameters replace the target's when present, and the responses are the target's plus every non-"200" response of the base |
| OpenAPI.InheritedResponses | api/server/openapi.go:244-251 | a code is inherited exactly when the base GET documents it and it is not "200", under the same value |
| OpenAPI.FeedKeepsOwnSuccess | api/server/openapi.go:174-187 | a feed route keeps its own "200" response whatever its base path documents; see also api/server/openapi.go:244-251 |
| OpenAPI.AddFeedRoutesDocumentation | api/server/openapi.go:167-189 | every feed route's path is documented, every other path is kept as it was, and no other path appears |
| OpenAPI.GetOpenAPISpec | api/server/openapi.go:15-26 | the schemas are processed; without feed documentation the paths are the old ones minus "/fake"; with it, every feed route is documented; the program is the AsWritten rewrite |
| OpenAPI.SpecSchemaAt | api/server/openapi.go:15-26 | outside "/fake" and the documented feed routes, every response schema of the document handed out is the loaded one passed through processSchema |
| OpenAPI.SpecRefResolves | api/server/openapi.go:15-26 | a response schema whose "$ref" names an existing schema names that schema's new name in the document handed out, and the name exists there, as written and corrected alike; see also api/server/openapi.go:136-137 |
| OpenAPI.SpecOneOfRef | api/server/openapi.go:138-145 | in the document the program hands out, a oneOf alternative keeps its "$ref", which resolves exactly when it names neither a "media." schema nor the fake playable; with the correction it names the renamed schema, which exists; see also api/server/openapi.go:50-75 |
| ScriptArgs.SplitAssign | source_scripts/youtube.py:20-21 | an argument assigns something exactly when it holds "="; it splits at the first "=" into a "="-free key and the rest |
| ScriptArgs.SplitAssignJoin | source_scripts/youtube.py:21 | "k=v" with a "="-free key splits into k and v, whatever v holds |
| ScriptArgs.ParseArgs | source_scripts/youtube.py:18-22 | the loop over the arguments builds the argument map: each assignment sets its key, later ones override earlier ones, and other arguments are ignored |
| ScriptArgs.LastAssign | source_scripts/youtube.py:19-22 | finds the last argument among the first n that assigns the key, or reports that none does |
| ScriptArgs.ArgsMapLast | source_scripts/youtube.py:18-22 | a key is in the argument map exactly when some argument assigns it, and its value comes from the last such argument |
| ScriptArgs.SearchLimit | source_scripts/youtube.py:29-33 | the limit defaults to 20, "all" means no limit, any other text is read with Python's int() and fails when int() would raise |
| ScriptArgs.SearchLimitFormat | source_scripts/youtube.py:33 | every integer given as the limit is read back as itself |
| ScriptArgs.SearchedTypes | source_scripts/youtube.py:37-39 | the categories are the given ones (tracks, albums and artists by default), plus "videos" appended once exactly when tracks is present, videos are allowed and videos is absent |
| ScriptArgs.QueryFilter | source_scripts/youtube.py:46 | tracks are searched with the "songs" filter and every other category under its own name |
| ScriptArgs.Queries | source_scripts/youtube.py:42-50 | one query per category, in category order |
| ScriptArgs.DefaultQueries | source_scripts/youtube.py:37-50 | by default the search asks for songs, albums and artists, then videos when allowed |
| ScriptArgs.QueriesNoTracks | source_scripts/youtube.py:46 | no query uses the "tracks" filter |
| ScriptArgs.LyricsId | source_scripts/youtube.py:67-71 | an id starting with "MPLY" is the lyrics id itself; any other is resolved through the watch playlist |
| ScriptArgs.LyricsOutput | source_scripts/youtube.py:75 | the output has the single key "unknown", its value starts with "txt\n", and lyrics without "\r" are copied unchanged after it |
| ScriptArgs.CrlfLines | source_scripts/youtube.py:75 | lines joined with "\r\n" come out joined with "\n" |
| ScriptArgs.SubtitleEntry | source_scripts/youtube.py:108-110 | a subtitle file gives an entry exactly when its name holds "."; a name without one makes the script raise |
| ScriptArgs.SubtitleNamed | source_scripts/youtube.py:110 | a file "lang.format" gives lang mapped to format, a newline and the content |
| ScriptArgs.SubtitleStem | source_scripts/youtube.py:110 | only the last two "."-pieces of a longer name matter |
| ScriptArgs.RequiredArg | source_scripts/youtube.py:24-182 | search needs "query"; lyrics, subtitles, content and the five detail actions need "id"; nothing else is an action |
| ScriptArgs.Dispatch | source_scripts/youtube.py:8-66 | with no action the script stops; an action runs only when its required argument is present, otherwise the script reports that argument; an unknown action does nothing |
| ScriptArgs.WantsAudio | source_scripts/youtube.py:125-127 | the content action downloads audio exactly when "type" is absent or is "audio" |
| SearchMerge.RoundRobinPermutes | source_scripts/youtube.py:52-58 | the reference round-robin order holds every result of every category exactly once |
| SearchMerge.Pass | source_scripts/youtube.py:55-60 | one pass moves results from the categories to the output without losing any, and takes at least one when some category after the start is non-empty |
| SearchMerge.Take | source_scripts/youtube.py:59-60 | a cut at the limit is a prefix of length min(limit, length), and no cut without a limit |
| SearchMerge.MergeIsRoundRobin | source_scripts/youtube.py:52-60 | the corrected merge is the round-robin order (first results of every non-empty category in category order, then the second ones, and so on) cut at the limit, so each category keeps its internal order |
| SearchMerge.MergeLength | source_scripts/youtube.py:54-60 | the corrected merge returns min(limit, total) results, and all of them without a limit |
| SearchMerge.PassCut | source_scripts/youtube.py:59-60 | a pass that reaches the limit stops mid-pass with exactly `limit` results |
| SearchMerge.WrittenLoopStalls | source_scripts/youtube.py:54-60 | as written, with fewer results in total than the limit the loop never finishes, however many passes it is given |
| SearchMerge.WrittenLoopIdle | source_scripts/youtube.py:54-58 | as written, passes over exhausted categories change nothing |
| SearchMerge.WrittenLoopAgrees | source_scripts/youtube.py:54-60 | where the written loop does finish, it returns the corrected merge |
| SearchMerge.WrittenGuard | source_scripts/youtube.py:30-54 | the written loop condition raises a TypeError exactly when the limit is "all" |
| Signing.FirstFold | api/routes/auth/tokens.go:91-96 | the loop returns "" exactly when no name from the start position on equals the input up to case, and otherwise a listed name equal to it up to case |
| Signing.GetCorrectSigningMethod | api/routes/auth/tokens.go:75-97 | the result is "" or one of the 13 listed algorithm names; it is "" exactly when no listed name equals the input up to case, and otherwise equals the input up to case |
| Signing.FirstFoldByLower | utils/tokens.go:20-24 | the lookup only depends on the input's case-folded form |
| Signing.GetCorrectIdempotent | utils/tokens.go:18-26 | normalising a normalised name changes nothing |
| Signing.CanonicalIsFixed | api/routes/auth/tokens.go:76-95 | every listed name is its own canonical spelling, so no two listed names are equal up to case |
| Signing.FamilyOfListed | api/routes/auth/tokens.go:47-71 | exactly the listed names select a key family (HMAC, RSA, ECDSA or Ed25519) |
| Signing.EdDSABadKeyPanics | api/routes/auth/tokens.go:52-55 | as written, a malformed EdDSA key makes the type assertion on the nil result panic instead of returning the parser's error |
| Signing.LoadPrivateKey | api/routes/auth/tokens.go:44-58 | with the EdDSA branch corrected, loading always returns; an HMAC or unrecognised method leaves every key as it was and reports no error |
| Signing.LoadAgreesUnlessEdFails | utils/tokens.go:42-56 | the written loader panics exactly for "EdDSA" with a key the parser rejects, agrees with the corrected one everywhere else, and the corrected one reports the parser's error there |
| Signing.SigningKey | api/routes/auth/tokens.go:60-73 | HMAC methods use the configured secret and unrecognised methods no key |
| Signing.SigningKeyAfterLoad | api/routes/auth/tokens.go:44-73 | after an RSA, ECDSA or EdDSA key loads, the method verifies with the public half of exactly that key |
| Signing.UnknownMethodInert | api/routes/auth/tokens.go:60-97 | a configured name that normalises to "" signs with no key, and loading a key for it changes nothing |
| Sources.SupportsMediaType | sources/source.go:38-48 | music, track, album and artist are supported exactly when "music" is among the media types, video and playlist exactly when their own name is, and nothing else ever is |
| Sources.PlayableSupport | sources/localfile.go:64-66 | every source serves every kind of record except users, and the local-file source serves no playlists either |
| Sources.SchemeOf | sources/source.go:54-60 | there is a scheme exactly when the text holds "://", and it is the text before the first one |
| Sources.SupportedSchemes | util/sources.go:9-14 | a URL is accepted exactly when it has no scheme, or its scheme is "http" or "https" |
| Sources.FtpRejected | sources/source.go:54-60 | an "ftp://" URL is not a valid source URL |
| Sources.InitLocalFileSource | sources/localfile.go:27-50 | the id keeps the given name exactly when that name starts with "file:"; otherwise the id is "file:" followed by the name |
| Sources.DeriveNew | sources/localfile.go:37-46 | a new instance exists exactly when the source supports several (an empty path or URL); otherwise the error names the source; the derived instance is of the same kind |
| Sources.DeriveSatisfies | sources/web.go:28-41 | a derived instance claims the name it was derived for, and a derived web source remembers it as its URL |
| Sources.StubContent | sources/spotify.go:66-68 | Spotify never serves content; the local-file and web sources refuse unsupported record types and answer nothing yet for the others |
| Sources.StubLookup | sources/localfile.go:145-179 | lyrics and metadata requests refuse exactly the unsupported record types, naming the type; the local file's metadata lookup of a supported record fails exactly when ffprobe fails or its output does not decode as a list of objects, with that error; every other lookup answers nothing yet (web.go:86-106 and spotify.go:70-90 behave alike) |
| Sources.LookupLikeContent | sources/web.go:76-106 | on the web and local-file sources, a lyrics lookup (and a web metadata lookup) answers exactly as a content request does |
| Sources.SearchedTypes | sources/localfile.go:79-95 | tracks are searched by default or when listed; videos are searched when listed, or when tracks are searched and videos are allowed; nothing else is added |
| Sources.LocalSearchPlan | sources/localfile.go:71-99 | a missing path gives no results and no error, another stat error is returned, and only a plain file searched for tracks or videos is probed |
| Sources.AllowVideosOnlyAdds | sources/localfile.go:79-99 | allowing videos never stops a file from being probed, and searching videos alone probes the file whatever the flag says |
| Sources.InitManager | sources/manager.go:20-29 | an initialised manager is left alone; otherwise it starts with no sources and no ids |
| Sources.InitManagerIdempotent | sources/manager.go:20-29 | initialising twice is initialising once |
| Sources.Index | sources/manager.go:32-33 | the first position of the name in the list, or -1 exactly when it is absent |
| Sources.IsHigherPriority | sources/manager.go:31-35 | the first outranks the second exactly when it comes earlier in the enabled list, or it is unlisted and the second listed, or the second is ""; the source's third clause (an unlisted name before a listed one) is redundant with the index comparison and is kept as written |
| Sources.PriorityIsStrictOrder | sources/manager.go:31-35 | on non-empty names the priority is irreflexive, asymmetric and transitive |
| Sources.PriorityByPosition | sources/manager.go:31-35 | two listed names rank by their first position, and an unlisted name outranks every listed one |
| Sources.Classify | sources/manager.go:49-62 | a name is refused exactly when it is neither a built-in name, nor a "file:" path, nor a valid source URL; any source chosen claims the name |
| Sources.Register | sources/manager.go:70-71 | the new source is stored under its id, the id list stays in step with the stored sources |
| Sources.EnableSource | sources/manager.go:46-73 | on failure nothing changes; the invalid-source error comes exactly for names no source claims; an initialisation error comes only from YouTube and is reported under "youtube"; on success the source is stored under its id and the id appended |
| Sources.EnableIgnoresCase | sources/manager.go:49-53 | "youtube", "yt", "spotify" and "sp" are recognised whatever their case |
| Sources.InvalidOnlyForOtherSchemes | sources/manager.go:55-62 | only a name with an unsupported "://" scheme is refused, and every name without "://" is accepted |
| Sources.LocalFileKeepsName | sources/manager.go:55-56 | a "file:" name reads back as the enabled source's id, unless the path itself starts with "file:" again, which is dropped a second time |
| Sources.EnableSources | sources/manager.go:37-44 | every configured name is tried in order; failures are skipped, the id list only grows, by exactly the number of names accepted |
| Store.SatisfiesExclusive | db/sqlite.go:28-33 | the engine names are matched whatever their case, and no name selects both SQLite and PostgreSQL; see also db/postgresql.go:33-41 |
| Store.Choose | db/database.go:105-106 | the engine chosen is a registered engine that accepts the configured name, and none is chosen exactly when no registered engine accepts it |
| Store.ConnectDatabase | db/database.go:98-115 | an existing connection is kept with no error; otherwise the unsupported-engine error comes exactly when no registered engine accepts the name, and a failed Connect leaves the chosen engine set as the global database |
| Store.ConnectOrderIrrelevant | db/database.go:105-114 | the order the engine registry is visited in does not change the outcome |
| Store.CloseOnce | db/postgresql.go:77-83 | Close always returns no error and leaves the pool shut; a shut pool is left as it is |
| Store.CloseIdempotent | db/postgresql.go:77-83 | however many times Close is called, the pool is shut down exactly once |
| Store.ClosedStays | db/postgresql.go:77-83 | further calls to Close on a shut pool change nothing |
| Store.Normalize | db/postgresql.go:117-122 | the driver's "no rows" error becomes the not-found error, every other error passes through unchanged, and no error stays no error |
| Store.PgTableExists | db/postgresql.go:85-97 | a missing row means the migrations table does not exist, not an error; only other driver errors fail |
| Store.SQLiteTableExists | db/sqlite.go:74-90 | with no error, the migrations table exists exactly when the lookup produced a row |
| Store.Select | db/sqlite.go:361-422 | the rows a WHERE clause selects are exactly the table's rows that satisfy it |
| Store.QueryOne | db/sqlite.go:423-492 | a single-row lookup returns the first matching row; not-found exactly when no row matches; too-many exactly on SQLite when more than one row matches; see also db/postgresql.go:351-383; on PostgreSQL this is the intended SELECT, since the program's read always fails there (see "Left out") |
| Store.Get | db/sqlite.go:423-492 | the row returned has the requested id, and not-found comes exactly when no row has it; see also db/postgresql.go:351-383; on PostgreSQL this is the intended SELECT, since the program's read always fails there (see "Left out") |
| Store.Add | db/postgresql.go:385-394 | after an insert the table holds exactly its earlier rows and the new one |
| Store.Update | db/postgresql.go:396-403 | an update keeps the table's size and replaces exactly the rows with the record's id by the record |
| Store.Delete | db/postgresql.go:405-408 | a delete leaves exactly the rows with another id |
| Store.OwnedBy | db/postgresql.go:307-349 | the per-user listing holds exactly the rows owned by that user |
| Store.AddThenGet | db/postgresql.go:351-394 | a record added under an unused id reads back unchanged, on both engines |
| Store.AddKeepsOthers | db/postgresql.go:351-394 | adding a record does not change what a lookup of another id returns |
| Store.DeleteThenGet | db/postgresql.go:351-408 | after deleting an id it is not found, and rows with other ids remain |
| Store.UpdateThenGet | db/postgresql.go:351-403 | reading back an updated record that existed gives its new values |
| Store.UpdateSelect | db/postgresql.go:396-403 | the rows with the record's id are, after the update, all equal to the record, and there are as many as before |
| Store.LinkedUsers | db/sqlite.go:1966-2024 | the join of users and provider links only yields stored users; see also db/postgresql.go:1028-1055 |
| Store.LinkedUsersMembers | db/postgresql.go:1034-1037 | a user is in the join exactly when one of that provider account's links names its id |
| Store.GetProviderUser | db/sqlite.go:1966-2024 | the user found is stored and linked to that provider account; not-found exactly when no stored user is linked to it; see also db/postgresql.go:1028-1055; on PostgreSQL this is the intended SELECT, since the program's read always fails there (see "Left out") |
| Store.LinkProviderAccount | db/postgresql.go:1067-1073 | after linking, the user is linked to the provider and every earlier link remains |
| Store.DisconnectProviderAccount | db/postgresql.go:1075-1080 | afterwards the user has no link to that provider, and exactly the other links remain |
| Store.LinkThenGetProviderUser | db/postgresql.go:1028-1073 | with unique user ids and no earlier link for the account, linking a user makes the provider lookup find that user |
| Store.GetUserByUsername | db/sqlite.go:1816-1868 | SQLite finds a user by the exact username; PostgreSQL lower-cases the argument and matches it against username or e-mail; not-found exactly when no user matches; see also db/postgresql.go:979-1001; on PostgreSQL this is the intended SELECT, since the program's read always fails there (see "Left out") |
| Store.PgLookupsIgnoreCase | db/postgresql.go:979-983 | on PostgreSQL the user lookup and the username and e-mail checks give the same answer for arguments that differ only in case; see also db/postgresql.go:1082-1094; on PostgreSQL this is the intended SELECT, since the program's read always fails there (see "Left out") |
| Store.CreateThenExists | db/postgresql.go:1003-1012 | a created user's name and e-mail exist afterwards, on PostgreSQL provided they were stored lower-case; see also db/postgresql.go:1082-1094 and db/sqlite.go:2081-2121 |
| Store.PgMixedCaseUnreachable | db/postgresql.go:979-983 | on PostgreSQL a user stored with an upper-case letter in the name is never found by that name; see also db/postgresql.go:1082-1087 |
| Store.AddedUserFound | db/sqlite.go:1816-1868 | on SQLite a created user with a name no other user has is what the lookup by that name returns |
| Store.BlacklistToken | db/postgresql.go:1096-1104 | the token is blacklisted afterwards and every earlier entry remains |
| Store.CleanExpiredTokens | db/postgresql.go:1106-1109 | exactly the entries whose expiry is not before now remain; see also db/sqlite.go:2141-2151 |
| Store.CleanKeepsLive | db/postgresql.go:1106-1115 | after cleaning, a token is blacklisted exactly when it has an entry that has not expired |
| Store.ExpiredTokenCleaned | db/postgresql.go:1096-1115 | a token blacklisted with an expiry in the past is no longer blacklisted after cleaning |
| Store.CollectPlayables | db/database.go:118-209 | the first failing query's error is returned and nothing else; on success the list holds every row of the five queries, grouped tracks, albums, videos, artists, playlists, and no users |
| Store.RankedConcat | db/database.go:118-162 | the concatenated list is ordered by kind |
| Store.UserPlayablesOwned | db/database.go:165-209 | the per-user listing holds only that user's records |
| Store.CollectOwned | db/database.go:165-209 | collecting lists that each hold one user's records yields only that user's records |
| AuthHandlers.AnyEqualFold | api/routes/auth.go:354-359 | true exactly when some configured name from that position on equals the username up to case |
| AuthHandlers.IsUsernameReserved | api/routes/auth.go:348-359 | a name is reserved exactly when it is literally "default" or equals some configured reserved name up to case |
| AuthHandlers.ReservedIgnoresCase | api/routes/auth.go:354-359 | names equal up to case are reserved alike, unless one of them is exactly "default" |
| AuthHandlers.BuiltInIsCaseSensitive | api/routes/auth.go:348-356 | "default" is reserved but "Default" is not, when no configured name folds to it |
| AuthHandlers.NewUser | api/routes/auth.go:83-88 | the stored user carries the new id, the requested name and e-mail, and the hash of the password |
| AuthHandlers.Register | api/routes/auth.go:33-111 | the store either stays unchanged or gains exactly the new user; a token is returned only when the name is not reserved or taken, the e-mail is empty or free, and the token signs the new id |
| AuthHandlers.RegisterOrder | api/routes/auth.go:34-81 | disabled creation answers 400 first, a reserved name 400, a taken name 409; an empty e-mail is never looked up; "email already exists" comes exactly when every earlier check passed and the e-mail is taken |
| AuthHandlers.Login | api/routes/auth.go:113-154 | 404 exactly when the body parsed and no user matches the name; 401 "incorrect password" exactly when the user found by name has a different password; a token only for a stored user whose password matches, and it signs the id of the user found by name; on PostgreSQL this is the intended SELECT, since the program's read always fails there (see "Left out") |
| AuthHandlers.RegisterThenLogin | api/routes/auth.go:33-154 | on SQLite, a user who just registered logs in with the same name and password and receives the same token |
| Strs.FirstIndex | api/routes/auth.go:260-264 | the position of the first occurrence of the character |
| AuthHandlers.FirstIndexAppend | api/routes/auth.go:260-264 | appending text does not move the first "?" of a URI that already has one |
| AuthHandlers.AppendTokenQuery | api/routes/auth.go:260-264 | adding the token keeps the URI's path, and the query becomes "token=…" when there was none, or the old query followed by "&token=…"; see also api/routes/auth.go:309-313 |
| AuthHandlers.BeginProvider | api/routes/auth.go:156-220 | 400 exactly when the redirect URI is missing; an already completed hand-shake redirects straight to it; otherwise the hand-shake begins exactly when the URI was stored in the session |
| AuthHandlers.ProviderAccountUser | api/routes/auth.go:269-274 | the user created for an unknown provider account takes the provider's user id as its name, with the provider's e-mail and display name, and no password |
| AuthHandlers.RedirectWithToken | api/routes/auth.go:241-315 | a redirect comes exactly when the session holds a non-empty redirect URI and signing succeeds, and it goes to that URI with the token appended |
| AuthHandlers.ProviderCallback | api/routes/auth.go:222-316 | a failed hand-shake answers 400 and changes nothing; a linked account redirects with its user's token and changes nothing; otherwise the store either stays unchanged or gains exactly the new user, and its link once the link is stored; on PostgreSQL this is the intended SELECT, since the program's read always fails there (see "Left out") |
| AuthHandlers.CallbackTwice | api/routes/auth.go:222-316 | after the first callback of a new account creates and links a user, the next callback of that account logs the same user in and stores nothing more; on PostgreSQL this is the intended SELECT, since the program's read always fails there (see "Left out") |
| AuthHandlers.DisconnectProviderAsWritten | api/routes/auth.go:318-346 | 404 exactly when no user is linked to the account; a failing delete answers 500 with its error and changes nothing; otherwise the links are deleted by the provider's user id used as a local user id; on PostgreSQL this is the intended SELECT, since the program's read always fails there (see "Left out") |
| AuthHandlers.DisconnectKeepsLink | api/routes/auth.go:330-345 | a linked account whose provider user id is no local user id answers 200 and keeps every link |
| AuthHandlers.DisconnectProvider | api/routes/auth.go:318-346 | 404 exactly when no user is linked to the account; a failing delete answers 500 with its error and changes nothing; on 200 the users are unchanged and the linked user has no link to that provider left; no link is ever added; on PostgreSQL this is the intended SELECT, since the program's read always fails there (see "Left out") |
| AuthHandlers.DisconnectUnlinks | api/routes/auth.go:318-346 | when all of the account's links point to one user, disconnecting answers 200 and the account is no longer linked to any user |
| AuthProviders.Detail | api/authproviders.go:125-126 | a key that is not configured reads as the empty string |
| AuthProviders.Values | api/authproviders.go:231-323 | the configured values of the keys, one per key and in the same order |
| AuthProviders.RealName | api/authproviders.go:433-440 | the name an OpenID Connect provider is called back under is never empty; see also api/oauth.go:413-420 |
| AuthProviders.Apply | api/authproviders.go:111-630 | every factory except OpenID Connect that does not fail is given the callback URL "<publicURL>/api/auth/callback/<id>" in the current table and "<publicURL>/auth/<id>/callback" in the older one; see also api/oauth.go:111-610 |
| AuthProviders.Name | api/authproviders.go:86-88 | a known id gets the display name listed for it, an unknown id the empty string; see also api/authproviders.go:632-700 and api/oauth.go:86-88 and api/oauth.go:612-680 |
| AuthProviders.Factory | api/authproviders.go:111-630 | the factory registered for an id that succeeds is called back under that id, except OpenID Connect; see also api/oauth.go:111-610 |
| AuthProviders.GothProvider | api/authproviders.go:90-100 | a provider already registered with the library is returned as it is; otherwise the registered factory is applied; "unsupported provider: <id>" exactly when there is neither; see also api/oauth.go:90-100 |
| AuthProviders.RequiredCases | api/authproviders.go:125-166 | auth0, cloudfoundry and wecom fail with their message exactly when their required key is empty, and otherwise are given its value; see also api/authproviders.go:603-611 and api/oauth.go:125-161 and api/oauth.go:585-591 |
| AuthProviders.AllOrNothingCases | api/authproviders.go:231-323 | with none of the custom-URL keys set the plain constructor is used; with all set the customised one, given the values in order; with some but not all, the provider's error; see also api/authproviders.go:485-522 and api/oauth.go:216-274 and api/oauth.go:465-502 |
| AuthProviders.PrecedenceCases | api/authproviders.go:167-190 | cognito's base_url, okta's org_url and nextcloud's nextcloud_url win when set; without it the customised constructor needs every key of the full set, and the error comes exactly when one is missing; see also api/authproviders.go:379-429 and api/oauth.go:162-185 and api/oauth.go:359-409 |
| AuthProviders.UseAuthorizeCases | api/authproviders.go:558-592 | for tumblr and twitter, an absent or false use_authorize gives the authenticate variant, true the authorize variant, and any text that is not a boolean the error; see also api/oauth.go:538-572 |
| AuthProviders.ApplyFailsIff | api/authproviders.go:111-630 | a factory fails exactly when the configuration lacks what its rule requires (the required key, all or none of the custom-URL keys, the precedence key or the full set, a boolean use_authorize, the discovery URL or every endpoint) or the OpenID Connect library fails; see also api/oauth.go:111-610 |
| AuthProviders.IncompleteNeverBuilt | api/authproviders.go:90-100 | a provider the library does not hold yet is built by its factory, and the build fails exactly when its configuration is incomplete or the OpenID Connect library fails, so a provider missing a required key is never built; see also api/oauth.go:90-100 |
| AuthProviders.OidcCallback | api/authproviders.go:433-475 | the OpenID Connect provider is called back under "openid-connect" without a name and under the lower-cased name followed by "-oidc" otherwise, so names equal up to case share the callback; see also api/oauth.go:413-455 |
| AuthProviders.OidcConfiguration | api/authproviders.go:433-475 | auto_discovery_url wins when set; without it all five endpoint keys are required, and the error names the configured name; see also api/oauth.go:413-455 |
| AuthProviders.WechatLang | api/authproviders.go:593-604 | wechat always gets a non-empty language: the configured one, or "cn" when none is configured; see also api/oauth.go:573-584 |
| YouTube.Names | sources/youtube.go:161-164 | the display artists are the artists' names, one per artist and in order, "" for an artist without a name |
| YouTube.YearText | sources/youtube.go:166-171 | a missing year becomes the empty release date, a present one a non-empty text |
| YouTube.YearReadsBack | sources/youtube.go:166-171 | the release date written for a year reads back as that year |
| YouTube.CoverArt | sources/youtube.go:173-179 | the last thumbnail is downloaded: a successful result is that download, a failed download is returned as the error, and an entry without thumbnails is malformed |
| YouTube.ParseRefusals | sources/youtube.go:138-158 | an entry is refused as an unsupported media type, naming its result type, exactly when the type is unknown or it is a video while video results are off; a known kind otherwise succeeds exactly when its cover art downloads and, for a song, the album is present; see also sources/youtube.go:229-232; all of this over the typed fields of the intended decoding, since the program as written panics on its go-json values (see "Left out") |
| YouTube.ParsedRecord | sources/youtube.go:160-340 | a parsed entry becomes the record kind its result type calls for (an audio-only video a track flagged as a video), keeps the entry's id under "yt_id", and links back to the entry's page |
| YouTube.ParsedNamesYouTube | sources/youtube.go:192-225 | every record a search produces names the YouTube source as its metadata source; see also sources/youtube.go:274-338 |
| YouTube.ParseUntilFailure | sources/youtube.go:127-133 | the records returned are the parses of the leading entries, in order; with no error every entry was parsed, with an error it is the failure of the first entry not returned |
| YouTube.Search | sources/youtube.go:97-136 | the search returns the parses of the leading entries in order and stops at the first entry that fails, with that entry's error; all of this over the typed fields of the intended decoding, since the program as written panics on its go-json values (see "Left out") |
| YouTube.TrackNumber | sources/youtube.go:461-468 | without a lyrics id the track number is left as it was |
| YouTube.TrackNumberFromSuffix | sources/youtube.go:461-468 | a lyrics id ending in "-" and a piece with no "-" takes that piece as the track number when it is an integer, and leaves the number otherwise |
| YouTube.TrackNumberWhole | sources/youtube.go:461-468 | a lyrics id without "-" is read as a whole |
| YouTube.ArtistViewsGrouped | sources/youtube.go:577-590 | a view count written with a thousands separator and " views" reads as the digits alone |
| YouTube.Content | sources/youtube.go:342-375 | a track is fetched as audio and a video as video, by the id under "yt_id"; every other kind is refused with its type; a missing "yt_id" is the source's failed assertion |
| YouTube.ScriptCommandRuns | sources/youtube.go:109-116 | every script command starts with the words of the configured interpreter command, so ExecCommand never answers "no command provided" for it: the runner gets the first word as the program and the remaining words, the script and its arguments as arguments; see also sources/source.go:62-69 |
| YouTube.Lyrics | sources/youtube.go:377-413 | only users are refused; videos and tracks flagged as videos ask for subtitles, everything else for lyrics, by the id under "yt_id" |
| YouTube.SearchedLyricsAction | sources/youtube.go:229-276 | a video found by search asks for subtitles and a song for lyrics, by the entry's video id; see also sources/youtube.go:377-413 |
| YouTubeMetadata.CompleteMetadata | sources/youtube.go:415-453 | users are refused as unsupported and nothing else is; a record whose script run fails comes back untouched with the error; otherwise the script's answer completes the record by its kind; whatever happens, only the descriptive fields and the completion's metadata keys change; a record without a string "yt_id", on which the source panics, is reported as malformed; all of this over the typed fields of the intended decoding, since the program as written panics on its go-json values (see "Left out") |
| YouTubeMetadata.CompleteNeverUnsupported | sources/youtube.go:439-452 | no completion step reports an unsupported media type |
| YouTubeMetadata.OnlyCompletedSelf | sources/youtube.go:415-437 | a record returned untouched changes nothing a completion may not change |
| YouTubeMetadata.ArtistListsEntries | sources/youtube.go:600-611 | an artist's stored lists are the answer's songs, albums, singles and videos, and each display count is the length of its list |
| YouTubeMetadata.ArtistListsAgain | sources/youtube.go:600-611 | writing the artist's lists a second time changes nothing |
| YouTubeMetadata.ArtistMetaAgain | sources/youtube.go:592-611 | writing the artist's cover and lists a second time changes nothing |
| YouTubeMetadata.TrackOnlyFills | sources/youtube.go:455-503 | completing a track changes only its track number, description, release date, listen count and its cover in the metadata |
| YouTubeMetadata.AlbumOnlyFills | sources/youtube.go:505-526 | completing an album changes only its description and the cover, track list and track count in its metadata |
| YouTubeMetadata.VideoOnlyFills | sources/youtube.go:528-567 | completing a video changes only its description, release date, watch count and thumbnail |
| YouTubeMetadata.ArtistOnlyFills | sources/youtube.go:569-614 | completing an artist changes only its description, listen count and the cover, lists and counts in its metadata |
| YouTubeMetadata.PlaylistOnlyFills | sources/youtube.go:616-655 | completing a playlist changes only its description, creation date, listen count and the cover, track list and track count in its metadata |
| YouTubeMetadata.CompleteOnlyFills | sources/youtube.go:439-452 | completing any record changes only what its kind's completion may change; ids, titles and sources are kept |
| YouTubeMetadata.TrackCompleted | sources/youtube.go:455-503 | a completed track has the answer's description, the track number its lyrics id ends in, the reformatted publish date, the inherited view count when counts are inherited, and the downloaded last thumbnail as cover |
| YouTubeMetadata.TrackBadDateKeepsEarlierSteps | sources/youtube.go:461-478 | a publish date that is not RFC 3339 ends the completion with that error, after the track number and description are filled and before anything else |
| YouTubeMetadata.ArtistCountsAgree | sources/youtube.go:600-611 | a completed artist's display counts are the lengths of the lists it stores |
| YouTubeMetadata.ArtistInheritsGroupedViews | sources/youtube.go:577-590 | an artist whose views read "a,b views" with digit groups a and b inherits the count written by a followed by b |
| YouTubeMetadata.TrackIdempotent | sources/youtube.go:455-503 | completing a completed track again with the same answer changes nothing |
| YouTubeMetadata.AlbumIdempotent | sources/youtube.go:505-526 | completing a completed album again with the same answer changes nothing |
| YouTubeMetadata.VideoIdempotent | sources/youtube.go:528-567 | completing a completed video again with the same answer changes nothing |
| YouTubeMetadata.ArtistIdempotent | sources/youtube.go:569-614 | completing a completed artist again with the same answer changes nothing |
| YouTubeMetadata.PlaylistIdempotent | sources/youtube.go:616-655 | completing a completed playlist again with the same answer changes nothing |
| YouTubeMetadata.CompleteIdempotent | sources/youtube.go:439-452 | completing a completed record again with the same answer changes nothing and reports no error |
| YouTubeMetadata.TrackNumberIdempotent | sources/youtube.go:461-468 | reading the track number from the same lyrics id a second time gives the same number |
| LegacyYouTube.SkipRefused | source/youtube.go:79-262 | the earlier search never stops at an unsupported entry: any error it ends with is of another kind |
| LegacyYouTube.Kept | source/youtube.go:148-151 | the entries kept are a subsequence no longer than the output, none of them refused; see also source/youtube.go:255-258 |
| LegacyYouTube.SkipIsFilteredStop | source/youtube.go:79-262 | skipping refused entries is the same as dropping them first and then stopping at the first failure |
| LegacyYouTube.LegacySearch | source/youtube.go:53-263 | the earlier search reports and passes over the entries it does not offer, and ends at any other failure; over the typed fields of the intended decoding, since the earlier program panics on its encoding/json values (see "Left out") |
| LegacyYouTube.KeptAreOffered | source/youtube.go:148-151 | the entries the earlier search passes over are exactly the unknown kinds and the videos while video results are off; see also source/youtube.go:255-258 |
| LegacyYouTube.LegacySearchIsOfferedSearch | source/youtube.go:53-263 | the earlier search returns the same records and error as the current search run on the offered entries only; see also sources/youtube.go:97-136; over the typed fields of the intended decoding, since the earlier program panics on its encoding/json values (see "Left out") |
| LegacyYouTube.AllOfferedSameSearch | source/youtube.go:53-263 | when every entry is offered, the earlier and the current search agree; see also sources/youtube.go:97-136; over the typed fields of the intended decoding, since the earlier program panics on its encoding/json values (see "Left out") |
| LegacyYouTube.OfferedAll | source/youtube.go:79-262 | when every entry is offered, none is dropped |
| LegacyYouTube.CompleteMetadataAsWritten | source/youtube.go:333-526 | the earlier completion performs the current completion's steps and errors, but on success returns the record it was given, which shares only the completed metadata; over the typed fields of the intended decoding, since the earlier program panics on its encoding/json values (see "Left out") |
| LegacyYouTube.AsWrittenDiffersOnlyOnSuccess | source/youtube.go:333-526 | the earlier and current completions report the same error, agree entirely when there is one, and always agree on the metadata and kind; over the typed fields of the intended decoding, since the earlier program panics on its encoding/json values (see "Left out") |
| LegacyYouTube.CompletionLosesDescription | source/youtube.go:356-398 | a track whose answer carries a new description keeps its old one in the earlier completion, although the completion succeeded, while the current completion has the new one; see also source/youtube.go:525; over the typed fields of the intended decoding, since the earlier program panics on its encoding/json values (see "Left out") |
| LegacyYouTube.CorrectedKeepsFilledFields | sources/youtube.go:439-503 | the current completion of a track is exactly the completed track |
| Storage.GetDirectories | storage/storage.go:91-109 | a name is returned exactly when the content root lists a directory of that name and the name is "tracks" or "videos"; plain files and every other directory are passed over |
| Storage.KeysIn | storage/storage.go:121-127 | a key is listed exactly when some file of the directory yields it as the directory name without its trailing "s", an underscore and the file name |
| Storage.ContentFiles | storage/storage.go:111-130 | the keys gathered over the kept directories are exactly the keys of files in a readable one of them; an unreadable directory contributes nothing |
| Storage.StoredFileKey | storage/storage.go:111-130 | any file stored under "content/tracks" or "content/videos" appears among the stored keys as "<kind>_<file name>" |
| Storage.CandidatesAsWritten | storage/storage.go:132-162 | a record is selected exactly when it is one of the tracks or videos, its key "<kind>_<id>" with no extension is one of the stored keys, and it is old enough |
| Storage.Candidates | storage/storage.go:121-158 | corrected selection: a record is selected exactly when it is one of the tracks or videos, some stored key starts with "<kind>_<id>.", and it is old enough |
| Storage.SortByViews | storage/storage.go:53-55 | the candidates come out ordered by view count, highest first (a missing count reads as 0), as a permutation of the input |
| Storage.SortKeepsMembers | storage/storage.go:53-55 | sorting neither adds nor drops a record |
| Storage.FirstMatch | storage/storage.go:174-227 | the position found is the first file (not directory) whose name starts with the id and "."; none is found exactly when no entry matches |
| Storage.RemoveFirstCount | storage/storage.go:174-184 | one removal pass takes out exactly one matching file when there is one and leaves every other entry, so the match count drops by one |
| Storage.RemovePlayableFiles | storage/storage.go:164-203 | only the record's "content/<type>s" and "covers/<type>s" listings can change; every other directory, and the set of directories, stays as it was |
| Storage.RemoveThenStored | storage/storage.go:164-230 | after its files are removed a record still counts as stored exactly when it had two or more matching content files |
| Storage.StoreThenStored | storage/storage.go:205-244 | content written with an extension starting with "." is found by IsContentStored afterwards, unless a directory of that very file name is in the way |
| Storage.StoreKeepsStored | storage/storage.go:205-244 | writing content never makes other stored content stop counting as stored |
| Storage.CoverLeavesContent | storage/storage.go:205-258 | writing a cover leaves the answer of IsContentStored unchanged for every record |
| Storage.AsWrittenEvictsAll | storage/storage.go:77-88 | as written, once the total is over the limit every candidate's files are removed and the warning is logged, because the total is never lowered; under the limit nothing is removed |
| Storage.EvictRemovesPrefix | storage/storage.go:77-88 | corrected loop: the records removed are a prefix of the ordered candidates, and the final tree and total are those of removing that prefix in order |
| Storage.EvictWarnsOnlyWhenExhausted | storage/storage.go:77-88 | corrected loop: the warning is given exactly when the total is still over the limit at the end, and then every candidate has been removed |
| Storage.EvictStopsWhenFits | storage/storage.go:77-88 | corrected loop: before each removal the total was still over the limit, so no record is removed once the store fits |
| Storage.OneRemovalSuffices | storage/storage.go:77-88 | when the first candidate alone frees enough, the corrected loop removes only it while the written loop removes every candidate |
| Storage.EvictedAreCandidates | storage/storage.go:77-88 | the corrected loop removes only records from the candidate list |
| Storage.CleanRemovesOnlyCandidates | storage/storage.go:34-89 | the clean-up ends within the limit unless it warns or the content root is unreadable, and removes only old enough tracks and videos of the given lists whose content is stored under "<kind>_<id>." |
| Storage.StoredTrackMissedAsWritten | storage/storage.go:121-146 | a track stored as "<id>.<ext>" is never selected by the written selection however old it is, and is selected by the corrected one |

## Left out

- Network, process and file I/O are parameters or are left out: the Python script's calls into ytmusicapi and yt_dlp, DownloadFile, thumbnail downloads, the ffmpeg probe of local files, and the process runner.
- SQL text, connection pools and column (un)marshalling of both engines are left out. The store is modelled as sequences of rows.
- PostgreSQL reads of every kind but tracks: each SELECT names the 22 track columns, but its Scan has 13 to 17 destinations, and the users table lacks columns such as isrc. So on PostgreSQL every such read fails, and no row is ever returned. That covers albums (db/postgresql.go:413, 452, 491), videos (544, 584, 624), artists (679, 716, 753), playlists (804, 839, 874), users (923, 958, 982) and the provider join (1034). The model gives PostgreSQL the SELECT these queries evidently intend, with the column list of their own table. The members below describe that intended read on PostgreSQL; on SQLite they describe the program as written.
- Store.QueryOne: on PostgreSQL, a read of an album, video, artist, playlist or user always fails as written. That holds for the single-row reads by id (db/postgresql.go:491, 624, 753, 874, 958) and the per-user lists (452, 584, 716, 839). The model answers with the intended SELECT.
- Store.Get: on PostgreSQL, getting an album, video, artist, playlist or user always fails as written; the model finds the row by id, as the intended SELECT does.
- Store.GetUserByUsername: on PostgreSQL the lookup always fails as written (db/postgresql.go:979-983). The lower-cased username-or-e-mail matching is the intended SELECT's.
- Store.PgLookupsIgnoreCase: states the case-insensitivity of the intended PostgreSQL user lookup. As written that lookup always fails, which is also independent of case.
- Store.GetProviderUser: on PostgreSQL the join selects track columns from users (db/postgresql.go:1034) and never finds a user as written. The model finds the linked user, as the intended join does.
- Login: on PostgreSQL the program's GetUserByUsername always fails, so AuthHandlers.Login answers 500 there. Its 404/401/token guarantees hold on SQLite, and on PostgreSQL only under the intended SELECT.
- ProviderCallback: the linked-account branch of AuthHandlers.ProviderCallback needs GetProviderUser to find the user. On PostgreSQL it never does as written (db/postgresql.go:1034), so that branch is reached only under the intended join.
- CallbackTwice: AuthHandlers.CallbackTwice, the second callback finding the user, holds on SQLite and, on PostgreSQL, only under the intended join.
- DisconnectProviderAsWritten: on PostgreSQL the program's GetProviderUser always fails, so AuthHandlers.DisconnectProviderAsWritten answers 500 there. Its 404-exactly-when-unlinked guarantee holds on SQLite and, on PostgreSQL, only under the intended join.
- DisconnectProvider: AuthHandlers.DisconnectProvider, the corrected handler, has the same PostgreSQL lookup gap as DisconnectProviderAsWritten.
- Cryptography is left out: bcrypt password hashing, JWT signing and verification, and PEM key parsing. Hashing, signing and parsing are parameters.
- HTTP wiring, sessions and middleware are left out: Echo routing, gothic sessions, the JWT middleware, and Logout (api/routes/auth.go:178-198), which only reads the session's claims. The blacklist insert Logout performs is modelled by `Store.BlacklistToken`.
- Building real goth providers is left out. A factory's answer is modelled as which constructor it picks and with which configured values.
- Some provider-table lookups are stated only for some keys. The provider tables are 67-entry literals, and a lemma about one named entry is only cheap to prove for entries near the end of the literal (`AuthProviders.WechatLang`). The other providers' rules are stated over the rule kinds (`AuthProviders.RequiredCases`, `AuthProviders.AllOrNothingCases`, `AuthProviders.PrecedenceCases`, `AuthProviders.UseAuthorizeCases`), and end to end for every provider by `AuthProviders.IncompleteNeverBuilt`.
- The wechat default language is taken as the library's constant "cn"; the library is not part of this model.
- Strings are sequences of characters. Go's strings.EqualFold and strings.ToLower and Python's case handling are modelled on ASCII letters only.
- Durations.ParseDuration: fractional numbers are not modelled. Any text containing a "." is reported as an out-of-model error (Fractional). That covers decimal durations such as "1.5h", but also text whose "." no digit follows, which Go's pattern skips (config/durations.go:50): Go reads "x.y5h" as 5h. Byte sizes are natural numbers.
- Python's int() is modelled on an optional sign followed by digits. The surrounding whitespace and "_" separators that Python also accepts are not modelled.
- JSON decoding of the script's output and Go's type assertions on it are not modelled. The script's output is modelled as typed fields, present or absent.
- YouTube.ParseSearchResult, YouTube.ParseRefusals, YouTube.Search, YouTubeMetadata.CompleteMetadata: these model the evidently intended decoding, not the program as written. The program decodes the script's output into `map[string]any` with goccy/go-json, so nested lists arrive as `[]any` and numbers as `float64`. Its single-value assertions `.([]map[string]string)` and `.([]map[string]any)` on them, and `.(int)` on numbers, therefore panic (sources/youtube.go:161,173,182,209,254,263,278,287,300,323). That happens for every song, album, video, artist and playlist entry, so a search panics at its first known-kind entry. Every completion step panics the same way at its thumbnails assertion (sources/youtube.go:494,513,558,592,642). A panic has no value, so these members describe what the code evidently means to do with the typed fields.
- The earlier source (source/youtube.go) decodes the script's output with encoding/json (Unmarshal at lines 74 and 350), so nested lists arrive as `[]interface{}` and numbers as `float64`. Its single-value assertions on them panic on every known-kind search entry (source/youtube.go:84, 95, 118, 129, 154, 173, 196, 217, 234, 238) and at the thumbnails assertion of every completion (392, 404, 442, 469, 512). The LegacyYouTube members below model the evidently intended decoding over typed fields, as the current-source members do.
- LegacySearch: LegacyYouTube.LegacySearch describes how offered entries would parse under the intended decoding; as written the earlier search panics at its first known-kind entry.
- LegacySearchIsOfferedSearch: LegacyYouTube.LegacySearchIsOfferedSearch equates the two searches under the intended decoding; as written both panic at their first known-kind entry.
- AllOfferedSameSearch: LegacyYouTube.AllOfferedSameSearch has the same intended-decoding premise as LegacySearchIsOfferedSearch.
- CompleteMetadataAsWritten: LegacyYouTube.CompleteMetadataAsWritten's success path is reached only under the intended decoding; as written every completion panics first at its thumbnails assertion (source/youtube.go:392, 404, 442, 469, 512).
- AsWrittenDiffersOnlyOnSuccess: LegacyYouTube.AsWrittenDiffersOnlyOnSuccess compares success paths that the earlier program reaches only under the intended decoding, for the same reason.
- CompletionLosesDescription: LegacyYouTube.CompletionLosesDescription needs a successful track completion, which under encoding/json the thumbnails panic at source/youtube.go:392 prevents; the lost description shows once that decoding is fixed.
- Sharing of the caller's record through the shared metadata map is modelled only where it changes a result: the earlier CompleteMetadata.
- The stub sources that only panic (source/web.go, source/spotify.go, source/localfile.go) are left out.
- The earlier source's GetContent and GetLyrics (source/youtube.go:271-318) are the same decisions as `YouTube.Content` and `YouTube.Lyrics` and are not modelled twice.
- Config: the decode hook calls util.ParseHumanDuration, and util is not part of this model. The hook is modelled with config/durations.go's ParseHumanDuration. datasize.ParseString is a parameter.
- Versions.ParseVersion: on an error the model returns only the error, not the zero Version that accompanies it.
- Durations.ParseDuration: Go walks its unit table in map order. The order is a parameter, and `Durations.ParseDurationOrderIndependent` shows it does not matter.
- Storage.SortByViews: sort.Slice is not stable. The model fixes one order, and records with equal view counts may come out in another order in the source.
- Storage.OldEnough: time.Since saturates at Go's Duration bounds. The model subtracts unbounded integers, so it differs only for dates more than 292 years away.
- Storage.CleanRemovesOnlyCandidates: the store's total size is a parameter. The walk that computes it, and its uint64 overflow, are not modelled.
- Storage.RemovePlayableFiles: errors from os.Remove, os.WriteFile and os.MkdirAll are ignored by the source and are not modelled.
- Storage.GetDirectories: the file.Info error that getDirectories skips an entry on is not modelled; a listed directory's information is assumed readable.
- YouTubeMetadata.CompleteMetadata: a record without a "yt_id" string makes the source's unchecked type assertion panic (sources/youtube.go:425). A panic has no value, so the model reports it as the Malformed("yt_id") error instead. `LegacyYouTube.CompleteMetadataAsWritten` does the same for source/youtube.go:339.
- OpenAPI.ProcessSchemasNames, OpenAPI.RenameAllState, OpenAPI.NoMediaLeft, OpenAPI.ProcessSchemasOrderIrrelevant, OpenAPI.ReferencesResolve, OpenAPI.OneOfRefsResolve and the OpenAPI.Spec lemmas that use them require that no schema name carries "media." twice (`OpenAPI.SingleMedia`). For a name such as "media.media.X" the renaming loop inserts "media.X" while ranging over the map, and Go may or may not visit that new key, so the result depends on the run. That case is not modelled.
- Sources.EnableSource: the manager must have been initialised; otherwise the source writes into a nil map, which panics.
- Ids.GenerateID: the random choice of each character is nondeterministic, so only the length and the alphabet are stated, not the distribution. The length is a natural number: the negative length on which Go's make panics is not modelled.
- Concurrency, signal handling, logging and metrics are left out.

## Findings

| source | as written | input that shows it | evidently intended | confidence | as-written member | corrected member |
|---|---|---|---|---|---|---|
| source_scripts/youtube.py:54-60 | the merge loop's only exit is reaching the limit, and a limit of None makes the comparison raise | lists holding 3 results in total with limit 4; or limit "all" | stop when every list is empty, so the output has min(limit, total) results | not executed | SearchMerge.WrittenLoopStalls, SearchMerge.WrittenGuard | SearchMerge.MergeLength, SearchMerge.MergeIsRoundRobin |
| db/sqlite.go:282-289 | after reverting a file, the version recorded is that of files[appliedCount+1], indexed by how many files were reverted rather than by position | files with versions 3, 2, 1 (descending), table at version 2, steps 1: version 2 is reverted and 2 is recorded again | record the version of the next file after the one just reverted (1 here) | not executed | Migrations.MigrateDownAsWritten, Migrations.DownRecordsRevertedVersion | Migrations.MigrateDown, Migrations.DownLoopRecordsNext |
| api/routes/auth.go:339 | DisconnectProvider deletes the link of (provider, provider user id), but the store deletes by local user id | an account linked to local user "u1" whose provider user id is "p9": the answer is 200 and the link stays | delete the link of the signed-in local user | not executed | AuthHandlers.DisconnectKeepsLink | AuthHandlers.DisconnectUnlinks |
| storage/storage.go:77-88 | the eviction loop never lowers sum, so once over the limit it removes every candidate and then warns | sum 10, limit 5, two candidates where the first frees 6 bytes: both are removed | lower sum by the bytes each removal frees and stop once within the limit | not executed | Storage.AsWrittenEvictsAll, Storage.OneRemovalSuffices | Storage.EvictStopsWhenFits, Storage.EvictWarnsOnlyWhenExhausted |
| storage/storage.go:140,153 | a candidate needs the exact key "track_<id>", but keys carry the file name with its extension | a track stored as "content/tracks/abc.mp3" has key "track_abc.mp3" and is never a candidate | match the key "<kind>_<id>." as a prefix, as IsContentStored does | not executed | Storage.StoredTrackMissedAsWritten | Storage.Candidates |
| source/youtube.go:525 | CompleteMetadata returns the playable it was given instead of the completed copy; only the shared metadata map carries the changes. As written the defect is masked: under encoding/json the thumbnails assertion at line 392 panics before line 525 is reached | once the decoding is typed as intended, a track whose details carry a new description: the description returned is the old one (as written, the same input panics at line 392) | return the completed copy | not executed | LegacyYouTube.CompletionLosesDescription | LegacyYouTube.CorrectedKeepsFilledFields |
| api/server/openapi.go:138-145 | processSchema rewrites oneOf items only when they are bare strings, but the items are objects with a "$ref" | a oneOf holding {"$ref": "#/components/schemas/media.Track"} keeps that reference after "media.Track" is renamed | rewrite the "$ref" of each oneOf item | not executed | OpenAPI.OneOfRefDangles, OpenAPI.SpecOneOfRef | OpenAPI.OneOfRefsResolve, OpenAPI.SpecOneOfRef |
| api/routes/auth/tokens.go:52-55 | for EdDSA the parser's untyped result is asserted to be an Ed25519 key before its error is checked, which panics on a nil key | signing method "EdDSA" with a malformed PEM key | return the parser's error, as the RSA and ECDSA branches do | not executed | Signing.EdDSABadKeyPanics | Signing.LoadPrivateKey |

=== FILE: auth_handlers.dfy ===
/**
 * The decision logic of the account handlers: registration, password
 * login, the provider (OAuth) login, callback and disconnect handlers, and
 * the rule that appends the issued token to the client's redirect URI.
 *
 * The HTTP request, the session and the provider hand-shake become
 * parameters: a bound request body or its error, the redirect URI kept in
 * the session, the provider user that completing the hand-shake returns.
 * Token signing, password hashing and id generation are parameters too.
 */
module AuthHandlers {
  import opened Wrappers
  import opened Strs
  import opened Media
  import opened Store

  const RedirectURIQueryParam := "redirect_uri"

  /** What a handler answers. */
  datatype Response =
    | Message(status: int, message: string)  // a JSON {"message": ...}
    | Token(token: string)                   // 200 with a JSON {"token": ...}
    | Redirect(location: string)             // 302 Found
    | NoContent(status: int)
    | BeginAuth                              // handed over to the provider

  /** The users and provider links the handlers read and write. */
  datatype State = State(users: seq<DatabaseUser>, links: seq<ProviderLink>)

  /** Signing a token for a user id: the token or the signer's error. */
  type Signer = string -> Result<string, string>

  // ---------------------------------------------------------------------
  // Reserved user names

  /** The names reserved whatever the configuration says. */
  const BuiltInReserved: seq<string> := ["default"]

  /** Some configured name equal to `username` up to case, from position i. */
  function AnyEqualFold(configured: seq<string>, username: string, i: nat): (r: bool)
    requires i <= |configured|
    ensures r <==> exists k :: i <= k < |configured| && EqualFold(configured[k], username)
    decreases |configured| - i
  {
    if i == |configured| then false
    else EqualFold(configured[i], username) || AnyEqualFold(configured, username, i + 1)
  }

  /** IsUsernameReserved: a built-in name matches exactly, a configured one
    * up to case. */
  function IsUsernameReserved(username: string, configured: seq<string>): (r: bool)
    ensures r <==> username == "default" || exists k :: 0 <= k < |configured| && Lower(configured[k]) == Lower(username)
  {
    username in BuiltInReserved || AnyEqualFold(configured, username, 0)
  }

  /** Two names equal up to case are reserved alike, unless one of them is
    * exactly the built-in name. */
  lemma ReservedIgnoresCase(a: string, b: string, configured: seq<string>)
    requires Lower(a) == Lower(b) && a != "default" && b != "default"
    ensures IsUsernameReserved(a, configured) == IsUsernameReserved(b, configured)
  {
  }

  /** The built-in name is reserved in exactly one spelling. */
  lemma BuiltInIsCaseSensitive(configured: seq<string>)
    requires forall k :: 0 <= k < |configured| ==> Lower(configured[k]) != "default"
    ensures IsUsernameReserved("default", configured)
    ensures !IsUsernameReserved("Default", configured)
  {
    assert Lower("Default") == "default" by {
      assert "Default"[0] == 'D';
      assert Lower("Default")[0] == LowerChar('D');
    }
    assert "Default" != "default" by { assert "Default"[0] != "default"[0]; }
  }

  // ---------------------------------------------------------------------
  // Register

  datatype RegisterRequest = RegisterRequest(username: string, email: string, password: string)

  /** The failures of the store calls that the store's contents do not
    * decide: a failed query, a failed insert. */
  datatype Faults = Faults(usernameQuery: Option<string>, emailQuery: Option<string>, create: Option<string>)

  /** The user Register stores. */
  function NewUser(id: string, req: RegisterRequest, passwordHash: string): (u: DatabaseUser)
    ensures u.id == id && u.username == req.username && u.email == req.email && u.passwordHash == passwordHash
  {
    DatabaseUser(id, req.username, req.email, passwordHash, "", "", map[], [], 0, 0, map[], "", map[])
  }

  /** Register: the checks in order, then the insert, then the token. The
    * user is stored before the token is signed, so a signing failure
    * leaves the new user in place. */
  function Register(disabled: bool, configured: seq<string>, engine: Engine, users: seq<DatabaseUser>,
                    body: Result<RegisterRequest, string>, newId: string, hash: string -> string,
                    faults: Faults, sign: Signer): (r: (Response, seq<DatabaseUser>))
    ensures r.1 == users || (body.Success? && r.1 == Add(users, NewUser(newId, body.value, hash(body.value.password))))
    ensures r.0.Token? ==> (body.Success? && sign(newId) == Success(r.0.token) &&
      !IsUsernameReserved(body.value.username, configured) &&
      !UsernameExists(engine, users, body.value.username) &&
      (body.value.email == "" || !EmailExists(engine, users, body.value.email)))
    ensures r.0.Token? || r.0.Message?
  {
    if disabled then (Message(400, "account creation is disabled"), users)
    else if body.Failure? then (Message(400, body.error), users)
    else
      var req := body.value;
      if IsUsernameReserved(req.username, configured) then (Message(400, "username is reserved"), users)
      else if faults.usernameQuery.Some? then (Message(500, "internal server error"), users)
      else if UsernameExists(engine, users, req.username) then (Message(409, "username already exists"), users)
      else if req.email != "" && faults.emailQuery.Some? then (Message(500, "internal server error"), users)
      else if req.email != "" && EmailExists(engine, users, req.email) then (Message(409, "email already exists"), users)
      else if faults.create.Some? then (Message(500, faults.create.value), users)
      else
        var stored := Add(users, NewUser(newId, req, hash(req.password)));
        match sign(newId)
        case Failure(e) => (Message(500, e), stored)
        case Success(t) => (Token(t), stored)
  }

  /** The first failing check decides the answer: disabled creation, then
    * the body, then the reserved name, then a taken name, then a taken
    * e-mail; an empty e-mail is never looked up. */
  lemma RegisterOrder(disabled: bool, configured: seq<string>, engine: Engine, users: seq<DatabaseUser>,
                      body: Result<RegisterRequest, string>, newId: string, hash: string -> string,
                      faults: Faults, sign: Signer)
    ensures var r := Register(disabled, configured, engine, users, body, newId, hash, faults, sign);
      && (disabled ==> r == (Message(400, "account creation is disabled"), users))
      && (!disabled && body.Success? && IsUsernameReserved(body.value.username, configured) ==>
            r == (Message(400, "username is reserved"), users))
      && (!disabled && body.Success? && !IsUsernameReserved(body.value.username, configured) &&
          faults.usernameQuery.None? && UsernameExists(engine, users, body.value.username) ==>
            r == (Message(409, "username already exists"), users))
      && (!disabled && body.Success? && body.value.email == "" && faults.usernameQuery.None? && faults.create.None? &&
          !IsUsernameReserved(body.value.username, configured) && !UsernameExists(engine, users, body.value.username) ==>
            r.1 == Add(users, NewUser(newId, body.value, hash(body.value.password))))
      && (r.0 == Message(409, "email already exists") <==>
          !disabled && body.Success? && !IsUsernameReserved(body.value.username, configured) &&
          faults.usernameQuery.None? && !UsernameExists(engine, users, body.value.username) &&
          body.value.email != "" && faults.emailQuery.None? && EmailExists(engine, users, body.value.email))
  {
  }

  // ---------------------------------------------------------------------
  // Login

  datatype LoginRequest = LoginRequest(username: string, password: string)

  /** Login: an unknown user is 404, a wrong password 401, otherwise the
    * user's token. `matches(hash, password)` is the password check. */
  function Login(engine: Engine, users: seq<DatabaseUser>, body: Result<LoginRequest, string>,
                 matches: (string, string) -> bool, sign: Signer): (r: Response)
    ensures r.Message? && r.status == 404 <==>
      body.Success? && forall u :: u in users ==> (u.username != LookupKey(engine, body.value.username) &&
        (engine == SQLite || u.email != Lower(body.value.username)))
    ensures r.Token? ==> (body.Success? &&
      exists u :: u in users && matches(u.passwordHash, body.value.password) && sign(u.id) == Success(r.token))
    ensures r.Token? ==> (body.Success? && GetUserByUsername(engine, users, body.value.username).Success? &&
      sign(GetUserByUsername(engine, users, body.value.username).value.id) == Success(r.token))
    ensures r == Message(401, "incorrect password") <==>
      body.Success? && GetUserByUsername(engine, users, body.value.username).Success? &&
      !matches(GetUserByUsername(engine, users, body.value.username).value.passwordHash, body.value.password)
    ensures r.Token? || r.Message?
  {
    if body.Failure? then Message(400, body.error)
    else
      var req := body.value;
      var found := GetUserByUsername(engine, users, req.username);
      if found == Failure(NotFound) then Message(404, "user not found")
      else if found.Failure? then Message(500, ErrorText(found.error))
      else if !matches(found.value.passwordHash, req.password) then Message(401, "incorrect password")
      else
        match sign(found.value.id)
        case Failure(e) => Message(500, e)
        case Success(t) => Token(t)
  }

  /** On SQLite, a user who has just registered can log in with the same
    * name and password. */
  lemma RegisterThenLogin(configured: seq<string>, users: seq<DatabaseUser>, req: RegisterRequest,
                          newId: string, hash: string -> string, faults: Faults,
                          matches: (string, string) -> bool, sign: Signer)
    requires Register(false, configured, SQLite, users, Success(req), newId, hash, faults, sign).0.Token?
    requires matches(hash(req.password), req.password)
    ensures var stored := Register(false, configured, SQLite, users, Success(req), newId, hash, faults, sign).1;
      Login(SQLite, stored, Success(LoginRequest(req.username, req.password)), matches, sign)
        == Register(false, configured, SQLite, users, Success(req), newId, hash, faults, sign).0
  {
    var u := NewUser(newId, req, hash(req.password));
    AddedUserFound(users, u);
  }

  // ---------------------------------------------------------------------
  // Redirects

  /** The issued token added to the client's redirect URI as a query
    * parameter, with "&" when the URI already has a query and "?" when it
    * has none. */
  function AppendToken(redirectURI: string, token: string): string {
    if Contains(redirectURI, "?") then redirectURI + "&token=" + token
    else redirectURI + "?token=" + token
  }

  /** The text before the first "?" of a URI. */
  function PathOf(s: string): string {
    if '?' in s then s[..FirstIndex(s, '?')] else s
  }

  /** The text after the first "?" of a URI, "" without one. */
  function QueryOf(s: string): string {
    if '?' in s then s[FirstIndex(s, '?') + 1..] else ""
  }

  /** The first "?" of s + t lies in s when s has one. */
  lemma FirstIndexAppend(s: string, t: string, c: char)
    requires c in s
    ensures c in s + t && FirstIndex(s + t, c) == FirstIndex(s, c)
  {
    var k := FirstIndex(s, c);
    var m := FirstIndex(s + t, c);
    assert (s + t)[k] == c;
    assert forall j :: 0 <= j < m ==> (s + t)[j] != c by {
      forall j | 0 <= j < m ensures (s + t)[j] != c {
        assert (s + t)[..m][j] == (s + t)[j];
      }
    }
    assert forall j :: 0 <= j < k ==> s[j] != c by {
      forall j | 0 <= j < k ensures s[j] != c {
        assert s[..k][j] == s[j];
      }
    }
  }

  /** Appending the token keeps the path and adds one parameter to the
    * query: the whole query when the URI had none, after an "&" when it
    * had one. */
  lemma AppendTokenQuery(redirectURI: string, token: string)
    ensures PathOf(AppendToken(redirectURI, token)) == PathOf(redirectURI)
    ensures QueryOf(AppendToken(redirectURI, token)) ==
      if '?' in redirectURI then QueryOf(redirectURI) + "&token=" + token else "token=" + token
  {
    if '?' in redirectURI {
      AppendWithQuery(redirectURI, token);
    } else {
      AppendWithoutQuery(redirectURI, token);
    }
  }

  lemma AppendWithQuery(u: string, token: string)
    requires '?' in u
    ensures PathOf(AppendToken(u, token)) == PathOf(u)
    ensures QueryOf(AppendToken(u, token)) == QueryOf(u) + "&token=" + token
  {
    var t := "&token=" + token;
    assert AppendToken(u, token) == u + t by {
      HasChar(u, '?');
    }
    AppendAfterFirst(u, t, '?');
    var q := u[FirstIndex(u, '?') + 1..];
    assert q + t == q + "&token=" + token;
  }

  /** A string holding a character contains it. */
  lemma HasChar(s: string, c: char)
    requires c in s
    ensures Contains(s, [c])
  {
    var k := FirstIndex(s, c);
    assert At(s, [c], k) by {
      assert s[k..k + 1] == [c];
    }
  }

  /** Text appended after the first `c` leaves what precedes it alone and
    * extends what follows it. */
  lemma AppendAfterFirst(u: string, t: string, c: char)
    requires c in u
    ensures c in u + t
    ensures (u + t)[..FirstIndex(u + t, c)] == u[..FirstIndex(u, c)]
    ensures (u + t)[FirstIndex(u + t, c) + 1..] == u[FirstIndex(u, c) + 1..] + t
  {
    FirstIndexAppend(u, t, c);
    var k := FirstIndex(u, c);
    assert (u + t)[k + 1..] == u[k + 1..] + t;
    assert (u + t)[..k] == u[..k];
  }

  lemma AppendWithoutQuery(u: string, token: string)
    requires '?' !in u
    ensures PathOf(AppendToken(u, token)) == PathOf(u)
    ensures QueryOf(AppendToken(u, token)) == "token=" + token
  {
    NoCharNoContains(u, '?');
    var r := u + ['?'] + ("token=" + token);
    assert AppendToken(u, token) == r;
    FirstIndexAt(r, '?', |u|);
    assert r[..|u|] == u;
    assert r[|u| + 1..] == "token=" + token;
  }

  /** The first occurrence is the one with none before it. */
  lemma FirstIndexAt(s: string, c: char, k: nat)
    requires k < |s| && s[k] == c && forall j :: 0 <= j < k ==> s[j] != c
    ensures c in s && FirstIndex(s, c) == k
  {
    FirstIndexBefore(s, c);
  }

  // ---------------------------------------------------------------------
  // Provider login and connect

  /** LoginProvider and ConnectProvider: the redirect URI is required; a
    * session that already completes the hand-shake goes straight back to
    * it; otherwise it is kept in the session and the hand-shake begins. */
  function BeginProvider(redirectURI: string, alreadyAuthenticated: bool, storeError: Option<string>): (r: Response)
    ensures r == Message(400, RedirectURIQueryParam + " is required") <==> redirectURI == ""
    ensures r.Redirect? <==> redirectURI != "" && alreadyAuthenticated
    ensures r.Redirect? ==> r.location == redirectURI
    ensures r == BeginAuth <==> redirectURI != "" && !alreadyAuthenticated && storeError.None?
  {
    if redirectURI == "" then Message(400, RedirectURIQueryParam + " is required")
    else if alreadyAuthenticated then Redirect(redirectURI)
    else if storeError.Some? then
      Message(500, "failed to store " + RedirectURIQueryParam + " in session: " + storeError.value)
    else BeginAuth
  }

  // ---------------------------------------------------------------------
  // Provider callback

  /** The provider's account as the hand-shake reports it. */
  datatype ProviderUser = ProviderUser(provider: string, userId: string, email: string, name: string)

  /** The failures of the store calls beyond a missing row. */
  datatype CallbackFaults = CallbackFaults(create: Option<string>, link: Option<string>)

  /** The user created for a provider account never seen before: the
    * provider's user id becomes the user name. */
  function ProviderAccountUser(id: string, pu: ProviderUser): (u: DatabaseUser)
    ensures u.id == id && u.username == pu.userId && u.email == pu.email && u.displayName == pu.name
    ensures u.passwordHash == ""
  {
    DatabaseUser(id, pu.userId, pu.email, "", pu.name, "", map[], [], 0, 0, map[], "", map[])
  }

  /** The redirect once a user id is known: the redirect URI from the
    * session (missing or empty is 400) with that user's token. */
  function RedirectWithToken(session: Option<string>, userId: string, sign: Signer): (r: Response)
    ensures r.Redirect? <==> session.Some? && session.value != "" && sign(userId).Success?
    ensures r.Redirect? ==> r.location == AppendToken(session.value, sign(userId).value)
  {
    if session.None? || session.value == "" then Message(400, RedirectURIQueryParam + " not found in session")
    else
      match sign(userId)
      case Failure(e) => Message(500, e)
      case Success(t) => Redirect(AppendToken(session.value, t))
  }

  /** ProviderCallback: a provider account already linked logs its user in;
    * otherwise a user is created and linked to it, and logged in. The new
    * user and link are stored before the session is read, so a missing
    * redirect URI leaves them in place. */
  function ProviderCallback(engine: Engine, st: State, auth: Result<ProviderUser, string>,
                            session: Option<string>, newId: string, faults: CallbackFaults,
                            sign: Signer): (r: (Response, State))
    ensures auth.Failure? ==> r == (Message(400, "failed to complete user auth: " + auth.error), st)
    ensures auth.Success? && GetProviderUser(engine, st.users, st.links, auth.value.provider, auth.value.userId).Success? ==>
      r == (RedirectWithToken(session, GetProviderUser(engine, st.users, st.links, auth.value.provider, auth.value.userId).value.id, sign), st)
    ensures r.1 == st || (auth.Success? &&
      r.1.users == Add(st.users, ProviderAccountUser(newId, auth.value)) &&
      r.1.links in {st.links, LinkProviderAccount(st.links, auth.value.provider, newId, auth.value.userId)})
  {
    if auth.Failure? then (Message(400, "failed to complete user auth: " + auth.error), st)
    else
      var pu := auth.value;
      var linked := GetProviderUser(engine, st.users, st.links, pu.provider, pu.userId);
      if linked != Failure(NotFound) then
        if linked.Failure? then (Message(500, ErrorText(linked.error)), st)
        else (RedirectWithToken(session, linked.value.id, sign), st)
      else
        var u := ProviderAccountUser(newId, pu);
        if faults.create.Some? then (Message(500, faults.create.value), st)
        else
          var users := Add(st.users, u);
          if faults.link.Some? then (Message(500, faults.link.value), State(users, st.links))
          else
            var links := LinkProviderAccount(st.links, pu.provider, newId, pu.userId);
            (RedirectWithToken(session, newId, sign), State(users, links))
  }

  /** After the first callback of an account creates and links a user, the
    * next callback of that account logs the same user in. */
  lemma CallbackTwice(engine: Engine, st: State, pu: ProviderUser, session: Option<string>,
                      newId: string, sign: Signer, session2: Option<string>, newId2: string)
    requires forall i, j :: 0 <= i < j < |st.users| ==> st.users[i].id != st.users[j].id
    requires forall x :: x in st.users ==> x.id != newId
    requires forall l :: l in st.links ==> !(l.provider == pu.provider && l.providerUserId == pu.userId)
    ensures var first := ProviderCallback(engine, st, Success(pu), session, newId, CallbackFaults(None, None), sign);
      ProviderCallback(engine, first.1, Success(pu), session2, newId2, CallbackFaults(None, None), sign)
        == (RedirectWithToken(session2, newId, sign), first.1)
  {
    var u := ProviderAccountUser(newId, pu);
    var users := Add(st.users, u);
    assert GetProviderUser(engine, st.users, st.links, pu.provider, pu.userId) == Failure(NotFound);
    assert forall i, j :: 0 <= i < j < |users| ==> users[i].id != users[j].id by {
      forall i, j | 0 <= i < j < |users| ensures users[i].id != users[j].id {
        if j == |st.users| {
          assert users[i] in st.users;
        } else {
          assert users[i] == st.users[i] && users[j] == st.users[j];
        }
      }
    }
    assert u in users;
    LinkThenGetProviderUser(engine, users, st.links, pu.provider, u, pu.userId);
  }

  // ---------------------------------------------------------------------
  // Disconnect

  /** DisconnectProvider as written: the account must be linked (404
    * otherwise), then the links are deleted by user id, but the provider's
    * user id is passed where the local user id is expected. `deleteFault`
    * is the error the delete reports, if any. */
  function DisconnectProviderAsWritten(engine: Engine, st: State, auth: Result<ProviderUser, string>,
                                       deleteFault: Option<string>): (r: (Response, State))
    ensures r.0 == Message(404, "provider account not found") <==>
      auth.Success? && GetProviderUser(engine, st.users, st.links, auth.value.provider, auth.value.userId) == Failure(NotFound)
    ensures (auth.Success? && deleteFault.Some? &&
             GetProviderUser(engine, st.users, st.links, auth.value.provider, auth.value.userId).Success?) ==>
      r == (Message(500, deleteFault.value), st)
    ensures r.1 == st || r.0 == NoContent(200)
  {
    if auth.Failure? then (Message(400, "failed to complete user auth: " + auth.error), st)
    else
      var pu := auth.value;
      var linked := GetProviderUser(engine, st.users, st.links, pu.provider, pu.userId);
      if linked == Failure(NotFound) then (Message(404, "provider account not found"), st)
      else if linked.Failure? then (Message(500, ErrorText(linked.error)), st)
      else if deleteFault.Some? then (Message(500, deleteFault.value), st)
      else (NoContent(200), State(st.users, DisconnectProviderAccount(st.links, pu.provider, pu.userId)))
  }

  /** A linked account whose provider user id is no local user id answers
    * 200 and keeps its link. */
  lemma DisconnectKeepsLink(engine: Engine, st: State, pu: ProviderUser)
    requires GetProviderUser(engine, st.users, st.links, pu.provider, pu.userId).Success?
    requires forall l :: l in st.links ==> l.userId != pu.userId
    ensures DisconnectProviderAsWritten(engine, st, Success(pu), None) == (NoContent(200), st)
  {
    var r := DisconnectProviderAccount(st.links, pu.provider, pu.userId);
    SelectAll(st.links, (l: ProviderLink) => !(l.userId == pu.userId && l.provider == pu.provider));
  }

  /** Selecting with a predicate every element meets keeps everything. */
  lemma {:induction false} SelectAll<R(!new)>(t: seq<R>, p: R -> bool)
    requires forall x :: x in t ==> p(x)
    ensures Select(t, p) == t
    decreases |t|
  {
    if |t| > 0 {
      assert t[0] in t;
      assert forall x :: x in t[1..] ==> x in t;
      SelectAll(t[1..], p);
    }
  }

  /** DisconnectProvider deleting the links of the user the account is
    * linked to. */
  function DisconnectProvider(engine: Engine, st: State, auth: Result<ProviderUser, string>,
                              deleteFault: Option<string>): (r: (Response, State))
    ensures r.0 == Message(404, "provider account not found") <==>
      auth.Success? && GetProviderUser(engine, st.users, st.links, auth.value.provider, auth.value.userId) == Failure(NotFound)
    ensures (auth.Success? && deleteFault.Some? &&
             GetProviderUser(engine, st.users, st.links, auth.value.provider, auth.value.userId).Success?) ==>
      r == (Message(500, deleteFault.value), st)
    ensures r.0 == NoContent(200) ==> (auth.Success? &&
      var found := GetProviderUser(engine, st.users, st.links, auth.value.provider, auth.value.userId);
      found.Success? && r.1.users == st.users && !IsProviderLinked(r.1.links, auth.value.provider, found.value.id))
    ensures forall l :: l in r.1.links ==> l in st.links
  {
    if auth.Failure? then (Message(400, "failed to complete user auth: " + auth.error), st)
    else
      var pu := auth.value;
      var linked := GetProviderUser(engine, st.users, st.links, pu.provider, pu.userId);
      if linked == Failure(NotFound) then (Message(404, "provider account not found"), st)
      else if linked.Failure? then (Message(500, ErrorText(linked.error)), st)
      else if deleteFault.Some? then (Message(500, deleteFault.value), st)
      else (NoContent(200), State(st.users, DisconnectProviderAccount(st.links, pu.provider, linked.value.id)))
  }

  /** After a disconnect, an account whose links all pointed at one user
    * is no longer linked: the next lookup finds no user. */
  lemma DisconnectUnlinks(engine: Engine, st: State, pu: ProviderUser)
    requires GetProviderUser(engine, st.users, st.links, pu.provider, pu.userId).Success?
    requires forall l, m :: (l in st.links && m in st.links && l.provider == pu.provider && m.provider == pu.provider &&
      l.providerUserId == pu.userId && m.providerUserId == pu.userId) ==> l.userId == m.userId
    ensures var r := DisconnectProvider(engine, st, Success(pu), None);
      r.0 == NoContent(200) &&
      GetProviderUser(engine, r.1.users, r.1.links, pu.provider, pu.userId) == Failure(NotFound)
  {
    var found := GetProviderUser(engine, st.users, st.links, pu.provider, pu.userId).value;
    var after := DisconnectProviderAccount(st.links, pu.provider, found.id);
    var l0 :| l0 in st.links && l0.provider == pu.provider && l0.providerUserId == pu.userId && l0.userId == found.id;
    forall l | l in after
      ensures !(l.provider == pu.provider && l.providerUserId == pu.userId)
    {
      assert l in st.links && !(l.userId == found.id && l.provider == pu.provider);
    }
  }
}

=== FILE: auth_providers.dfy ===
/**
 * The OAuth provider table: for each provider id the display name, and the
 * rule its factory applies to the provider's configuration before a goth
 * provider is built. Both copies of the table (the "/api/auth/callback/<id>"
 * one and the older "/auth/<id>/callback" one) apply the same rules; only
 * the callback URL differs.
 *
 * A factory's answer is modelled as which constructor it picks and with
 * which configured values, not as a provider object.
 */
module AuthProviders {
  import opened Wrappers
  import opened Strs
  import opened Numbers

  /** Which copy of the table: the current routes or the older OAuth ones. */
  datatype Api = AuthRoutes | OAuthRoutes

  /** The URL the provider sends the user back to. */
  function CallbackURL(api: Api, publicURL: string, name: string): string {
    match api
    case AuthRoutes => publicURL + "/api/auth/callback/" + name
    case OAuthRoutes => publicURL + "/auth/" + name + "/callback"
  }

  /** A configured provider: its id, client key and secret, and the other
    * configured keys. */
  datatype AuthProvider = AuthProvider(id: string, key: string, secret: string, details: map<string, string>)

  /** A configured value; a missing key reads as "". */
  function Detail(p: AuthProvider, k: string): (v: string)
    ensures k !in p.details ==> v == ""
  {
    if k in p.details then p.details[k] else ""
  }

  /** The configured values of `keys`, in order. */
  function Values(p: AuthProvider, keys: seq<string>): (vs: seq<string>)
    ensures |vs| == |keys| && forall i :: 0 <= i < |keys| ==> vs[i] == Detail(p, keys[i])
  {
    seq(|keys|, i requires 0 <= i < |keys| => Detail(p, keys[i]))
  }

  predicate AllSet(vs: seq<string>) {
    forall i :: 0 <= i < |vs| ==> vs[i] != ""
  }

  predicate AnySet(vs: seq<string>) {
    exists i :: 0 <= i < |vs| && vs[i] != ""
  }

  /** What a factory builds: the provider's plain constructor, its
    * customised-URL constructor, the "authenticate" variant (tumblr,
    * twitter), each with the callback URL and the configured values it is
    * given, or an error. */
  datatype Outcome =
    | Default(callback: string, values: seq<string>)
    | Customised(callback: string, values: seq<string>)
    | Authenticate(callback: string)
    | Error(msg: string)

  /** The configuration rule of one provider. */
  datatype Rule =
    | Plain                                   // key and secret only
    | Required(key: string, msg: string)      // one key must be set
    | Optional(key: string)                   // customised when the key is set
    | AllOrNothing(keys: seq<string>, msg: string)
    | Precedence(single: string, keys: seq<string>, singleCustomised: bool, msg: string)
    | Lang                                    // wechat: a language, "cn" by default
    | UseAuthorize(msg: string)               // tumblr, twitter
    | OpenIDConnect

  /** The language wechat falls back to (the library's WECHAT_LANG_CN). */
  const WechatLangCN := "cn"

  /** The id under which an OpenID Connect provider is called back. */
  function RealName(name: string): (r: string)
    ensures r != ""
  {
    if name != "" then Lower(name) + "-oidc" else "openid-connect"
  }

  const OidcMissing := "missing auto_discovery_url or auth_url, token_url, issuer_url, user_info_url, or end_session_endpoint for openid-connect provider with name "
  const OidcKeys: seq<string> := ["auth_url", "token_url", "issuer_url", "user_info_url", "end_session_endpoint"]

  /** A factory applying `rule`. `libraryError` is the error the OpenID
    * Connect constructors report (the discovery document cannot be fetched,
    * say); the other constructors do not fail. */
  function Apply(api: Api, publicURL: string, p: AuthProvider, rule: Rule, libraryError: Option<string>): (r: Outcome)
    ensures rule != OpenIDConnect && !r.Error? ==> r.callback == CallbackURL(api, publicURL, p.id)
  {
    var cb := CallbackURL(api, publicURL, p.id);
    match rule
    case Plain => Default(cb, [])
    case Required(key, msg) =>
      var v := Detail(p, key);
      if v == "" then Error(msg) else Default(cb, [v])
    case Optional(key) =>
      var v := Detail(p, key);
      if v != "" then Customised(cb, [v]) else Default(cb, [])
    case AllOrNothing(keys, msg) =>
      var vs := Values(p, keys);
      if AnySet(vs) then
        if AllSet(vs) then Customised(cb, vs) else Error(msg)
      else Default(cb, [])
    case Precedence(single, keys, singleCustomised, msg) =>
      var v := Detail(p, single);
      if v != "" then
        if singleCustomised then Customised(cb, [v]) else Default(cb, [v])
      else
        var vs := Values(p, keys);
        if AllSet(vs) then Customised(cb, vs) else Error(msg)
    case Lang =>
      var lang := Detail(p, "lang");
      Default(cb, [if lang == "" then WechatLangCN else lang])
    case UseAuthorize(msg) =>
      var s := Detail(p, "use_authorize");
      if s == "" then Authenticate(cb)
      else if ParseBool(s).Failure? then Error(msg)
      else if ParseBool(s).value then Default(cb, [])
      else Authenticate(cb)
    case OpenIDConnect =>
      var name := Detail(p, "name");
      var oidcCb := CallbackURL(api, publicURL, RealName(name));
      var discovery := Detail(p, "auto_discovery_url");
      if discovery != "" then
        if libraryError.Some? then Error(libraryError.value) else Default(oidcCb, [name, discovery])
      else
        var vs := Values(p, OidcKeys);
        if !AllSet(vs) then Error(OidcMissing + name)
        else if libraryError.Some? then Error(libraryError.value)
        else Customised(oidcCb, [RealName(name)] + vs)
  }

  /** The factories RegisterBuiltInProviders registers, by provider id. */
  const Rules: map<string, Rule> := map[
    "amazon" := Plain,
    "apple" := Plain,
    "auth0" := Required("domain", "missing domain for auth0 provider"),
    "azuread" := Plain,
    "battlenet" := Plain,
    "bitbucket" := Plain,
    "bitly" := Plain,
    "box" := Plain,
    "classlink" := Plain,
    "cloudfoundry" := Required("auth_url", "missing auth_url for cloudfoundry provider"),
    "cognito" := Precedence("base_url", ["auth_url", "token_url", "issuer_url", "profile_url"], false,
      "missing base_url or auth_url, token_url, issuer_url, or profile_url for cognito provider"),
    "dailymotion" := Plain,
    "deezer" := Plain,
    "digitalocean" := Plain,
    "discord" := Plain,
    "dropbox" := Plain,
    "eveonline" := Plain,
    "facebook" := Plain,
    "fitbit" := Plain,
    "gitea" := AllOrNothing(["auth_url", "token_url", "profile_url"],
      "missing auth_url, token_url, or profile_url for gitea provider"),
    "github" := AllOrNothing(["auth_url", "token_url", "profile_url", "email_url"],
      "missing auth_url, token_url, profile_url, or email_url for github provider"),
    "gitlab" := AllOrNothing(["auth_url", "token_url", "profile_url"],
      "missing auth_url, token_url, or profile_url for gitlab provider"),
    "google" := Plain,
    "heroku" := Plain,
    "hubspot" := Plain,
    "influxcloud" := AllOrNothing(["auth_url", "token_url", "user_api_endpoint"],
      "missing auth_url, token_url, or user_api_endpoint for influxcloud provider"),
    "instagram" := Plain,
    "intercom" := Plain,
    "kakao" := Plain,
    "lark" := Plain,
    "lastfm" := Plain,
    "line" := Plain,
    "linkedin" := Plain,
    "mastodon" := Optional("instance_url"),
    "meetup" := Plain,
    "microsoftonline" := Plain,
    "naver" := Plain,
    "nextcloud" := Precedence("nextcloud_url", ["auth_url", "token_url", "profile_url"], true,
      "missing nextcloud_url or auth_url, token_url, or profile_url for nextcloud provider"),
    "okta" := Precedence("org_url", ["auth_url", "token_url", "issuer_url", "profile_url"], false,
      "missing org_url or auth_url, token_url, issuer_url, or profile_url for okta provider"),
    "onedrive" := Plain,
    "openid-connect" := OpenIDConnect,
    "oura" := Plain,
    "patreon" := AllOrNothing(["auth_url", "token_url", "profile_url"],
      "missing auth_url, token_url, or profile_url for patreon provider"),
    "paypal" := AllOrNothing(["auth_url", "token_url", "profile_url"],
      "missing auth_url, token_url, or profile_url for paypal provider"),
    "salesforce" := Plain,
    "seatalk" := Plain,
    "shopify" := Plain,
    "slack" := Plain,
    "soundcloud" := Plain,
    "spotify" := Plain,
    "steam" := Plain,
    "strava" := Plain,
    "stripe" := Plain,
    "tiktok" := Plain,
    "tumblr" := UseAuthorize("invalid use_authorize value for tumblr provider"),
    "twitch" := Plain,
    "twitter" := UseAuthorize("invalid use_authorize value for twitter provider"),
    "uber" := Plain,
    "vk" := Plain,
    "wechat" := Lang,
    "wecom" := Required("agent_id", "missing agent_id for wecom provider"),
    "wepay" := Plain,
    "xero" := Plain,
    "yahoo" := Plain,
    "yammer" := Plain,
    "yandex" := Plain,
    "zoom" := Plain
  ]

  /** The display names, by provider id. */
  const ProviderNames: map<string, string> := map[
    "amazon" := "Amazon",
    "apple" := "Apple",
    "auth0" := "Auth0",
    "azuread" := "Azure AD",
    "battlenet" := "Battle.net",
    "bitbucket" := "Bitbucket",
    "bitly" := "Bitly",
    "box" := "Box",
    "classlink" := "ClassLink",
    "cloudfoundry" := "Cloud Foundry",
    "cognito" := "Cognito",
    "dailymotion" := "Dailymotion",
    "deezer" := "Deezer",
    "digitalocean" := "DigitalOcean",
    "discord" := "Discord",
    "dropbox" := "Dropbox",
    "eveonline" := "Eve Online",
    "facebook" := "Facebook",
    "fitbit" := "Fitbit",
    "gitea" := "Gitea",
    "github" := "GitHub",
    "gitlab" := "Gitlab",
    "google" := "Google",
    "heroku" := "Heroku",
    "hubspot" := "HubSpot",
    "influxcloud" := "InfluxCloud",
    "instagram" := "Instagram",
    "intercom" := "Intercom",
    "kakao" := "Kakao",
    "lark" := "Lark",
    "lastfm" := "Last.fm",
    "line" := "LINE",
    "linkedin" := "LinkedIn",
    "mastodon" := "Mastodon",
    "meetup" := "Meetup",
    "microsoftonline" := "Microsoft",
    "naver" := "Naver",
    "nextcloud" := "Nextcloud",
    "okta" := "Okta",
    "onedrive" := "OneDrive",
    "openid-connect" := "OpenID Connect",
    "oura" := "Oura",
    "patreon" := "Patreon",
    "paypal" := "PayPal",
    "salesforce" := "Salesforce",
    "seatalk" := "SeaTalk",
    "shopify" := "Shopify",
    "slack" := "Slack",
    "soundcloud" := "SoundCloud",
    "spotify" := "Spotify",
    "steam" := "Steam",
    "strava" := "Strava",
    "stripe" := "Stripe",
    "tiktok" := "TikTok",
    "tumblr" := "Tumblr",
    "twitch" := "Twitch",
    "twitter" := "Twitter",
    "uber" := "Uber",
    "vk" := "VK",
    "wechat" := "WeChat",
    "wecom" := "WeCom",
    "wepay" := "WePay",
    "xero" := "Xero",
    "yahoo" := "Yahoo",
    "yammer" := "Yammer",
    "yandex" := "Yandex",
    "zoom" := "Zoom"
  ]

  /** Name / GetName: the display name, "" for an unknown id. */
  function Name(id: string): (r: string)
    ensures id !in ProviderNames ==> r == ""
    ensures id in ProviderNames ==> r == ProviderNames[id]
  {
    if id in ProviderNames then ProviderNames[id] else ""
  }

  /** The factory registered for the provider's id, applied to it. */
  function Factory(api: Api, publicURL: string, p: AuthProvider, libraryError: Option<string>): (r: Outcome)
    requires p.id in Rules
    ensures Rules[p.id] != OpenIDConnect && !r.Error? ==> r.callback == CallbackURL(api, publicURL, p.id)
  {
    Apply(api, publicURL, p, Rules[p.id], libraryError)
  }

  /** What GothProvider / GetProvider hands back. */
  datatype Lookup = Registered(id: string) | Built(outcome: Outcome) | Unsupported(msg: string)

  /** GothProvider / GetProvider: a provider goth already holds under the
    * id, else the registered factory's result, else an error. */
  function GothProvider(api: Api, publicURL: string, p: AuthProvider, registered: set<string>,
                        libraryError: Option<string>): (r: Lookup)
    ensures r.Unsupported? <==> p.id !in registered && p.id !in Rules
    ensures r.Unsupported? ==> r.msg == "unsupported provider: " + p.id
    ensures r.Built? ==> (p.id !in registered && p.id in Rules &&
      r.outcome == Apply(api, publicURL, p, Rules[p.id], libraryError))
  {
    if p.id in registered then Registered(p.id)
    else if p.id in Rules then Built(Factory(api, publicURL, p, libraryError))
    else Unsupported("unsupported provider: " + p.id)
  }

  /** A required key: the factory fails exactly when it is missing or
    * empty, and otherwise gets its value. */
  lemma RequiredCases(api: Api, publicURL: string, p: AuthProvider, key: string, msg: string, lib: Option<string>)
    ensures var r := Apply(api, publicURL, p, Required(key, msg), lib);
      && (r == Error(msg) <==> Detail(p, key) == "")
      && (Detail(p, key) != "" ==> r == Default(CallbackURL(api, publicURL, p.id), [p.details[key]]))
  {
  }

  /** All-or-nothing keys: none set gives the plain constructor, all set
    * the customised one with the values in order, some but not all an
    * error. */
  lemma AllOrNothingCases(api: Api, publicURL: string, p: AuthProvider, keys: seq<string>, msg: string, lib: Option<string>)
    ensures var r := Apply(api, publicURL, p, AllOrNothing(keys, msg), lib);
      && (r == Default(CallbackURL(api, publicURL, p.id), []) <==> forall i :: 0 <= i < |keys| ==> Detail(p, keys[i]) == "")
      && (r.Customised? <==> |keys| > 0 && forall i :: 0 <= i < |keys| ==> Detail(p, keys[i]) != "")
      && (r == Error(msg) <==> exists i, j :: 0 <= i < |keys| && 0 <= j < |keys| && Detail(p, keys[i]) == "" && Detail(p, keys[j]) != "")
      && (r.Customised? ==> r.values == Values(p, keys))
  {
    var vs := Values(p, keys);
    if |keys| > 0 && AllSet(vs) {
      assert vs[0] != "";
    }
  }

  /** A precedence key wins over the full key set; without it every key of
    * the set is required. */
  lemma PrecedenceCases(api: Api, publicURL: string, p: AuthProvider, single: string, keys: seq<string>,
                        singleCustomised: bool, msg: string, lib: Option<string>)
    ensures var r := Apply(api, publicURL, p, Precedence(single, keys, singleCustomised, msg), lib);
      var cb := CallbackURL(api, publicURL, p.id);
      && (Detail(p, single) != "" ==>
            r == (if singleCustomised then Customised(cb, [Detail(p, single)]) else Default(cb, [Detail(p, single)])))
      && (Detail(p, single) == "" ==>
            (r == Customised(cb, Values(p, keys)) <==> forall i :: 0 <= i < |keys| ==> Detail(p, keys[i]) != ""))
      && (r == Error(msg) <==> Detail(p, single) == "" && exists i :: 0 <= i < |keys| && Detail(p, keys[i]) == "")
  {
  }

  /** use_authorize: absent, empty or false gives the authenticate
    * variant, true the authorize one, anything strconv.ParseBool rejects
    * an error. */
  lemma UseAuthorizeCases(api: Api, publicURL: string, p: AuthProvider, msg: string, lib: Option<string>)
    ensures var r := Apply(api, publicURL, p, UseAuthorize(msg), lib);
      var s := Detail(p, "use_authorize");
      && (r == Authenticate(CallbackURL(api, publicURL, p.id)) <==> s == "" || ParseBool(s) == Success(false))
      && (r == Default(CallbackURL(api, publicURL, p.id), []) <==> ParseBool(s) == Success(true))
      && (r == Error(msg) <==> s != "" && ParseBool(s).Failure?)
  {
    assert ParseBool("").Failure?;
  }

  /** The configuration gives `rule` what it needs: the required key, all
    * or none of the custom-URL keys, the precedence key or the full key set,
    * a boolean use_authorize if any, the discovery URL or every endpoint. */
  predicate Complete(p: AuthProvider, rule: Rule) {
    match rule
    case Required(key, _) => Detail(p, key) != ""
    case AllOrNothing(keys, _) => AllSet(Values(p, keys)) || !AnySet(Values(p, keys))
    case Precedence(single, keys, _, _) => Detail(p, single) != "" || AllSet(Values(p, keys))
    case UseAuthorize(_) => Detail(p, "use_authorize") == "" || ParseBool(Detail(p, "use_authorize")).Success?
    case OpenIDConnect => Detail(p, "auto_discovery_url") != "" || AllSet(Values(p, OidcKeys))
    case _ => true
  }

  /** A factory fails exactly when the configuration is incomplete for its
    * rule, or when the OpenID Connect library reports an error. */
  lemma ApplyFailsIff(api: Api, publicURL: string, p: AuthProvider, rule: Rule, lib: Option<string>)
    ensures Apply(api, publicURL, p, rule, lib).Error? <==>
      !Complete(p, rule) || (rule == OpenIDConnect && lib.Some?)
  {
    match rule
    case AllOrNothing(keys, msg) =>
      AllOrNothingCases(api, publicURL, p, keys, msg, lib);
      var vs := Values(p, keys);
      if AnySet(vs) && !AllSet(vs) {
        var i :| 0 <= i < |vs| && vs[i] != "";
        var j :| 0 <= j < |vs| && vs[j] == "";
        assert Detail(p, keys[j]) == "" && Detail(p, keys[i]) != "";
      }
    case _ =>
  }

  /** End to end: a provider the library does not already hold is looked up
    * and built, and the build fails exactly when its configuration is
    * incomplete or the OpenID Connect library fails, so a provider missing
    * what its rule requires is never built. */
  lemma IncompleteNeverBuilt(api: Api, publicURL: string, p: AuthProvider, registered: set<string>,
                             lib: Option<string>)
    requires p.id !in registered && p.id in Rules
    ensures var r := GothProvider(api, publicURL, p, registered, lib);
      r.Built? && (r.outcome.Error? <==> !Complete(p, Rules[p.id]) || (Rules[p.id] == OpenIDConnect && lib.Some?))
  {
    ApplyFailsIff(api, publicURL, p, Rules[p.id], lib);
  }

  /** wechat always gets a language: the configured one, or "cn" when none
    * is configured. */
  lemma WechatLang(api: Api, publicURL: string, p: AuthProvider, lib: Option<string>)
    requires p.id == "wechat"
    ensures var r := Factory(api, publicURL, p, lib);
      r.Default? && |r.values| == 1 && r.values[0] != "" &&
      (r.values[0] == Detail(p, "lang") <==> Detail(p, "lang") != "")
  {
    assert Rules[p.id] == Lang;
  }

  /** The OpenID Connect provider is called back under its real name:
    * "openid-connect" without a configured name, the lower-cased name with
    * "-oidc" otherwise; names equal up to case share the callback. */
  lemma OidcCallback(api: Api, publicURL: string, p: AuthProvider, q: AuthProvider, lib: Option<string>)
    requires Lower(Detail(p, "name")) == Lower(Detail(q, "name"))
    requires Detail(p, "auto_discovery_url") == Detail(q, "auto_discovery_url")
    requires Values(p, OidcKeys) == Values(q, OidcKeys)
    ensures var r := Apply(api, publicURL, p, OpenIDConnect, lib);
      !r.Error? ==> r.callback == CallbackURL(api, publicURL, RealName(Detail(p, "name")))
    ensures var r := Apply(api, publicURL, p, OpenIDConnect, lib);
      var s := Apply(api, publicURL, q, OpenIDConnect, lib);
      r.Error? == s.Error? && (!r.Error? ==> r.callback == s.callback)
  {
    var a := Detail(p, "name");
    var b := Detail(q, "name");
    assert |Lower(a)| == |a| && |Lower(b)| == |b|;
  }

  /** The discovery document wins; without it all five endpoints are
    * required, and the error names the configured name. */
  lemma OidcConfiguration(api: Api, publicURL: string, p: AuthProvider)
    ensures var r := Apply(api, publicURL, p, OpenIDConnect, None);
      && (Detail(p, "auto_discovery_url") != "" ==> r.Default? && r.values == [Detail(p, "name"), Detail(p, "auto_discovery_url")])
      && (r.Customised? <==> Detail(p, "auto_discovery_url") == "" && AllSet(Values(p, OidcKeys)))
      && (r == Error(OidcMissing + Detail(p, "name")) <==> Detail(p, "auto_discovery_url") == "" && !AllSet(Values(p, OidcKeys)))
  {
  }
}

=== FILE: char_filter.dfy ===
/**
 * Deleting every copy of one character from a text: what joining the
 * pieces of a one-character split and replacing a one-character pattern
 * by nothing both come to.
 */
module CharFilter {
  /** `s` with every `c` deleted. */
  function Without(s: string, c: char): (r: string)
    ensures c !in r
    decreases |s|
  {
    if |s| == 0 then "" else (if s[0] == c then "" else [s[0]]) + Without(s[1..], c)
  }

  /** A text without `c` is left as it is. */
  lemma {:induction false} WithoutAbsent(s: string, c: char)
    requires c !in s
    ensures Without(s, c) == s
    decreases |s|
  {
    if |s| > 0 {
      WithoutAbsent(s[1..], c);
      assert s == [s[0]] + s[1..];
    }
  }

  /** Deletion distributes over concatenation. */
  lemma {:induction false} WithoutConcat(a: string, b: string, c: char)
    ensures Without(a + b, c) == Without(a, c) + Without(b, c)
    decreases |a|
  {
    if |a| == 0 {
      assert a + b == b;
    } else {
      var h := if a[0] == c then "" else [a[0]];
      assert Without(a + b, c) == h + Without(a[1..] + b, c) by {
        assert (a + b)[1..] == a[1..] + b;
        assert (a + b)[0] == a[0];
      }
      WithoutConcat(a[1..], b, c);
      var x, y := Without(a[1..], c), Without(b, c);
      assert h + (x + y) == (h + x) + y;
    }
  }

  /** Every character left after deleting `c` was in `s`. */
  lemma {:induction false} WithoutChars(s: string, c: char, d: char)
    requires d in Without(s, c)
    ensures d in s && d != c
    decreases |s|
  {
    if |s| > 0 && d !in (if s[0] == c then "" else [s[0]]) {
      WithoutChars(s[1..], c, d);
    }
  }
}

=== FILE: config_params.dfy ===
/**
 * The two pieces of configuration loading that are pure logic: the
 * normalisation of the PostgreSQL connection `Params` string, and the decode
 * hook that turns configuration strings into durations and byte sizes.
 */
module Config {
  import opened Wrappers
  import opened Strs
  import opened Numbers
  import Durations

  /** LoadConfig's rule for database.postgresql.params: a non-blank value is
    * made to start with "?". */
  function NormalizeParams(p: string): (r: string)
    ensures IsBlank(p) ==> r == p
    ensures !IsBlank(p) ==> HasPrefix(r, "?")
    ensures r == p || r == "?" + p
  {
    if !IsBlank(p) && !HasPrefix(p, "?") then "?" + p else p
  }

  /** Normalising twice is normalising once. */
  lemma NormalizeParamsIdempotent(p: string)
    ensures NormalizeParams(NormalizeParams(p)) == NormalizeParams(p)
  {
    var r := NormalizeParams(p);
    if !IsBlank(p) {
      assert r[0] == '?';
      assert !IsSpace(r[0]);
    }
  }

  /** A value is changed exactly when it is non-blank and lacks the "?". */
  lemma NormalizeParamsChanges(p: string)
    ensures NormalizeParams(p) != p <==> !IsBlank(p) && !HasPrefix(p, "?")
    ensures NormalizeParams(p) != p ==> NormalizeParams(p) == "?" + p
  {
    if !IsBlank(p) && !HasPrefix(p, "?") {
      assert |"?" + p| != |p|;
    }
  }

  /** The reflect kinds the hook distinguishes. time.Duration has kind Int64
    * and datasize.ByteSize has kind Uint64. */
  datatype Kind = StringKind | Int64Kind | Uint64Kind | OtherKind

  /** A configuration value on its way into the Config struct. */
  datatype Value = Text(s: string) | Nanos(n: int) | Bytes(b: nat) | Opaque(tag: nat)

  datatype HookError = BadDuration(d: Durations.DurationError) | BadSize(msg: string)

  /** The kind a value arrives with. */
  function KindOf(v: Value): Kind {
    match v
    case Text(_) => StringKind
    case Nanos(_) => Int64Kind
    case Bytes(_) => Uint64Kind
    case Opaque(_) => OtherKind
  }

  /**
   * The decode hook of unmarshalConfig. `order` is the iteration order of
   * ParseDuration's unit table and `parseSize` stands for datasize.ParseString.
   * The tests compare kinds, so every string decoded into any int64-kind field
   * goes through the duration parser, and into any uint64-kind field through
   * the size parser.
   */
  function DecodeHook(to: Kind, data: Value, order: string, parseSize: string -> Result<nat, string>): (r: Result<Value, HookError>)
    requires Durations.UnitOrder(order)
    ensures r.Failure? ==> data.Text? && (to == Int64Kind || to == Uint64Kind)
    ensures !data.Text? || (to != Int64Kind && to != Uint64Kind) ==> r == Success(data)
    ensures r.Success? && data.Text? && to == Int64Kind ==> r.value.Nanos? && InInt64(r.value.n)
    ensures r.Success? && data.Text? && to == Uint64Kind ==> r.value.Bytes?
  {
    if KindOf(data) == StringKind && to == Int64Kind then
      match Durations.ParseHumanDuration(data.s, order)
      case Success(n) => Success(Nanos(n))
      case Failure(e) => Failure(BadDuration(e))
    else if KindOf(data) == StringKind && to == Uint64Kind then
      match parseSize(data.s)
      case Success(b) => Success(Bytes(b))
      case Failure(m) => Failure(BadSize(m))
    else Success(data)
  }

  /** A duration string decodes exactly as ParseHumanDuration reads it. */
  lemma DecodeDuration(s: string, order: string, parseSize: string -> Result<nat, string>)
    requires Durations.UnitOrder(order)
    ensures DecodeHook(Int64Kind, Text(s), order, parseSize).Success?
      <==> Durations.ParseHumanDuration(s, order).Success?
    ensures Durations.ParseHumanDuration(s, order).Success? ==>
      DecodeHook(Int64Kind, Text(s), order, parseSize) == Success(Nanos(Durations.ParseHumanDuration(s, order).value))
  {
  }

  /** A "minutes:seconds" configuration string decodes to that many
    * nanoseconds. */
  lemma DecodeClock(a: string, x: nat, b: string, y: nat, order: string, parseSize: string -> Result<nat, string>)
    requires |a| > 0 && AllDigits(a) && DigitsValue(a) == x && x * Durations.Minute <= MaxInt64
    requires |b| > 0 && AllDigits(b) && DigitsValue(b) == y && y * Durations.Second <= MaxInt64
    requires Durations.UnitOrder(order)
    ensures DecodeHook(Int64Kind, Text(a + ":" + b), order, parseSize)
      == Success(Nanos(Wrap64(x * Durations.Minute + y * Durations.Second)))
  {
    Durations.MinutesSeconds(a, x, b, y, order);
  }
}

=== FILE: durations.dfy ===
/**
 * Human-readable durations from the configuration file ("1h30m", "2 days",
 * "1:30", "90"). Durations are Go time.Duration values: signed 64-bit
 * nanosecond counts, with Go's wrap-around on multiplication, addition and
 * negation.
 *
 * Go's ParseDuration walks its unit table (d, D, w, W) in map-iteration
 * order, which Go leaves unspecified; the order is a parameter here, and
 * ParseDurationOrderIndependent shows the result does not depend on it.
 */
module Durations {
  import opened Wrappers
  import opened Strs
  import opened Numbers

  const Nanosecond: nat := 1
  const Microsecond: nat := 1000 * Nanosecond
  const Millisecond: nat := 1000 * Microsecond
  const Second: nat := 1000 * Millisecond
  const Minute: nat := 60 * Second
  const Hour: nat := 60 * Minute

  datatype DurationError =
    | Invalid     // a chunk time.ParseDuration rejects
    | Fractional  // a decimal point: fractional components are not modelled

  /** The units time.ParseDuration accepts, in nanoseconds. */
  function GoUnit(u: string): Option<nat> {
    if u == "ns" then Some(Nanosecond)
    else if u == "us" || u == "µs" || u == "μs" then Some(Microsecond)
    else if u == "ms" then Some(Millisecond)
    else if u == "s" then Some(Second)
    else if u == "m" then Some(Minute)
    else if u == "h" then Some(Hour)
    else None
  }

  /** The three units ParseHumanDuration appends itself. */
  lemma ClockUnits()
    ensures GoUnit("h") == Some(Hour) && GoUnit("m") == Some(Minute) && GoUnit("s") == Some(Second)
  {
  }

  /** The day and week letters of ParseDuration's own unit table. */
  const UnitLetters: string := "dDwW"

  function LetterHours(u: char): nat {
    if u == 'd' || u == 'D' then 24 else 7 * 24
  }

  /** A possible iteration order of the unit table. */
  predicate UnitOrder(order: string) {
    |order| == 4 && multiset(order) == multiset(UnitLetters)
  }

  predicate IsUnitLetter(c: char) {
    c == 'd' || c == 'D' || c == 'w' || c == 'W'
  }

  /** Every entry of an iteration order is a day or week letter. */
  lemma OrderLetters(order: string)
    requires UnitOrder(order)
    ensures forall u :: u in order ==> IsUnitLetter(u)
  {
    forall u | u in order
      ensures IsUnitLetter(u)
    {
      assert u in multiset(order);
      assert u in multiset(UnitLetters);
    }
  }

  /** No Go unit contains a day or week letter. */
  lemma GoUnitNoLetter(unit: string)
    requires GoUnit(unit).Some?
    ensures forall u :: u in unit ==> !IsUnitLetter(u)
  {
  }

  predicate NoDigits(s: string) {
    forall i :: 0 <= i < |s| ==> !IsDigit(s[i])
  }

  /** One match of the pattern (\d+)[^\d]*: a digit run and the non-digits after it. */
  datatype Chunk = Chunk(digits: string, unit: string)

  predicate WellFormed(c: Chunk) {
    |c.digits| > 0 && AllDigits(c.digits) && NoDigits(c.unit)
  }

  function DigitRun(s: string): (n: nat)
    ensures n <= |s| && AllDigits(s[..n])
    ensures n < |s| ==> !IsDigit(s[n])
    decreases |s|
  {
    if |s| == 0 || !IsDigit(s[0]) then 0
    else
      var n := 1 + DigitRun(s[1..]);
      assert s[..n] == [s[0]] + s[1..][..n - 1];
      n
  }

  function NonDigitRun(s: string): (n: nat)
    ensures n <= |s| && NoDigits(s[..n])
    ensures n < |s| ==> IsDigit(s[n])
    decreases |s|
  {
    if |s| == 0 || IsDigit(s[0]) then 0
    else
      var n := 1 + NonDigitRun(s[1..]);
      assert s[..n] == [s[0]] + s[1..][..n - 1];
      n
  }

  /** regexp FindAllString for (\d+)[^\d]* on text without a decimal point:
    * leading non-digits are skipped, then each digit run takes the
    * non-digits after it. */
  function Chunks(s: string): (r: seq<Chunk>)
    ensures forall i :: 0 <= i < |r| ==> WellFormed(r[i])
    decreases |s|
  {
    if |s| == 0 then []
    else if !IsDigit(s[0]) then Chunks(s[1..])
    else
      var d := DigitRun(s);
      var t := NonDigitRun(s[d..]);
      assert s[d..][..t] == s[d..d + t];
      [Chunk(s[..d], s[d..d + t])] + Chunks(s[d + t..])
  }

  /** The first letter of the unit table, in iteration order, present in the unit. */
  function FirstLetter(unit: string, order: string): (r: Option<char>)
    ensures r.Some? ==> r.value in order && r.value in unit
    ensures r.None? ==> forall u :: u in order ==> u !in unit
  {
    if |order| == 0 then None
    else if order[0] in unit then Some(order[0])
    else FirstLetter(unit, order[1..])
  }

  /**
   * One iteration of ParseDuration's loop: a day or week letter becomes "h"
   * and sets the multiplier, then time.ParseDuration reads the chunk. The
   * result is the chunk's time.Duration and the multiplier, still unmultiplied.
   */
  function ChunkDuration(c: Chunk, order: string): (r: Result<(int, nat), DurationError>)
    requires WellFormed(c)
    ensures r.Success? ==> 0 <= r.value.0 <= MaxInt64 && r.value.1 in {1, 24, 168}
    ensures r.Failure? ==> r.error == Invalid
  {
    var (unit, hours) := match FirstLetter(c.unit, order)
      case Some(u) => (MapChar(c.unit, u, 'h'), LetterHours(u))
      case None => (c.unit, 1);
    if unit == "" then
      if c.digits == "0" then Success((0, hours)) else Failure(Invalid)
    else match GoUnit(unit)
      case None => Failure(Invalid)
      case Some(ns) =>
        var v := DigitsValue(c.digits) * ns;
        if v <= MaxInt64 then Success((v, hours)) else Failure(Invalid)
  }

  /** What time.ParseDuration and the multiplier made of one chunk. */
  type Reading = Result<(int, nat), DurationError>

  /** Every chunk read on its own. */
  function ReadChunks(chunks: seq<Chunk>, order: string): (r: seq<Reading>)
    requires forall i :: 0 <= i < |chunks| ==> WellFormed(chunks[i])
    ensures |r| == |chunks|
  {
    seq(|chunks|, i requires 0 <= i < |chunks| => ChunkDuration(chunks[i], order))
  }

  /** The loop of ParseDuration: sumDur += dur * hours in int64 arithmetic;
    * the first rejected chunk ends the call. */
  function Accumulate(readings: seq<Reading>, acc: int): (r: Result<int, DurationError>)
    ensures InInt64(acc) && r.Success? ==> InInt64(r.value)
    decreases |readings|
  {
    if |readings| == 0 then Success(acc)
    else if readings[0].Failure? then Failure(readings[0].error)
    else Accumulate(readings[1..], Wrap64(acc + Wrap64(Value(readings[0].value))))
  }

  /** dur * time.Duration(hours), before int64 wrap-around. */
  function Value(reading: (int, nat)): int {
    reading.0 * reading.1
  }

  /** The exact sum of the chunks' values, or None when a chunk is rejected:
    * the reference Accumulate is measured against. */
  function ExactTotal(readings: seq<Reading>): Option<int>
    decreases |readings|
  {
    if |readings| == 0 then Some(0)
    else if readings[0].Failure? then None
    else match ExactTotal(readings[1..])
      case None => None
      case Some(rest) => Some(Value(readings[0].value) + rest)
  }

  /** The int64 loop computes the exact total modulo 2^64, and fails exactly
    * when some chunk is rejected. */
  lemma {:induction false} AccumulateIsWrappedTotal(readings: seq<Reading>, acc: int)
    requires InInt64(acc)
    ensures ExactTotal(readings).None? <==> Accumulate(readings, acc).Failure?
    ensures ExactTotal(readings).Some? ==>
      Accumulate(readings, acc) == Success(Wrap64(acc + ExactTotal(readings).value))
    decreases |readings|
  {
    if |readings| > 0 && readings[0].Success? {
      var x := Value(readings[0].value);
      var next := Wrap64(acc + Wrap64(x));
      AccumulateIsWrappedTotal(readings[1..], next);
      var tail := ExactTotal(readings[1..]);
      if tail.Some? {
        WrapStep(acc, x, tail.value);
      }
    }
  }

  predicate Negative(s: string) {
    |s| > 0 && s[0] == '-'
  }

  /** The text after ParseDuration's optional leading "-". */
  function Magnitude(s: string): (r: string)
    ensures Negative(s) ==> s == "-" + r
    ensures !Negative(s) ==> r == s
  {
    if Negative(s) then s[1..] else s
  }

  /** The exact total exists exactly when every chunk was accepted. */
  lemma {:induction false} ExactTotalDefined(readings: seq<Reading>)
    ensures ExactTotal(readings).Some? <==> forall i :: 0 <= i < |readings| ==> readings[i].Success?
    decreases |readings|
  {
    if |readings| > 0 {
      ExactTotalDefined(readings[1..]);
      assert forall i :: 1 <= i < |readings| ==> readings[i] == readings[1..][i - 1];
    }
  }

  /** config.ParseDuration */
  function ParseDuration(s: string, order: string): (r: Result<int, DurationError>)
    ensures r.Success? ==> InInt64(r.value)
  {
    var neg := Negative(s);
    var body := Magnitude(s);
    if '.' in body then Failure(Fractional)
    else match Accumulate(ReadChunks(Chunks(body), order), 0)
      case Failure(e) => Failure(e)
      case Success(sum) => Success(if neg then Wrap64(-sum) else sum)
  }

  /** On text without a sign or decimal point ParseDuration is the int64 sum
    * of its chunks' readings. */
  lemma ParseDurationUnsigned(s: string, order: string)
    requires '.' !in s && (|s| == 0 || s[0] != '-')
    ensures ParseDuration(s, order) == Accumulate(ReadChunks(Chunks(s), order), 0)
  {
  }

  /** Without a decimal point, ParseDuration fails exactly when one of the
    * chunks is rejected. */
  lemma ParseDurationFailsIff(s: string, order: string)
    requires '.' !in Magnitude(s)
    ensures var rs := ReadChunks(Chunks(Magnitude(s)), order);
      ParseDuration(s, order).Failure? <==> exists i :: 0 <= i < |rs| && rs[i].Failure?
  {
    var rs := ReadChunks(Chunks(Magnitude(s)), order);
    AccumulateIsWrappedTotal(rs, 0);
    ExactTotalDefined(rs);
  }

  /** For text not starting with "-", a leading "-" negates the result
    * (in int64 arithmetic) and changes nothing else. */
  lemma ParseDurationNegate(x: string, order: string)
    requires |x| == 0 || x[0] != '-'
    ensures ParseDuration("-" + x, order).Success? <==> ParseDuration(x, order).Success?
    ensures ParseDuration(x, order).Success? ==>
      ParseDuration("-" + x, order).value == Wrap64(-ParseDuration(x, order).value)
  {
    assert ("-" + x)[1..] == x;
  }

  /** A text without digits or decimal points parses to zero: every
    * non-digit before the first digit is skipped. */
  lemma ChunksNoDigits(s: string)
    requires NoDigits(s)
    ensures Chunks(s) == []
    decreases |s|
  {
    if |s| > 0 {
      ChunksNoDigits(s[1..]);
    }
  }

  /** Chunks splits a digit run followed by a non-empty unit off the front. */
  lemma ChunksCons(d: string, u: string, rest: string)
    requires |d| > 0 && AllDigits(d) && |u| > 0 && NoDigits(u)
    requires |rest| == 0 || IsDigit(rest[0])
    ensures Chunks(d + u + rest) == [Chunk(d, u)] + Chunks(rest)
  {
    var s := d + u + rest;
    DigitRunPrefix(d, u + rest);
    assert s == d + (u + rest);
    assert s[|d|..] == u + rest;
    NonDigitRunPrefix(u, rest);
    assert s[..|d|] == d;
    assert s[|d|..|d| + |u|] == u;
    assert s[|d| + |u|..] == rest;
  }

  lemma {:induction false} DigitRunPrefix(d: string, t: string)
    requires AllDigits(d) && (|t| == 0 || !IsDigit(t[0]))
    ensures DigitRun(d + t) == |d|
    decreases |d|
  {
    if |d| > 0 {
      assert (d + t)[1..] == d[1..] + t;
      DigitRunPrefix(d[1..], t);
    } else {
      assert d + t == t;
    }
  }

  lemma {:induction false} NonDigitRunPrefix(u: string, t: string)
    requires NoDigits(u) && (|t| == 0 || IsDigit(t[0]))
    ensures NonDigitRun(u + t) == |u|
    decreases |u|
  {
    if |u| > 0 {
      assert (u + t)[1..] == u[1..] + t;
      NonDigitRunPrefix(u[1..], t);
    } else {
      assert u + t == t;
    }
  }

  /** d is a decimal rendering of x (leading zeros allowed), unit a Go unit
    * worth ns nanoseconds, and x units fit in int64. */
  predicate PlainChunkOf(d: string, unit: string, ns: nat, x: nat) {
    |d| > 0 && AllDigits(d) && DigitsValue(d) == x && GoUnit(unit) == Some(ns) && x * ns <= MaxInt64
  }

  /** The value of one "<digits><unit>" chunk with a plain Go unit. */
  lemma PlainChunk(d: string, unit: string, ns: nat, x: nat, order: string)
    requires PlainChunkOf(d, unit, ns, x) && UnitOrder(order)
    ensures WellFormed(Chunk(d, unit))
    ensures ChunkDuration(Chunk(d, unit), order) == Success((x * ns, 1))
  {
    assert NoDigits(unit);
    OrderLetters(order);
    GoUnitNoLetter(unit);
    assert FirstLetter(unit, order).None?;
  }

  /** ParseHumanDuration's rewrites, in the order they are applied. */
  function HumanReplacements(): seq<(string, string)> {
    [(",", ""), (" ", ""),
     ("weeks", "w"), ("week", "w"), ("days", "d"), ("day", "d"),
     ("hours", "h"), ("hour", "h"), ("minutes", "m"), ("minute", "m"),
     ("seconds", "s"), ("second", "s")]
  }

  predicate NonEmptyPatterns(table: seq<(string, string)>) {
    forall i :: 0 <= i < |table| ==> |table[i].0| > 0
  }

  /** The chain of strings.ReplaceAll calls, from entry k of the table on. */
  function ReplaceChain(s: string, table: seq<(string, string)>, k: nat): string
    requires NonEmptyPatterns(table) && k <= |table|
    decreases |table| - k
  {
    if k == |table| then s
    else ReplaceChain(ReplaceAll(s, table[k].0, table[k].1), table, k + 1)
  }

  /** Replacements that do not hold c bring no c back. */
  lemma {:induction false} ChainKeepsOut(s: string, table: seq<(string, string)>, k: nat, c: char)
    requires NonEmptyPatterns(table) && k <= |table|
    requires forall i :: k <= i < |table| ==> c !in table[i].1
    requires c !in s
    ensures c !in ReplaceChain(s, table, k)
    decreases |table| - k
  {
    if k < |table| {
      ReplaceAllKeepsOut(s, table[k].0, table[k].1, c);
      ChainKeepsOut(ReplaceAll(s, table[k].0, table[k].1), table, k + 1, c);
    }
  }

  /** An entry deleting every c, after which no entry brings c back,
    * leaves no c in the result. */
  lemma {:induction false} ChainDrops(s: string, table: seq<(string, string)>, j: nat, k: nat, c: char)
    requires NonEmptyPatterns(table) && j <= k < |table|
    requires table[k] == ([c], "")
    requires forall i :: k < i < |table| ==> c !in table[i].1
    ensures c !in ReplaceChain(s, table, j)
    decreases k - j
  {
    if j < k {
      ChainDrops(ReplaceAll(s, table[j].0, table[j].1), table, j + 1, k, c);
    } else {
      ReplaceAllRemoves(s, c, "");
      ChainKeepsOut(ReplaceAll(s, [c], ""), table, k + 1, c);
    }
  }

  /** The first two entries delete commas and spaces; the rest put in unit letters. */
  lemma ReplacementsShape()
    ensures NonEmptyPatterns(HumanReplacements()) && |HumanReplacements()| == 12
    ensures HumanReplacements()[0] == (",", "") && HumanReplacements()[1] == (" ", "")
    ensures forall i :: 1 <= i < |HumanReplacements()| ==>
      ',' !in HumanReplacements()[i].1 && ' ' !in HumanReplacements()[i].1
  {
    var table := HumanReplacements();
    forall i | 1 <= i < |table|
      ensures ',' !in table[i].1 && ' ' !in table[i].1
    {
      assert table[i].1 in ["", "w", "d", "h", "m", "s"];
    }
  }

  /** The word rewriting removes every comma and every space. */
  lemma HumanRewriteDropsSeparators(s: string)
    ensures ',' !in ReplaceChain(s, HumanReplacements(), 0)
    ensures ' ' !in ReplaceChain(s, HumanReplacements(), 0)
  {
    ReplacementsShape();
    ChainDrops(s, HumanReplacements(), 0, 0, ',');
    ChainDrops(s, HumanReplacements(), 0, 1, ' ');
  }

  /** config.ParseHumanDuration */
  function ParseHumanDuration(s: string, order: string): (r: Result<int, DurationError>)
    ensures r.Success? ==> InInt64(r.value)
  {
    if s == "" then ParseDuration("0s", order)
    else
      var split := Split(s, ":");
      if Contains(s, ":") && |split| == 2 then
        ParseDuration(split[0] + "m" + split[1] + "s", order)
      else if Contains(s, ":") && |split| == 3 then
        ParseDuration(split[0] + "h" + split[1] + "m" + split[2] + "s", order)
      else if Atoi(s).Failure? then
        ParseDuration(ReplaceChain(s, HumanReplacements(), 0), order)
      else
        ParseDuration(s + "s", order)
  }

  /** Sums of readings that all succeeded with multiplier 1. */
  lemma SumOne(v1: int)
    requires InInt64(v1)
    ensures Accumulate([Success((v1, 1))], 0) == Success(v1)
  {
    var rs: seq<Reading> := [Success((v1, 1))];
    assert rs[1..] == [];
  }

  lemma SumScaled(v: int, m: nat)
    ensures Accumulate([Success((v, m))], 0) == Success(Wrap64(v * m))
  {
    var rs: seq<Reading> := [Success((v, m))];
    assert rs[1..] == [];
    assert Value(rs[0].value) == v * m;
  }

  lemma SumTwo(v1: int, v2: int)
    ensures Accumulate([Success((v1, 1)), Success((v2, 1))], 0) == Success(Wrap64(v1 + v2))
  {
    var rs: seq<Reading> := [Success((v1, 1)), Success((v2, 1))];
    assert rs[1..] == [Success((v2, 1))];
    assert rs[1..][1..] == [];
    assert ExactTotal(rs[1..][1..]) == Some(0);
    assert ExactTotal(rs[1..]) == Some(v2);
    assert ExactTotal(rs) == Some(v1 + v2);
    AccumulateIsWrappedTotal(rs, 0);
  }

  lemma SumThree(v1: int, v2: int, v3: int)
    ensures Accumulate([Success((v1, 1)), Success((v2, 1)), Success((v3, 1))], 0) == Success(Wrap64(v1 + v2 + v3))
  {
    var rs: seq<Reading> := [Success((v1, 1)), Success((v2, 1)), Success((v3, 1))];
    assert rs[1..] == [Success((v2, 1)), Success((v3, 1))];
    assert rs[1..][1..] == [Success((v3, 1))];
    assert rs[1..][1..][1..] == [];
    assert ExactTotal(rs[1..][1..][1..]) == Some(0);
    assert ExactTotal(rs[1..][1..]) == Some(v3);
    assert ExactTotal(rs[1..]) == Some(v2 + v3);
    assert ExactTotal(rs) == Some(v1 + v2 + v3);
    AccumulateIsWrappedTotal(rs, 0);
  }

  lemma NoPoint(d: string)
    requires AllDigits(d)
    ensures '.' !in d && '-' !in d && ':' !in d
  {
  }

  lemma NoPointUnit(u: string)
    requires GoUnit(u).Some?
    ensures '.' !in u && |u| > 0 && NoDigits(u)
  {
  }

  /** The shape of a "<digits><Go unit>" chunk. */
  predicate PlainShape(d: string, unit: string) {
    |d| > 0 && AllDigits(d) && GoUnit(unit).Some?
  }

  lemma ChunksOne(a: string, ua: string)
    requires PlainShape(a, ua)
    ensures '.' !in a + ua && (a + ua)[0] != '-'
    ensures Chunks(a + ua) == [Chunk(a, ua)]
  {
    NoPoint(a);
    NoPointUnit(ua);
    assert a + ua == a + ua + "";
    ChunksCons(a, ua, "");
  }

  lemma ChunksTwo(a: string, ua: string, b: string, ub: string)
    requires PlainShape(a, ua) && PlainShape(b, ub)
    ensures '.' !in a + ua + b + ub && (a + ua + b + ub)[0] != '-'
    ensures Chunks(a + ua + b + ub) == [Chunk(a, ua), Chunk(b, ub)]
  {
    ChunksOne(b, ub);
    NoPoint(a);
    NoPointUnit(ua);
    assert a + ua + b + ub == a + ua + (b + ub);
    ChunksCons(a, ua, b + ub);
  }

  lemma ChunksThree(a: string, ua: string, b: string, ub: string, c: string, uc: string)
    requires PlainShape(a, ua) && PlainShape(b, ub) && PlainShape(c, uc)
    ensures '.' !in a + ua + b + ub + c + uc && (a + ua + b + ub + c + uc)[0] != '-'
    ensures Chunks(a + ua + b + ub + c + uc) == [Chunk(a, ua), Chunk(b, ub), Chunk(c, uc)]
  {
    var rest := b + ub + c + uc;
    ChunksTwo(b, ub, c, uc);
    NoPoint(a);
    NoPointUnit(ua);
    ConcatThree(a, ua, b, ub, c, uc);
    ChunksCons(a, ua, rest);
  }

  lemma ConcatThree(a: string, ua: string, b: string, ub: string, c: string, uc: string)
    ensures a + ua + b + ub + c + uc == a + ua + (b + ub + c + uc)
  {
  }

  // The lemmas below pass only variables to one another: a compound
  // argument would leave the solver to match it against the callee's
  // contract through arithmetic, which it does slowly.

  /** Plain chunks read as their values with multiplier 1. */
  lemma ReadOne(a: string, ua: string, na: nat, x: nat, order: string)
    requires PlainChunkOf(a, ua, na, x)
    requires UnitOrder(order)
    ensures ReadChunks([Chunk(a, ua)], order) == [Success((x * na, 1))]
  {
    PlainChunk(a, ua, na, x, order);
  }

  lemma ReadTwo(a: string, ua: string, na: nat, x: nat, b: string, ub: string, nb: nat, y: nat, order: string)
    requires PlainChunkOf(a, ua, na, x)
    requires PlainChunkOf(b, ub, nb, y)
    requires UnitOrder(order)
    ensures ReadChunks([Chunk(a, ua), Chunk(b, ub)], order) == [Success((x * na, 1)), Success((y * nb, 1))]
  {
    PlainChunk(a, ua, na, x, order);
    PlainChunk(b, ub, nb, y, order);
  }

  lemma ReadThree(a: string, ua: string, na: nat, x: nat, b: string, ub: string, nb: nat, y: nat,
                  c: string, uc: string, nc: nat, z: nat, order: string)
    requires PlainChunkOf(a, ua, na, x)
    requires PlainChunkOf(b, ub, nb, y)
    requires PlainChunkOf(c, uc, nc, z)
    requires UnitOrder(order)
    ensures ReadChunks([Chunk(a, ua), Chunk(b, ub), Chunk(c, uc)], order)
         == [Success((x * na, 1)), Success((y * nb, 1)), Success((z * nc, 1))]
  {
    PlainChunk(a, ua, na, x, order);
    PlainChunk(b, ub, nb, y, order);
    PlainChunk(c, uc, nc, z, order);
  }

  /** Unsigned text whose chunks read as plain values parses to their int64 sum. */
  lemma ParseOne(s: string, cs: seq<Chunk>, x: nat, na: nat, order: string)
    requires '.' !in s && (|s| == 0 || s[0] != '-') && x * na <= MaxInt64
    requires Chunks(s) == cs && ReadChunks(cs, order) == [Success((x * na, 1))]
    ensures ParseDuration(s, order) == Success(x * na)
  {
    SumOne(x * na);
    ParseDurationUnsigned(s, order);
  }

  lemma ParseTwo(s: string, cs: seq<Chunk>, x: nat, na: nat, y: nat, nb: nat, order: string)
    requires '.' !in s && (|s| == 0 || s[0] != '-')
    requires Chunks(s) == cs && ReadChunks(cs, order) == [Success((x * na, 1)), Success((y * nb, 1))]
    ensures ParseDuration(s, order) == Success(Wrap64(x * na + y * nb))
  {
    SumTwo(x * na, y * nb);
    ParseDurationUnsigned(s, order);
  }

  lemma ParseThree(s: string, cs: seq<Chunk>, x: nat, na: nat, y: nat, nb: nat, z: nat, nc: nat, order: string)
    requires '.' !in s && (|s| == 0 || s[0] != '-')
    requires Chunks(s) == cs
    requires ReadChunks(cs, order) == [Success((x * na, 1)), Success((y * nb, 1)), Success((z * nc, 1))]
    ensures ParseDuration(s, order) == Success(Wrap64(x * na + y * nb + z * nc))
  {
    SumThree(x * na, y * nb, z * nc);
    ParseDurationUnsigned(s, order);
  }

  /** One "<digits><unit>" text with a plain Go unit, a the decimal digits of x. */
  lemma OnePlainChunk(a: string, ua: string, na: nat, x: nat, order: string)
    requires PlainChunkOf(a, ua, na, x)
    requires UnitOrder(order)
    ensures ParseDuration(a + ua, order) == Success(x * na)
  {
    ChunksOne(a, ua);
    ReadOne(a, ua, na, x, order);
    ParseOne(a + ua, [Chunk(a, ua)], x, na, order);
  }

  /** Two chunks with plain Go units add up. */
  lemma TwoPlainChunks(a: string, ua: string, na: nat, x: nat,
                       b: string, ub: string, nb: nat, y: nat, order: string)
    requires PlainChunkOf(a, ua, na, x)
    requires PlainChunkOf(b, ub, nb, y)
    requires UnitOrder(order)
    ensures ParseDuration(a + ua + b + ub, order) == Success(Wrap64(x * na + y * nb))
  {
    ChunksTwo(a, ua, b, ub);
    ReadTwo(a, ua, na, x, b, ub, nb, y, order);
    ParseTwo(a + ua + b + ub, [Chunk(a, ua), Chunk(b, ub)], x, na, y, nb, order);
  }

  /** Three chunks with plain Go units add up. */
  lemma ThreePlainChunks(a: string, ua: string, na: nat, x: nat,
                         b: string, ub: string, nb: nat, y: nat,
                         c: string, uc: string, nc: nat, z: nat, order: string)
    requires PlainChunkOf(a, ua, na, x)
    requires PlainChunkOf(b, ub, nb, y)
    requires PlainChunkOf(c, uc, nc, z)
    requires UnitOrder(order)
    ensures ParseDuration(a + ua + b + ub + c + uc, order) == Success(Wrap64(x * na + y * nb + z * nc))
  {
    ChunksThree(a, ua, b, ub, c, uc);
    ReadThree(a, ua, na, x, b, ub, nb, y, c, uc, nc, z, order);
    ParseThree(a + ua + b + ub + c + uc, [Chunk(a, ua), Chunk(b, ub), Chunk(c, uc)], x, na, y, nb, z, nc, order);
  }

  /** The branch ParseHumanDuration takes for the empty text. */
  lemma HumanEmpty(order: string)
    ensures ParseHumanDuration("", order) == ParseDuration("0" + "s", order)
  {
    assert "0" + "s" == "0s";
  }

  /** The branch ParseHumanDuration takes for text with one colon. */
  lemma HumanTwoPieces(s: string, p: string, q: string, order: string)
    requires Contains(s, ":") && Split(s, ":") == [p, q]
    ensures ParseHumanDuration(s, order) == ParseDuration(p + "m" + q + "s", order)
  {
  }

  /** The branch ParseHumanDuration takes for text with two colons. */
  lemma HumanThreePieces(s: string, p: string, q: string, r: string, order: string)
    requires Contains(s, ":") && Split(s, ":") == [p, q, r]
    ensures ParseHumanDuration(s, order) == ParseDuration(p + "h" + q + "m" + r + "s", order)
  {
  }

  /** The branch ParseHumanDuration takes for anything else: the rewritten text. */
  lemma HumanWords(s: string, order: string)
    requires s != "" && !Contains(s, ":") && Atoi(s).Failure?
    ensures ParseHumanDuration(s, order) == ParseDuration(ReplaceChain(s, HumanReplacements(), 0), order)
  {
    SplitNoSep(s, ":");
  }

  /** The branch ParseHumanDuration takes for an integer. */
  lemma HumanInteger(s: string, order: string)
    requires s != "" && !Contains(s, ":") && Atoi(s).Success?
    ensures ParseHumanDuration(s, order) == ParseDuration(s + "s", order)
  {
    SplitNoSep(s, ":");
  }

  lemma SplitColonTwo(a: string, b: string)
    requires AllDigits(a) && AllDigits(b)
    ensures Contains(a + ":" + b, ":") && Split(a + ":" + b, ":") == [a, b]
  {
    NoPoint(a);
    NoPoint(b);
    SplitConsChar(a, ':', b);
    NoCharNoContains(b, ':');
    SplitNoSep(b, ":");
  }

  lemma SplitColonThree(a: string, b: string, c: string)
    requires AllDigits(a) && AllDigits(b) && AllDigits(c)
    ensures Contains(a + ":" + b + ":" + c, ":") && Split(a + ":" + b + ":" + c, ":") == [a, b, c]
  {
    NoPoint(a);
    SplitColonTwo(b, c);
    var t := b + ":" + c;
    assert a + ":" + b + ":" + c == a + ":" + t;
    SplitConsChar(a, ':', t);
  }

  /** The empty text is a zero duration. */
  lemma EmptyIsZero(order: string)
    requires UnitOrder(order)
    ensures ParseHumanDuration("", order) == Success(0)
  {
    HumanEmpty(order);
    ClockUnits();
    OnePlainChunk("0", "s", Second, 0, order);
  }

  /** "a:b" is x minutes and y seconds, a and b the decimal digits of x and y. */
  lemma MinutesSeconds(a: string, x: nat, b: string, y: nat, order: string)
    requires |a| > 0 && AllDigits(a) && DigitsValue(a) == x && x * Minute <= MaxInt64
    requires |b| > 0 && AllDigits(b) && DigitsValue(b) == y && y * Second <= MaxInt64
    requires UnitOrder(order)
    ensures ParseHumanDuration(a + ":" + b, order) == Success(Wrap64(x * Minute + y * Second))
  {
    ClockUnits();
    TwoPlainChunks(a, "m", Minute, x, b, "s", Second, y, order);
    SplitColonTwo(a, b);
    HumanTwoPieces(a + ":" + b, a, b, order);
  }

  /** "a:b:c" is x hours, y minutes and z seconds. */
  lemma HoursMinutesSeconds(a: string, x: nat, b: string, y: nat, c: string, z: nat, order: string)
    requires |a| > 0 && AllDigits(a) && DigitsValue(a) == x && x * Hour <= MaxInt64
    requires |b| > 0 && AllDigits(b) && DigitsValue(b) == y && y * Minute <= MaxInt64
    requires |c| > 0 && AllDigits(c) && DigitsValue(c) == z && z * Second <= MaxInt64
    requires UnitOrder(order)
    ensures ParseHumanDuration(a + ":" + b + ":" + c, order) == Success(Wrap64(x * Hour + y * Minute + z * Second))
  {
    ClockUnits();
    ThreePlainChunks(a, "h", Hour, x, b, "m", Minute, y, c, "s", Second, z, order);
    SplitColonThree(a, b, c);
    HumanThreePieces(a + ":" + b + ":" + c, a, b, c, order);
  }

  /** A plain integer is that many seconds. */
  lemma IntegerIsSeconds(d: string, x: nat, order: string)
    requires |d| > 0 && AllDigits(d) && DigitsValue(d) == x && x * Second <= MaxInt64
    requires UnitOrder(order)
    ensures ParseHumanDuration(d, order) == Success(x * Second)
  {
    ClockUnits();
    OnePlainChunk(d, "s", Second, x, order);
    NoPoint(d);
    NoCharNoContains(d, ':');
    ScaleAtLeast(x, Second);
    AtoiDigits(d);
    HumanInteger(d, order);
  }

  /** A chunk is read the same way whatever order the unit table is walked in. */
  lemma ChunkOrderIndependent(c: Chunk, o1: string, o2: string)
    requires WellFormed(c) && UnitOrder(o1) && UnitOrder(o2)
    ensures ChunkDuration(c, o1) == ChunkDuration(c, o2)
  {
    var f1, f2 := FirstLetter(c.unit, o1), FirstLetter(c.unit, o2);
    SameLetters(o1, o2);
    if f1.Some? && f2.Some? && f1.value != f2.value {
      // Two different letters: whichever is replaced, the other survives,
      // and no Go unit contains a day or week letter.
      LetterSurvives(c, f1.value, f2.value);
      LetterSurvives(c, f2.value, f1.value);
    }
  }

  lemma SameLetters(o1: string, o2: string)
    requires UnitOrder(o1) && UnitOrder(o2)
    ensures forall u :: u in o1 <==> u in o2
    ensures forall u :: u in o1 ==> u in UnitLetters
  {
    forall u
      ensures u in o1 <==> u in o2
      ensures u in o1 ==> u in UnitLetters
    {
      assert u in o1 <==> u in multiset(o1);
      assert u in o2 <==> u in multiset(o2);
      assert u in UnitLetters <==> u in multiset(UnitLetters);
    }
  }

  /** Replacing one unit letter by "h" leaves a chunk with another unit
    * letter that time.ParseDuration rejects. */
  lemma LetterSurvives(c: Chunk, u: char, other: char)
    requires WellFormed(c) && u != other && other in c.unit && other in UnitLetters
    ensures GoUnit(MapChar(c.unit, u, 'h')).None? && MapChar(c.unit, u, 'h') != ""
  {
    var i :| 0 <= i < |c.unit| && c.unit[i] == other;
    assert MapChar(c.unit, u, 'h')[i] == other;
  }

  /** The chunks of any text read the same whatever order the unit table is walked in. */
  lemma ReadChunksOrderIndependent(s: string, o1: string, o2: string)
    requires UnitOrder(o1) && UnitOrder(o2)
    ensures ReadChunks(Chunks(s), o1) == ReadChunks(Chunks(s), o2)
  {
    var chunks := Chunks(s);
    forall i | 0 <= i < |chunks|
      ensures ReadChunks(chunks, o1)[i] == ReadChunks(chunks, o2)[i]
    {
      ChunkOrderIndependent(chunks[i], o1, o2);
    }
  }

  /** ParseDuration does not depend on Go's map iteration order. */
  lemma ParseDurationOrderIndependent(s: string, o1: string, o2: string)
    requires UnitOrder(o1) && UnitOrder(o2)
    ensures ParseDuration(s, o1) == ParseDuration(s, o2)
  {
    ReadChunksOrderIndependent(Magnitude(s), o1, o2);
  }

  /** A "<digits>d" chunk reads as that many hours, with multiplier 24. */
  lemma DayReading(d: string, x: nat, order: string)
    requires |d| > 0 && AllDigits(d) && DigitsValue(d) == x && x * Hour <= MaxInt64
    requires UnitOrder(order)
    ensures ReadChunks([Chunk(d, "d")], order) == [Success((x * Hour, 24))]
  {
    SameLetters(order, UnitLetters);
    assert FirstLetter("d", order) == Some('d') by {
      assert 'd' in order;
      FirstLetterSingle("d", 'd', order);
    }
    assert MapChar("d", 'd', 'h') == "h";
    ClockUnits();
    assert ChunkDuration(Chunk(d, "d"), order) == Success((x * Hour, 24));
  }

  lemma ParseDay(s: string, cs: seq<Chunk>, x: nat, order: string)
    requires '.' !in s && (|s| == 0 || s[0] != '-')
    requires Chunks(s) == cs && ReadChunks(cs, order) == [Success((x * Hour, 24))]
    ensures ParseDuration(s, order) == Success(Wrap64(x * Hour * 24))
  {
    SumScaled(x * Hour, 24);
    ParseDurationUnsigned(s, order);
  }

  /** A day letter multiplies an hour count by 24 (so "2d" is 48 hours). */
  lemma DayChunk(d: string, x: nat, order: string)
    requires |d| > 0 && AllDigits(d) && DigitsValue(d) == x && x * Hour <= MaxInt64
    requires UnitOrder(order)
    ensures ParseDuration(d + "d", order) == Success(Wrap64(x * Hour * 24))
  {
    DayReading(d, x, order);
    NoPoint(d);
    assert d + "d" == d + "d" + "";
    ChunksCons(d, "d", "");
    ParseDay(d + "d", [Chunk(d, "d")], x, order);
  }

  /** The only candidate letter present is the one found. */
  lemma {:induction false} FirstLetterSingle(unit: string, u: char, order: string)
    requires u in order && u in unit
    requires forall x :: x in unit ==> x == u
    ensures FirstLetter(unit, order) == Some(u)
  {
    if order[0] != u {
      FirstLetterSingle(unit, u, order[1..]);
    }
  }
}

=== FILE: feed_routes.dfy ===
/**
 * Feed routes: the conversion of Echo route paths ("/users/:id") into
 * OpenAPI path templates ("/users/{id}"), and the four feed routes
 * CreateFeedRoutes registers together with their documentation entries.
 */
module FeedRoutes {
  import opened Strs
  import opened CharFilter

  /** The pieces written to a strings.Builder, in order. */
  function Concat(parts: seq<string>): string
    decreases |parts|
  {
    if |parts| == 0 then "" else parts[0] + Concat(parts[1..])
  }

  lemma ConcatCons(x: string, ps: seq<string>)
    ensures Concat([x] + ps) == x + Concat(ps)
  {
    assert ([x] + ps)[1..] == ps;
  }

  /** Deleting the separator after a separator-free prefix. */
  lemma {:induction false} WithoutSep(a: string, b: string, c: char)
    requires c !in a
    ensures Without(a + [c] + b, c) == a + Without(b, c)
    decreases |a|
  {
    var s := a + [c] + b;
    if |a| == 0 {
      assert s == [c] + b && s[1..] == b;
    } else {
      assert s[0] == a[0] && s[1..] == a[1..] + [c] + b;
      WithoutSep(a[1..], b, c);
      assert a == [a[0]] + a[1..];
    }
  }

  /** Concatenating the pieces of a split deletes the separator. */
  lemma {:induction false} ConcatSplit(s: string, c: char)
    ensures Concat(Split(s, [c])) == Without(s, c)
    decreases |s|
  {
    if c !in s {
      NoCharNoContains(s, c);
      SplitNoSep(s, [c]);
      WithoutAbsent(s, c);
      ConcatCons(s, []);
      assert [s] + [] == [s];
    } else {
      var k := FirstChar(s, c);
      var a, b := s[..k], s[k + 1..];
      assert s == a + [c] + b;
      var sp := Split(b, [c]);
      SplitConsChar(a, c, b);
      ConcatSplit(b, c);
      ConcatCons(a, sp);
      WithoutSep(a, b, c);
    }
  }

  /** The body written for a segment whose ":"-split is `split`. */
  function BodyOf(split: seq<string>, part: string): string {
    if |split| > 1 then "{" + split[1] + "}" + Concat(split[2..]) else part
  }

  /**
   * One segment of the path, as ConvertPathFormat writes it after its "/":
   * a segment holding ":" becomes "{" + the text between the first and the
   * second ":" + "}" followed by the remaining pieces, the text before the
   * first ":" being dropped. Any other segment is kept.
   */
  function SegmentBody(part: string): string {
    BodyOf(Split(part, ":"), part)
  }

  /** A parameter that ends the segment: "pre:name" gives "{name}". */
  lemma ParamAtEnd(pre: string, name: string)
    requires ':' !in pre && ':' !in name
    ensures SegmentBody(pre + ":" + name) == "{" + name + "}"
  {
    SplitConsChar(pre, ':', name);
    NoCharNoContains(name, ':');
    SplitNoSep(name, ":");
    var split := Split(pre + ":" + name, ":");
    assert split == [pre, name];
    assert split[2..] == [];
  }

  /** A parameter followed by more colons: "pre:name:t1" gives "{name}"
    * followed by `t1` with its colons deleted. */
  lemma ParamThenMore(pre: string, name: string, t1: string)
    requires ':' !in pre && ':' !in name
    ensures SegmentBody(pre + ":" + (name + ":" + t1)) == "{" + name + "}" + Without(t1, ':')
  {
    SplitConsChar(pre, ':', name + ":" + t1);
    SplitConsChar(name, ':', t1);
    var rest := Split(t1, ":");
    var split := Split(pre + ":" + (name + ":" + t1), ":");
    assert split == [pre, name] + rest;
    assert split[2..] == rest;
    ConcatSplit(t1, ':');
  }

  /** A segment is well formed for OpenAPI: present, and free of "/" and ":". */
  predicate Clean(b: string) {
    |b| > 0 && '/' !in b && ':' !in b
  }

  /** What a segment with a colon becomes, in terms of the text after its
    * first colon. */
  lemma ColonBody(part: string, t: string, sp: seq<string>)
    requires |Split(part, ":")| > 1
    requires sp == Split(t, ":") && Split(part, ":") == [Split(part, ":")[0]] + sp
    ensures SegmentBody(part) == "{" + sp[0] + "}" + Concat(sp[1..])
    ensures sp[0] + Concat(sp[1..]) == Without(t, ':')
  {
    var split := Split(part, ":");
    assert split[1] == sp[0] && split[2..] == sp[1..];
    assert sp == [sp[0]] + sp[1..];
    ConcatCons(sp[0], sp[1..]);
    ConcatSplit(t, ':');
  }

  /** The body of a non-empty segment without "/" is clean, and a segment
    * without ":" is its own body. */
  lemma SegmentBodyClean(part: string)
    requires |part| > 0 && '/' !in part
    ensures Clean(SegmentBody(part))
    ensures ':' !in part ==> SegmentBody(part) == part
  {
    if ':' !in part {
      NoCharNoContains(part, ':');
      SplitNoSep(part, ":");
    } else {
      var k := FirstChar(part, ':');
      var a, t := part[..k], part[k + 1..];
      assert part == a + [':'] + t;
      SplitConsChar(a, ':', t);
      var sp := Split(t, ":");
      ColonBody(part, t, sp);
      var w := sp[0] + Concat(sp[1..]);
      assert ':' !in w && '/' !in w by {
        forall d | d in w
          ensures d != ':' && d != '/'
        {
          WithoutChars(t, ':', d);
          var j :| 0 <= j < |t| && t[j] == d;
          assert part[k + 1 + j] == d;
        }
      }
      assert SegmentBody(part) == "{" + sp[0] + "}" + Concat(sp[1..]);
    }
  }

  /** The bodies of the non-empty segments, in order. */
  function Bodies(parts: seq<string>): (r: seq<string>)
    ensures |r| <= |parts|
    decreases |parts|
  {
    if |parts| == 0 then []
    else if parts[0] == "" then Bodies(parts[1..])
    else [SegmentBody(parts[0])] + Bodies(parts[1..])
  }

  /** Each body after its "/". */
  function Prefixed(bs: seq<string>): string
    decreases |bs|
  {
    if |bs| == 0 then "" else "/" + bs[0] + Prefixed(bs[1..])
  }

  /** ConvertPathFormat: Echo's "/users/:id" becomes OpenAPI's "/users/{id}". */
  function ConvertPathFormat(path: string): string {
    Prefixed(Bodies(Split(path, "/")))
  }

  lemma {:induction false} BodiesClean(parts: seq<string>)
    requires forall p :: p in parts ==> '/' !in p
    ensures forall b :: b in Bodies(parts) ==> Clean(b)
    decreases |parts|
  {
    if |parts| > 0 {
      assert forall p :: p in parts[1..] ==> p in parts;
      BodiesClean(parts[1..]);
      if parts[0] != "" {
        SegmentBodyClean(parts[0]);
      }
    }
  }

  /** Clean segments are their own bodies. */
  lemma {:induction false} BodiesOfClean(bs: seq<string>)
    requires forall b :: b in bs ==> Clean(b)
    ensures Bodies(bs) == bs
    decreases |bs|
  {
    if |bs| > 0 {
      assert forall b :: b in bs[1..] ==> b in bs;
      BodiesOfClean(bs[1..]);
      assert bs[0] in bs;
      SegmentBodyClean(bs[0]);
      assert bs == [bs[0]] + bs[1..];
    }
  }

  lemma {:induction false} BodiesAppend(x: seq<string>, y: seq<string>)
    ensures Bodies(x + y) == Bodies(x) + Bodies(y)
    decreases |x|
  {
    if |x| == 0 {
      assert x + y == y;
    } else {
      assert (x + y)[1..] == x[1..] + y;
      BodiesAppend(x[1..], y);
    }
  }

  lemma {:induction false} PrefixedAppend(x: seq<string>, y: seq<string>)
    ensures Prefixed(x + y) == Prefixed(x) + Prefixed(y)
    decreases |x|
  {
    if |x| == 0 {
      assert x + y == y;
    } else {
      assert (x + y)[1..] == x[1..] + y;
      PrefixedAppend(x[1..], y);
    }
  }

  /** The pieces of every split are free of the separator. */
  lemma SlashFree(path: string)
    ensures forall p :: p in Split(path, "/") ==> '/' !in p
  {
    SplitPieces(path, "/");
    forall p | p in Split(path, "/")
      ensures '/' !in p
    {
      var i :| 0 <= i < |Split(path, "/")| && Split(path, "/")[i] == p;
      NotContainsChar(p, '/');
    }
  }

  /** Splitting `x` followed by "/"-prefixed clean segments gives them back. */
  lemma {:induction false} SplitPrefixed(x: string, bs: seq<string>)
    requires '/' !in x
    requires forall b :: b in bs ==> Clean(b)
    ensures Split(x + Prefixed(bs), "/") == [x] + bs
    decreases |bs|
  {
    if |bs| == 0 {
      SplitPrefixedEmpty(x, bs);
    } else {
      assert forall b :: b in bs[1..] ==> b in bs;
      assert bs[0] in bs;
      SplitPrefixed(bs[0], bs[1..]);
      SplitPrefixedStep(x, bs[0], bs[1..]);
      assert bs == [bs[0]] + bs[1..];
    }
  }

  lemma SplitPrefixedEmpty(x: string, bs: seq<string>)
    requires '/' !in x && bs == []
    ensures Split(x + Prefixed(bs), "/") == [x] + bs
  {
    assert x + Prefixed(bs) == x;
    NoCharNoContains(x, '/');
    SplitNoSep(x, "/");
  }

  lemma SplitPrefixedStep(x: string, b: string, bs: seq<string>)
    requires '/' !in x
    requires Split(b + Prefixed(bs), "/") == [b] + bs
    ensures Split(x + Prefixed([b] + bs), "/") == [x] + ([b] + bs)
  {
    var rest := b + Prefixed(bs);
    PrefixedCons(x, b, bs);
    SplitConsChar(x, '/', rest);
  }

  lemma PrefixedCons(x: string, b: string, bs: seq<string>)
    ensures x + Prefixed([b] + bs) == x + ['/'] + (b + Prefixed(bs))
  {
    assert ([b] + bs)[1..] == bs;
  }

  lemma {:induction false} PrefixedNoColon(bs: seq<string>)
    requires forall b :: b in bs ==> Clean(b)
    ensures ':' !in Prefixed(bs)
    decreases |bs|
  {
    if |bs| > 0 {
      assert forall b :: b in bs[1..] ==> b in bs;
      PrefixedNoColon(bs[1..]);
      assert bs[0] in bs;
      assert Prefixed(bs) == "/" + bs[0] + Prefixed(bs[1..]);
    }
  }

  /** The shape of a converted path: no ":" anywhere, and splitting it at
    * "/" gives an empty first piece followed by clean segments, so it is
    * empty or starts with "/", and holds neither "//" nor a trailing "/". */
  lemma ConvertShape(path: string)
    ensures ':' !in ConvertPathFormat(path)
    ensures Split(ConvertPathFormat(path), "/")[0] == ""
    ensures forall i :: 1 <= i < |Split(ConvertPathFormat(path), "/")| ==>
      Clean(Split(ConvertPathFormat(path), "/")[i])
  {
    var bs := Bodies(Split(path, "/"));
    SlashFree(path);
    BodiesClean(Split(path, "/"));
    SplitPrefixed("", bs);
    assert "" + Prefixed(bs) == Prefixed(bs);
    PrefixedNoColon(bs);
  }

  /** Converting a converted path changes nothing. */
  lemma ConvertIdempotent(path: string)
    ensures ConvertPathFormat(ConvertPathFormat(path)) == ConvertPathFormat(path)
  {
    var bs := Bodies(Split(path, "/"));
    SlashFree(path);
    BodiesClean(Split(path, "/"));
    SplitPrefixed("", bs);
    assert "" + Prefixed(bs) == Prefixed(bs);
    BodiesOfClean(bs);
    assert Bodies([""] + bs) == Bodies(bs);
  }

  /** Conversion works segment by segment: joining two paths with "/"
    * joins their conversions. */
  lemma ConvertJoin(a: string, b: string)
    ensures ConvertPathFormat(a + "/" + b) == ConvertPathFormat(a) + ConvertPathFormat(b)
  {
    SplitAppendChar(a, '/', b);
    assert a + "/" + b == a + ['/'] + b;
    BodiesAppend(Split(a, "/"), Split(b, "/"));
    PrefixedAppend(Bodies(Split(a, "/")), Bodies(Split(b, "/")));
  }

  /** The root converts to the empty path, and so does the empty path. */
  lemma ConvertRoot()
    ensures ConvertPathFormat("") == ""
    ensures ConvertPathFormat("/") == ""
  {
    NoCharNoContains("", '/');
    SplitNoSep("", "/");
    assert Bodies([""]) == [];
    ConvertJoin("", "");
    assert "" + "/" + "" == "/";
  }

  /** A clean segment converts to itself after a "/". */
  lemma ConvertClean(seg: string)
    requires Clean(seg)
    ensures ConvertPathFormat(seg) == "/" + seg
  {
    NoCharNoContains(seg, '/');
    SplitNoSep(seg, "/");
    SegmentBodyClean(seg);
    assert Bodies([seg]) == [seg];
    assert Prefixed([seg]) == "/" + seg + "";
  }

  /** A parameter segment after a path converts to its template. */
  lemma ConvertParam(a: string, name: string)
    requires Clean(name)
    ensures ConvertPathFormat(a + "/:" + name) == ConvertPathFormat(a) + "/{" + name + "}"
  {
    assert a + "/:" + name == a + "/" + (":" + name);
    ConvertJoin(a, ":" + name);
    ConvertParamSegment(name);
  }

  lemma ConvertParamSegment(name: string)
    requires Clean(name)
    ensures ConvertPathFormat(":" + name) == "/{" + name + "}"
  {
    var seg := ":" + name;
    NoCharNoContains(seg, '/');
    SplitNoSep(seg, "/");
    ParamAtEnd("", name);
    assert "" + ":" + name == seg;
    var body := "{" + name + "}";
    assert Bodies([seg]) == [body];
    assert Prefixed([body]) == "/" + body + "";
  }

  /** The documentation entry kept for one feed route. */
  datatype FeedRouteDoc = FeedRouteDoc(basePath: string, path: string, summary: string, feedType: string)

  datatype Route = Route(verb: string, path: string)

  /** A feed route relative to the base path, and its feed type. */
  datatype FeedKind = FeedKind(suffix: string, feedType: string)

  const FeedKinds: seq<FeedKind> := [
    FeedKind("/feed", "RSS"), FeedKind("/feed/rss", "RSS"),
    FeedKind("/feed/atom", "Atom"), FeedKind("/feed/json", "JSON")]

  /** The documentation list and the routes registered so far. */
  datatype Registry = Registry(docs: seq<FeedRouteDoc>, routes: seq<Route>)

  /** The entry addRoute documents for one feed kind: the converted base
    * and full paths, and the summary with every "{}" replaced by the feed
    * type. */
  function FeedDoc(basePath: string, baseSummary: string, k: FeedKind): (d: FeedRouteDoc)
    ensures d.feedType == k.feedType
  {
    FeedRouteDoc(ConvertPathFormat(basePath), ConvertPathFormat(basePath + k.suffix),
                 ReplaceAll(baseSummary, "{}", k.feedType), k.feedType)
  }

  /** CreateFeedRoutes: addRoute for each feed kind in turn, each appending
    * its entry to the documentation list and registering GET on the full
    * path. */
  function CreateFeedRoutes(reg: Registry, basePath: string, baseSummary: string): (r: Registry)
    ensures |r.docs| == |reg.docs| + |FeedKinds| && r.docs[..|reg.docs|] == reg.docs
    ensures |r.routes| == |reg.routes| + |FeedKinds| && r.routes[..|reg.routes|] == reg.routes
    ensures forall i :: 0 <= i < |FeedKinds| ==>
      r.docs[|reg.docs| + i].feedType == FeedKinds[i].feedType &&
      r.routes[|reg.routes| + i] == Route("GET", basePath + FeedKinds[i].suffix)
  {
    var docs := seq(|FeedKinds|, i requires 0 <= i < |FeedKinds| => FeedDoc(basePath, baseSummary, FeedKinds[i]));
    var routes := seq(|FeedKinds|, i requires 0 <= i < |FeedKinds| => Route("GET", basePath + FeedKinds[i].suffix));
    Registry(reg.docs + docs, reg.routes + routes)
  }

  /** Splitting a path followed by "/"-prefixed clean segments. */
  lemma SplitAppendPrefixed(a: string, segs: seq<string>)
    requires forall b :: b in segs ==> Clean(b)
    ensures Split(a + Prefixed(segs), "/") == Split(a, "/") + segs
  {
    if |segs| == 0 {
      assert a + Prefixed(segs) == a;
    } else {
      assert forall b :: b in segs[1..] ==> b in segs;
      assert segs[0] in segs;
      SplitPrefixed(segs[0], segs[1..]);
      SplitAppendStep(a, segs[0], segs[1..]);
      assert segs == [segs[0]] + segs[1..];
    }
  }

  lemma SplitAppendStep(a: string, s0: string, rest: seq<string>)
    requires Split(s0 + Prefixed(rest), "/") == [s0] + rest
    ensures Split(a + Prefixed([s0] + rest), "/") == Split(a, "/") + ([s0] + rest)
  {
    var tail := s0 + Prefixed(rest);
    PrefixedCons(a, s0, rest);
    SplitAppendChar(a, '/', tail);
  }

  /** Appending "/"-prefixed clean segments appends them unchanged. */
  lemma ConvertPrefixed(a: string, segs: seq<string>)
    requires forall b :: b in segs ==> Clean(b)
    ensures ConvertPathFormat(a + Prefixed(segs)) == ConvertPathFormat(a) + Prefixed(segs)
  {
    SplitAppendPrefixed(a, segs);
    BodiesAppend(Split(a, "/"), segs);
    BodiesOfClean(segs);
    PrefixedAppend(Bodies(Split(a, "/")), segs);
  }

  /** The feed routes as "/"-prefixed segments. */
  lemma FeedKindSegments(i: nat) returns (segs: seq<string>)
    requires i < |FeedKinds|
    ensures FeedKinds[i].suffix == Prefixed(segs)
    ensures forall b :: b in segs ==> Clean(b)
  {
    var feed := "feed";
    assert Prefixed([]) == "";
    assert Prefixed([feed]) == "/" + feed + "";
    if i == 0 {
      segs := [feed];
    } else {
      var t := ["", "rss", "atom", "json"][i];
      segs := [feed, t];
      assert segs[1..] == [t];
      assert Prefixed([t]) == "/" + t + "";
      assert Prefixed(segs) == "/" + feed + ("/" + t + "");
    }
  }

  /** Each documented path is the documented base path followed by the feed
    * route itself: "/feed", "/feed/rss", "/feed/atom" or "/feed/json". */
  lemma FeedDocPaths(basePath: string, baseSummary: string, i: nat)
    requires i < |FeedKinds|
    ensures var doc := FeedDoc(basePath, baseSummary, FeedKinds[i]);
      doc.path == doc.basePath + FeedKinds[i].suffix
  {
    var segs := FeedKindSegments(i);
    ConvertPrefixed(basePath, segs);
  }

  /** A summary starting with the placeholder names the feed type there. */
  lemma FeedSummary(basePath: string, rest: string, k: FeedKind)
    requires !Contains(rest, "{}")
    ensures FeedDoc(basePath, "{}" + rest, k).summary == k.feedType + rest
  {
    var s := "{}" + rest;
    assert s[..2] == "{}" && s[2..] == rest;
  }

  /** The i-th new entry of a group documents the converted base path
    * followed by the i-th feed route. */
  lemma GroupPath(reg: Registry, basePath: string, baseSummary: string, i: nat)
    requires i < |FeedKinds|
    ensures CreateFeedRoutes(reg, basePath, baseSummary).docs[|reg.docs| + i].path
      == ConvertPathFormat(basePath) + FeedKinds[i].suffix
  {
    FeedDocPaths(basePath, baseSummary, i);
  }

  /** A group whose base path ends in a parameter segment, as the per-user
    * feeds under "/playables/:id" do, documents the parameter as a
    * template before each feed route. */
  lemma ParamGroupPath(reg: Registry, base: string, name: string, baseSummary: string, i: nat)
    requires Clean(name) && i < |FeedKinds|
    ensures CreateFeedRoutes(reg, base + "/:" + name, baseSummary).docs[|reg.docs| + i].path
      == ConvertPathFormat(base) + "/{" + name + "}" + FeedKinds[i].suffix
  {
    GroupPath(reg, base + "/:" + name, baseSummary, i);
    ConvertParam(base, name);
  }
}

=== FILE: ids.dfy ===
/**
 * Random record ids and the command runner the source scripts go through.
 * The random generator and the operating system's process runner are
 * outside the model: the generator is a nondeterministic choice, the
 * runner a parameter.
 */
module Ids {
  import opened Wrappers

  /** The 62 characters an id is drawn from. */
  const Charset: string := Lowers + Uppers + Digits

  const Lowers: string := "abcdefghijklmnopqrstuvwxyz"
  const Uppers: string := "ABCDEFGHIJKLMNOPQRSTUVWXYZ"
  const Digits: string := "0123456789"

  predicate IsAlphanumeric(c: char) {
    'a' <= c <= 'z' || 'A' <= c <= 'Z' || '0' <= c <= '9'
  }

  /** The alphabet holds exactly the ASCII letters and digits. */
  lemma CharsetIsAlphanumeric()
    ensures |Charset| == 62
    ensures forall k :: 0 <= k < |Charset| ==> IsAlphanumeric(Charset[k])
  {
    forall k | 0 <= k < |Lowers|
      ensures 'a' <= Lowers[k] <= 'z'
    {
    }
    forall k | 0 <= k < |Uppers|
      ensures 'A' <= Uppers[k] <= 'Z'
    {
    }
    forall k | 0 <= k < |Digits|
      ensures '0' <= Digits[k] <= '9'
    {
    }
  }

  /** GenerateID: `length` characters, each picked from the alphabet by the
    * random generator. */
  method GenerateID(length: nat) returns (id: string)
    ensures |id| == length
    ensures forall i :: 0 <= i < |id| ==> id[i] in Charset && IsAlphanumeric(id[i])
  {
    CharsetIsAlphanumeric();
    id := [];
    while |id| < length
      invariant |id| <= length
      invariant forall i :: 0 <= i < |id| ==> id[i] in Charset && IsAlphanumeric(id[i])
    {
      var k :| 0 <= k < |Charset|;
      id := id + [Charset[k]];
    }
  }

  /** ExecCommand: the program is the first element, its arguments the
    * rest; an empty command fails without running anything. `run` stands
    * for the process runner and yields the program's output or an error. */
  function ExecCommand(command: seq<string>, run: (string, seq<string>) -> Result<string, string>): (r: Result<string, string>)
    ensures |command| == 0 ==> r == Failure("no command provided")
    ensures |command| > 0 ==> r == run(command[0], command[1..])
  {
    if |command| == 0 then Failure("no command provided")
    else run(command[0], command[1..])
  }
}

=== FILE: linked_source.dfy ===
/**
 * Linked sources: "<source id>::<url>" strings that record where a record's
 * content or metadata came from. The media and types packages implement
 * the same split; both are modelled by the pair below.
 */
module LinkedSources {
  import opened Wrappers
  import opened Strs

  const Separator: string := "::"

  /** GetLinkedSourceID / LinkedSource.GetID */
  function ID(l: string): (id: string)
    ensures !Contains(l, Separator) ==> id == ""
    ensures Contains(l, Separator) ==> id == l[..IndexOf(l, Separator).value]
  {
    var split := Split(l, Separator);
    SplitFirst(l, Separator);
    if |split| == 1 then "" else split[0]
  }

  /** GetLinkedSourceURL / LinkedSource.GetURL */
  function URL(l: string): (url: string)
    ensures !Contains(l, Separator) ==> url == l
    ensures Contains(l, Separator) ==>
      var rest := l[IndexOf(l, Separator).value + 2..];
      url == (if Contains(rest, Separator) then rest[..IndexOf(rest, Separator).value] else rest)
  {
    var split := Split(l, Separator);
    SplitFirst(l, Separator);
    if |split| == 1 then split[0]
    else
      var rest := l[IndexOf(l, Separator).value + 2..];
      SplitFirst(rest, Separator);
      assert split[1] == Split(rest, Separator)[0];
      split[1]
  }

  /** A source id that the first "::" cannot cut short. */
  predicate CleanID(id: string) {
    !Contains(id, Separator) && (|id| == 0 || id[|id| - 1] != ':')
  }

  lemma NoEarlierSeparator(id: string, url: string)
    requires CleanID(id)
    ensures forall j: nat :: j < |id| ==> !At(id + Separator + url, Separator, j)
  {
    var s := id + Separator + url;
    forall j: nat | j < |id|
      ensures !At(s, Separator, j)
    {
      if j + 2 <= |id| {
        assert s[j..j + 2] == id[j..j + 2];
        assert !At(id, Separator, j);
      } else {
        assert s[j] == id[|id| - 1];
      }
    }
  }

  /** Joining a clean id and a url free of "::" and splitting again gives
    * both back. */
  lemma RoundTrip(id: string, url: string)
    requires CleanID(id) && !Contains(url, Separator)
    ensures ID(id + Separator + url) == id
    ensures URL(id + Separator + url) == url
  {
    NoEarlierSeparator(id, url);
    SplitCons(id, Separator, url);
    SplitNoSep(url, Separator);
  }

  /** Without the trailing-colon condition the round trip fails: "a:" with
    * "b" reads back as "a" and ":b". */
  lemma TrailingColonBreaksRoundTrip()
    ensures ID("a:" + Separator + "b") == "a"
    ensures URL("a:" + Separator + "b") == ":b"
  {
    var s := "a:" + Separator + "b";
    assert s == "a" + Separator + ":b";
    assert !At(s, Separator, 0) by {
      assert s[0] == 'a';
    }
    SplitCons("a", Separator, ":b");
    assert !Contains(":b", Separator) by {
      assert !At(":b", Separator, 0);
    }
    SplitNoSep(":b", Separator);
  }
}

=== FILE: media.dfy ===
/**
 * The domain records (tracks, albums, videos, artists, playlists, users),
 * the Playable view every record offers, and the conversion between the
 * stored user (with its password hash) and the user the API hands out.
 */
module Media {
  import opened Wrappers
  import opened Numbers

  /** A value in a record's additional metadata. The metadata of YouTube
    * results holds text, counts, flags, lists of names, the raw artist and
    * album objects, and downloaded images and result lists, which are
    * opaque here. */
  datatype Meta =
    | MetaText(text: string)
    | MetaInt(n: int)
    | MetaBool(b: bool)
    | MetaList(items: seq<string>)
    | MetaDict(entries: map<string, string>)
    | MetaDicts(records: seq<map<string, string>>)
    | MetaOpaque(tag: nat)

  type MetaMap = map<string, Meta>

  datatype Track = Track(
    id: string, userId: string, isrc: string, title: string,
    artistIds: seq<string>, albumIds: seq<string>, primaryAlbumId: string,
    trackNumber: int, duration: int, description: string, releaseDate: string,
    lyrics: map<string, string>, listenCount: int, favoriteCount: int, additionDate: int,
    tags: seq<string>, additionalMeta: MetaMap, permissions: map<string, string>,
    linkedItemIds: seq<string>, contentSource: string, metadataSource: string,
    lyricSources: map<string, string>)

  datatype Video = Video(
    id: string, userId: string, title: string, artistIds: seq<string>,
    duration: int, description: string, releaseDate: string,
    subtitles: map<string, string>, watchCount: int, favoriteCount: int, additionDate: int,
    tags: seq<string>, additionalMeta: MetaMap, permissions: map<string, string>,
    linkedItemIds: seq<string>, contentSource: string, metadataSource: string,
    lyricSources: map<string, string>)

  datatype Album = Album(
    id: string, userId: string, upc: string, title: string,
    artistIds: seq<string>, trackIds: seq<string>, description: string, releaseDate: string,
    listenCount: int, favoriteCount: int, additionDate: int,
    tags: seq<string>, additionalMeta: MetaMap, permissions: map<string, string>,
    linkedItemIds: seq<string>, metadataSource: string)

  datatype Artist = Artist(
    id: string, userId: string, name: string, albumIds: seq<string>, trackIds: seq<string>,
    description: string, creationDate: string, listenCount: int, favoriteCount: int,
    additionDate: int, tags: seq<string>, additionalMeta: MetaMap,
    permissions: map<string, string>, linkedItemIds: seq<string>, metadataSource: string)

  datatype Playlist = Playlist(
    id: string, userId: string, title: string, trackIds: seq<string>,
    listenCount: int, favoriteCount: int, description: string, creationDate: string,
    additionDate: int, tags: seq<string>, additionalMeta: MetaMap,
    permissions: map<string, string>, metadataSource: string)

  /** The user as the API shows it: no password hash. */
  datatype User = User(
    id: string, username: string, email: string, displayName: string, description: string,
    listenedTo: map<string, int>, favorites: seq<string>, publicViewCount: int,
    creationDate: int, permissions: map<string, string>, linkedArtistId: string,
    linkedSources: map<string, string>)

  /** The user as it is stored. */
  datatype DatabaseUser = DatabaseUser(
    id: string, username: string, email: string, passwordHash: string,
    displayName: string, description: string,
    listenedTo: map<string, int>, favorites: seq<string>, publicViewCount: int,
    creationDate: int, permissions: map<string, string>, linkedArtistId: string,
    linkedSources: map<string, string>)

  /** DatabaseUser.ToAPIUser: everything but the hash. */
  function ToAPIUser(du: DatabaseUser): (u: User)
    ensures ToDatabaseUser(u, du.passwordHash) == du
  {
    User(du.id, du.username, du.email, du.displayName, du.description, du.listenedTo,
         du.favorites, du.publicViewCount, du.creationDate, du.permissions,
         du.linkedArtistId, du.linkedSources)
  }

  /** User.ToDatabaseUser(passwordHash): the user with the given hash. */
  function ToDatabaseUser(u: User, passwordHash: string): (du: DatabaseUser)
    ensures du.passwordHash == passwordHash
  {
    DatabaseUser(u.id, u.username, u.email, passwordHash, u.displayName, u.description,
                 u.listenedTo, u.favorites, u.publicViewCount, u.creationDate,
                 u.permissions, u.linkedArtistId, u.linkedSources)
  }

  /** Converting to the stored form and back gives the same user, whatever
    * the hash. */
  lemma UserRoundTrip(u: User, passwordHash: string)
    ensures ToAPIUser(ToDatabaseUser(u, passwordHash)) == u
  {
  }

  /** Two stored users with the same API view differ at most in their hash. */
  lemma APIUserForgetsOnlyHash(a: DatabaseUser, b: DatabaseUser)
    requires ToAPIUser(a) == ToAPIUser(b)
    ensures a == b <==> a.passwordHash == b.passwordHash
  {
    if a.passwordHash == b.passwordHash {
      assert a == ToDatabaseUser(ToAPIUser(a), a.passwordHash);
      assert b == ToDatabaseUser(ToAPIUser(b), b.passwordHash);
    }
  }

  /** Anything the server can list, search or store. */
  datatype Playable =
    | TrackItem(track: Track)
    | AlbumItem(album: Album)
    | VideoItem(video: Video)
    | ArtistItem(artist: Artist)
    | PlaylistItem(playlist: Playlist)
    | UserItem(user: User)

  function GetType(p: Playable): string {
    match p
    case TrackItem(_) => "track"
    case AlbumItem(_) => "album"
    case VideoItem(_) => "video"
    case ArtistItem(_) => "artist"
    case PlaylistItem(_) => "playlist"
    case UserItem(_) => "user"
  }

  /** The type name tells the kind of record. */
  lemma TypeNameDeterminesKind(p: Playable, q: Playable)
    ensures GetType(p) == GetType(q) <==>
      (p.TrackItem? && q.TrackItem?) || (p.AlbumItem? && q.AlbumItem?) ||
      (p.VideoItem? && q.VideoItem?) || (p.ArtistItem? && q.ArtistItem?) ||
      (p.PlaylistItem? && q.PlaylistItem?) || (p.UserItem? && q.UserItem?)
  {
    var names := ["track", "album", "video", "artist", "playlist", "user"];
    assert names[0][0] == 't' && names[1][0] == 'a' && names[2][0] == 'v';
    assert names[3][1] == 'r' && names[4][0] == 'p' && names[5][0] == 'u';
  }

  function GetID(p: Playable): string {
    match p
    case TrackItem(t) => t.id
    case AlbumItem(a) => a.id
    case VideoItem(v) => v.id
    case ArtistItem(a) => a.id
    case PlaylistItem(l) => l.id
    case UserItem(u) => u.id
  }

  /** GetUserID: the owner of a record; a user owns itself. */
  function GetUserID(p: Playable): string {
    match p
    case TrackItem(t) => t.userId
    case AlbumItem(a) => a.userId
    case VideoItem(v) => v.userId
    case ArtistItem(a) => a.userId
    case PlaylistItem(l) => l.userId
    case UserItem(u) => u.id
  }

  /** GetTitle: an artist's name and a user's display name stand in for the
    * title. */
  function GetTitle(p: Playable): string {
    match p
    case TrackItem(t) => t.title
    case AlbumItem(a) => a.title
    case VideoItem(v) => v.title
    case ArtistItem(a) => a.name
    case PlaylistItem(l) => l.title
    case UserItem(u) => u.displayName
  }

  /** GetReleaseDate: artists and playlists report their creation date, a
    * user the decimal form of its creation time. */
  function GetReleaseDate(p: Playable): string {
    match p
    case TrackItem(t) => t.releaseDate
    case AlbumItem(a) => a.releaseDate
    case VideoItem(v) => v.releaseDate
    case ArtistItem(a) => a.creationDate
    case PlaylistItem(l) => l.creationDate
    case UserItem(u) => FormatInt(u.creationDate)
  }

  function GetAdditionDate(p: Playable): int {
    match p
    case TrackItem(t) => t.additionDate
    case AlbumItem(a) => a.additionDate
    case VideoItem(v) => v.additionDate
    case ArtistItem(a) => a.additionDate
    case PlaylistItem(l) => l.additionDate
    case UserItem(u) => u.creationDate
  }

  /** Users carry no tags and no additional metadata. */
  function GetTags(p: Playable): seq<string> {
    match p
    case TrackItem(t) => t.tags
    case AlbumItem(a) => a.tags
    case VideoItem(v) => v.tags
    case ArtistItem(a) => a.tags
    case PlaylistItem(l) => l.tags
    case UserItem(_) => []
  }

  function GetAdditionalMeta(p: Playable): MetaMap {
    match p
    case TrackItem(t) => t.additionalMeta
    case AlbumItem(a) => a.additionalMeta
    case VideoItem(v) => v.additionalMeta
    case ArtistItem(a) => a.additionalMeta
    case PlaylistItem(l) => l.additionalMeta
    case UserItem(_) => map[]
  }

  /** A record is temporary (a search result not yet stored) when it has no
    * id; a user never is. */
  predicate IsTemporary(p: Playable) {
    match p
    case UserItem(_) => false
    case _ => GetID(p) == ""
  }

  /** GetViewCount: listens for tracks, albums, artists and playlists,
    * watches for videos; users have no view count. */
  function GetViewCount(p: Playable): Option<int> {
    match p
    case TrackItem(t) => Some(t.listenCount)
    case AlbumItem(a) => Some(a.listenCount)
    case VideoItem(v) => Some(v.watchCount)
    case ArtistItem(a) => Some(a.listenCount)
    case PlaylistItem(l) => Some(l.listenCount)
    case UserItem(_) => None
  }

  /** GetLyrics: a track's lyrics and a video's subtitles. */
  function GetLyrics(p: Playable): Option<map<string, string>> {
    match p
    case TrackItem(t) => Some(t.lyrics)
    case VideoItem(v) => Some(v.subtitles)
    case _ => None
  }

  /** A user's release date reads back as its creation time. */
  lemma UserReleaseDate(u: User)
    requires InInt64(u.creationDate)
    ensures Atoi(GetReleaseDate(UserItem(u))) == Success(GetAdditionDate(UserItem(u)))
  {
    AtoiFormatInt(u.creationDate);
  }

  /** Only stored records have a view count; a user has none and no tags. */
  lemma UsersAreBare(p: Playable)
    ensures p.UserItem? <==> GetViewCount(p).None?
    ensures p.UserItem? ==> GetTags(p) == [] && GetAdditionalMeta(p) == map[] && !IsTemporary(p)
    ensures p.UserItem? ==> GetUserID(p) == GetID(p)
  {
  }

  /** Temporary exactly when the id is empty, for everything but users. */
  lemma TemporaryIffNoID(p: Playable)
    ensures IsTemporary(p) <==> !p.UserItem? && GetID(p) == ""
  {
  }
}

=== FILE: migration_files.dfy ===
/**
 * GetOrderedMigrationFiles: the migration scripts of one direction, in the
 * order they are applied. Up scripts run in ascending name order, down
 * scripts in descending name order.
 */
module MigrationFiles {
  import opened Strs

  /** A name survives the filter unless it is marked for the other
    * direction. */
  predicate Keep(name: string, up: bool) {
    if up then !Contains(name, ".down.") else !Contains(name, ".up.")
  }

  function Filter(names: seq<string>, up: bool): (r: seq<string>)
    ensures forall x :: x in r <==> x in names && Keep(x, up)
    ensures multiset(r) <= multiset(names)
    decreases |names|
  {
    if |names| == 0 then []
    else
      var rest := Filter(names[1..], up);
      assert names == [names[0]] + names[1..];
      if Keep(names[0], up) then [names[0]] + rest else rest
  }

  /** Every pair is in order (strings.Compare-wise). */
  predicate Ascending(s: seq<string>) {
    forall i, j :: 0 <= i < j < |s| ==> LexLe(s[i], s[j])
  }

  predicate Descending(s: seq<string>) {
    forall i, j :: 0 <= i < j < |s| ==> LexLe(s[j], s[i])
  }

  /** `x` is at most every element of `s`. */
  predicate Below(x: string, s: seq<string>) {
    forall j :: 0 <= j < |s| ==> LexLe(x, s[j])
  }

  lemma AscendingCons(x: string, s: seq<string>)
    requires Below(x, s) && Ascending(s)
    ensures Ascending([x] + s)
  {
    forall i, j | 0 <= i < j < |[x] + s|
      ensures LexLe(([x] + s)[i], ([x] + s)[j])
    {
      if i > 0 {
        assert ([x] + s)[i] == s[i - 1];
      }
      assert ([x] + s)[j] == s[j - 1];
    }
  }

  /** Below is a property of the elements only. */
  lemma BelowElements(x: string, s: seq<string>, t: seq<string>)
    requires Below(x, s) && multiset(t) <= multiset(s)
    ensures Below(x, t)
  {
    forall j | 0 <= j < |t|
      ensures LexLe(x, t[j])
    {
      assert t[j] in multiset(t);
      var k :| 0 <= k < |s| && s[k] == t[j];
    }
  }

  /** One step of insertion sort. */
  function Insert(x: string, s: seq<string>): (r: seq<string>)
    requires Ascending(s)
    ensures Ascending(r)
    ensures multiset(r) == multiset(s) + multiset{x}
    decreases |s|
  {
    if |s| == 0 then [x]
    else if LexLe(x, s[0]) then
      InsertFront(x, s);
      [x] + s
    else
      var rest := Insert(x, s[1..]);
      InsertBehind(x, s, rest);
      [s[0]] + rest
  }

  /** A name at most the first of an ascending list can go in front. */
  lemma InsertFront(x: string, s: seq<string>)
    requires Ascending(s) && |s| > 0 && LexLe(x, s[0])
    ensures Ascending([x] + s)
  {
    assert Below(x, s) by {
      forall j | 0 <= j < |s|
        ensures LexLe(x, s[j])
      {
        if j > 0 {
          LexLeTrans(x, s[0], s[j]);
        }
      }
    }
    AscendingCons(x, s);
  }

  /** A name above the first of an ascending list goes behind it. */
  lemma InsertBehind(x: string, s: seq<string>, rest: seq<string>)
    requires Ascending(s) && |s| > 0 && !LexLe(x, s[0])
    requires Ascending(rest) && multiset(rest) == multiset(s[1..]) + multiset{x}
    ensures Ascending([s[0]] + rest)
    ensures multiset([s[0]] + rest) == multiset(s) + multiset{x}
  {
    assert Below(s[0], s[1..] + [x]) by {
      LexLeTotal(x, s[0]);
      forall j | 0 <= j < |s[1..] + [x]|
        ensures LexLe(s[0], (s[1..] + [x])[j])
      {
        if j < |s| - 1 {
          assert (s[1..] + [x])[j] == s[j + 1];
        }
      }
    }
    assert multiset(s[1..] + [x]) == multiset(s[1..]) + multiset{x};
    BelowElements(s[0], s[1..] + [x], rest);
    AscendingCons(s[0], rest);
    assert s == [s[0]] + s[1..];
  }

  /** slices.Sort on names. */
  function Sort(s: seq<string>): (r: seq<string>)
    ensures Ascending(r)
    ensures multiset(r) == multiset(s)
    decreases |s|
  {
    if |s| == 0 then []
    else
      assert s == [s[0]] + s[1..];
      Insert(s[0], Sort(s[1..]))
  }

  function Reverse(s: seq<string>): (r: seq<string>)
    ensures |r| == |s|
    ensures forall i :: 0 <= i < |s| ==> r[i] == s[|s| - 1 - i]
  {
    seq(|s|, i requires 0 <= i < |s| => s[|s| - 1 - i])
  }

  lemma ReverseOrder(s: seq<string>)
    requires Ascending(s)
    ensures Descending(Reverse(s))
    ensures multiset(Reverse(s)) == multiset(s)
  {
    var r := Reverse(s);
    forall i, j | 0 <= i < j < |r|
      ensures LexLe(r[j], r[i])
    {
      assert r[j] == s[|s| - 1 - j] && r[i] == s[|s| - 1 - i];
    }
    ReverseMultiset(s);
  }

  lemma {:induction false} ReverseMultiset(s: seq<string>)
    ensures multiset(Reverse(s)) == multiset(s)
    decreases |s|
  {
    if |s| > 0 {
      ReverseMultiset(s[1..]);
      assert Reverse(s) == Reverse(s[1..]) + [s[0]];
      assert s == [s[0]] + s[1..];
    }
  }

  /** GetOrderedMigrationFiles(entries, up) */
  function OrderedFiles(names: seq<string>, up: bool): (r: seq<string>)
    ensures up ==> Ascending(r)
    ensures !up ==> Descending(r)
    ensures multiset(r) == multiset(Filter(names, up))
  {
    var sorted := Sort(Filter(names, up));
    if up then sorted
    else
      ReverseOrder(sorted);
      Reverse(sorted)
  }

  /** The files are the names kept for the direction, and nothing else. */
  lemma OrderedFilesMembers(names: seq<string>, up: bool, x: string)
    ensures x in OrderedFiles(names, up) <==> x in names && Keep(x, up)
  {
    var r := OrderedFiles(names, up);
    assert x in r <==> x in multiset(r);
    assert x in Filter(names, up) <==> x in multiset(Filter(names, up));
  }

  /** A name carrying neither marker is a migration in both directions. */
  lemma UnmarkedInBoth(names: seq<string>, x: string)
    requires x in names && !Contains(x, ".up.") && !Contains(x, ".down.")
    ensures x in OrderedFiles(names, true) && x in OrderedFiles(names, false)
  {
    OrderedFilesMembers(names, true, x);
    OrderedFilesMembers(names, false, x);
  }

  /** Ordered lists of the same names are the same list. */
  lemma {:induction false} AscendingUnique(a: seq<string>, b: seq<string>)
    requires Ascending(a) && Ascending(b) && multiset(a) == multiset(b)
    ensures a == b
    decreases |a|
  {
    if |a| > 0 {
      assert |b| == |multiset(b)| == |multiset(a)| == |a|;
      SameFirst(a, b);
      assert a == [a[0]] + a[1..] && b == [b[0]] + b[1..];
      assert multiset(a[1..]) == multiset(b[1..]) by {
        assert multiset(a) == multiset{a[0]} + multiset(a[1..]);
        assert multiset(b) == multiset{b[0]} + multiset(b[1..]);
        assert multiset(a[1..]) == multiset(a) - multiset{a[0]};
        assert multiset(b[1..]) == multiset(b) - multiset{b[0]};
      }
      AscendingUnique(a[1..], b[1..]);
    }
  }

  /** The least name comes first. */
  lemma SameFirst(a: seq<string>, b: seq<string>)
    requires Ascending(a) && Ascending(b) && multiset(a) == multiset(b) && |a| > 0 && |b| > 0
    ensures a[0] == b[0]
  {
    assert a[0] in multiset(b) && b[0] in multiset(a);
    var i :| 0 <= i < |b| && b[i] == a[0];
    var j :| 0 <= j < |a| && a[j] == b[0];
    if i > 0 {
      assert LexLe(b[0], b[i]);
    } else {
      LexLeRefl(b[0]);
    }
    if j > 0 {
      assert LexLe(a[0], a[j]);
    } else {
      LexLeRefl(a[0]);
    }
    LexLeAntisym(a[0], b[0]);
  }

  /** The order does not depend on the order the directory lists names in. */
  lemma OrderedFilesListingIndependent(n1: seq<string>, n2: seq<string>, up: bool)
    requires multiset(n1) == multiset(n2)
    ensures OrderedFiles(n1, up) == OrderedFiles(n2, up)
  {
    FilterMultiset(n1, n2, up);
    AscendingUnique(Sort(Filter(n1, up)), Sort(Filter(n2, up)));
  }

  lemma FilterMultiset(n1: seq<string>, n2: seq<string>, up: bool)
    requires multiset(n1) == multiset(n2)
    ensures multiset(Filter(n1, up)) == multiset(Filter(n2, up))
  {
    forall x
      ensures multiset(Filter(n1, up))[x] == multiset(Filter(n2, up))[x]
    {
      FilterCount(n1, up, x);
      FilterCount(n2, up, x);
    }
  }

  lemma {:induction false} FilterCount(names: seq<string>, up: bool, x: string)
    ensures multiset(Filter(names, up))[x] == if Keep(x, up) then multiset(names)[x] else 0
    decreases |names|
  {
    if |names| > 0 {
      var h, t := names[0], names[1..];
      FilterCount(t, up, x);
      FilterStep(names, up);
      assert multiset(names) == multiset{h} + multiset(t) by {
        assert names == [h] + t;
      }
    }
  }

  /** The filter keeps or drops the first name and goes on with the rest. */
  lemma FilterStep(names: seq<string>, up: bool)
    requires |names| > 0
    ensures multiset(Filter(names, up)) ==
      (if Keep(names[0], up) then multiset{names[0]} else multiset{}) + multiset(Filter(names[1..], up))
  {
  }
}
=== FILE: migrations.dfy ===
/**
 * The schema-migration state machine shared by the SQLite and PostgreSQL
 * engines: the one-row schema_migrations table holding (version, dirty), and
 * MigrateUp / MigrateDown over the ordered migration files.
 */
module Migrations {
  import opened Wrappers
  import opened Strs
  import opened Numbers

  /** One row of schema_migrations. */
  datatype Row = Row(version: nat, dirty: bool)

  /** The rows of schema_migrations. */
  type Table = seq<Row>

  datatype DbError = NotFound

  /** getCurrentVersion: the row with the highest version, or ErrNotFound
    * when the table is empty. */
  function CurrentVersion(t: Table): (r: Result<Row, DbError>)
    ensures r.Failure? <==> |t| == 0
    ensures r.Success? ==> r.value in t && forall row :: row in t ==> row.version <= r.value.version
    decreases |t|
  {
    if |t| == 0 then Failure(NotFound)
    else match CurrentVersion(t[1..])
      case Failure(_) => Success(t[0])
      case Success(best) =>
        assert t == [t[0]] + t[1..];
        if t[0].version >= best.version then Success(t[0]) else Success(best)
  }

  /** setVersion: every row is deleted and the one given is inserted. */
  function SetVersion(t: Table, version: nat, dirty: bool): (r: Table)
    ensures |r| == 1
  {
    [Row(version, dirty)]
  }

  /** After setVersion the table holds exactly the row written, whatever it
    * held before. */
  lemma SetVersionCurrent(t: Table, version: nat, dirty: bool)
    ensures CurrentVersion(SetVersion(t, version, dirty)) == Success(Row(version, dirty))
    ensures forall row :: row in SetVersion(t, version, dirty) ==> row == Row(version, dirty)
  {
  }

  /** The (version, dirty) a migration starts from: a missing row counts as
    * version 0, clean. */
  function StartState(t: Table): (r: Row)
    ensures |t| == 0 ==> r == Row(0, false)
    ensures |t| > 0 ==> r in t && forall row :: row in t ==> row.version <= r.version
  {
    match CurrentVersion(t)
    case Success(row) => row
    case Failure(NotFound) => Row(0, false)
  }

  /** The version a file name carries: the text before its first "_",
    * parsed as a uint64. */
  function FileVersion(file: string): (r: Result<nat, NumError>)
    ensures r.Success? ==> r.value < TwoTo64
  {
    ParseUint(Split(file, "_")[0])
  }

  /** A name "<digits>_<rest>" carries the version its digits spell. */
  lemma FileVersionOf(digits: string, rest: string)
    requires |digits| > 0 && AllDigits(digits) && DigitsValue(digits) < TwoTo64
    ensures FileVersion(digits + "_" + rest) == Success(DigitsValue(digits))
  {
    assert '_' !in digits by {
      assert forall i :: 0 <= i < |digits| ==> IsDigit(digits[i]);
    }
    SplitConsChar(digits, '_', rest);
  }

  datatype MigrationError =
    | Dirty
    | BadVersion(file: string)
    | ScriptFailed(file: string)

  /** The outcome of a migration run: the table it leaves, the files it ran
    * to completion, and the error it stopped with, if any. */
  datatype Outcome = Outcome(table: Table, applied: seq<string>, error: Option<MigrationError>)

  /**
   * MigrateUp's loop from file `i` on. `cur` is the version read at the
   * start; `steps < 0` means no bound. `runs(file)` tells whether executing
   * the file's script succeeds.
   */
  function UpLoop(files: seq<string>, i: nat, cur: nat, steps: int, t: Table, applied: seq<string>,
                  runs: string -> bool): (r: Outcome)
    requires i <= |files|
    requires steps >= 0 ==> |applied| <= steps
    ensures steps >= 0 ==> |r.applied| <= steps
    ensures applied <= r.applied
    ensures r.error.Some? ==> r.error.value != Dirty
    ensures r.error.None? && |r.applied| > |applied| ==>
      FileVersion(Last(r.applied)).Success? && r.table == [Row(FileVersion(Last(r.applied)).value, false)]
    ensures r.error.None? && |r.applied| == |applied| ==> r.table == t
    ensures r.error.Some? && r.error.value.ScriptFailed? ==> FailedRow(r)
    decreases |files| - i
  {
    if i == |files| then Outcome(t, applied, None)
    else
      var file := files[i];
      match FileVersion(file)
      case Failure(_) => Outcome(t, applied, Some(BadVersion(file)))
      case Success(v) =>
        if v <= cur then UpLoop(files, i + 1, cur, steps, t, applied, runs)
        else if steps >= 0 && |applied| >= steps then Outcome(t, applied, None)
        else if !runs(file) then Outcome(SetVersion(t, v, true), applied, Some(ScriptFailed(file)))
        else UpLoop(files, i + 1, cur, steps, SetVersion(SetVersion(t, v, true), v, false), applied + [file], runs)
  }

  /** The last element of a non-empty list. */
  function Last(s: seq<string>): string
    requires |s| > 0
  {
    s[|s| - 1]
  }

  /** A run stopped by a failing script leaves that script's version
    * recorded as dirty. */
  predicate FailedRow(r: Outcome)
    requires r.error.Some? && r.error.value.ScriptFailed?
  {
    FileVersion(r.error.value.file).Success? && r.table == [Row(FileVersion(r.error.value.file).value, true)]
  }

  /** MigrateUp(steps) over the ascending up-migration files. */
  function MigrateUp(t: Table, files: seq<string>, steps: int, runs: string -> bool): (r: Outcome)
    ensures StartState(t).dirty ==> r == Outcome(t, [], Some(Dirty))
    ensures steps >= 0 ==> |r.applied| <= steps
    ensures r.error.None? && |r.applied| > 0 ==>
      FileVersion(Last(r.applied)).Success? && r.table == [Row(FileVersion(Last(r.applied)).value, false)]
    ensures r.error.None? && |r.applied| == 0 ==> r.table == t
    ensures r.error.Some? && r.error.value.ScriptFailed? ==> FailedRow(r)
  {
    var start := StartState(t);
    if start.dirty then Outcome(t, [], Some(Dirty))
    else UpLoop(files, 0, start.version, steps, t, [], runs)
  }

  /** A script that fails leaves the table dirty, so every later migration
    * refuses to run until it is repaired. */
  lemma FailureBlocksLaterRuns(t: Table, files: seq<string>, steps: int, runs: string -> bool,
                               files2: seq<string>, steps2: int, runs2: string -> bool)
    requires MigrateUp(t, files, steps, runs).error.Some?
    requires MigrateUp(t, files, steps, runs).error.value.ScriptFailed?
    ensures MigrateUp(MigrateUp(t, files, steps, runs).table, files2, steps2, runs2).error == Some(Dirty)
    ensures MigrateDown(MigrateUp(t, files, steps, runs).table, files2, steps2, runs2).error == Some(Dirty)
  {
    var t2 := MigrateUp(t, files, steps, runs).table;
    assert t2 == [t2[0]];
  }

  /** The files MigrateUp should apply from version `cur`: those whose
    * version is higher, in file order. */
  function Pending(files: seq<string>, cur: nat): (r: seq<string>)
    ensures forall f :: f in r ==> f in files && FileVersion(f).Success? && FileVersion(f).value > cur
    decreases |files|
  {
    if |files| == 0 then []
    else
      var rest := Pending(files[1..], cur);
      var v := FileVersion(files[0]);
      if v.Success? && v.value > cur then [files[0]] + rest else rest
  }

  /** The first `n` elements of `s`, or all of them when `n < 0`. */
  function Prefix(s: seq<string>, n: int): (r: seq<string>)
    ensures r <= s
    ensures n >= 0 ==> |r| == if n < |s| then n else |s|
    ensures n < 0 ==> r == s
  {
    if n < 0 || n >= |s| then s else s[..n]
  }

  /** With every name parsable and every script succeeding, MigrateUp from
    * a clean table applies the pending files in order, at most `steps` of
    * them, and records the last one applied as clean. */
  lemma MigrateUpApplies(t: Table, files: seq<string>, steps: int, runs: string -> bool)
    requires forall f :: f in files ==> FileVersion(f).Success? && runs(f)
    requires !StartState(t).dirty
    ensures MigrateUp(t, files, steps, runs).error.None?
    ensures MigrateUp(t, files, steps, runs).applied == Prefix(Pending(files, StartState(t).version), steps)
    ensures var r := MigrateUp(t, files, steps, runs);
      r.table == if |r.applied| == 0 then t else [Row(FileVersion(Last(r.applied)).value, false)]
  {
    var cur := StartState(t).version;
    UpLoopApplies(files, 0, cur, steps, t, [], runs);
    StartBudget(files, cur, steps);
  }

  /** The loop starts at the first file with the whole budget. */
  lemma StartBudget(files: seq<string>, cur: nat, steps: int)
    ensures [] + Prefix(Pending(files[0..], cur), Budget(steps, [])) == Prefix(Pending(files, cur), steps)
  {
    assert files[0..] == files;
  }

  lemma {:induction false} UpLoopApplies(files: seq<string>, i: nat, cur: nat, steps: int, t: Table,
                                         applied: seq<string>, runs: string -> bool)
    requires i <= |files|
    requires forall f :: f in files ==> FileVersion(f).Success? && runs(f)
    requires steps >= 0 ==> |applied| <= steps
    ensures UpLoop(files, i, cur, steps, t, applied, runs).error.None?
    ensures UpLoop(files, i, cur, steps, t, applied, runs).applied
      == applied + Prefix(Pending(files[i..], cur), Budget(steps, applied))
    decreases |files| - i
  {
    if i < |files| {
      var f := files[i];
      assert f in files;
      var v := FileVersion(f).value;
      if v <= cur {
        UpLoopApplies(files, i + 1, cur, steps, t, applied, runs);
        UpSkipStep(files, i, cur, steps, t, applied, runs, v);
      } else if steps >= 0 && |applied| >= steps {
        UpStopStep(files, i, cur, steps, t, applied, runs, v);
      } else {
        var t2 := SetVersion(SetVersion(t, v, true), v, false);
        UpLoopApplies(files, i + 1, cur, steps, t2, applied + [f], runs);
        UpTakeStep(files, i, cur, steps, t, applied, runs, v);
      }
    } else {
      assert files[i..] == [];
    }
  }

  /** How many more files MigrateUp may apply: all of them (-1) when
    * `steps` is negative. */
  function Budget(steps: int, applied: seq<string>): int {
    if steps < 0 then -1 else steps - |applied|
  }

  /** A file at or below the current version is passed over. */
  lemma UpSkipStep(files: seq<string>, i: nat, cur: nat, steps: int, t: Table,
                   applied: seq<string>, runs: string -> bool, v: nat)
    requires i < |files| && FileVersion(files[i]) == Success(v) && v <= cur
    requires steps >= 0 ==> |applied| <= steps
    requires UpLoop(files, i + 1, cur, steps, t, applied, runs).error.None?
    requires UpLoop(files, i + 1, cur, steps, t, applied, runs).applied
      == applied + Prefix(Pending(files[i + 1..], cur), Budget(steps, applied))
    ensures UpLoop(files, i, cur, steps, t, applied, runs).error.None?
    ensures UpLoop(files, i, cur, steps, t, applied, runs).applied
      == applied + Prefix(Pending(files[i..], cur), Budget(steps, applied))
  {
    assert files[i..][1..] == files[i + 1..];
  }

  /** With the budget spent the loop stops. */
  lemma UpStopStep(files: seq<string>, i: nat, cur: nat, steps: int, t: Table,
                   applied: seq<string>, runs: string -> bool, v: nat)
    requires i < |files| && FileVersion(files[i]) == Success(v) && v > cur
    requires steps >= 0 && |applied| == steps
    ensures UpLoop(files, i, cur, steps, t, applied, runs).error.None?
    ensures UpLoop(files, i, cur, steps, t, applied, runs).applied
      == applied + Prefix(Pending(files[i..], cur), Budget(steps, applied))
  {
    assert Budget(steps, applied) == 0;
  }

  /** A pending file within the budget is applied and the loop goes on. */
  lemma UpTakeStep(files: seq<string>, i: nat, cur: nat, steps: int, t: Table,
                   applied: seq<string>, runs: string -> bool, v: nat)
    requires i < |files| && FileVersion(files[i]) == Success(v) && v > cur && runs(files[i])
    requires steps < 0 || |applied| < steps
    requires var t2 := SetVersion(SetVersion(t, v, true), v, false);
      UpLoop(files, i + 1, cur, steps, t2, applied + [files[i]], runs).error.None? &&
      UpLoop(files, i + 1, cur, steps, t2, applied + [files[i]], runs).applied
        == (applied + [files[i]]) + Prefix(Pending(files[i + 1..], cur), Budget(steps, applied + [files[i]]))
    ensures UpLoop(files, i, cur, steps, t, applied, runs).error.None?
    ensures UpLoop(files, i, cur, steps, t, applied, runs).applied
      == applied + Prefix(Pending(files[i..], cur), Budget(steps, applied))
  {
    var f := files[i];
    var later := Pending(files[i + 1..], cur);
    UpLoopTakeStep(files, i, cur, steps, t, applied, runs, v);
    PendingTake(files, i, cur, v);
    BudgetTake(applied, f, later, steps);
  }

  /** A pending file heads the pending list from its position on. */
  lemma PendingTake(files: seq<string>, i: nat, cur: nat, v: nat)
    requires i < |files| && FileVersion(files[i]) == Success(v) && v > cur
    ensures Pending(files[i..], cur) == [files[i]] + Pending(files[i + 1..], cur)
  {
    assert files[i..][1..] == files[i + 1..];
  }

  /** Applying one file uses one unit of the budget. */
  lemma BudgetTake(applied: seq<string>, f: string, later: seq<string>, steps: int)
    requires steps < 0 || |applied| < steps
    ensures (applied + [f]) + Prefix(later, Budget(steps, applied + [f]))
      == applied + Prefix([f] + later, Budget(steps, applied))
  {
    var n := Budget(steps, applied);
    PrefixCons(f, later, n);
    assert Budget(steps, applied + [f]) == if n < 0 then -1 else n - 1;
  }

  /** Unfolds UpLoop once at a file that is applied. */
  lemma UpLoopTakeStep(files: seq<string>, i: nat, cur: nat, steps: int, t: Table,
                       applied: seq<string>, runs: string -> bool, v: nat)
    requires i < |files|
    requires steps >= 0 ==> |applied| <= steps
    requires FileVersion(files[i]) == Success(v) && runs(files[i])
    requires v > cur && (steps < 0 || |applied| < steps)
    ensures UpLoop(files, i, cur, steps, t, applied, runs)
      == UpLoop(files, i + 1, cur, steps, SetVersion(SetVersion(t, v, true), v, false), applied + [files[i]], runs)
  {
  }

  lemma PrefixCons(x: string, s: seq<string>, n: int)
    requires n != 0
    ensures Prefix([x] + s, n) == [x] + Prefix(s, if n < 0 then -1 else n - 1)
  {
    if n > 0 && n - 1 < |s| {
      assert ([x] + s)[..n] == [x] + s[..n - 1];
    }
  }

  /** `t` records, clean, the version of files[k], or 0 when k is past the
    * end of the list. */
  predicate Records(t: Table, files: seq<string>, k: nat) {
    (k < |files| ==> FileVersion(files[k]).Success?) &&
    t == [Row(if k < |files| then FileVersion(files[k]).value else 0, false)]
  }

  /**
   * MigrateDown's loop from file `i` on, over the descending down-migration
   * files. After reverting a file it records the version of a later file as
   * the current one: with `byCount` the file at index appliedCount + 1, as
   * the engines do, otherwise the file right after the one reverted.
   */
  function DownLoop(files: seq<string>, i: nat, cur: nat, steps: int, t: Table, applied: seq<string>,
                    runs: string -> bool, byCount: bool): (r: Outcome)
    requires i <= |files|
    requires steps >= 0 ==> |applied| <= steps
    ensures steps >= 0 ==> |r.applied| <= steps
    ensures applied <= r.applied
    ensures r.error.Some? ==> r.error.value != Dirty
    ensures r.error.None? && |r.applied| == |applied| ==> r.table == t
    ensures r.error.Some? && r.error.value.ScriptFailed? ==> FailedRow(r)
    ensures byCount && r.error.None? && |r.applied| > |applied| ==> Records(r.table, files, |r.applied|)
    ensures !byCount && r.error.None? && |r.applied| > |applied| ==>
      exists j :: i <= j < |files| && files[j] == Last(r.applied) && Records(r.table, files, j + 1)
    decreases |files| - i
  {
    if i == |files| then Outcome(t, applied, None)
    else
      var file := files[i];
      match FileVersion(file)
      case Failure(_) => Outcome(t, applied, Some(BadVersion(file)))
      case Success(v) =>
        if v > cur then DownLoop(files, i + 1, cur, steps, t, applied, runs, byCount)
        else if steps >= 0 && |applied| >= steps then Outcome(t, applied, None)
        else if !runs(file) then Outcome(SetVersion(t, v, true), applied, Some(ScriptFailed(file)))
        else
          var dirtyTable := SetVersion(t, v, true);
          var next := if byCount then |applied| + 1 else i + 1;
          if next < |files| then
            match FileVersion(files[next])
            case Failure(_) => Outcome(dirtyTable, applied, Some(BadVersion(files[next])))
            case Success(prev) =>
              DownLoop(files, i + 1, cur, steps, SetVersion(dirtyTable, prev, false), applied + [file], runs, byCount)
          else DownLoop(files, i + 1, cur, steps, SetVersion(dirtyTable, 0, false), applied + [file], runs, byCount)
  }

  /** MigrateDown(steps) as the engines write it: after a run that
    * reverted n files the version recorded is that of files[n], whichever
    * files were reverted. */
  function MigrateDownAsWritten(t: Table, files: seq<string>, steps: int, runs: string -> bool): (r: Outcome)
    ensures StartState(t).dirty ==> r == Outcome(t, [], Some(Dirty))
    ensures steps >= 0 ==> |r.applied| <= steps
    ensures r.error.None? && |r.applied| == 0 ==> r.table == t
    ensures r.error.None? && |r.applied| > 0 ==> Records(r.table, files, |r.applied|)
    ensures r.error.Some? && r.error.value.ScriptFailed? ==> FailedRow(r)
  {
    var start := StartState(t);
    if start.dirty then Outcome(t, [], Some(Dirty))
    else DownLoop(files, 0, start.version, steps, t, [], runs, true)
  }

  /** MigrateDown(steps) recording the version of the file after the last
    * one reverted. */
  function MigrateDown(t: Table, files: seq<string>, steps: int, runs: string -> bool): (r: Outcome)
    ensures StartState(t).dirty ==> r == Outcome(t, [], Some(Dirty))
    ensures steps >= 0 ==> |r.applied| <= steps
    ensures r.error.None? && |r.applied| == 0 ==> r.table == t
    ensures r.error.None? && |r.applied| > 0 ==>
      exists j :: 0 <= j < |files| && files[j] == Last(r.applied) && Records(r.table, files, j + 1)
    ensures r.error.Some? && r.error.value.ScriptFailed? ==> FailedRow(r)
  {
    var start := StartState(t);
    if start.dirty then Outcome(t, [], Some(Dirty))
    else DownLoop(files, 0, start.version, steps, t, [], runs, false)
  }

  /** The files MigrateDown may revert from version `cur`: those at or
    * below it, in file order. */
  function Revertible(files: seq<string>, cur: nat): (r: seq<string>)
    ensures forall f :: f in r ==> f in files && FileVersion(f).Success? && FileVersion(f).value <= cur
    decreases |files|
  {
    if |files| == 0 then []
    else
      var rest := Revertible(files[1..], cur);
      var v := FileVersion(files[0]);
      if v.Success? && v.value <= cur then [files[0]] + rest else rest
  }

  /** With every name parsable and every script succeeding, MigrateDown from
    * a clean table reverts the files at or below the current version, in
    * the (descending) order of the list and at most `steps` of them, as
    * written and corrected alike: only the version recorded differs. */
  lemma {:induction false} MigrateDownReverts(t: Table, files: seq<string>, steps: int, runs: string -> bool)
    requires forall f :: f in files ==> FileVersion(f).Success? && runs(f)
    requires !StartState(t).dirty
    ensures MigrateDownAsWritten(t, files, steps, runs).error.None?
    ensures MigrateDownAsWritten(t, files, steps, runs).applied == Prefix(Revertible(files, StartState(t).version), steps)
    ensures MigrateDown(t, files, steps, runs).error.None?
    ensures MigrateDown(t, files, steps, runs).applied == Prefix(Revertible(files, StartState(t).version), steps)
  {
    var cur := StartState(t).version;
    DownLoopReverts(files, 0, cur, steps, t, [], runs, true);
    DownLoopReverts(files, 0, cur, steps, t, [], runs, false);
    assert files[0..] == files;
  }

  lemma {:induction false} DownLoopReverts(files: seq<string>, i: nat, cur: nat, steps: int, t: Table,
                                           applied: seq<string>, runs: string -> bool, byCount: bool)
    requires i <= |files|
    requires forall f :: f in files ==> FileVersion(f).Success? && runs(f)
    requires steps >= 0 ==> |applied| <= steps
    ensures DownLoop(files, i, cur, steps, t, applied, runs, byCount).error.None?
    ensures DownLoop(files, i, cur, steps, t, applied, runs, byCount).applied
      == applied + Prefix(Revertible(files[i..], cur), Budget(steps, applied))
    decreases |files| - i
  {
    if i < |files| {
      var f := files[i];
      assert f in files;
      var v := FileVersion(f).value;
      if v > cur {
        DownLoopReverts(files, i + 1, cur, steps, t, applied, runs, byCount);
        assert files[i..][1..] == files[i + 1..];
      } else if steps >= 0 && |applied| >= steps {
        assert Budget(steps, applied) == 0;
      } else {
        var next := if byCount then |applied| + 1 else i + 1;
        if next < |files| {
          assert files[next] in files;
        }
        var prev := if next < |files| then FileVersion(files[next]).value else 0;
        var t2 := SetVersion(SetVersion(t, v, true), prev, false);
        DownLoopReverts(files, i + 1, cur, steps, t2, applied + [f], runs, byCount);
        DownTakeStep(files, i, cur, steps, t, applied, runs, byCount, v, prev);
      }
    } else {
      assert files[i..] == [];
    }
  }

  /** A revertible file within the budget is reverted and the loop goes on. */
  lemma DownTakeStep(files: seq<string>, i: nat, cur: nat, steps: int, t: Table,
                     applied: seq<string>, runs: string -> bool, byCount: bool, v: nat, prev: nat)
    requires i < |files| && FileVersion(files[i]) == Success(v) && v <= cur && runs(files[i])
    requires steps < 0 || |applied| < steps
    requires var next := if byCount then |applied| + 1 else i + 1;
      (next < |files| ==> FileVersion(files[next]) == Success(prev)) && (next >= |files| ==> prev == 0)
    requires var t2 := SetVersion(SetVersion(t, v, true), prev, false);
      DownLoop(files, i + 1, cur, steps, t2, applied + [files[i]], runs, byCount).error.None? &&
      DownLoop(files, i + 1, cur, steps, t2, applied + [files[i]], runs, byCount).applied
        == (applied + [files[i]]) + Prefix(Revertible(files[i + 1..], cur), Budget(steps, applied + [files[i]]))
    ensures DownLoop(files, i, cur, steps, t, applied, runs, byCount).error.None?
    ensures DownLoop(files, i, cur, steps, t, applied, runs, byCount).applied
      == applied + Prefix(Revertible(files[i..], cur), Budget(steps, applied))
  {
    var f := files[i];
    var later := Revertible(files[i + 1..], cur);
    assert files[i..][1..] == files[i + 1..];
    assert Revertible(files[i..], cur) == [f] + later;
    BudgetTake(applied, f, later, steps);
  }

  /** The two ways of choosing the recorded version agree while no file has
    * been skipped, that is when the current version is the newest. */
  lemma {:induction false} DownLoopAgree(files: seq<string>, i: nat, cur: nat, steps: int, t: Table,
                                         applied: seq<string>, runs: string -> bool)
    requires i <= |files| && i == |applied|
    requires steps >= 0 ==> |applied| <= steps
    requires forall j :: i <= j < |files| ==> FileVersion(files[j]).Success? && FileVersion(files[j]).value <= cur
    ensures DownLoop(files, i, cur, steps, t, applied, runs, true) == DownLoop(files, i, cur, steps, t, applied, runs, false)
    decreases |files| - i
  {
    if i < |files| {
      var v := FileVersion(files[i]).value;
      if !(steps >= 0 && |applied| >= steps) && runs(files[i]) {
        var dirtyTable := SetVersion(t, v, true);
        if i + 1 < |files| {
          var prev := FileVersion(files[i + 1]).value;
          DownLoopAgree(files, i + 1, cur, steps, SetVersion(dirtyTable, prev, false), applied + [files[i]], runs);
        } else {
          DownLoopAgree(files, i + 1, cur, steps, SetVersion(dirtyTable, 0, false), applied + [files[i]], runs);
        }
      }
    }
  }

  /** From the newest version both down paths behave the same. */
  lemma MigrateDownAtNewest(t: Table, files: seq<string>, steps: int, runs: string -> bool)
    requires forall j :: 0 <= j < |files| ==> FileVersion(files[j]).Success? && FileVersion(files[j]).value <= StartState(t).version
    ensures MigrateDownAsWritten(t, files, steps, runs) == MigrateDown(t, files, steps, runs)
  {
    if !StartState(t).dirty {
      DownLoopAgree(files, 0, StartState(t).version, steps, t, [], runs);
    }
  }

  /**
   * Reverting one migration below a newer, unapplied file: the files are
   * versions a > cur, cur, b in descending order and the table is at cur.
   * As written, the version recorded after reverting cur is cur itself (the
   * file at index 1); the corrected loop records b.
   */
  lemma DownRecordsRevertedVersion(t: Table, files: seq<string>, runs: string -> bool)
    requires |files| == 3 && !StartState(t).dirty
    requires forall j :: 0 <= j < 3 ==> FileVersion(files[j]).Success?
    requires FileVersion(files[0]).value > StartState(t).version
    requires FileVersion(files[1]).value == StartState(t).version
    requires FileVersion(files[2]).value < StartState(t).version
    requires runs(files[1])
    ensures MigrateDownAsWritten(t, files, 1, runs).applied == [files[1]]
    ensures MigrateDownAsWritten(t, files, 1, runs).table == [Row(StartState(t).version, false)]
    ensures MigrateDown(t, files, 1, runs).applied == [files[1]]
    ensures MigrateDown(t, files, 1, runs).table == [Row(FileVersion(files[2]).value, false)]
  {
    var cur := StartState(t).version;
    var v1 := FileVersion(files[1]).value;
    var v2 := FileVersion(files[2]).value;
    var written := SetVersion(SetVersion(t, v1, true), v1, false);
    var fixed := SetVersion(SetVersion(t, v1, true), v2, false);
    assert DownLoop(files, 0, cur, 1, t, [], runs, true) == DownLoop(files, 1, cur, 1, t, [], runs, true);
    assert DownLoop(files, 1, cur, 1, t, [], runs, true) == DownLoop(files, 2, cur, 1, written, [files[1]], runs, true);
    assert DownLoop(files, 0, cur, 1, t, [], runs, false) == DownLoop(files, 1, cur, 1, t, [], runs, false);
    assert DownLoop(files, 1, cur, 1, t, [], runs, false) == DownLoop(files, 2, cur, 1, fixed, [files[1]], runs, false);
  }

  /** The corrected down path records, after a complete run, the version of
    * the file after the last one reverted (0 after the oldest): the newest
    * migration still applied. */
  lemma {:induction false} DownLoopRecordsNext(files: seq<string>, i: nat, cur: nat, t: Table,
                                               applied: seq<string>, runs: string -> bool)
    requires i < |files|
    requires forall j :: i <= j < |files| ==> FileVersion(files[j]).Success? && FileVersion(files[j]).value <= cur
    requires forall j :: i <= j < |files| ==> runs(files[j])
    ensures DownLoop(files, i, cur, |applied| + 1, t, applied, runs, false)
      == Outcome(SetVersion(SetVersion(t, FileVersion(files[i]).value, true),
                            if i + 1 < |files| then FileVersion(files[i + 1]).value else 0, false),
                 applied + [files[i]], None)
  {
    var v := FileVersion(files[i]).value;
    var dirtyTable := SetVersion(t, v, true);
    var prev := if i + 1 < |files| then FileVersion(files[i + 1]).value else 0;
    var after := SetVersion(dirtyTable, prev, false);
    if i + 1 < |files| {
      assert DownLoop(files, i, cur, |applied| + 1, t, applied, runs, false)
        == DownLoop(files, i + 1, cur, |applied| + 1, after, applied + [files[i]], runs, false);
    }
  }
}

=== FILE: numbers.dfy ===
/**
 * Integer text conversions: Go's strconv.Atoi, strconv.FormatInt and
 * strconv.ParseBool, Python's int() on plain digit strings, and Go's 64-bit
 * two's-complement wrap-around.
 */
module Numbers {
  import opened Wrappers

  const MaxInt64: int := 0x7fff_ffff_ffff_ffff
  const MinInt64: int := -0x8000_0000_0000_0000
  const TwoTo64: int := 0x1_0000_0000_0000_0000

  predicate InInt64(x: int) {
    MinInt64 <= x <= MaxInt64
  }

  /** The value Go's int64 arithmetic keeps of the exact value `x`. */
  function Wrap64(x: int): (r: int)
    ensures InInt64(r)
    ensures (r - x) % TwoTo64 == 0
    ensures InInt64(x) ==> r == x
  {
    (x - MinInt64) % TwoTo64 + MinInt64
  }

  /** Wrapping an intermediate result does not change the final wrapped sum. */
  lemma WrapAdd(a: int, b: int)
    ensures Wrap64(Wrap64(a) + b) == Wrap64(a + b)
  {
    var k := (Wrap64(a) - a) / TwoTo64;
    assert Wrap64(a) == a + k * TwoTo64;
    WrapShift(a + b, k);
  }

  lemma WrapMul(a: int, b: int)
    ensures Wrap64(Wrap64(a) * b) == Wrap64(a * b)
  {
    var k := (Wrap64(a) - a) / TwoTo64;
    assert Wrap64(a) * b == a * b + (k * b) * TwoTo64;
    WrapShift(a * b, k * b);
  }

  lemma WrapNeg(a: int)
    ensures Wrap64(-Wrap64(a)) == Wrap64(-a)
  {
    var k := (Wrap64(a) - a) / TwoTo64;
    assert -Wrap64(a) == -a + (-k) * TwoTo64;
    WrapShift(-a, -k);
  }

  /** One step of an int64 running sum, in terms of the exact sum. */
  lemma WrapStep(acc: int, x: int, rest: int)
    ensures Wrap64(Wrap64(acc + Wrap64(x)) + rest) == Wrap64(acc + (x + rest))
  {
    WrapAdd(acc + Wrap64(x), rest);
    assert acc + Wrap64(x) + rest == Wrap64(x) + (acc + rest);
    WrapAdd(x, acc + rest);
  }

  /** Wrap64 only sees its argument modulo 2^64. */
  lemma WrapShift(x: int, k: int)
    ensures Wrap64(x + k * TwoTo64) == Wrap64(x)
  {
    var a := x - MinInt64;
    assert (a + k * TwoTo64) % TwoTo64 == a % TwoTo64 by {
      ModShift(a, k, TwoTo64);
    }
  }

  lemma ModShift(a: int, k: int, m: int)
    requires m > 0
    ensures (a + k * m) % m == a % m
  {
    var q := a / m;
    assert a + k * m == (q + k) * m + a % m by {
      assert (q + k) * m == q * m + k * m;
    }
    ModUnique(a + k * m, q + k, a % m, m);
  }

  /** Euclidean division leaves one remainder. */
  lemma ModUnique(x: int, q: int, r: int, m: int)
    requires m > 0 && 0 <= r < m && x == q * m + r
    ensures x % m == r
  {
    var q0, r0 := x / m, x % m;
    assert (q - q0) * m == r0 - r by {
      assert (q - q0) * m == q * m - q0 * m;
    }
    if q > q0 {
      MulAtLeast(q - q0, m);
    } else if q < q0 {
      MulAtLeast(q0 - q, m);
    }
  }

  lemma MulAtLeast(d: int, m: int)
    requires d >= 1 && m > 0
    ensures d * m >= m
  {
    assert d * m == (d - 1) * m + m;
  }

  lemma ScaleAtLeast(x: nat, n: nat)
    requires n >= 1
    ensures x <= x * n
  {
    assert x * n == x * (n - 1) + x;
  }

  predicate IsDigit(c: char) {
    '0' <= c <= '9'
  }

  predicate AllDigits(s: string) {
    forall i :: 0 <= i < |s| ==> IsDigit(s[i])
  }

  function DigitValue(c: char): (r: nat)
    requires IsDigit(c)
    ensures r < 10
  {
    c as int - '0' as int
  }

  function DigitChar(d: nat): (c: char)
    requires d < 10
    ensures IsDigit(c) && DigitValue(c) == d
  {
    ('0' as int + d) as char
  }

  /** The value of a decimal digit string (leading zeros allowed). */
  function DigitsValue(s: string): nat
    requires AllDigits(s)
    decreases |s|
  {
    if |s| == 0 then 0 else DigitsValue(s[..|s| - 1]) * 10 + DigitValue(s[|s| - 1])
  }

  /** The shortest decimal rendering of a natural number. */
  function NatDigits(n: nat): (s: string)
    ensures |s| >= 1 && AllDigits(s)
    decreases n
  {
    if n < 10 then [DigitChar(n)] else NatDigits(n / 10) + [DigitChar(n % 10)]
  }

  lemma {:induction false} NatDigitsValue(n: nat)
    ensures DigitsValue(NatDigits(n)) == n
    decreases n
  {
    if n >= 10 {
      NatDigitsValue(n / 10);
      var s := NatDigits(n);
      assert s[..|s| - 1] == NatDigits(n / 10);
    }
  }

  /** strconv.FormatInt(n, 10) and fmt's %d. */
  function FormatInt(n: int): (s: string)
    ensures |s| >= 1
    ensures n >= 0 ==> AllDigits(s)
    ensures n < 0 ==> s[0] == '-' && AllDigits(s[1..])
  {
    if n < 0 then "-" + NatDigits(-n) else NatDigits(n)
  }

  datatype NumError = Syntax | Range

  /** The value of a digit string carrying a sign. */
  function Signed(neg: bool, body: string): int
    requires AllDigits(body)
  {
    if neg then -(DigitsValue(body) as int) else DigitsValue(body)
  }

  /** The sign Go accepts in front of the digits, and the digits after it. */
  function SignSplit(s: string): (r: (bool, string))
    ensures r.1 == s || (|s| > 0 && r.1 == s[1..] && (s[0] == '+' || s[0] == '-'))
    ensures r.0 <==> |s| > 0 && s[0] == '-'
  {
    if |s| > 0 && (s[0] == '+' || s[0] == '-') then (s[0] == '-', s[1..]) else (false, s)
  }

  /**
   * strconv.Atoi with Go's 64-bit `int`: an optional sign, then one or more
   * decimal digits, whose value must fit in int64.
   */
  function Atoi(s: string): (r: Result<int, NumError>)
    ensures r.Success? ==> InInt64(r.value)
    ensures r.Success? <==> var (neg, body) := SignSplit(s);
      |body| > 0 && AllDigits(body) && InInt64(Signed(neg, body))
    ensures r.Success? ==> var (neg, body) := SignSplit(s);
      r.value == Signed(neg, body)
  {
    var (neg, body) := SignSplit(s);
    if |body| == 0 || !AllDigits(body) then Failure(Syntax)
    else
      var v := Signed(neg, body);
      if InInt64(v) then Success(v) else Failure(Range)
  }

  function Abs(n: int): nat {
    if n < 0 then -n else n
  }

  /** FormatInt's sign and digits are what SignSplit takes apart. */
  lemma SignSplitFormat(n: int)
    ensures SignSplit(FormatInt(n)) == (n < 0, NatDigits(Abs(n)))
  {
    var d := NatDigits(Abs(n));
    assert IsDigit(d[0]);
    if n < 0 {
      assert FormatInt(n)[1..] == d;
    }
  }

  /** A signed rendering reads back as the number it renders. */
  lemma SignedFormat(n: int)
    ensures AllDigits(NatDigits(Abs(n))) && Signed(n < 0, NatDigits(Abs(n))) == n
  {
    NatDigitsValue(Abs(n));
  }

  /** Atoi inverts FormatInt on the whole int64 range. */
  lemma AtoiFormatInt(n: int)
    requires InInt64(n)
    ensures Atoi(FormatInt(n)) == Success(n)
  {
    SignSplitFormat(n);
    SignedFormat(n);
  }

  /** A plain digit string parses to its value when that fits. */
  lemma AtoiDigits(d: string)
    requires |d| > 0 && AllDigits(d) && DigitsValue(d) <= MaxInt64
    ensures Atoi(d) == Success(DigitsValue(d))
  {
    assert IsDigit(d[0]);
  }

  /** Any text holding a character that is neither a digit nor a leading
    * sign is rejected. */
  lemma AtoiRejectsNonDigit(s: string, i: nat)
    requires i < |s| && !IsDigit(s[i]) && !(i == 0 && (s[0] == '+' || s[0] == '-'))
    ensures Atoi(s).Failure?
  {
    var (neg, body) := SignSplit(s);
    if body == s[1..] && |s| > 0 && (s[0] == '+' || s[0] == '-') {
      assert body[i - 1] == s[i];
    } else {
      assert body[i] == s[i];
    }
  }

  /** strconv.ParseUint(s, 10, 64): one or more decimal digits, no sign,
    * with a value below 2^64. */
  function ParseUint(s: string): (r: Result<nat, NumError>)
    ensures r.Success? <==> |s| > 0 && AllDigits(s) && DigitsValue(s) < TwoTo64
    ensures r.Success? ==> r.value == DigitsValue(s)
    ensures r.Failure? && |s| > 0 && AllDigits(s) ==> r.error == Range
  {
    if |s| == 0 || !AllDigits(s) then Failure(Syntax)
    else if DigitsValue(s) < TwoTo64 then Success(DigitsValue(s))
    else Failure(Range)
  }

  /** ParseUint reads back every rendering of a uint64. */
  lemma ParseUintFormat(n: nat)
    requires n < TwoTo64
    ensures ParseUint(NatDigits(n)) == Success(n)
  {
    NatDigitsValue(n);
  }

  /** strconv.ParseBool */
  function ParseBool(s: string): (r: Result<bool, NumError>)
    ensures r.Success? <==> s in {"1", "t", "T", "TRUE", "true", "True", "0", "f", "F", "FALSE", "false", "False"}
    ensures r.Success? ==> (r.value <==> s in {"1", "t", "T", "TRUE", "true", "True"})
  {
    if s in {"1", "t", "T", "TRUE", "true", "True"} then Success(true)
    else if s in {"0", "f", "F", "FALSE", "false", "False"} then Success(false)
    else Failure(Syntax)
  }

  /** strconv.FormatBool */
  function FormatBool(b: bool): string {
    if b then "true" else "false"
  }

  lemma ParseFormatBool(b: bool)
    ensures ParseBool(FormatBool(b)) == Success(b)
  {
  }

  /**
   * Python's int() on text made of an optional sign and decimal digits
   * (unbounded, no surrounding white space or underscores).
   */
  function PyInt(s: string): (r: Option<int>)
    ensures r.Some? <==> |SignSplit(s).1| > 0 && AllDigits(SignSplit(s).1)
    ensures r.Some? ==> r.value == Signed(SignSplit(s).0, SignSplit(s).1)
  {
    var (neg, body) := SignSplit(s);
    if |body| == 0 || !AllDigits(body) then None
    else Some(Signed(neg, body))
  }

  /** Python's int() inverts str() on every integer. */
  lemma PyIntFormat(n: int)
    ensures PyInt(FormatInt(n)) == Some(n)
  {
    SignSplitFormat(n);
    SignedFormat(n);
  }
}

=== FILE: openapi.dfy ===
/**
 * Post-processing of the generated OpenAPI document: schema names lose
 * their "media." package prefix, the placeholder "routes.fakePlayable"
 * schema becomes a "Playable" union of the six record schemas, references
 * in JSON responses follow the renaming, the "/fake" path goes, and the
 * feed routes are documented with what they inherit from their base path.
 */
module OpenAPI {
  import opened Wrappers
  import opened Strs
  import opened FeedRoutes

  /** A decoded JSON value. */
  datatype Json =
    | JNull
    | JBool(b: bool)
    | JNum(n: int)
    | JStr(s: string)
    | JArr(items: seq<Json>)
    | JObj(fields: map<string, Json>)

  type Object = map<string, Json>

  const SchemaPrefix: string := "#/components/schemas/"
  const MediaPrefix: string := "media."
  const FakePlayable: string := "routes.fakePlayable"

  /** The schema name a reference to `name` ends up naming: the placeholder
    * becomes "Playable", and one "media." prefix is dropped. */
  function CanonicalName(name: string): string {
    if name == FakePlayable then "Playable" else TrimPrefix(name, MediaPrefix)
  }

  /** updateReference */
  function UpdateReference(ref: string): (r: string)
    ensures HasPrefix(r, SchemaPrefix) <==> HasPrefix(ref, SchemaPrefix)
    ensures !HasPrefix(ref, SchemaPrefix) ==> r == ref
  {
    if ref == SchemaPrefix + FakePlayable then SchemaPrefix + "Playable"
    else if HasPrefix(ref, SchemaPrefix + MediaPrefix) then
      SchemaPrefix + TrimPrefix(ref, SchemaPrefix + MediaPrefix)
    else ref
  }

  lemma PrefixSplit(p: string, q: string, s: string)
    ensures HasPrefix(p + s, p + q) <==> HasPrefix(s, q)
    ensures HasPrefix(s, q) ==> TrimPrefix(p + s, p + q) == TrimPrefix(s, q)
  {
    if HasPrefix(s, q) {
      assert p + s == (p + q) + s[|q|..];
      assert (p + s)[|p + q|..] == s[|q|..];
    }
    if HasPrefix(p + s, p + q) {
      assert s[..|q|] == (p + s)[|p|..|p| + |q|];
    }
  }

  /** A reference into the schema components is rewritten name-wise:
    * `#/components/schemas/<name>` becomes the reference to
    * CanonicalName(name). */
  lemma UpdateReferenceNames(name: string)
    ensures UpdateReference(SchemaPrefix + name) == SchemaPrefix + CanonicalName(name)
  {
    PrefixSplit(SchemaPrefix, MediaPrefix, name);
    if SchemaPrefix + name == SchemaPrefix + FakePlayable {
      assert name == (SchemaPrefix + name)[|SchemaPrefix|..];
    }
  }

  /** Exactly one "media." goes: a doubly prefixed name keeps one. */
  lemma UpdateReferenceStripsOnce(name: string)
    ensures UpdateReference(SchemaPrefix + MediaPrefix + name) == SchemaPrefix + name
  {
    UpdateReferenceNames(MediaPrefix + name);
    assert SchemaPrefix + MediaPrefix + name == SchemaPrefix + (MediaPrefix + name);
    assert (MediaPrefix + name)[0] != FakePlayable[0];
    MediaName(name);
  }

  predicate IsMedia(k: string) {
    HasPrefix(k, MediaPrefix)
  }

  lemma MediaName(x: string)
    ensures IsMedia(MediaPrefix + x) && TrimPrefix(MediaPrefix + x, MediaPrefix) == x
  {
    assert (MediaPrefix + x)[..|MediaPrefix|] == MediaPrefix;
    assert (MediaPrefix + x)[|MediaPrefix|..] == x;
  }

  /** One pass of the renaming loop at key `k`: a "media." key still present
    * moves to its unprefixed name, replacing any schema already there. */
  function RenameKey(m: Object, k: string): (r: Object)
    ensures k !in m || !IsMedia(k) ==> r == m
  {
    if IsMedia(k) && k in m then m[TrimPrefix(k, MediaPrefix) := m[k]] - {k} else m
  }

  /** The renaming loop, visiting the keys in the order `order`. Go leaves
    * map iteration order unspecified, so the order is a parameter. */
  function RenameAll(m: Object, order: seq<string>): Object
    decreases |order|
  {
    if |order| == 0 then m
    else RenameKey(RenameAll(m, order[..|order| - 1]), order[|order| - 1])
  }

  predicate Distinct(order: seq<string>) {
    forall i, j :: 0 <= i < j < |order| ==> order[i] != order[j]
  }

  /** `order` is an iteration order of the keys of `m`. */
  predicate Listing(m: Object, order: seq<string>) {
    Distinct(order) && (forall k :: k in m ==> k in order) && (forall k :: k in order ==> k in m)
  }

  /** No schema name carries the "media." prefix twice. */
  predicate SingleMedia(m: Object) {
    forall k :: k in m && IsMedia(k) ==> !IsMedia(TrimPrefix(k, MediaPrefix))
  }

  /** The loop's state after visiting the keys in `order`, for one name `x`:
    * present when it was there and is not a visited "media." key, or when
    * its "media." form was visited; holding the moved schema in that case. */
  lemma {:induction false} RenameAllState(m: Object, order: seq<string>, x: string)
    requires Distinct(order) && (forall k :: k in order ==> k in m) && SingleMedia(m)
    ensures x in RenameAll(m, order) <==>
      (x in m && !(IsMedia(x) && x in order)) || MediaPrefix + x in order
    ensures x in RenameAll(m, order) ==>
      RenameAll(m, order)[x] == (if MediaPrefix + x in order then m[MediaPrefix + x] else m[x])
    decreases |order|
  {
    if |order| > 0 {
      var pre, k := order[..|order| - 1], order[|order| - 1];
      assert order == pre + [k];
      assert Distinct(pre) && forall j :: j in pre ==> j in m by {
        forall j | j in pre
          ensures j in order
        {
          var i :| 0 <= i < |pre| && pre[i] == j;
          assert order[i] == j;
        }
      }
      assert k !in pre by {
        forall i | 0 <= i < |pre|
          ensures pre[i] != k
        {
          assert order[i] == pre[i];
        }
      }
      RenameAllState(m, pre, x);
      RenameAllState(m, pre, k);
      MediaName(x);
      if IsMedia(k) {
        var y := TrimPrefix(k, MediaPrefix);
        assert k == MediaPrefix + y;
        MediaName(k);
        RenameAllState(m, pre, y);
        MediaName(y);
      }
    }
  }

  function RefTo(name: string): Json {
    JObj(map["$ref" := JStr(SchemaPrefix + name)])
  }

  /** The union of the record schemas a Playable can be. */
  const PlayableSchema: Json :=
    JObj(map["oneOf" := JArr([RefTo("Track"), RefTo("Album"), RefTo("Video"),
                              RefTo("Playlist"), RefTo("Artist"), RefTo("User")])])

  /** processSchemas, with the iteration order of the renaming loop. */
  function ProcessSchemas(schemas: Object, order: seq<string>): (r: Object)
    ensures "Playable" in r && r["Playable"] == PlayableSchema
    ensures FakePlayable !in r
  {
    RenameAll(schemas, order)["Playable" := PlayableSchema] - {FakePlayable}
  }

  /** The schema a surviving name holds: its "media." form's, if there
    * was one. */
  function SchemaFor(schemas: Object, x: string): Json
    requires x in schemas || MediaPrefix + x in schemas
  {
    if MediaPrefix + x in schemas then schemas[MediaPrefix + x] else schemas[x]
  }

  /** What processSchemas leaves, name by name, whatever the iteration
    * order: "Playable" as the union, every other name present when it or
    * its "media." form was, the "media." form's schema winning. */
  lemma ProcessSchemasNames(schemas: Object, order: seq<string>, x: string)
    requires Listing(schemas, order) && SingleMedia(schemas)
    ensures x in ProcessSchemas(schemas, order) <==>
      (x != FakePlayable && (x == "Playable" || (x in schemas && !IsMedia(x)) || MediaPrefix + x in schemas))
    ensures x in ProcessSchemas(schemas, order) && x != "Playable" ==>
      ProcessSchemas(schemas, order)[x] == SchemaFor(schemas, x)
  {
    RenameAllState(schemas, order, x);
  }

  /** No name keeps the "media." prefix. */
  lemma NoMediaLeft(schemas: Object, order: seq<string>, x: string)
    requires Listing(schemas, order) && SingleMedia(schemas)
    requires x in ProcessSchemas(schemas, order)
    ensures !IsMedia(x)
  {
    ProcessSchemasNames(schemas, order, x);
    assert !IsMedia("Playable") by {
      assert "Playable"[0] != MediaPrefix[0];
    }
    if x != "Playable" && MediaPrefix + x in schemas {
      MediaName(x);
    }
  }

  /** The outcome does not depend on the iteration order. */
  lemma ProcessSchemasOrderIrrelevant(schemas: Object, o1: seq<string>, o2: seq<string>)
    requires Listing(schemas, o1) && Listing(schemas, o2) && SingleMedia(schemas)
    ensures ProcessSchemas(schemas, o1) == ProcessSchemas(schemas, o2)
  {
    var a, b := ProcessSchemas(schemas, o1), ProcessSchemas(schemas, o2);
    forall x
      ensures x in a <==> x in b
      ensures x in a ==> a[x] == b[x]
    {
      ProcessSchemasNames(schemas, o1, x);
      ProcessSchemasNames(schemas, o2, x);
    }
    assert a.Keys == b.Keys;
  }

  /** A reference to a schema that existed still resolves once the
    * references are rewritten and the schemas renamed. */
  lemma ReferencesResolve(schemas: Object, order: seq<string>, name: string)
    requires Listing(schemas, order) && SingleMedia(schemas)
    requires name in schemas && name != MediaPrefix + FakePlayable
    ensures UpdateReference(SchemaPrefix + name) == SchemaPrefix + CanonicalName(name)
    ensures CanonicalName(name) in ProcessSchemas(schemas, order)
  {
    UpdateReferenceNames(name);
    var n := CanonicalName(name);
    ProcessSchemasNames(schemas, order, n);
    if name != FakePlayable && IsMedia(name) {
      assert MediaPrefix + n == name;
    }
  }

  /** The reference a schema object holds directly, if any. */
  function RefOf(j: Json): Option<string> {
    if j.JObj? && "$ref" in j.fields && j.fields["$ref"].JStr? then Some(j.fields["$ref"].s) else None
  }

  /** The oneOf loop as written: only items that are bare strings change. */
  function UpdateStringItems(items: seq<Json>): (r: seq<Json>)
    ensures |r| == |items|
    ensures forall i :: 0 <= i < |items| && !items[i].JStr? ==> r[i] == items[i]
  {
    seq(|items|, i requires 0 <= i < |items| =>
      if items[i].JStr? then JStr(UpdateReference(items[i].s)) else items[i])
  }

  /** The rewrite of a "$ref" held by an object. */
  function UpdateRefField(o: Object): (r: Object)
    ensures RefOf(JObj(r)) == (if RefOf(JObj(o)).Some? then Some(UpdateReference(RefOf(JObj(o)).value)) else None)
    ensures r.Keys == o.Keys
  {
    if "$ref" in o && o["$ref"].JStr? then o["$ref" := JStr(UpdateReference(o["$ref"].s))] else o
  }

  /** The oneOf loop as intended: string items and the "$ref" of object
    * items are rewritten. */
  function UpdateItems(items: seq<Json>): (r: seq<Json>)
    ensures |r| == |items|
  {
    seq(|items|, i requires 0 <= i < |items| =>
      match items[i]
      case JStr(s) => JStr(UpdateReference(s))
      case JObj(o) => JObj(UpdateRefField(o))
      case _ => items[i])
  }

  /** processSchema as written: a "$ref", else the oneOf list, else the
    * array items' "$ref". */
  function ProcessSchemaAsWritten(schema: Object): (r: Object)
    ensures r.Keys == schema.Keys
    ensures RefOf(JObj(r)) == (if RefOf(JObj(schema)).Some? then Some(UpdateReference(RefOf(JObj(schema)).value)) else None)
    ensures IsOneOf(schema) ==>
      r["oneOf"].JArr? && |r["oneOf"].items| == |schema["oneOf"].items| &&
      forall i :: 0 <= i < |schema["oneOf"].items| && schema["oneOf"].items[i].JObj? ==>
        r["oneOf"].items[i] == schema["oneOf"].items[i]
  {
    if "$ref" in schema && schema["$ref"].JStr? then UpdateRefField(schema)
    else if "oneOf" in schema && schema["oneOf"].JArr? then
      schema["oneOf" := JArr(UpdateStringItems(schema["oneOf"].items))]
    else if "items" in schema && schema["items"].JObj? then
      schema["items" := JObj(UpdateRefField(schema["items"].fields))]
    else schema
  }

  /** processSchema with the oneOf items treated as the schema objects they
    * are. */
  function ProcessSchema(schema: Object): (r: Object)
    ensures r.Keys == schema.Keys
  {
    if "$ref" in schema && schema["$ref"].JStr? then UpdateRefField(schema)
    else if "oneOf" in schema && schema["oneOf"].JArr? then
      schema["oneOf" := JArr(UpdateItems(schema["oneOf"].items))]
    else if "items" in schema && schema["items"].JObj? then
      schema["items" := JObj(UpdateRefField(schema["items"].fields))]
    else schema
  }

  /** A oneOf schema: no reference of its own, and a list of alternatives. */
  predicate IsOneOf(schema: Object) {
    !("$ref" in schema && schema["$ref"].JStr?) && "oneOf" in schema && schema["oneOf"].JArr?
  }

  /** As written, the references of the oneOf alternatives, which are
    * objects, stay as they were. */
  lemma OneOfRefsKept(schema: Object, i: nat)
    requires IsOneOf(schema) && i < |schema["oneOf"].items|
    requires schema["oneOf"].items[i].JObj?
    ensures var r := ProcessSchemaAsWritten(schema);
      "oneOf" in r && r["oneOf"].JArr? && i < |r["oneOf"].items| &&
      RefOf(r["oneOf"].items[i]) == RefOf(schema["oneOf"].items[i])
  {
  }

  /** So a oneOf alternative naming a "media." schema keeps a reference to
    * a name that processSchemas removes. */
  lemma OneOfRefDangles(schemas: Object, order: seq<string>)
    requires Listing(schemas, order) && SingleMedia(schemas)
    ensures var alt := RefTo(MediaPrefix + "Track");
      var r := ProcessSchemaAsWritten(map["oneOf" := JArr([alt])]);
      RefOf(r["oneOf"].items[0]) == Some(SchemaPrefix + (MediaPrefix + "Track")) &&
      MediaPrefix + "Track" !in ProcessSchemas(schemas, order)
  {
    var alt := RefTo(MediaPrefix + "Track");
    OneOfRefsKept(map["oneOf" := JArr([alt])], 0);
    if MediaPrefix + "Track" in ProcessSchemas(schemas, order) {
      NoMediaLeft(schemas, order, MediaPrefix + "Track");
      MediaName("Track");
    }
  }

  /** The corrected loop rewrites the reference of every alternative. */
  lemma OneOfRefsUpdated(schema: Object, i: nat)
    requires IsOneOf(schema) && i < |schema["oneOf"].items|
    ensures var r := ProcessSchema(schema);
      "oneOf" in r && r["oneOf"].JArr? && i < |r["oneOf"].items| &&
      RefOf(r["oneOf"].items[i]) ==
        (if RefOf(schema["oneOf"].items[i]).Some?
         then Some(UpdateReference(RefOf(schema["oneOf"].items[i]).value)) else None)
  {
    var item := schema["oneOf"].items[i];
    if item.JObj? {
      assert UpdateItems(schema["oneOf"].items)[i] == JObj(UpdateRefField(item.fields));
    }
  }

  /** With corrected alternatives, every alternative naming a schema that
    * existed keeps naming one. */
  lemma OneOfRefsResolve(schema: Object, i: nat, schemas: Object, order: seq<string>, name: string)
    requires IsOneOf(schema) && i < |schema["oneOf"].items|
    requires RefOf(schema["oneOf"].items[i]) == Some(SchemaPrefix + name)
    requires Listing(schemas, order) && SingleMedia(schemas)
    requires name in schemas && name != MediaPrefix + FakePlayable
    ensures var r := ProcessSchema(schema);
      "oneOf" in r && r["oneOf"].JArr? && i < |r["oneOf"].items| &&
      RefOf(r["oneOf"].items[i]) == Some(SchemaPrefix + CanonicalName(name)) &&
      CanonicalName(name) in ProcessSchemas(schemas, order)
  {
    OneOfRefsUpdated(schema, i);
    ReferencesResolve(schemas, order, name);
  }

  /** The object held at `key`, if `j` is an object holding one there. */
  function Field(j: Json, key: string): Option<Object> {
    if j.JObj? && key in j.fields && j.fields[key].JObj? then Some(j.fields[key].fields) else None
  }

  /** The schema of a response's JSON content. */
  function ResponseSchema(resp: Json): Option<Object> {
    var content := Field(resp, "content");
    if content.None? then None
    else
      var json := Field(JObj(content.value), "application/json");
      if json.None? then None else Field(JObj(json.value), "schema")
  }

  /** `resp` with the schema of its JSON content replaced by `s`. */
  function WithResponseSchema(resp: Json, s: Object): Json
    requires ResponseSchema(resp).Some?
  {
    var content := resp.fields["content"].fields;
    var json := content["application/json"].fields;
    JObj(resp.fields["content" := JObj(content["application/json" := JObj(json["schema" := JObj(s)])])])
  }

  /** Which processSchema the response schemas go through: the program's,
    * whose oneOf loop rewrites bare strings only, or the corrected one. */
  datatype Rewrite = AsWritten | Corrected

  function RewriteSchema(how: Rewrite, schema: Object): Object {
    match how
    case AsWritten => ProcessSchemaAsWritten(schema)
    case Corrected => ProcessSchema(schema)
  }

  /** processResponseObject */
  function ProcessResponse(how: Rewrite, resp: Json): (r: Json)
    ensures ResponseSchema(resp).None? ==> r == resp
    ensures ResponseSchema(resp).Some? ==> ResponseSchema(r) == Some(RewriteSchema(how, ResponseSchema(resp).value))
  {
    if ResponseSchema(resp).None? then resp
    else WithResponseSchema(resp, RewriteSchema(how, ResponseSchema(resp).value))
  }

  /** Only the schema changes: putting the old schema back restores the
    * response. */
  lemma ProcessResponseOnlySchema(how: Rewrite, resp: Json)
    requires ResponseSchema(resp).Some?
    ensures ResponseSchema(ProcessResponse(how, resp)).Some?
    ensures WithResponseSchema(ProcessResponse(how, resp), ResponseSchema(resp).value) == resp
  {
    var content := resp.fields["content"].fields;
    var json := content["application/json"].fields;
    var s := json["schema"].fields;
    var p := RewriteSchema(how, s);
    var json1 := json["schema" := JObj(p)];
    var content1 := content["application/json" := JObj(json1)];
    var resp1 := JObj(resp.fields["content" := JObj(content1)]);
    assert ProcessResponse(how, resp) == resp1;
    assert resp1.fields["content"].fields == content1;
    assert content1["application/json"].fields == json1;
    assert json1["schema" := JObj(s)] == json;
    assert content1["application/json" := JObj(json)] == content;
    assert resp1.fields["content" := JObj(content)] == resp.fields;
  }

  function ProcessResponses(how: Rewrite, rs: Object): (r: Object)
    ensures r.Keys == rs.Keys
  {
    map c | c in rs :: ProcessResponse(how, rs[c])
  }

  /** processPathOperations, for one operation. */
  function ProcessOperation(how: Rewrite, op: Json): (r: Json)
    ensures Field(op, "responses").None? ==> r == op
  {
    if Field(op, "responses").None? then op
    else JObj(op.fields["responses" := JObj(ProcessResponses(how, Field(op, "responses").value))])
  }

  function ProcessPathItem(how: Rewrite, item: Json): Json {
    if item.JObj? then JObj(map m | m in item.fields :: ProcessOperation(how, item.fields[m])) else item
  }

  const FakePath: string := "/fake"

  /** processPaths: the "/fake" path goes, and every response schema of
    * every remaining operation is processed. */
  function ProcessPaths(how: Rewrite, paths: Object): (r: Object)
    ensures r.Keys == paths.Keys - {FakePath}
  {
    map p | p in paths && p != FakePath :: ProcessPathItem(how, paths[p])
  }

  /** The response `code` of operation `verb` at `path`. */
  function ResponseAt(paths: Object, path: string, verb: string, code: string): Option<Json> {
    if path in paths then
      var op := Field(paths[path], verb);
      if op.None? then None
      else
        var rs := Field(JObj(op.value), "responses");
        if rs.None? || code !in rs.value then None else Some(rs.value[code])
    else None
  }

  /** Every response keeps its place and has its JSON schema processed. */
  lemma ProcessPathsResponses(how: Rewrite, paths: Object, path: string, verb: string, code: string)
    requires path != FakePath
    ensures ResponseAt(ProcessPaths(how, paths), path, verb, code) ==
      (if ResponseAt(paths, path, verb, code).Some?
       then Some(ProcessResponse(how, ResponseAt(paths, path, verb, code).value)) else None)
  {
    if path in paths && Field(paths[path], verb).Some? {
      var op := JObj(Field(paths[path], verb).value);
      assert ProcessPaths(how, paths)[path] == ProcessPathItem(how, paths[path]);
      assert ProcessPathItem(how, paths[path]).fields[verb] == ProcessOperation(how, op);
    }
  }

  /** The JSON schema of the response `code` of `verb` at `path`. */
  function SchemaAt(paths: Object, path: string, verb: string, code: string): Option<Object> {
    var resp := ResponseAt(paths, path, verb, code);
    if resp.None? then None else ResponseSchema(resp.value)
  }

  /** Every response schema outside "/fake" goes through processSchema, and
    * nothing else becomes a response schema. */
  lemma ProcessPathsSchemas(how: Rewrite, paths: Object, path: string, verb: string, code: string)
    requires path != FakePath
    ensures SchemaAt(ProcessPaths(how, paths), path, verb, code) ==
      (if SchemaAt(paths, path, verb, code).Some?
       then Some(RewriteSchema(how, SchemaAt(paths, path, verb, code).value)) else None)
  {
    ProcessPathsResponses(how, paths, path, verb, code);
  }

  /** createFeedRouteDescription */
  function FeedRouteDescription(feedType: string): string {
    if feedType == "JSON" then "JSON feed response" else feedType + " XML feed response"
  }

  /** createFeedRouteContent: one content type, with its schema and the
    * same description the response carries. */
  function FeedRouteContent(feedType: string): Json {
    var contentType := if feedType == "JSON" then "application/json" else "application/xml";
    var schemaType := if feedType == "JSON" then "object" else "string";
    JObj(map[contentType := JObj(map["schema" := JObj(map["type" := JStr(schemaType)]),
                                     "description" := JStr(FeedRouteDescription(feedType))])])
  }

  /** JSON feeds are documented as JSON objects, every other feed type as
    * an XML string; the content repeats the response's description. */
  lemma FeedContentShape(feedType: string)
    ensures var c := FeedRouteContent(feedType);
      var ct := if feedType == "JSON" then "application/json" else "application/xml";
      c.JObj? && c.fields.Keys == {ct} &&
      Field(c, ct).Some? &&
      Field(c, ct).value["description"] == JStr(FeedRouteDescription(feedType)) &&
      Field(JObj(Field(c, ct).value), "schema") ==
        Some(map["type" := JStr(if feedType == "JSON" then "object" else "string")])
    ensures feedType != "JSON" ==> FeedRouteDescription(feedType) == feedType + " XML feed response"
  {
  }

  /** The GET operation documented for a feed route, before it inherits
    * from its base path. */
  datatype FeedGet = FeedGet(summary: string, parameters: Option<seq<Json>>, responses: Object)

  function NewFeedGet(doc: FeedRouteDoc): FeedGet {
    FeedGet(doc.summary, None,
            map["200" := JObj(map["description" := JStr(FeedRouteDescription(doc.feedType)),
                                  "content" := FeedRouteContent(doc.feedType)])])
  }

  function FeedGetJson(g: FeedGet): Json {
    var fields := map["summary" := JStr(g.summary), "responses" := JObj(g.responses)];
    JObj(map["get" := JObj(if g.parameters.Some? then fields["parameters" := JArr(g.parameters.value)] else fields)])
  }

  /** The GET operation documented at `basePath`, if any. */
  function BaseGet(paths: Object, basePath: string): Option<Object> {
    if basePath in paths then Field(paths[basePath], "get") else None
  }

  function Parameters(get: Object): Option<seq<Json>> {
    if "parameters" in get && get["parameters"].JArr? then Some(get["parameters"].items) else None
  }

  /** The non-"200" responses of the GET at `basePath`, which a feed route
    * inherits. */
  function Inherited(paths: Object, basePath: string): Object {
    var base := BaseGet(paths, basePath);
    if base.None? then map[] else NonSuccess(Field(JObj(base.value), "responses"))
  }

  /** The responses other than "200". */
  function NonSuccess(responses: Option<Object>): (r: Object)
    ensures responses.None? ==> r == map[]
    ensures responses.Some? ==> forall k :: k in r <==> k in responses.value && k != "200"
    ensures forall k :: k in r ==> r[k] == responses.value[k]
  {
    if responses.None? then map[] else map k | k in responses.value && k != "200" :: responses.value[k]
  }

  /** The parameters of the GET at `basePath`, when it lists some. */
  function BaseParameters(paths: Object, basePath: string): Option<seq<Json>> {
    var base := BaseGet(paths, basePath);
    if base.None? then None else Parameters(base.value)
  }

  /** copyBasePathInfo */
  function CopyBasePathInfo(paths: Object, basePath: string, target: FeedGet): (r: FeedGet)
    ensures r.summary == target.summary
    ensures BaseGet(paths, basePath).None? ==> r == target
    ensures r.parameters == if BaseParameters(paths, basePath).Some? then BaseParameters(paths, basePath) else target.parameters
    ensures "200" !in Inherited(paths, basePath)
    ensures forall k :: k in r.responses <==> k in target.responses || k in Inherited(paths, basePath)
    ensures forall k :: k in r.responses ==>
      r.responses[k] == if k in Inherited(paths, basePath) then Inherited(paths, basePath)[k] else target.responses[k]
  {
    var base := BaseGet(paths, basePath);
    if base.None? then target
    else
      var params := if Parameters(base.value).Some? then Parameters(base.value) else target.parameters;
      FeedGet(target.summary, params, target.responses + Inherited(paths, basePath))
  }

  /** Every non-"200" response the base GET documents is inherited, under
    * the same code. */
  lemma InheritedResponses(paths: Object, basePath: string, code: string)
    requires BaseGet(paths, basePath).Some?
    requires Field(JObj(BaseGet(paths, basePath).value), "responses").Some?
    ensures code in Inherited(paths, basePath) <==>
      code != "200" && code in Field(JObj(BaseGet(paths, basePath).value), "responses").value
    ensures code in Inherited(paths, basePath) ==>
      Inherited(paths, basePath)[code] == Field(JObj(BaseGet(paths, basePath).value), "responses").value[code]
  {
  }

  /** A feed route keeps its own "200" response whatever its base path
    * documents. */
  lemma FeedKeepsOwnSuccess(paths: Object, doc: FeedRouteDoc)
    ensures var g := CopyBasePathInfo(paths, doc.basePath, NewFeedGet(doc));
      "200" in g.responses && g.responses["200"] == NewFeedGet(doc).responses["200"]
  {
  }

  /** addFeedRoutesDocumentation: each feed route in turn documented at its
    * path, inheriting from whatever is documented at its base path by
    * then. */
  function AddFeedRoutesDocumentation(paths: Object, docs: seq<FeedRouteDoc>): (r: Object)
    ensures forall d :: d in docs ==> d.path in r
    ensures forall p :: p in paths && (forall d :: d in docs ==> d.path != p) ==> p in r && r[p] == paths[p]
    ensures forall p :: p in r ==> p in paths || exists d :: d in docs && d.path == p
    decreases |docs|
  {
    if |docs| == 0 then paths
    else
      var d, later := docs[0], docs[1..];
      var next := paths[d.path := FeedRouteEntry(paths, d)];
      assert forall x :: x in docs <==> x == d || x in later by {
        assert docs == [d] + later;
      }
      AddFeedRoutesDocumentation(next, later)
  }

  /** The path entry documenting one feed route. */
  function FeedRouteEntry(paths: Object, doc: FeedRouteDoc): Json {
    FeedGetJson(CopyBasePathInfo(paths, doc.basePath, NewFeedGet(doc)))
  }

  /** The document the server hands out. */
  datatype Spec = Spec(schemas: Object, paths: Object)

  /** GetOpenAPISpec, after loading: schemas, then paths, then the feed
    * routes when the configuration asks for them. The program is
    * `how == AsWritten`. */
  function GetOpenAPISpec(how: Rewrite, spec: Spec, order: seq<string>, feedDocs: seq<FeedRouteDoc>, documentFeeds: bool): (r: Spec)
    ensures r.schemas == ProcessSchemas(spec.schemas, order)
    ensures !documentFeeds ==> r.paths.Keys == spec.paths.Keys - {FakePath}
    ensures documentFeeds ==> forall d :: d in feedDocs ==> d.path in r.paths
  {
    var paths := ProcessPaths(how, spec.paths);
    Spec(ProcessSchemas(spec.schemas, order),
         if documentFeeds then AddFeedRoutesDocumentation(paths, feedDocs) else paths)
  }

  /** Outside "/fake" and the documented feed routes, the response schemas
    * of the document handed out are the loaded ones, processed. */
  lemma SpecSchemaAt(how: Rewrite, spec: Spec, order: seq<string>, feedDocs: seq<FeedRouteDoc>, documentFeeds: bool,
                     path: string, verb: string, code: string)
    requires path != FakePath
    requires documentFeeds ==> forall d :: d in feedDocs ==> d.path != path
    ensures SchemaAt(GetOpenAPISpec(how, spec, order, feedDocs, documentFeeds).paths, path, verb, code) ==
      (if SchemaAt(spec.paths, path, verb, code).Some?
       then Some(RewriteSchema(how, SchemaAt(spec.paths, path, verb, code).value)) else None)
  {
    ProcessPathsSchemas(how, spec.paths, path, verb, code);
    var paths := ProcessPaths(how, spec.paths);
    if documentFeeds && path in paths {
      assert AddFeedRoutesDocumentation(paths, feedDocs)[path] == paths[path];
    }
  }

  /** A response schema that names a schema directly still names one in
    * the document handed out, as written and corrected alike. */
  lemma SpecRefResolves(how: Rewrite, spec: Spec, order: seq<string>, feedDocs: seq<FeedRouteDoc>, documentFeeds: bool,
                        path: string, verb: string, code: string, name: string)
    requires path != FakePath
    requires documentFeeds ==> forall d :: d in feedDocs ==> d.path != path
    requires Listing(spec.schemas, order) && SingleMedia(spec.schemas)
    requires name in spec.schemas && name != MediaPrefix + FakePlayable
    requires SchemaAt(spec.paths, path, verb, code).Some?
    requires RefOf(JObj(SchemaAt(spec.paths, path, verb, code).value)) == Some(SchemaPrefix + name)
    ensures var r := GetOpenAPISpec(how, spec, order, feedDocs, documentFeeds);
      SchemaAt(r.paths, path, verb, code).Some? &&
      RefOf(JObj(SchemaAt(r.paths, path, verb, code).value)) == Some(SchemaPrefix + CanonicalName(name)) &&
      CanonicalName(name) in r.schemas
  {
    SpecSchemaAt(how, spec, order, feedDocs, documentFeeds, path, verb, code);
    ReferencesResolve(spec.schemas, order, name);
  }

  /** A oneOf alternative of a response schema, in the document handed
    * out: as written its reference stays, so it resolves exactly when it
    * names neither a "media." schema nor the fake playable; corrected, it
    * names the renamed schema, which exists. */
  lemma SpecOneOfRef(how: Rewrite, spec: Spec, order: seq<string>, feedDocs: seq<FeedRouteDoc>, documentFeeds: bool,
                     path: string, verb: string, code: string, i: nat, name: string)
    requires path != FakePath
    requires documentFeeds ==> forall d :: d in feedDocs ==> d.path != path
    requires Listing(spec.schemas, order) && SingleMedia(spec.schemas)
    requires name in spec.schemas && name != MediaPrefix + FakePlayable
    requires SchemaAt(spec.paths, path, verb, code).Some?
    requires IsOneOf(SchemaAt(spec.paths, path, verb, code).value)
    requires i < |SchemaAt(spec.paths, path, verb, code).value["oneOf"].items|
    requires RefOf(SchemaAt(spec.paths, path, verb, code).value["oneOf"].items[i]) == Some(SchemaPrefix + name)
    ensures var r := GetOpenAPISpec(how, spec, order, feedDocs, documentFeeds);
      var s := SchemaAt(r.paths, path, verb, code);
      s.Some? && "oneOf" in s.value && s.value["oneOf"].JArr? && i < |s.value["oneOf"].items| &&
      RefOf(s.value["oneOf"].items[i]) == Some(SchemaPrefix + (if how.Corrected? then CanonicalName(name) else name))
    ensures how.Corrected? ==> CanonicalName(name) in GetOpenAPISpec(how, spec, order, feedDocs, documentFeeds).schemas
    ensures how.AsWritten? ==>
      (name in GetOpenAPISpec(how, spec, order, feedDocs, documentFeeds).schemas <==> name != FakePlayable && !IsMedia(name))
  {
    var schema := SchemaAt(spec.paths, path, verb, code).value;
    SpecSchemaAt(how, spec, order, feedDocs, documentFeeds, path, verb, code);
    if how.Corrected? {
      OneOfRefsResolve(schema, i, spec.schemas, order, name);
    } else {
      OneOfRefsKept(schema, i);
      ProcessSchemasNames(spec.schemas, order, name);
      if IsMedia(name) && name in ProcessSchemas(spec.schemas, order) {
        NoMediaLeft(spec.schemas, order, name);
      }
    }
  }
}

=== FILE: script_args.dfy ===
/**
 * Argument handling and output shaping of the YouTube helper script: the
 * `key=value` argument map, the search limit and categories, the lyrics id
 * rule, and the lyrics and subtitle entries it prints.
 */
module ScriptArgs {
  import opened Wrappers
  import opened Strs
  import opened Numbers

  /** `arg.split("=", 1)` for an argument holding "=". */
  function SplitAssign(arg: string): (r: Option<(string, string)>)
    ensures r.Some? <==> '=' in arg
    ensures r.Some? ==> r.value.0 + "=" + r.value.1 == arg && '=' !in r.value.0
  {
    if '=' in arg then
      var k := FirstIndex(arg, '=');
      assert arg == arg[..k] + "=" + arg[k + 1..];
      Some((arg[..k], arg[k + 1..]))
    else None
  }

  /** The key of `k=v` is k whenever k holds no "=", whatever v holds. */
  lemma SplitAssignJoin(k: string, v: string)
    requires '=' !in k
    ensures SplitAssign(k + "=" + v) == Some((k, v))
  {
    var arg := k + "=" + v;
    assert arg[|k|] == '=';
    assert arg[..|k|] == k;
    assert FirstIndex(arg, '=') == |k|;
  }

  /** The key an argument assigns, if it assigns one. */
  predicate Assigns(arg: string, key: string) {
    SplitAssign(arg).Some? && SplitAssign(arg).value.0 == key
  }

  /** The argument map after the first `n` arguments: each assignment sets
    * its key, later ones overriding earlier ones; other arguments are
    * ignored. */
  function ArgsMap(argv: seq<string>, n: nat): map<string, string>
    requires n <= |argv|
  {
    if n == 0 then map[]
    else
      var before := ArgsMap(argv, n - 1);
      match SplitAssign(argv[n - 1])
      case Some((key, value)) => before[key := value]
      case None => before
  }

  /** The script's loop over sys.argv[2:]. */
  method ParseArgs(argv: seq<string>) returns (args: map<string, string>)
    ensures args == ArgsMap(argv, |argv|)
  {
    args := map[];
    for n := 0 to |argv|
      invariant args == ArgsMap(argv, n)
    {
      match SplitAssign(argv[n])
      case Some((key, value)) =>
        args := args[key := value];
      case None =>
    }
  }

  /** The position of the last of the first `n` arguments assigning `key`. */
  function LastAssign(argv: seq<string>, n: nat, key: string): (r: Option<nat>)
    requires n <= |argv|
    ensures r.Some? ==> (r.value < n && Assigns(argv[r.value], key)
      && forall j :: r.value < j < n ==> !Assigns(argv[j], key))
    ensures r.None? ==> forall j :: 0 <= j < n ==> !Assigns(argv[j], key)
  {
    if n == 0 then None
    else if Assigns(argv[n - 1], key) then Some(n - 1)
    else LastAssign(argv, n - 1, key)
  }

  /** A key is in the map exactly when some argument assigns it, and its
    * value is the one the last such argument gives. */
  lemma {:induction false} ArgsMapLast(argv: seq<string>, n: nat, key: string)
    requires n <= |argv|
    ensures key in ArgsMap(argv, n) <==> LastAssign(argv, n, key).Some?
    ensures key in ArgsMap(argv, n) ==> ArgsMap(argv, n)[key] == SplitAssign(argv[LastAssign(argv, n, key).value]).value.1
  {
    if n > 0 {
      ArgsMapLast(argv, n - 1, key);
    }
  }

  /** Python's int() rejecting the text. */
  datatype ScriptError = ValueError(text: string)

  /** The search limit: "20" by default, unbounded for "all", otherwise
    * the integer the text spells. */
  lemma PyIntTwenty()
    ensures PyInt("20") == Some(20)
  {
    assert "20"[..1] == "2";
    assert "2"[..0] == "";
  }

  function SearchLimit(args: map<string, string>): (r: Result<Option<int>, ScriptError>)
    ensures "limit" !in args ==> r == Success(Some(20))
    ensures "limit" in args && args["limit"] == "all" ==> r == Success(None)
    ensures r.Failure? <==> "limit" in args && args["limit"] != "all" && PyInt(args["limit"]).None?
    ensures r.Success? && r.value.Some? && "limit" in args ==> PyInt(args["limit"]) == r.value
  {
    var text := if "limit" in args then args["limit"] else "20";
    PyIntTwenty();
    if text == "all" then Success(None)
    else match PyInt(text)
      case Some(n) => Success(Some(n))
      case None => Failure(ValueError(text))
  }

  /** Every number given as the limit is read back as itself. */
  lemma SearchLimitFormat(args: map<string, string>, n: int)
    requires "limit" in args && args["limit"] == FormatInt(n)
    ensures SearchLimit(args) == Success(Some(n))
  {
    PyIntFormat(n);
    assert FormatInt(n) != "all" by {
      if n >= 0 { assert IsDigit(FormatInt(n)[0]); }
    }
  }

  /** The categories searched: the "types" filter, or tracks, albums and
    * artists; videos join tracks when allowed. */
  function SearchedTypes(types: Option<seq<string>>, allowVideos: bool): (r: seq<string>)
    ensures types.UnwrapOr(DefaultTypes()) <= r
    ensures |r| <= |types.UnwrapOr(DefaultTypes())| + 1
    ensures "videos" in r <==> var base := types.UnwrapOr(DefaultTypes());
      "videos" in base || ("tracks" in base && allowVideos)
    ensures forall t :: t in r && t != "videos" ==> t in types.UnwrapOr(DefaultTypes())
  {
    var base := types.UnwrapOr(DefaultTypes());
    if "tracks" in base && allowVideos && "videos" !in base then base + ["videos"] else base
  }

  function DefaultTypes(): seq<string> {
    ["tracks", "albums", "artists"]
  }

  /** The ytmusicapi filter a category is searched with. */
  function QueryFilter(t: string): (f: string)
    ensures t == "tracks" ==> f == "songs"
    ensures t != "tracks" ==> f == t
  {
    if t == "tracks" then "songs" else t
  }

  /** One search query per category, in category order. */
  function Queries(types: seq<string>): (r: seq<string>)
    ensures |r| == |types|
    ensures forall i :: 0 <= i < |types| ==> r[i] == QueryFilter(types[i])
  {
    seq(|types|, i requires 0 <= i < |types| => QueryFilter(types[i]))
  }

  /** The default search asks for songs, albums and artists, then videos
    * when they are allowed. */
  lemma DefaultQueries(allowVideos: bool)
    ensures Queries(SearchedTypes(None, allowVideos))
      == if allowVideos then ["songs", "albums", "artists", "videos"] else ["songs", "albums", "artists"]
  {
    assert "tracks" in DefaultTypes();
    assert "videos" !in DefaultTypes();
  }

  /** No query ever uses the "tracks" filter. */
  lemma QueriesNoTracks(types: seq<string>)
    ensures "tracks" !in Queries(types)
  {
  }

  /** The lyrics id: ids starting with "MPLY" already are one, any other id
    * is resolved through the watch playlist (`watchLyrics`). */
  function LyricsId(id: string, watchLyrics: string -> string): (r: string)
    ensures HasPrefix(id, "MPLY") ==> r == id
    ensures !HasPrefix(id, "MPLY") ==> r == watchLyrics(id)
  {
    if HasPrefix(id, "MPLY") then id else watchLyrics(id)
  }

  /** The lyrics action's output: one entry, language "unknown", the format
    * "txt", then the lyrics with Windows line ends made Unix ones. */
  function LyricsOutput(lyrics: string): (r: map<string, string>)
    ensures r.Keys == {"unknown"}
    ensures HasPrefix(r["unknown"], "txt\n")
    ensures '\r' !in lyrics ==> r["unknown"] == "txt\n" + lyrics
  {
    var text := ReplaceAll(lyrics, "\r\n", "\n");
    assert '\r' !in lyrics ==> text == lyrics by {
      if '\r' !in lyrics {
        NoCrNoCrlf(lyrics);
      }
    }
    map["unknown" := "txt\n" + text]
  }

  /** Lines joined with "\r\n" come out joined with "\n". */
  lemma {:induction false} CrlfLines(lines: seq<string>)
    requires forall i :: 0 <= i < |lines| ==> '\r' !in lines[i]
    ensures ReplaceAll(Join(lines, "\r\n"), "\r\n", "\n") == Join(lines, "\n")
    decreases |lines|
  {
    if |lines| == 1 {
      NoCrNoCrlf(lines[0]);
    } else if |lines| > 1 {
      CrlfLines(lines[1..]);
      ReplaceCrlfAfter(lines[0], Join(lines[1..], "\r\n"));
    }
  }

  lemma NoCrNoCrlf(s: string)
    requires '\r' !in s
    ensures ReplaceAll(s, "\r\n", "\n") == s
  {
    forall j: nat | j <= |s|
      ensures !At(s, "\r\n", j)
    {
      if j + 2 <= |s| {
        assert s[j..j + 2][0] == s[j];
      }
    }
  }

  /** A line free of "\r" followed by "\r\n" keeps its text and gets "\n". */
  lemma {:induction false} ReplaceCrlfAfter(a: string, b: string)
    requires '\r' !in a
    ensures ReplaceAll(a + "\r\n" + b, "\r\n", "\n") == a + "\n" + ReplaceAll(b, "\r\n", "\n")
    decreases |a|
  {
    var s := a + "\r\n" + b;
    if |a| == 0 {
      assert s[..2] == "\r\n";
      assert s[2..] == b;
    } else {
      assert s[..2] != "\r\n" by {
        assert s[0] == a[0] != '\r';
      }
      assert s[1..] == a[1..] + "\r\n" + b;
      ReplaceCrlfAfter(a[1..], b);
      assert a == [a[0]] + a[1..];
    }
  }

  /** One subtitle file of the subtitles action: its name's second-to-last
    * "."-piece is the language, and the value is the last piece (the
    * format), a newline, then the content. A name without "." makes the
    * script raise, which is None here. */
  function SubtitleEntry(fileName: string, content: string): (r: Option<(string, string)>)
    ensures r.Some? <==> '.' in fileName
  {
    var pieces := Split(fileName, ".");
    if |pieces| < 2 then
      assert '.' !in fileName by {
        SplitFirst(fileName, ".");
        NotContainsChar(fileName, '.');
      }
      None
    else
      assert '.' in fileName by {
        SplitFirst(fileName, ".");
        if '.' !in fileName {
          NoCharNoContains(fileName, '.');
        }
      }
      Some((pieces[|pieces| - 2], pieces[|pieces| - 1] + "\n" + content))
  }

  /** A file named "<lang>.<format>" gives the entry lang -> format + "\n" +
    * content, as do longer names ending in ".<lang>.<format>". */
  lemma SubtitleNamed(lang: string, format: string, content: string)
    requires '.' !in lang && '.' !in format
    ensures Split(lang + "." + format, ".") == [lang, format]
    ensures SubtitleEntry(lang + "." + format, content) == Some((lang, format + "\n" + content))
  {
    NoCharNoContains(format, '.');
    SplitNoSep(format, ".");
    SplitConsChar(lang, '.', format);
  }

  /** Only the last two "."-pieces of a longer name matter. */
  lemma SubtitleStem(stem: string, lang: string, format: string, content: string)
    requires '.' !in lang && '.' !in format
    ensures SubtitleEntry(stem + "." + lang + "." + format, content) == Some((lang, format + "\n" + content))
  {
    var tail := lang + "." + format;
    var name := stem + "." + lang + "." + format;
    assert name == stem + "." + tail;
    SubtitleNamed(lang, format, content);
    SplitAppendChar(stem, '.', tail);
    var pieces := Split(name, ".");
    assert pieces == Split(stem, ".") + [lang, format];
    assert pieces[|pieces| - 2] == lang && pieces[|pieces| - 1] == format;
  }

  /** The actions the script knows, with the argument each one needs. */
  function RequiredArg(action: string): (r: Option<string>)
    ensures r == Some("query") <==> action == "search"
    ensures r == Some("id") <==> action in {"lyrics", "subtitles", "content", "track", "video", "album", "artist", "playlist"}
  {
    if action == "search" then Some("query")
    else if action in {"lyrics", "subtitles", "content", "track", "video", "album", "artist", "playlist"} then Some("id")
    else None
  }

  datatype Outcome = MissingAction | MissingArgument(name: string) | Unknown | Run(action: string)

  /** What the script does with its command line before any I/O. */
  function Dispatch(argv: seq<string>, args: map<string, string>): (r: Outcome)
    ensures |argv| == 0 ==> r == MissingAction
    ensures r.Run? ==> (|argv| >= 1 && r.action == argv[0] && RequiredArg(argv[0]).Some?
      && RequiredArg(argv[0]).value in args)
    ensures r.MissingArgument? ==> RequiredArg(argv[0]) == Some(r.name) && r.name !in args
    ensures |argv| >= 1 && RequiredArg(argv[0]).None? ==> r == Unknown
  {
    if |argv| == 0 then MissingAction
    else match RequiredArg(argv[0])
      case None => Unknown
      case Some(name) => if name in args then Run(argv[0]) else MissingArgument(name)
  }

  /** The content action downloads audio unless "type" asks for anything
    * else. */
  function WantsAudio(args: map<string, string>): (b: bool)
    ensures b <==> "type" !in args || args["type"] == "audio"
  {
    (if "type" in args then args["type"] else "audio") == "audio"
  }
}

=== FILE: search_merge.dfy ===
/**
 * The search action of the YouTube helper script merges one result list per
 * searched category into a single list: the first result of every category,
 * then the second of every category, and so on, up to a limit.
 */
module SearchMerge {
  import opened Wrappers

  /** The number of results still held by the lists. */
  function Total<T>(lists: seq<seq<T>>): nat
    decreases |lists|
  {
    if |lists| == 0 then 0 else |lists[0]| + Total(lists[1..])
  }

  predicate AllEmpty<T>(lists: seq<seq<T>>) {
    forall i :: 0 <= i < |lists| ==> |lists[i]| == 0
  }

  /** The first result of every non-empty list, in list order. */
  function Heads<T>(lists: seq<seq<T>>): seq<T>
    decreases |lists|
  {
    if |lists| == 0 then []
    else if |lists[0]| == 0 then Heads(lists[1..])
    else [lists[0][0]] + Heads(lists[1..])
  }

  /** Every list without its first result. */
  function Tails<T>(lists: seq<seq<T>>): (r: seq<seq<T>>)
    ensures |r| == |lists|
    decreases |lists|
  {
    if |lists| == 0 then []
    else [if |lists[0]| == 0 then [] else lists[0][1..]] + Tails(lists[1..])
  }

  /** The lists concatenated, category after category. */
  function Flatten<T>(lists: seq<seq<T>>): seq<T>
    decreases |lists|
  {
    if |lists| == 0 then [] else lists[0] + Flatten(lists[1..])
  }

  lemma {:induction false} HeadsTails<T>(lists: seq<seq<T>>)
    ensures |Heads(lists)| + Total(Tails(lists)) == Total(lists)
    ensures AllEmpty(lists) <==> |Heads(lists)| == 0
    decreases |lists|
  {
    if |lists| > 0 {
      HeadsTails(lists[1..]);
      assert Tails(lists)[1..] == Tails(lists[1..]);
      EmptyCons(lists);
    }
  }

  lemma EmptyCons<T>(lists: seq<seq<T>>)
    requires |lists| > 0
    ensures AllEmpty(lists) <==> |lists[0]| == 0 && AllEmpty(lists[1..])
  {
    if |lists[0]| == 0 && AllEmpty(lists[1..]) {
      forall i | 1 <= i < |lists|
        ensures |lists[i]| == 0
      {
        assert lists[i] == lists[1..][i - 1];
      }
    }
  }

  /** A round of heads and the remaining tails hold the same results as the
    * lists. */
  lemma {:induction false} HeadsTailsMultiset<T>(lists: seq<seq<T>>)
    ensures multiset(Heads(lists)) + multiset(Flatten(Tails(lists))) == multiset(Flatten(lists))
    decreases |lists|
  {
    if |lists| > 0 {
      var first, rest := lists[0], lists[1..];
      HeadsTailsMultiset(rest);
      var h, t := Heads(rest), Flatten(Tails(rest));
      assert multiset(h) + multiset(t) == multiset(Flatten(rest));
      assert Flatten(lists) == first + Flatten(rest);
      if |first| > 0 {
        assert first == [first[0]] + first[1..];
        assert Heads(lists) == [first[0]] + h;
        assert Tails(lists) == [first[1..]] + Tails(rest);
        assert Flatten(Tails(lists)) == first[1..] + t;
      } else {
        assert Heads(lists) == h;
        assert Tails(lists) == [[]] + Tails(rest);
        assert Flatten(Tails(lists)) == t;
      }
    }
  }

  /**
   * The reference order of the merge: one round of heads after another until
   * every list is exhausted.
   */
  function RoundRobin<T>(lists: seq<seq<T>>): seq<T>
    decreases Total(lists)
  {
    HeadsTails(lists);
    if AllEmpty(lists) then [] else Heads(lists) + RoundRobin(Tails(lists))
  }

  /** The round robin holds every result exactly once. */
  lemma {:induction false} RoundRobinPermutes<T>(lists: seq<seq<T>>)
    ensures multiset(RoundRobin(lists)) == multiset(Flatten(lists))
    ensures |RoundRobin(lists)| == Total(lists)
    decreases Total(lists)
  {
    HeadsTails(lists);
    if !AllEmpty(lists) {
      HeadsTailsMultiset(lists);
      RoundRobinPermutes(Tails(lists));
    } else {
      EmptyFlatten(lists);
    }
  }

  lemma {:induction false} EmptyFlatten<T>(lists: seq<seq<T>>)
    requires AllEmpty(lists)
    ensures Flatten(lists) == [] && Total(lists) == 0
    decreases |lists|
  {
    if |lists| > 0 {
      assert |lists[0]| == 0;
      EmptyFlatten(lists[1..]);
    }
  }

  /** The result list is full once it has reached the limit; no limit
    * ("all") is never full. */
  predicate Reached<T>(out: seq<T>, limit: Option<int>) {
    limit.Some? && |out| >= limit.value
  }

  /**
   * One run of the script's inner for loop from list `i` on: each non-empty
   * list gives up its first result, and the loop breaks as soon as the limit
   * is reached.
   */
  function Pass<T>(lists: seq<seq<T>>, i: nat, out: seq<T>, limit: Option<int>): (r: (seq<seq<T>>, seq<T>))
    requires i <= |lists|
    ensures |r.0| == |lists|
    ensures Total(r.0) + |r.1| == Total(lists) + |out|
    ensures |r.1| >= |out|
    ensures !AllEmpty(lists[i..]) ==> |r.1| > |out|
    decreases |lists| - i
  {
    if i == |lists| then (lists, out)
    else if |lists[i]| == 0 then
      var r := Pass(lists, i + 1, out, limit);
      assert !AllEmpty(lists[i..]) ==> !AllEmpty(lists[i + 1..]) by {
        if !AllEmpty(lists[i..]) {
          var j :| 0 <= j < |lists[i..]| && |lists[i..][j]| != 0;
          assert lists[i + 1..][j - 1] == lists[i..][j];
        }
      }
      r
    else
      var next := lists[i := lists[i][1..]];
      var taken := out + [lists[i][0]];
      TotalUpdate(lists, i, lists[i][1..]);
      if Reached(taken, limit) then (next, taken) else Pass(next, i + 1, taken, limit)
  }

  lemma {:induction false} TotalUpdate<T>(lists: seq<seq<T>>, i: nat, l: seq<T>)
    requires i < |lists|
    ensures Total(lists[i := l]) + |lists[i]| == Total(lists) + |l|
    decreases |lists|
  {
    if i > 0 {
      TotalUpdate(lists[1..], i - 1, l);
      assert lists[i := l][1..] == lists[1..][i - 1 := l];
    }
  }

  /** `s` cut at the limit. */
  function Take<T>(s: seq<T>, limit: Option<int>): (r: seq<T>)
    ensures limit.None? ==> r == s
    ensures limit.Some? ==> |r| == if limit.value <= 0 then 0 else if limit.value < |s| then limit.value else |s|
    ensures r <= s
  {
    if limit.None? || limit.value >= |s| then s
    else if limit.value <= 0 then []
    else s[..limit.value]
  }

  /**
   * The merge with the loop condition the script evidently intends: stop
   * once the limit is reached or every list is exhausted.
   */
  function Merge<T>(lists: seq<seq<T>>, out: seq<T>, limit: Option<int>): seq<T>
    decreases Total(lists)
  {
    if Reached(out, limit) || AllEmpty(lists) then out
    else
      var (next, taken) := Pass(lists, 0, out, limit);
      assert lists[0..] == lists;
      Merge(next, taken, limit)
  }

  /** The merged results are the round robin cut at the limit. */
  lemma MergeIsRoundRobin<T>(lists: seq<seq<T>>, limit: Option<int>)
    ensures Merge(lists, [], limit) == Take(RoundRobin(lists), limit)
  {
    MergeFrom(lists, [], limit);
  }

  /** The merge returns min(limit, total) results, and all of them without a
    * limit. */
  lemma MergeLength<T>(lists: seq<seq<T>>, limit: Option<int>)
    ensures limit.None? ==> |Merge(lists, [], limit)| == Total(lists)
    ensures limit.Some? && 0 <= limit.value <= Total(lists) ==> |Merge(lists, [], limit)| == limit.value
    ensures limit.Some? && limit.value > Total(lists) ==> |Merge(lists, [], limit)| == Total(lists)
  {
    MergeIsRoundRobin(lists, limit);
    RoundRobinPermutes(lists);
  }

  function Max0(n: int): nat {
    if n < 0 then 0 else n
  }

  lemma {:induction false} MergeFrom<T>(lists: seq<seq<T>>, out: seq<T>, limit: Option<int>)
    requires limit.None? || |out| <= Max0(limit.value)
    ensures Merge(lists, out, limit) == Take(out + RoundRobin(lists), limit)
    decreases Total(lists)
  {
    HeadsTails(lists);
    if Reached(out, limit) {
    } else if AllEmpty(lists) {
      assert out + RoundRobin(lists) == out;
    } else {
      var heads := Heads(lists);
      var r := Pass(lists, 0, out, limit);
      MergeStep(lists, out, limit, r);
      if limit.None? || |out| + |heads| <= limit.value {
        FirstPassWhole(lists, out, limit);
        MergeFrom(r.0, r.1, limit);
        RoundStep(lists, out);
      } else {
        FirstPassCut(lists, out, limit.value);
        CutRound(out, heads, RoundRobin(Tails(lists)), limit.value);
      }
    }
  }

  /** One unfolding of Merge when the loop goes round. */
  lemma MergeStep<T>(lists: seq<seq<T>>, out: seq<T>, limit: Option<int>, r: (seq<seq<T>>, seq<T>))
    requires !Reached(out, limit) && !AllEmpty(lists)
    requires r == Pass(lists, 0, out, limit)
    ensures Merge(lists, out, limit) == Merge(r.0, r.1, limit)
  {
  }

  /** One round of the reference order. */
  lemma RoundStep<T>(lists: seq<seq<T>>, out: seq<T>)
    requires !AllEmpty(lists)
    ensures out + RoundRobin(lists) == (out + Heads(lists)) + RoundRobin(Tails(lists))
  {
  }

  lemma CutRound<T>(out: seq<T>, heads: seq<T>, rest: seq<T>, limit: int)
    requires |out| < limit < |out| + |heads|
    ensures Take(out + (heads + rest), Some(limit)) == out + heads[..limit - |out|]
  {
    assert (out + (heads + rest))[..limit] == out + heads[..limit - |out|];
  }

  lemma FirstPassWhole<T>(lists: seq<seq<T>>, out: seq<T>, limit: Option<int>)
    requires limit.None? || |out| + |Heads(lists)| <= limit.value
    requires limit.None? || |out| < limit.value
    ensures Pass(lists, 0, out, limit) == (Tails(lists), out + Heads(lists))
  {
    assert lists[0..] == lists;
    PassWhole(lists, 0, out, limit);
    assert lists[..0] + Tails(lists[0..]) == Tails(lists);
  }

  lemma FirstPassCut<T>(lists: seq<seq<T>>, out: seq<T>, limit: int)
    requires |out| < limit < |out| + |Heads(lists)|
    ensures Pass(lists, 0, out, Some(limit)).1 == out + Heads(lists)[..limit - |out|]
  {
    assert lists[0..] == lists;
    PassCut(lists, 0, out, limit);
  }

  /** A pass that does not hit the limit takes every head. */
  lemma {:induction false} PassWhole<T>(lists: seq<seq<T>>, i: nat, out: seq<T>, limit: Option<int>)
    requires i <= |lists|
    requires limit.None? || |out| + |Heads(lists[i..])| <= limit.value
    requires limit.None? || |out| < limit.value || AllEmpty(lists[i..])
    ensures Pass(lists, i, out, limit) == (lists[..i] + Tails(lists[i..]), out + Heads(lists[i..]))
    decreases |lists| - i
  {
    if i == |lists| {
      PassEnd(lists, out, limit);
    } else if |lists[i]| == 0 {
      var rest := lists[i..];
      assert rest[1..] == lists[i + 1..];
      HeadsTails(rest);
      PassWhole(lists, i + 1, out, limit);
      PassSkip(lists, i, out, limit);
    } else {
      var rest := lists[i..];
      assert rest[1..] == lists[i + 1..];
      var next := lists[i := lists[i][1..]];
      var taken := out + [lists[i][0]];
      assert next[i + 1..] == lists[i + 1..];
      HeadsTails(lists[i + 1..]);
      if Reached(taken, limit) {
        PassLast(lists, i, out, limit);
      } else {
        PassWhole(next, i + 1, taken, limit);
        PassTake(lists, i, out, limit);
      }
    }
  }

  lemma PassEnd<T>(lists: seq<seq<T>>, out: seq<T>, limit: Option<int>)
    ensures Pass(lists, |lists|, out, limit) == (lists[..|lists|] + Tails(lists[|lists|..]), out + Heads(lists[|lists|..]))
  {
    var rest := lists[|lists|..];
    assert rest == [];
    assert Tails(rest) == [];
    assert Heads(rest) == [];
    assert lists[..|lists|] + Tails(rest) == lists;
    assert out + Heads(rest) == out;
    assert Pass(lists, |lists|, out, limit) == (lists, out);
  }

  /** An empty list is passed over. */
  lemma PassSkip<T>(lists: seq<seq<T>>, i: nat, out: seq<T>, limit: Option<int>)
    requires i < |lists| && |lists[i]| == 0
    requires Pass(lists, i + 1, out, limit) == (lists[..i + 1] + Tails(lists[i + 1..]), out + Heads(lists[i + 1..]))
    ensures Pass(lists, i, out, limit) == (lists[..i] + Tails(lists[i..]), out + Heads(lists[i..]))
  {
    var rest := lists[i..];
    assert rest[1..] == lists[i + 1..];
    assert lists[i] == [];
    assert lists[..i + 1] == lists[..i] + [[]];
    assert Tails(rest) == [[]] + Tails(lists[i + 1..]);
    assert Heads(rest) == Heads(lists[i + 1..]);
    assert Pass(lists, i, out, limit) == Pass(lists, i + 1, out, limit);
    assert lists[..i] + Tails(rest) == lists[..i + 1] + Tails(lists[i + 1..]);
  }

  /** A non-empty list gives up its head and the pass goes on. */
  lemma PassTake<T>(lists: seq<seq<T>>, i: nat, out: seq<T>, limit: Option<int>)
    requires i < |lists| && |lists[i]| > 0
    requires !Reached(out + [lists[i][0]], limit)
    requires var next := lists[i := lists[i][1..]];
      Pass(next, i + 1, out + [lists[i][0]], limit)
        == (next[..i + 1] + Tails(next[i + 1..]), out + [lists[i][0]] + Heads(next[i + 1..]))
    ensures Pass(lists, i, out, limit) == (lists[..i] + Tails(lists[i..]), out + Heads(lists[i..]))
  {
    var rest := lists[i..];
    assert rest[1..] == lists[i + 1..];
    var next := lists[i := lists[i][1..]];
    assert next[i + 1..] == lists[i + 1..];
    assert next[..i + 1] == lists[..i] + [lists[i][1..]];
    assert Tails(rest) == [lists[i][1..]] + Tails(lists[i + 1..]);
    assert Heads(rest) == [lists[i][0]] + Heads(lists[i + 1..]);
    assert Pass(lists, i, out, limit) == Pass(next, i + 1, out + [lists[i][0]], limit);
    assert next[..i + 1] + Tails(next[i + 1..]) == lists[..i] + Tails(rest);
    assert out + [lists[i][0]] + Heads(next[i + 1..]) == out + Heads(rest);
  }

  /** A pass that reaches the limit on the last non-empty list ends as a
    * whole pass would. */
  lemma PassLast<T>(lists: seq<seq<T>>, i: nat, out: seq<T>, limit: Option<int>)
    requires i < |lists| && |lists[i]| > 0
    requires AllEmpty(lists[i + 1..])
    ensures Pass(lists, i, out, limit) == (lists[..i] + Tails(lists[i..]), out + Heads(lists[i..]))
    decreases |lists| - i
  {
    var rest := lists[i..];
    assert rest[1..] == lists[i + 1..];
    var next := lists[i := lists[i][1..]];
    var taken := out + [lists[i][0]];
    assert next[i + 1..] == lists[i + 1..];
    EmptyTails(lists[i + 1..]);
    assert Tails(rest) == [lists[i][1..]] + lists[i + 1..];
    assert Heads(rest) == [lists[i][0]];
    assert next == lists[..i] + Tails(rest);
    if !Reached(taken, limit) {
      PassIdle(next, i + 1, taken, limit);
    }
  }

  /** A pass over exhausted lists changes nothing. */
  lemma {:induction false} PassIdle<T>(lists: seq<seq<T>>, i: nat, out: seq<T>, limit: Option<int>)
    requires i <= |lists| && AllEmpty(lists[i..])
    ensures Pass(lists, i, out, limit) == (lists, out)
    decreases |lists| - i
  {
    if i < |lists| {
      assert lists[i..][0] == lists[i];
      assert lists[i + 1..] == lists[i..][1..];
      PassIdle(lists, i + 1, out, limit);
    }
  }

  lemma {:induction false} EmptyTails<T>(lists: seq<seq<T>>)
    requires AllEmpty(lists)
    ensures Tails(lists) == lists && Heads(lists) == []
    decreases |lists|
  {
    if |lists| > 0 {
      assert |lists[0]| == 0 && lists[0] == [];
      EmptyTails(lists[1..]);
    }
  }

  /** A pass that hits the limit stops with exactly `limit` results. */
  lemma {:induction false} PassCut<T>(lists: seq<seq<T>>, i: nat, out: seq<T>, limit: int)
    requires i <= |lists|
    requires |out| < limit < |out| + |Heads(lists[i..])|
    ensures Pass(lists, i, out, Some(limit)).1 == out + Heads(lists[i..])[..limit - |out|]
    decreases |lists| - i
  {
    var rest := lists[i..];
    assert rest[1..] == lists[i + 1..];
    if |lists[i]| == 0 {
      PassCut(lists, i + 1, out, limit);
    } else {
      var next := lists[i := lists[i][1..]];
      var taken := out + [lists[i][0]];
      assert next[i + 1..] == lists[i + 1..];
      if |taken| < limit {
        PassCut(next, i + 1, taken, limit);
        assert Heads(rest)[..limit - |out|] == [lists[i][0]] + Heads(lists[i + 1..])[..limit - |taken|];
      }
    }
  }

  /**
   * The script's loop as written: its only exit is reaching the limit, so it
   * is given `fuel` passes and answers None when they run out.
   */
  function WrittenLoop<T>(lists: seq<seq<T>>, out: seq<T>, limit: int, fuel: nat): Option<seq<T>>
    decreases fuel
  {
    if |out| >= limit then Some(out)
    else if fuel == 0 then None
    else
      assert lists[0..] == lists;
      var (next, taken) := Pass(lists, 0, out, Some(limit));
      WrittenLoop(next, taken, limit, fuel - 1)
  }

  /** With fewer results than the limit the written loop never finishes,
    * however many passes it is given. */
  lemma {:induction false} WrittenLoopStalls<T>(lists: seq<seq<T>>, out: seq<T>, limit: int, fuel: nat)
    requires |out| + Total(lists) < limit
    ensures WrittenLoop(lists, out, limit, fuel) == None
    decreases fuel
  {
    if fuel > 0 {
      assert lists[0..] == lists;
      var (next, taken) := Pass(lists, 0, out, Some(limit));
      WrittenLoopStalls(next, taken, limit, fuel - 1);
    }
  }

  /** Where the written loop does finish, it agrees with the corrected merge. */
  lemma {:induction false} WrittenLoopAgrees<T>(lists: seq<seq<T>>, out: seq<T>, limit: int, fuel: nat)
    requires WrittenLoop(lists, out, limit, fuel).Some?
    ensures WrittenLoop(lists, out, limit, fuel).value == Merge(lists, out, Some(limit))
    decreases fuel
  {
    if |out| < limit {
      assert lists[0..] == lists;
      var (next, taken) := Pass(lists, 0, out, Some(limit));
      WrittenLoopAgrees(next, taken, limit, fuel - 1);
      if AllEmpty(lists) {
        EmptyTails(lists);
        PassWhole(lists, 0, out, Some(limit));
        WrittenLoopIdle(lists, out, limit, fuel - 1);
      }
    }
  }

  /** Passes over exhausted lists change nothing, so the loop cannot finish. */
  lemma {:induction false} WrittenLoopIdle<T>(lists: seq<seq<T>>, out: seq<T>, limit: int, fuel: nat)
    requires AllEmpty(lists) && |out| < limit
    ensures WrittenLoop(lists, out, limit, fuel) == None
  {
    EmptyFlatten(lists);
    WrittenLoopStalls(lists, out, limit, fuel);
  }

  /** Python's `len(results) < limit` with limit None raises a TypeError. */
  datatype LoopGuard = Continue | Stop | TypeError

  function WrittenGuard<T>(out: seq<T>, limit: Option<int>): (g: LoopGuard)
    ensures g == TypeError <==> limit.None?
    ensures g == Continue <==> limit.Some? && !Reached(out, limit)
  {
    match limit
    case None => TypeError
    case Some(l) => if |out| < l then Continue else Stop
  }
}

=== FILE: signing.dfy ===
/**
 * JWT signing-method selection: the canonical spelling of a configured
 * `alg` name (section 3.1 of RFC 7518, and EdDSA from section 3.1 of
 * RFC 8037), which private key a method loads, and which key it signs
 * or verifies with.
 */
module Signing {
  import opened Wrappers
  import opened Strs

  /** The accepted method names, in the order they are tried. */
  const SigningMethods: seq<string> := [
    "HS256", "HS384", "HS512",
    "RS256", "RS384", "RS512",
    "PS256", "PS384", "PS512",
    "ES256", "ES384", "ES512",
    "EdDSA"]

  /** The same names in lower case. */
  const LowerMethods: seq<string> := [
    "hs256", "hs384", "hs512",
    "rs256", "rs384", "rs512",
    "ps256", "ps384", "ps512",
    "es256", "es384", "es512",
    "eddsa"]

  /** No name in the list is empty, so "" can stand for no match. */
  predicate NoEmpty(names: seq<string>) {
    forall k :: 0 <= k < |names| ==> names[k] != ""
  }

  /** The loop from position `i` over `names`: the first name equal to
    * `signingMethod` up to case, or "". */
  function FirstFold(names: seq<string>, signingMethod: string, i: nat): (r: string)
    requires i <= |names| && NoEmpty(names)
    ensures r == "" || exists k :: i <= k < |names| && r == names[k]
    ensures r != "" ==> EqualFold(signingMethod, r)
    ensures r == "" <==> forall k :: i <= k < |names| ==> !EqualFold(signingMethod, names[k])
    decreases |names| - i
  {
    if i == |names| then ""
    else if EqualFold(signingMethod, names[i]) then names[i]
    else FirstFold(names, signingMethod, i + 1)
  }

  /** GetCorrectSigningMethod: the canonical spelling, or "" when the name
    * is not a supported method. */
  function GetCorrectSigningMethod(signingMethod: string): (r: string)
    ensures r == "" || r in SigningMethods
    ensures r != "" ==> EqualFold(signingMethod, r)
    ensures r == "" <==> forall k :: 0 <= k < |SigningMethods| ==> !EqualFold(signingMethod, SigningMethods[k])
  {
    MethodsNoEmpty();
    FirstFold(SigningMethods, signingMethod, 0)
  }

  lemma MethodsNoEmpty()
    ensures NoEmpty(SigningMethods)
  {
    forall k | 0 <= k < |SigningMethods|
      ensures |SigningMethods[k]| == 5
    {
    }
  }

  /** The loop only looks at the name's lower-case form. */
  lemma {:induction false} FirstFoldByLower(names: seq<string>, a: string, b: string, i: nat)
    requires i <= |names| && NoEmpty(names) && Lower(a) == Lower(b)
    ensures FirstFold(names, a, i) == FirstFold(names, b, i)
    decreases |names| - i
  {
    if i < |names| {
      FirstFoldByLower(names, a, b, i + 1);
    }
  }

  /** Normalising twice gives the same as normalising once. */
  lemma GetCorrectIdempotent(signingMethod: string)
    ensures GetCorrectSigningMethod(GetCorrectSigningMethod(signingMethod)) == GetCorrectSigningMethod(signingMethod)
  {
    var r := GetCorrectSigningMethod(signingMethod);
    MethodsNoEmpty();
    if r == "" {
      forall k | 0 <= k < |SigningMethods|
        ensures !EqualFold("", SigningMethods[k])
      {
        assert |Lower(SigningMethods[k])| == |SigningMethods[k]| > 0;
      }
    } else {
      FirstFoldByLower(SigningMethods, r, signingMethod, 0);
    }
  }

  lemma LowerMethodsTable(k: nat)
    requires k < |SigningMethods|
    ensures Lower(SigningMethods[k]) == LowerMethods[k]
  {
    var m := SigningMethods[k];
    assert |m| == 5;
    assert Lower(m) == [LowerChar(m[0]), LowerChar(m[1]), LowerChar(m[2]), LowerChar(m[3]), LowerChar(m[4])];
  }

  /** Every listed method is its own canonical spelling, so no two listed
    * names are equal up to case. */
  lemma CanonicalIsFixed(k: nat)
    requires k < |SigningMethods|
    ensures GetCorrectSigningMethod(SigningMethods[k]) == SigningMethods[k]
  {
    LowerMethodsTable(k);
    MethodsNoEmpty();
    forall j | 0 <= j < k
      ensures !EqualFold(SigningMethods[k], SigningMethods[j])
    {
      LowerMethodsTable(j);
    }
    FirstFoldSkips(SigningMethods, k, 0);
  }

  /** A name not equal up to case to any earlier name is found where it
    * stands. */
  lemma {:induction false} FirstFoldSkips(names: seq<string>, k: nat, i: nat)
    requires i <= k < |names| && NoEmpty(names)
    requires forall j :: i <= j < k ==> !EqualFold(names[k], names[j])
    ensures FirstFold(names, names[k], i) == names[k]
    decreases k - i
  {
    if i < k {
      FirstFoldSkips(names, k, i + 1);
    }
  }

  /** The key family a method signs with. */
  datatype Family = HMAC | RSA | ECDSA | Ed25519

  function FamilyOf(alg: string): Option<Family> {
    if alg in ["HS256", "HS384", "HS512"] then Some(HMAC)
    else if alg in ["RS256", "RS384", "RS512", "PS256", "PS384", "PS512"] then Some(RSA)
    else if alg in ["ES256", "ES384", "ES512"] then Some(ECDSA)
    else if alg == "EdDSA" then Some(Ed25519)
    else None
  }

  /** Exactly the listed methods have a family. */
  lemma FamilyOfListed(alg: string)
    ensures FamilyOf(alg).Some? <==> alg in SigningMethods
  {
  }

  /** A parsed private key, standing for the key material of the PEM text. */
  datatype PrivateKey = PrivateKey(family: Family, material: string)

  /** The package-level private keys; None is a nil key. */
  datatype Keys = Keys(rsa: Option<PrivateKey>, ecdsa: Option<PrivateKey>, ed: Option<PrivateKey>)

  /** The PEM parsers of the JWT library, for one family: the key or an
    * error text. */
  type Parser = (Family, string) -> Result<PrivateKey, string>

  datatype LoadOutcome = Loaded(keys: Keys, err: Option<string>) | Panicked

  function KeyOf(p: Result<PrivateKey, string>): Option<PrivateKey> {
    if p.Success? then Some(p.value) else None
  }

  function ErrOf(p: Result<PrivateKey, string>): Option<string> {
    if p.Failure? then Some(p.error) else None
  }

  /** LoadPrivateKey as written: the parsed key (nil on failure) goes into
    * the family's slot; for EdDSA the untyped result is asserted to be an
    * Ed25519 key before the error is looked at, which panics on a nil key. */
  function LoadPrivateKeyAsWritten(keys: Keys, alg: string, pem: string, parse: Parser): LoadOutcome {
    match FamilyOf(alg)
    case Some(RSA) =>
      var p := parse(RSA, pem);
      Loaded(keys.(rsa := KeyOf(p)), ErrOf(p))
    case Some(ECDSA) =>
      var p := parse(ECDSA, pem);
      Loaded(keys.(ecdsa := KeyOf(p)), ErrOf(p))
    case Some(Ed25519) =>
      var p := parse(Ed25519, pem);
      if p.Failure? then Panicked else Loaded(keys.(ed := KeyOf(p)), None)
    case _ => Loaded(keys, None)
  }

  /** A malformed EdDSA key makes the written code panic instead of
    * returning the parser's error. */
  lemma EdDSABadKeyPanics(keys: Keys, pem: string, parse: Parser)
    requires parse(Ed25519, pem).Failure?
    ensures LoadPrivateKeyAsWritten(keys, "EdDSA", pem, parse) == Panicked
  {
  }

  /** LoadPrivateKey with the EdDSA branch returning the parser's error like
    * the other branches do. */
  function LoadPrivateKey(keys: Keys, alg: string, pem: string, parse: Parser): (r: LoadOutcome)
    ensures r.Loaded?
    ensures FamilyOf(alg).None? || FamilyOf(alg) == Some(HMAC) ==> r == Loaded(keys, None)
  {
    match FamilyOf(alg)
    case Some(RSA) =>
      var p := parse(RSA, pem);
      Loaded(keys.(rsa := KeyOf(p)), ErrOf(p))
    case Some(ECDSA) =>
      var p := parse(ECDSA, pem);
      Loaded(keys.(ecdsa := KeyOf(p)), ErrOf(p))
    case Some(Ed25519) =>
      var p := parse(Ed25519, pem);
      Loaded(keys.(ed := KeyOf(p)), ErrOf(p))
    case _ => Loaded(keys, None)
  }

  /** The two agree except on a malformed EdDSA key, where the corrected
    * one reports the error. */
  lemma LoadAgreesUnlessEdFails(keys: Keys, alg: string, pem: string, parse: Parser)
    ensures LoadPrivateKeyAsWritten(keys, alg, pem, parse).Panicked? <==>
      (alg == "EdDSA" && parse(Ed25519, pem).Failure?)
    ensures !LoadPrivateKeyAsWritten(keys, alg, pem, parse).Panicked? ==>
      LoadPrivateKeyAsWritten(keys, alg, pem, parse) == LoadPrivateKey(keys, alg, pem, parse)
    ensures alg == "EdDSA" && parse(Ed25519, pem).Failure? ==>
      LoadPrivateKey(keys, alg, pem, parse).err == Some(parse(Ed25519, pem).error)
  {
    assert FamilyOf(alg) == Some(Ed25519) <==> alg == "EdDSA";
  }

  /** The key a token is signed or verified with. */
  datatype SigningKeyValue = Secret(bytes: string) | PublicOf(key: PrivateKey)

  datatype KeyOutcome = Key(value: Option<SigningKeyValue>) | NilKey

  /** SigningKey: the configured secret for HMAC methods, the public half
    * of the loaded private key otherwise (taking it from a nil key fails),
    * nothing for an unknown method. */
  function SigningKey(alg: string, configSigningKey: string, keys: Keys): (r: KeyOutcome)
    ensures FamilyOf(alg) == Some(HMAC) ==> r == Key(Some(Secret(configSigningKey)))
    ensures FamilyOf(alg).None? ==> r == Key(None)
  {
    match FamilyOf(alg)
    case None => Key(None)
    case Some(HMAC) => Key(Some(Secret(configSigningKey)))
    case Some(f) =>
      var slot := if f == RSA then keys.rsa else if f == ECDSA then keys.ecdsa else keys.ed;
      if slot.None? then NilKey else Key(Some(PublicOf(slot.value)))
  }

  /** After a key loads without error, the method verifies with the public
    * half of exactly that key. */
  lemma SigningKeyAfterLoad(keys: Keys, alg: string, pem: string, parse: Parser, configSigningKey: string)
    requires FamilyOf(alg).Some? && FamilyOf(alg) != Some(HMAC)
    requires parse(FamilyOf(alg).value, pem).Success?
    ensures var loaded := LoadPrivateKey(keys, alg, pem, parse).keys;
      SigningKey(alg, configSigningKey, loaded) == Key(Some(PublicOf(parse(FamilyOf(alg).value, pem).value)))
  {
  }

  /** A configured name that normalises to nothing signs with no key, and
    * loading a key for it changes nothing. */
  lemma UnknownMethodInert(name: string, configSigningKey: string, keys: Keys, pem: string, parse: Parser)
    requires GetCorrectSigningMethod(name) == ""
    ensures SigningKey(GetCorrectSigningMethod(name), configSigningKey, keys) == Key(None)
    ensures LoadPrivateKey(keys, GetCorrectSigningMethod(name), pem, parse) == Loaded(keys, None)
  {
    assert FamilyOf("").None?;
  }
}

=== FILE: sources.dfy ===
/**
 * Media sources: which record types each kind of source serves, which
 * configured names a source claims, whether a source can be instantiated
 * more than once, and the source manager that turns the configured source
 * names into enabled sources in priority order.
 */
module Sources {
  import opened Wrappers
  import opened Strs
  import Media

  /** The kinds of source. The local-file and web sources carry the path or
    * URL they were created for; "" marks the registered template, the one
    * instance that may derive others. */
  datatype Source = YouTube | Spotify | LocalFile(path: string) | Web(url: string)

  datatype SourceError =
    | InvalidSource(sourceId: string)
    | UnsupportedMediaType(mediaType: string)
    | UnsupportedSourceType(sourceType: string)
    | MultipleNotSupported(sourceId: string)
    | InitFailed(sourceId: string, message: string)

  function GetID(s: Source): string {
    match s
    case YouTube => "youtube"
    case Spotify => "spotify"
    case LocalFile(path) => "file:" + path
    case Web(_) => "web"
  }

  function MediaTypes(s: Source): seq<string> {
    match s
    case LocalFile(_) => ["music", "video"]
    case _ => ["music", "video", "playlist"]
  }

  function SourceTypes(s: Source): seq<string> {
    match s
    case Spotify => ["metadata", "lyrics"]
    case _ => ["content", "metadata", "lyrics"]
  }

  /** The record types that "music" stands for. */
  const MusicTypes: seq<string> := ["music", "track", "album", "artist"]

  /** SupportsMediaType: tracks, albums and artists need "music" among the
    * source's media types; videos and playlists need their own name; no
    * other type is supported. */
  function SupportsMediaType(mediaTypes: seq<string>, mediaType: string): (r: bool)
    ensures r <==> (mediaType in MusicTypes && "music" in mediaTypes) ||
                   ((mediaType == "video" || mediaType == "playlist") && mediaType in mediaTypes)
    ensures r ==> mediaType in MusicTypes || mediaType == "video" || mediaType == "playlist"
  {
    if mediaType in MusicTypes then "music" in mediaTypes
    else if mediaType == "video" then "video" in mediaTypes
    else if mediaType == "playlist" then "playlist" in mediaTypes
    else false
  }

  /** Every source serves every kind of record except users, and the local
    * file source serves no playlists either. */
  lemma PlayableSupport(s: Source, p: Media.Playable)
    ensures SupportsMediaType(MediaTypes(s), Media.GetType(p)) <==>
      !p.UserItem? && !(s.LocalFile? && p.PlaylistItem?)
  {
    var t := Media.GetType(p);
    var ts := MediaTypes(s);
    assert ts[0] == "music" && ts[1] == "video";
    assert s.LocalFile? ==> |ts| == 2;
    assert !s.LocalFile? ==> ts[2] == "playlist";
    if p.UserItem? {
      assert t !in MusicTypes && t[0] == 'u';
    } else if p.PlaylistItem? {
      assert t !in MusicTypes by { assert t[0] == 'p' && |t| == 8; }
    } else if p.VideoItem? {
      assert t !in MusicTypes by { assert t[0] == 'v'; }
    }
  }

  /** HasSupportedScheme (and IsValidSourceURL, which returns it): an http
    * or https URL, or a string with no scheme separator at all. */
  predicate HasSupportedScheme(url: string) {
    HasPrefix(url, "http://") || HasPrefix(url, "https://") || !Contains(url, "://")
  }

  /** The text before the first "://", if there is one. */
  function SchemeOf(url: string): (r: Option<string>)
    ensures r.None? <==> !Contains(url, "://")
    ensures r.Some? ==> r.value + "://" <= url && !Contains(r.value + "://"[..2], "://")
  {
    match IndexOf(url, "://")
    case None => None
    case Some(k) =>
      assert url[..k] + "://" == url[..k + 3];
      assert !Contains(url[..k] + "://"[..2], "://") by {
        if Contains(url[..k] + "://"[..2], "://") {
          var j: nat :| At(url[..k] + "://"[..2], "://", j);
          assert url[..k] + "://"[..2] == url[..k + 2];
          AtPrefix(url, "://", k + 2, j);
        }
      }
      Some(url[..k])
  }

  /** A scheme's separator is found at the end of the scheme: the separator
    * cannot begin inside a scheme that is made of letters. */
  lemma SchemeAt(url: string, scheme: string)
    requires scheme + "://" <= url
    requires forall i :: 0 <= i < |scheme| ==> scheme[i] != ':'
    ensures SchemeOf(url) == Some(scheme)
  {
    assert At(url, "://", |scheme|) by {
      assert url[|scheme|..|scheme| + 3] == (scheme + "://")[|scheme|..];
    }
    forall j: nat | j < |scheme|
      ensures !At(url, "://", j)
    {
      assert url[j] == (scheme + "://")[j];
    }
    assert url[..|scheme|] == scheme;
  }

  /** The supported schemes are exactly none, "http" and "https". */
  lemma SupportedSchemes(url: string)
    ensures HasSupportedScheme(url) <==>
      SchemeOf(url).None? || SchemeOf(url) == Some("http") || SchemeOf(url) == Some("https")
  {
    if Contains(url, "://") {
      var s := SchemeOf(url).value;
      if HasPrefix(url, "http://") {
        assert "http" + "://" == "http://";
        SchemeAt(url, "http");
      } else if HasPrefix(url, "https://") {
        assert "https" + "://" == "https://";
        SchemeAt(url, "https");
      } else {
        assert "http" + "://" == "http://" && "https" + "://" == "https://";
      }
    }
  }

  /** An ftp URL is not a valid source URL. */
  lemma FtpRejected(rest: string)
    ensures !HasSupportedScheme("ftp://" + rest)
  {
    var u := "ftp://" + rest;
    assert At(u, "://", 3) by { assert u[3..6] == "://"; }
    assert u[0] == 'f';
  }

  /** Satisfies: the configured names a source claims. YouTube and Spotify
    * claim their names and short names up to case, the local-file source
    * every "file:" name, the web source every other valid source URL. */
  predicate Satisfies(s: Source, id: string) {
    match s
    case YouTube => Lower(id) in ["youtube", "yt"]
    case Spotify => Lower(id) in ["spotify", "sp"]
    case LocalFile(_) => HasPrefix(id, "file:")
    case Web(_) => !HasPrefix(id, "file:") && HasSupportedScheme(id)
  }

  /** Only the template of the local-file and web sources can derive new
    * instances. */
  predicate SupportsMultiple(s: Source) {
    (s.LocalFile? && s.path == "") || (s.Web? && s.url == "")
  }

  /** InitLocalFileSource: one leading "file:" is dropped from the path. */
  function InitLocalFileSource(path: string): (r: Source)
    ensures r.LocalFile?
    ensures GetID(r) == path <==> HasPrefix(path, "file:")
    ensures !HasPrefix(path, "file:") ==> GetID(r) == "file:" + path
  {
    var p := TrimPrefix(path, "file:");
    assert HasPrefix(path, "file:") ==> path == "file:" + p;
    LocalFile(p)
  }

  /** DeriveNew: a new instance for `id` when multiple instances are
    * supported, an error naming the source otherwise. */
  function DeriveNew(s: Source, id: string): (r: Result<Source, SourceError>)
    ensures r.Success? <==> SupportsMultiple(s)
    ensures r.Failure? ==> r.error == MultipleNotSupported(GetID(s))
    ensures r.Success? ==> r.value.LocalFile? == s.LocalFile? && r.value.Web? == s.Web?
  {
    if SupportsMultiple(s) then
      if s.LocalFile? then Success(InitLocalFileSource(id)) else Success(Web(id))
    else Failure(MultipleNotSupported(GetID(s)))
  }

  /** A derived instance claims the name it was derived for, and a derived
    * web source remembers it. */
  lemma DeriveSatisfies(s: Source, id: string)
    requires SupportsMultiple(s) && Satisfies(s, id)
    ensures Satisfies(DeriveNew(s, id).value, id)
    ensures s.Web? ==> DeriveNew(s, id).value == Web(id)
  {
  }

  /** The outcome of a content, lyrics or metadata request that a source
    * answers without running anything: a refusal, or the empty answer of an
    * operation the source does not implement yet. */
  /** What a source's content, lyrics or metadata request comes back with:
    * a refusal, the error of a step that failed, or nothing yet. */
  datatype Answer = Refused(error: SourceError) | Failed(message: string) | Unimplemented

  /** The two lookups the stub sources answer alike, except that the
    * local-file source probes its file for metadata. */
  datatype Lookup = LyricsLookup | MetadataLookup

  /** GetContent of the local-file, web and Spotify sources: Spotify serves
    * no content at all; the others refuse unsupported record types. */
  function StubContent(s: Source, p: Media.Playable): (r: Answer)
    requires !s.YouTube?
    ensures s.Spotify? ==> r == Refused(UnsupportedSourceType("content"))
    ensures r.Unimplemented? <==> !s.Spotify? && !p.UserItem? && !(s.LocalFile? && p.PlaylistItem?)
    ensures r.Refused? && !s.Spotify? ==> r.error == UnsupportedMediaType(Media.GetType(p))
    ensures !r.Failed?
  {
    PlayableSupport(s, p);
    if s.Spotify? then Refused(UnsupportedSourceType("content"))
    else if !SupportsMediaType(MediaTypes(s), Media.GetType(p)) then Refused(UnsupportedMediaType(Media.GetType(p)))
    else Unimplemented
  }

  /** The ffprobe run of the local-file source's metadata lookup: its error,
    * or the error of decoding its output as a list of JSON objects (`decode`
    * gives None when the output decodes). */
  function ProbeFault(probe: Result<string, string>, decode: string -> Option<string>): Option<string> {
    if probe.Failure? then Some(probe.error) else decode(probe.value)
  }

  /** GetLyrics and CompleteMetadata of the local-file, web and Spotify
    * sources: unsupported record types are refused; otherwise the local
    * file's metadata lookup fails with the probe's or the decoder's error,
    * and every other lookup answers nothing yet. `probe` is the outcome of
    * ffprobe on the source's path. */
  function StubLookup(s: Source, p: Media.Playable, lookup: Lookup,
                      probe: Result<string, string>, decode: string -> Option<string>): (r: Answer)
    requires !s.YouTube?
    ensures r.Refused? <==> p.UserItem? || (s.LocalFile? && p.PlaylistItem?)
    ensures r.Refused? ==> r.error == UnsupportedMediaType(Media.GetType(p))
    ensures r.Failed? <==>
      (!r.Refused? && s.LocalFile? && lookup == MetadataLookup && (probe.Failure? || decode(probe.value).Some?))
    ensures r.Failed? && probe.Failure? ==> r.message == probe.error
    ensures r.Failed? && probe.Success? ==> Some(r.message) == decode(probe.value)
  {
    PlayableSupport(s, p);
    if !SupportsMediaType(MediaTypes(s), Media.GetType(p)) then Refused(UnsupportedMediaType(Media.GetType(p)))
    else if s.LocalFile? && lookup == MetadataLookup && ProbeFault(probe, decode).Some? then
      Failed(ProbeFault(probe, decode).value)
    else Unimplemented
  }

  /** Outside the local file's metadata lookup, lyrics and metadata answer
    * as content does on the web and local-file sources: the same refusal of
    * unsupported record types, and nothing yet for the rest. */
  lemma LookupLikeContent(s: Source, p: Media.Playable, lookup: Lookup,
                          probe: Result<string, string>, decode: string -> Option<string>)
    requires !s.YouTube? && !s.Spotify?
    requires !(s.LocalFile? && lookup == MetadataLookup)
    ensures StubLookup(s, p, lookup, probe, decode) == StubContent(s, p)
  {
  }

  /** The local-file source's search filters: the searched types default to
    * tracks, a list given under "types" replaces them, and videos are
    * added when tracks are searched, videos are allowed and not already
    * listed. */
  function SearchedTypes(types: Option<seq<string>>, allowVideos: bool): (r: seq<string>)
    ensures "tracks" in r <==> (types.None? || "tracks" in types.value)
    ensures "videos" in r <==> (types.Some? && "videos" in types.value) || ("tracks" in r && allowVideos)
    ensures forall t :: t in r && t != "videos" ==> t == "tracks" || (types.Some? && t in types.value)
  {
    var base := if types.Some? then types.value else ["tracks"];
    if "tracks" in base && allowVideos && "videos" !in base then base + ["videos"] else base
  }

  /** What the local-file search looks at: a path that does not exist gives
    * no results and no error, another stat error is returned, and only a
    * file searched for tracks or videos is probed. */
  datatype PathInfo = Missing | StatError(message: string) | Directory | File

  datatype SearchPlan = NoResults | SearchFailed(message: string) | Probe | Skip

  function LocalSearchPlan(info: PathInfo, types: Option<seq<string>>, allowVideos: bool): (r: SearchPlan)
    ensures info.Missing? ==> r == NoResults
    ensures r.SearchFailed? <==> info.StatError?
    ensures r == Probe <==> info.File? && ("tracks" in SearchedTypes(types, allowVideos) || "videos" in SearchedTypes(types, allowVideos))
  {
    match info
    case Missing => NoResults
    case StatError(m) => SearchFailed(m)
    case Directory => Skip
    case File =>
      var searched := SearchedTypes(types, allowVideos);
      if "tracks" in searched || "videos" in searched then Probe else Skip
  }

  /** Allowing videos never stops a file from being probed, and searching
    * videos alone probes the file whatever the flag says. */
  lemma AllowVideosOnlyAdds(types: Option<seq<string>>)
    ensures LocalSearchPlan(File, types, false) == Probe ==> LocalSearchPlan(File, types, true) == Probe
    ensures types.Some? && "videos" in types.value ==> LocalSearchPlan(File, types, false) == Probe
  {
  }

  /** The source manager: the enabled sources by id, and their ids in the
    * order they were enabled. `sources` is None until the manager is
    * initialised. */
  datatype Manager = Manager(sources: Option<map<string, Source>>, sourceIDs: seq<string>)

  /** InitManager: a manager that is already initialised is left alone. */
  function InitManager(m: Manager): (r: Manager)
    ensures r.sources.Some?
    ensures m.sources.Some? ==> r == m
    ensures m.sources.None? ==> r.sources == Some(map[]) && r.sourceIDs == []
  {
    if m.sources.Some? then m else Manager(Some(map[]), [])
  }

  lemma InitManagerIdempotent(m: Manager)
    ensures InitManager(InitManager(m)) == InitManager(m)
  {
  }

  /** slices.Index: the first position of `x`, or -1. */
  function Index(xs: seq<string>, x: string): (r: int)
    ensures -1 <= r < |xs|
    ensures r == -1 <==> x !in xs
    ensures r >= 0 ==> xs[r] == x && x !in xs[..r]
  {
    if |xs| == 0 then -1
    else if xs[0] == x then 0
    else
      var k := Index(xs[1..], x);
      assert k >= 0 ==> xs[..k + 1] == [xs[0]] + xs[1..][..k];
      if k == -1 then -1 else k + 1
  }

  /** IsHigherPriority: `first` outranks `second` when it comes earlier in
    * the enabled-source list; a name that is not listed has index -1 and
    * so comes before every listed one; every name outranks "". */
  function IsHigherPriority(enabled: seq<string>, first: string, second: string): (r: bool)
    ensures r <==> (second == "" ||
      (first !in enabled && second in enabled) ||
      (first in enabled && second in enabled && Index(enabled, first) < Index(enabled, second)))
  {
    var firstPriority := Index(enabled, first);
    var secondPriority := Index(enabled, second);
    firstPriority < secondPriority || (firstPriority == -1 && secondPriority != -1) || second == ""
  }

  /** On non-empty names the priority is a strict order: irreflexive,
    * asymmetric and transitive. */
  lemma PriorityIsStrictOrder(enabled: seq<string>, a: string, b: string, c: string)
    requires a != "" && b != "" && c != ""
    ensures !IsHigherPriority(enabled, a, a)
    ensures IsHigherPriority(enabled, a, b) ==> !IsHigherPriority(enabled, b, a)
    ensures IsHigherPriority(enabled, a, b) && IsHigherPriority(enabled, b, c) ==> IsHigherPriority(enabled, a, c)
  {
  }

  /** Two listed names are ordered by their place in the list; an unlisted
    * one outranks every listed one. */
  lemma PriorityByPosition(enabled: seq<string>, i: nat, j: nat, other: string)
    requires i < j < |enabled| && enabled[i] != enabled[j]
    requires forall k :: 0 <= k < j ==> enabled[k] != enabled[j]
    requires other !in enabled && other != ""
    ensures IsHigherPriority(enabled, enabled[i], enabled[j])
    ensures IsHigherPriority(enabled, other, enabled[i]) && !IsHigherPriority(enabled, enabled[i], other)
  {
    assert enabled[j] !in enabled[..j];
    var fi := Index(enabled, enabled[i]);
    assert fi <= i;
    var fj := Index(enabled, enabled[j]);
    assert fj == j;
  }

  /** The configured names the two built-in sources answer to. */
  predicate NamesYouTube(sourceStr: string) {
    Lower(sourceStr) in ["youtube", "yt"]
  }

  predicate NamesSpotify(sourceStr: string) {
    Lower(sourceStr) in ["spotify", "sp"]
  }

  /** The source EnableSource would create for a name, if any: the built-in
    * names first, then a "file:" path, then any valid source URL. */
  function Classify(sourceStr: string): (r: Option<Source>)
    ensures r.None? <==> (!NamesYouTube(sourceStr) && !NamesSpotify(sourceStr) &&
      !HasPrefix(sourceStr, "file:") && !HasSupportedScheme(sourceStr))
    ensures r.Some? ==> Satisfies(r.value, sourceStr)
  {
    if NamesYouTube(sourceStr) then Some(YouTube)
    else if NamesSpotify(sourceStr) then Some(Spotify)
    else if HasPrefix(sourceStr, "file:") then Some(InitLocalFileSource(TrimPrefix(sourceStr, "file:")))
    else if HasSupportedScheme(sourceStr) then Some(Web(sourceStr))
    else None
  }

  /** Every id the manager lists has a source. */
  predicate Consistent(m: Manager) {
    m.sources.Some? && forall i :: 0 <= i < |m.sourceIDs| ==> m.sourceIDs[i] in m.sources.value
  }

  /** Storing a source under its id and appending the id. */
  function Register(m: Manager, s: Source): (r: Manager)
    requires m.sources.Some?
    ensures r.sources.Some? && r.sources.value.Keys == m.sources.value.Keys + {GetID(s)}
    ensures Consistent(m) ==> Consistent(r)
  {
    Manager(Some(m.sources.value[GetID(s) := s]), m.sourceIDs + [GetID(s)])
  }

  /** EnableSource: the YouTube source's initialisation can fail (writing
    * its script); `youtubeInit` is that failure, if any. The other sources
    * cannot fail to initialise. A name that is neither built in, nor a
    * "file:" path, nor a valid source URL is invalid. On success the source
    * is stored under its id and the id appended; on failure nothing
    * changes. */
  function EnableSource(m: Manager, sourceStr: string, youtubeInit: Option<string>): (r: (Option<SourceError>, Manager))
    requires m.sources.Some?
    ensures r.0.Some? ==> r.1 == m
    ensures r.0 == Some(InvalidSource(sourceStr)) <==> Classify(sourceStr).None?
    ensures (r.0.Some? && !r.0.value.InvalidSource?) <==> NamesYouTube(sourceStr) && youtubeInit.Some?
    ensures r.0.Some? && r.0.value.InitFailed? ==> r.0.value == InitFailed("youtube", youtubeInit.value)
    ensures r.0.None? ==>
      |r.1.sourceIDs| == |m.sourceIDs| + 1 && r.1.sourceIDs[..|m.sourceIDs|] == m.sourceIDs &&
      var id := r.1.sourceIDs[|m.sourceIDs|];
      r.1.sources.Some? && r.1.sources.value.Keys == m.sources.value.Keys + {id} &&
      GetID(r.1.sources.value[id]) == id && Satisfies(r.1.sources.value[id], sourceStr) &&
      (forall k :: k in m.sources.value && k != id ==> r.1.sources.value[k] == m.sources.value[k])
  {
    match Classify(sourceStr)
    case None => (Some(InvalidSource(sourceStr)), m)
    case Some(s) =>
      if s.YouTube? && youtubeInit.Some? then (Some(InitFailed(GetID(s), youtubeInit.value)), m)
      else
        var r := Register(m, s);
        assert r.sourceIDs[..|m.sourceIDs|] == m.sourceIDs;
        (None, r)
  }

  /** The built-in names are recognised whatever their case. */
  lemma EnableIgnoresCase(m: Manager, a: string, b: string, youtubeInit: Option<string>)
    requires m.sources.Some? && EqualFold(a, b)
    requires NamesYouTube(a) || NamesSpotify(a)
    ensures EnableSource(m, a, youtubeInit) == EnableSource(m, b, youtubeInit)
  {
  }

  /** Only a string naming an unsupported scheme is refused: every string
    * without "://" is accepted. */
  lemma InvalidOnlyForOtherSchemes(m: Manager, sourceStr: string, youtubeInit: Option<string>)
    requires m.sources.Some?
    ensures EnableSource(m, sourceStr, youtubeInit).0 == Some(InvalidSource(sourceStr)) ==>
      SchemeOf(sourceStr).Some? && SchemeOf(sourceStr) != Some("http") && SchemeOf(sourceStr) != Some("https")
    ensures !Contains(sourceStr, "://") ==> EnableSource(m, sourceStr, youtubeInit).0 != Some(InvalidSource(sourceStr))
  {
    SupportedSchemes(sourceStr);
  }

  /** A "file:" name reads back as the enabled source's id unless the path
    * itself starts with "file:" again, which is dropped a second time. */
  lemma LocalFileKeepsName(m: Manager, path: string, youtubeInit: Option<string>)
    requires m.sources.Some?
    requires !NamesYouTube("file:" + path) && !NamesSpotify("file:" + path)
    ensures var r := EnableSource(m, "file:" + path, youtubeInit);
      r.0.None? && (r.1.sourceIDs[|m.sourceIDs|] == "file:" + path <==> !HasPrefix(path, "file:"))
  {
    var s := "file:" + path;
    assert HasPrefix(s, "file:");
    assert TrimPrefix(s, "file:") == path;
  }

  /** EnableSources: every configured name in order; a failure is logged and
    * the rest are still enabled. */
  function EnableSources(m: Manager, names: seq<string>, youtubeInit: Option<string>): (r: Manager)
    requires m.sources.Some?
    ensures r.sources.Some?
    ensures m.sourceIDs <= r.sourceIDs
    ensures |r.sourceIDs| - |m.sourceIDs| == Accepted(names, youtubeInit)
    ensures Consistent(m) ==> Consistent(r)
    decreases |names|
  {
    if |names| == 0 then m
    else
      var step := EnableSource(m, names[0], youtubeInit).1;
      assert Consistent(m) ==> Consistent(step) by {
        if Consistent(m) && EnableSource(m, names[0], youtubeInit).0.None? {
          forall i | 0 <= i < |step.sourceIDs|
            ensures step.sourceIDs[i] in step.sources.value
          {
            if i < |m.sourceIDs| {
              assert step.sourceIDs[i] == step.sourceIDs[..|m.sourceIDs|][i];
            }
          }
        }
      }
      EnableSources(step, names[1..], youtubeInit)
  }

  /** How many of the names enable a source. */
  function Accepted(names: seq<string>, youtubeInit: Option<string>): nat {
    if |names| == 0 then 0
    else
      var ok := Classify(names[0]).Some? && !(NamesYouTube(names[0]) && youtubeInit.Some?);
      (if ok then 1 else 0) + Accepted(names[1..], youtubeInit)
  }
}

=== FILE: storage.dfy ===
/**
 * The content store: downloaded content and covers kept under
 * "content/<type>s" and "covers/<type>s" of the storage directory, the
 * test whether a record's content is stored, and the clean-up that removes
 * the stored content of old enough records, most-viewed first, once the
 * store is over its size limit. The directory tree is a map from directory paths to their
 * listings; the clock, the record lists of the database and the total size
 * of the store are parameters.
 */
module Storage {
  import opened Wrappers
  import opened Strs
  import Media

  const ContentPath: string := "content"
  const CoversPath: string := "covers"

  /** A directory entry: a file with its size in bytes, or a directory. */
  datatype Entry = File(name: string, size: nat) | Dir(name: string)

  /** The storage directory: the listing of every directory that can be
    * read, by its path relative to the storage root. */
  datatype Disk = Disk(listings: map<string, seq<Entry>>)

  /** filepath.Join of a relative directory and a plain file name. */
  function PathJoin(dir: string, name: string): string {
    dir + "/" + name
  }

  /** The directory holding one kind of content or cover: "tracks",
    * "videos", ... */
  function KindDir(contentType: string): string {
    contentType + "s"
  }

  // ---------------------------------------------------------------------
  // Listing the stored content
  // ---------------------------------------------------------------------

  /** getDirectories: the directories of the content root named exactly
    * "tracks" or "videos", in listing order. */
  function GetDirectories(files: seq<Entry>): (r: seq<string>)
    ensures forall i :: 0 <= i < |r| ==> r[i] == "tracks" || r[i] == "videos"
    ensures forall name :: name in r <==> Dir(name) in files && (name == "tracks" || name == "videos")
    ensures |r| <= |files|
  {
    if |files| == 0 then []
    else
      var rest := GetDirectories(files[1..]);
      assert forall e :: e in files <==> e == files[0] || e in files[1..];
      if files[0].Dir? && (files[0].name == "tracks" || files[0].name == "videos") then [files[0].name] + rest
      else rest
  }

  /** The content key of a file: the kind ("track" for "tracks"), "_",
    * and the file's name. */
  function ContentKey(dir: string, fileName: string): string
    requires |dir| > 0
  {
    dir[..|dir| - 1] + "_" + fileName
  }

  /** `k` is the key of entry `e` of directory `dir`. */
  predicate KeyOf(dir: string, e: Entry, k: string)
    requires |dir| > 0
  {
    e.File? && k == ContentKey(dir, e.name)
  }

  /** The keys of the files (not the directories) of one listing. */
  function KeysIn(dir: string, files: seq<Entry>): (r: seq<string>)
    requires |dir| > 0
    ensures forall k :: k in r <==> exists e :: e in files && KeyOf(dir, e, k)
    decreases |files|
  {
    if |files| == 0 then []
    else
      var rest := KeysIn(dir, files[1..]);
      assert forall e :: e in files <==> e == files[0] || e in files[1..];
      if files[0].File? then
        assert KeyOf(dir, files[0], ContentKey(dir, files[0].name));
        [ContentKey(dir, files[0].name)] + rest
      else rest
  }

  /** A content key of the listed directories: the key of a file in one
    * of them that can be read. */
  predicate IsContentKey(disk: Disk, dirs: seq<string>, k: string)
    requires forall i :: 0 <= i < |dirs| ==> |dirs[i]| > 0
  {
    exists j :: 0 <= j < |dirs| && PathJoin(ContentPath, dirs[j]) in disk.listings &&
      k in KeysIn(dirs[j], disk.listings[PathJoin(ContentPath, dirs[j])])
  }

  /** getContentFiles: the keys of every file in the given content
    * directories; a directory that cannot be read is passed over. */
  function ContentFiles(disk: Disk, dirs: seq<string>): (r: seq<string>)
    requires forall i :: 0 <= i < |dirs| ==> |dirs[i]| > 0
    ensures forall k :: k in r <==> IsContentKey(disk, dirs, k)
    decreases |dirs|
  {
    if |dirs| == 0 then []
    else
      var rest := ContentFiles(disk, dirs[1..]);
      var path := PathJoin(ContentPath, dirs[0]);
      assert forall k :: IsContentKey(disk, dirs, k) <==>
        ((path in disk.listings && k in KeysIn(dirs[0], disk.listings[path])) || IsContentKey(disk, dirs[1..], k)) by {
        forall k | IsContentKey(disk, dirs[1..], k)
          ensures IsContentKey(disk, dirs, k)
        {
          var j :| 0 <= j < |dirs[1..]| && PathJoin(ContentPath, dirs[1..][j]) in disk.listings &&
            k in KeysIn(dirs[1..][j], disk.listings[PathJoin(ContentPath, dirs[1..][j])]);
          assert dirs[j + 1] == dirs[1..][j];
        }
        forall k | IsContentKey(disk, dirs, k) && !(path in disk.listings && k in KeysIn(dirs[0], disk.listings[path]))
          ensures IsContentKey(disk, dirs[1..], k)
        {
          var j :| 0 <= j < |dirs| && PathJoin(ContentPath, dirs[j]) in disk.listings &&
            k in KeysIn(dirs[j], disk.listings[PathJoin(ContentPath, dirs[j])]);
          assert j > 0;
          assert dirs[1..][j - 1] == dirs[j];
        }
      }
      if path in disk.listings then KeysIn(dirs[0], disk.listings[path]) + rest else rest
  }

  /** The keys the clean-up looks at: those of "content/tracks" and
    * "content/videos", when the content root can be read. */
  function StoredKeys(disk: Disk): seq<string> {
    if ContentPath !in disk.listings then []
    else
      var dirs := GetDirectories(disk.listings[ContentPath]);
      ContentFiles(disk, dirs)
  }

  /** A file `name` in "content/<kind>s" gives the key "<kind>_<name>". */
  lemma StoredFileKey(disk: Disk, kind: string, name: string, size: nat)
    requires kind == "track" || kind == "video"
    requires ContentPath in disk.listings && Dir(KindDir(kind)) in disk.listings[ContentPath]
    requires PathJoin(ContentPath, KindDir(kind)) in disk.listings
    requires File(name, size) in disk.listings[PathJoin(ContentPath, KindDir(kind))]
    ensures kind + "_" + name in StoredKeys(disk)
  {
    var dirs := GetDirectories(disk.listings[ContentPath]);
    var dir := KindDir(kind);
    assert dir in dirs;
    var j :| 0 <= j < |dirs| && dirs[j] == dir;
    var files := disk.listings[PathJoin(ContentPath, dir)];
    assert dir[..|dir| - 1] == kind;
    assert KeyOf(dir, File(name, size), kind + "_" + name);
    assert kind + "_" + name in KeysIn(dir, files);
    assert IsContentKey(disk, dirs, kind + "_" + name);
  }

  // ---------------------------------------------------------------------
  // Choosing what may be removed
  // ---------------------------------------------------------------------

  /** A record is old enough once the time since it was added, in
    * nanoseconds, reaches the threshold; `now` is the clock in nanoseconds
    * and the addition date is in seconds. */
  predicate OldEnough(p: Media.Playable, now: int, threshold: int) {
    now - Media.GetAdditionDate(p) * 1_000_000_000 >= threshold
  }

  /** The records of a list that pass `keep`, in order. */
  function Filter(records: seq<Media.Playable>, keep: Media.Playable -> bool): (r: seq<Media.Playable>)
    ensures forall p :: p in r <==> p in records && keep(p)
    ensures |r| <= |records|
    decreases |records|
  {
    if |records| == 0 then []
    else
      var rest := Filter(records[1..], keep);
      assert forall p :: p in records <==> p == records[0] || p in records[1..];
      if keep(records[0]) then [records[0]] + rest else rest
  }

  function Tracks(tracks: seq<Media.Track>): (r: seq<Media.Playable>)
    ensures |r| == |tracks| && forall i :: 0 <= i < |tracks| ==> r[i] == Media.TrackItem(tracks[i])
  {
    seq(|tracks|, i requires 0 <= i < |tracks| => Media.TrackItem(tracks[i]))
  }

  function Videos(videos: seq<Media.Video>): (r: seq<Media.Playable>)
    ensures |r| == |videos| && forall i :: 0 <= i < |videos| ==> r[i] == Media.VideoItem(videos[i])
  {
    seq(|videos|, i requires 0 <= i < |videos| => Media.VideoItem(videos[i]))
  }

  /** getPlayables as written: a record is a candidate when "<kind>_<id>"
    * is exactly one of the keys and it is old enough; tracks come first,
    * then videos. */
  function CandidatesAsWritten(tracks: seq<Media.Track>, videos: seq<Media.Video>, keys: seq<string>,
                               now: int, threshold: int): (r: seq<Media.Playable>)
    ensures forall p :: p in r <==>
      ((p in Tracks(tracks) && "track_" + Media.GetID(p) in keys) ||
       (p in Videos(videos) && "video_" + Media.GetID(p) in keys)) && OldEnough(p, now, threshold)
  {
    Filter(Tracks(tracks), p => "track_" + Media.GetID(p) in keys && OldEnough(p, now, threshold)) +
    Filter(Videos(videos), p => "video_" + Media.GetID(p) in keys && OldEnough(p, now, threshold))
  }

  /** Some key starts with `prefix`. */
  predicate AnyKeyStartsWith(keys: seq<string>, prefix: string) {
    exists i :: 0 <= i < |keys| && HasPrefix(keys[i], prefix)
  }

  /** getPlayables with stored files recognised by the key prefix
    * "<kind>_<id>.", as files are stored under "<id><extension>". */
  function Candidates(tracks: seq<Media.Track>, videos: seq<Media.Video>, keys: seq<string>,
                      now: int, threshold: int): (r: seq<Media.Playable>)
    ensures forall p :: p in r <==>
      ((p in Tracks(tracks) && AnyKeyStartsWith(keys, "track_" + Media.GetID(p) + ".")) ||
       (p in Videos(videos) && AnyKeyStartsWith(keys, "video_" + Media.GetID(p) + "."))) && OldEnough(p, now, threshold)
  {
    Filter(Tracks(tracks), p => AnyKeyStartsWith(keys, "track_" + Media.GetID(p) + ".") && OldEnough(p, now, threshold)) +
    Filter(Videos(videos), p => AnyKeyStartsWith(keys, "video_" + Media.GetID(p) + ".") && OldEnough(p, now, threshold))
  }

  /** The view count the ordering uses. */
  function Views(p: Media.Playable): int {
    if Media.GetViewCount(p).Some? then Media.GetViewCount(p).value else 0
  }

  predicate ByViews(ps: seq<Media.Playable>) {
    forall i, j :: 0 <= i < j < |ps| ==> Views(ps[i]) >= Views(ps[j])
  }

  /** Inserting into a list ordered by views, before the first record with
    * fewer views. */
  function Insert(p: Media.Playable, ps: seq<Media.Playable>): (r: seq<Media.Playable>)
    requires ByViews(ps)
    ensures ByViews(r)
    ensures multiset(r) == multiset(ps) + multiset{p}
    ensures forall x :: x in r ==> x == p || x in ps
    decreases |ps|
  {
    if |ps| == 0 || Views(p) >= Views(ps[0]) then
      ByViewsCons(p, ps);
      [p] + ps
    else
      var rest := Insert(p, ps[1..]);
      InsertBehind(p, ps, rest);
      [ps[0]] + rest
  }

  /** A record with fewer views than the first goes behind it. */
  lemma InsertBehind(p: Media.Playable, ps: seq<Media.Playable>, rest: seq<Media.Playable>)
    requires ByViews(ps) && |ps| > 0 && Views(p) < Views(ps[0])
    requires ByViews(rest) && multiset(rest) == multiset(ps[1..]) + multiset{p}
    requires forall x :: x in rest ==> x == p || x in ps[1..]
    ensures ByViews([ps[0]] + rest)
    ensures multiset([ps[0]] + rest) == multiset(ps) + multiset{p}
    ensures forall x :: x in [ps[0]] + rest ==> x == p || x in ps
  {
    var h, tail := ps[0], ps[1..];
    assert ps == [h] + tail;
    if |rest| > 0 {
      assert rest[0] in rest;
      if rest[0] != p {
        var k :| 0 <= k < |tail| && tail[k] == rest[0];
        assert ps[k + 1] == rest[0];
      }
    }
    ByViewsCons(h, rest);
  }

  /** A record with at least the views of the first one can go in front. */
  lemma ByViewsCons(h: Media.Playable, ps: seq<Media.Playable>)
    requires ByViews(ps)
    requires |ps| == 0 || Views(h) >= Views(ps[0])
    ensures ByViews([h] + ps)
  {
    var r := [h] + ps;
    forall i, j | 0 <= i < j < |r|
      ensures Views(r[i]) >= Views(r[j])
    {
      assert r[j] == ps[j - 1];
      if i > 0 {
        assert r[i] == ps[i - 1];
      } else {
        assert Views(ps[0]) >= Views(ps[j - 1]) || j == 1;
      }
    }
  }

  /** The candidates ordered by view count, highest first. */
  function SortByViews(ps: seq<Media.Playable>): (r: seq<Media.Playable>)
    ensures ByViews(r)
    ensures multiset(r) == multiset(ps)
    decreases |ps|
  {
    if |ps| == 0 then []
    else
      assert ps == [ps[0]] + ps[1..];
      Insert(ps[0], SortByViews(ps[1..]))
  }

  // ---------------------------------------------------------------------
  // Removing, testing and storing files
  // ---------------------------------------------------------------------

  /** A file (not a directory) whose name starts with `prefix`. */
  predicate IsMatch(e: Entry, prefix: string) {
    e.File? && HasPrefix(e.name, prefix)
  }

  /** How many entries of a listing match. */
  function CountMatches(files: seq<Entry>, prefix: string): nat {
    if |files| == 0 then 0
    else (if IsMatch(files[0], prefix) then 1 else 0) + CountMatches(files[1..], prefix)
  }

  /** The position of the first matching entry. */
  function FirstMatch(files: seq<Entry>, prefix: string): (r: Option<nat>)
    ensures r.Some? ==> r.value < |files| && IsMatch(files[r.value], prefix)
    ensures r.Some? ==> forall j :: 0 <= j < r.value ==> !IsMatch(files[j], prefix)
    ensures r.None? <==> forall j :: 0 <= j < |files| ==> !IsMatch(files[j], prefix)
    decreases |files|
  {
    if |files| == 0 then None
    else if IsMatch(files[0], prefix) then Some(0)
    else
      var rest := FirstMatch(files[1..], prefix);
      if rest.None? then None else Some(rest.value + 1)
  }

  /** The loop of removePlayableFiles over one listing: the first matching
    * file is removed and the loop stops; the freed size is returned. */
  function RemoveFirst(files: seq<Entry>, prefix: string): (r: (seq<Entry>, nat)) {
    match FirstMatch(files, prefix)
    case None => (files, 0)
    case Some(i) => (files[..i] + files[i + 1..], files[i].size)
  }

  lemma {:induction false} CountMatchesSplit(a: seq<Entry>, b: seq<Entry>, prefix: string)
    ensures CountMatches(a + b, prefix) == CountMatches(a, prefix) + CountMatches(b, prefix)
    decreases |a|
  {
    if |a| == 0 {
      assert a + b == b;
    } else {
      assert (a + b)[0] == a[0];
      assert (a + b)[1..] == a[1..] + b;
      CountMatchesSplit(a[1..], b, prefix);
    }
  }

  lemma {:induction false} NoMatchCountsZero(files: seq<Entry>, prefix: string)
    requires forall j :: 0 <= j < |files| ==> !IsMatch(files[j], prefix)
    ensures CountMatches(files, prefix) == 0
    decreases |files|
  {
    if |files| > 0 {
      NoMatchCountsZero(files[1..], prefix);
    }
  }

  /** At most one matching file goes, exactly one when there is one, and
    * every other entry stays in order. */
  lemma RemoveFirstCount(files: seq<Entry>, prefix: string)
    ensures var r := RemoveFirst(files, prefix);
      CountMatches(r.0, prefix) == (if CountMatches(files, prefix) > 0 then CountMatches(files, prefix) - 1 else 0) &&
      |r.0| == |files| - (if CountMatches(files, prefix) > 0 then 1 else 0)
  {
    match FirstMatch(files, prefix)
    case None =>
      NoMatchCountsZero(files, prefix);
    case Some(i) =>
      assert files == files[..i] + ([files[i]] + files[i + 1..]);
      CountMatchesSplit(files[..i], [files[i]] + files[i + 1..], prefix);
      CountMatchesSplit([files[i]], files[i + 1..], prefix);
      CountMatchesSplit(files[..i], files[i + 1..], prefix);
      NoMatchCountsZero(files[..i], prefix);
      assert [files[i]][1..] == [];
  }

  /** removePlayableFiles: the first matching content file and the first
    * matching cover file of the record are removed; a content directory
    * that cannot be read ends the removal before the covers. The result
    * carries the number of bytes freed. */
  function RemovePlayableFiles(disk: Disk, p: Media.Playable): (r: (Disk, nat))
    ensures r.0.listings.Keys == disk.listings.Keys
    ensures forall path :: (path in disk.listings &&
      path != PathJoin(ContentPath, KindDir(Media.GetType(p))) && path != PathJoin(CoversPath, KindDir(Media.GetType(p)))) ==>
      r.0.listings[path] == disk.listings[path]
  {
    var dir := KindDir(Media.GetType(p));
    var prefix := Media.GetID(p) + ".";
    var content := PathJoin(ContentPath, dir);
    if content !in disk.listings then (disk, 0)
    else
      var (files1, freed1) := RemoveFirst(disk.listings[content], prefix);
      var d1 := Disk(disk.listings[content := files1]);
      var covers := PathJoin(CoversPath, dir);
      if covers !in d1.listings then (d1, freed1)
      else
        var (files2, freed2) := RemoveFirst(d1.listings[covers], prefix);
        (Disk(d1.listings[covers := files2]), freed1 + freed2)
  }

  /** IsContentStored: a file (not a directory) of "content/<type>s" whose
    * name starts with the id and "."; an unreadable directory stores
    * nothing. */
  predicate IsContentStored(disk: Disk, contentType: string, playableID: string) {
    var path := PathJoin(ContentPath, KindDir(contentType));
    path in disk.listings && FirstMatch(disk.listings[path], playableID + ".").Some?
  }

  /** Writing a file into a listing: a file of the same name is replaced, a
    * directory of that name makes the write fail, otherwise the file is
    * added. */
  function Put(files: seq<Entry>, name: string, size: nat): (r: seq<Entry>)
    ensures |r| >= |files|
    ensures forall e :: e in files ==> e in r || (e.name == name && File(name, size) in r)
    ensures Dir(name) !in files ==> File(name, size) in r
    decreases |files|
  {
    if |files| == 0 then [File(name, size)]
    else if files[0].name == name then
      if files[0].Dir? then files else [File(name, size)] + files[1..]
    else
      var rest := Put(files[1..], name, size);
      assert forall e :: e in files <==> e == files[0] || e in files[1..];
      [files[0]] + rest
  }

  /** MkdirAll of "<area>/<dir>": the area and its subdirectory come into
    * being with empty listings when they are missing. */
  function MakeDir(disk: Disk, area: string, dir: string): (r: Disk)
    ensures area in r.listings && PathJoin(area, dir) in r.listings
    ensures PathJoin(area, dir) in disk.listings ==> r.listings[PathJoin(area, dir)] == disk.listings[PathJoin(area, dir)]
  {
    var rootFiles := if area in disk.listings then disk.listings[area] else [];
    var root := if Dir(dir) in rootFiles then rootFiles else rootFiles + [Dir(dir)];
    var path := PathJoin(area, dir);
    var l1 := disk.listings[area := root];
    var sub := if path in disk.listings then disk.listings[path] else [];
    Disk(l1[path := sub])
  }

  /** StoreContent (and StoreCover with the covers area): the data is
    * written to "<area>/<type>s/<id><extension>". */
  function Store(disk: Disk, area: string, contentType: string, playableID: string, size: nat, fileExtension: string): Disk {
    var dir := KindDir(contentType);
    var d1 := MakeDir(disk, area, dir);
    var path := PathJoin(area, dir);
    Disk(d1.listings[path := Put(d1.listings[path], playableID + fileExtension, size)])
  }

  function StoreContent(disk: Disk, contentType: string, playableID: string, size: nat, fileExtension: string): Disk {
    Store(disk, ContentPath, contentType, playableID, size, fileExtension)
  }

  function StoreCover(disk: Disk, contentType: string, playableID: string, size: nat, fileExtension: string): Disk {
    Store(disk, CoversPath, contentType, playableID, size, fileExtension)
  }

  /** The name the data is stored under, when the extension starts with
    * ".", matches the id followed by ".". */
  lemma StoredNameMatches(playableID: string, fileExtension: string, size: nat)
    requires |fileExtension| > 0 && fileExtension[0] == '.'
    ensures IsMatch(File(playableID + fileExtension, size), playableID + ".")
  {
    assert (playableID + fileExtension)[..|playableID| + 1] == playableID + ".";
  }

  lemma MatchInListing(files: seq<Entry>, e: Entry, prefix: string)
    requires e in files && IsMatch(e, prefix)
    ensures FirstMatch(files, prefix).Some?
  {
  }

  /** Stored content is found: after StoreContent with an extension that
    * starts with ".", IsContentStored holds for the id, unless a
    * directory of exactly that file name was in the way. */
  lemma StoreThenStored(disk: Disk, contentType: string, playableID: string, size: nat, fileExtension: string)
    requires |fileExtension| > 0 && fileExtension[0] == '.'
    requires var path := PathJoin(ContentPath, KindDir(contentType));
      path in disk.listings ==> Dir(playableID + fileExtension) !in disk.listings[path]
    ensures IsContentStored(StoreContent(disk, contentType, playableID, size, fileExtension), contentType, playableID)
  {
    var path := PathJoin(ContentPath, KindDir(contentType));
    var d1 := MakeDir(disk, ContentPath, KindDir(contentType));
    var after := StoreContent(disk, contentType, playableID, size, fileExtension);
    assert after.listings[path] == Put(d1.listings[path], playableID + fileExtension, size);
    StoredNameMatches(playableID, fileExtension, size);
    MatchInListing(after.listings[path], File(playableID + fileExtension, size), playableID + ".");
  }

  /** Storing never makes other stored content disappear. */
  lemma StoreKeepsStored(disk: Disk, contentType: string, playableID: string, size: nat, fileExtension: string,
                         otherType: string, otherID: string)
    requires IsContentStored(disk, otherType, otherID)
    ensures IsContentStored(StoreContent(disk, contentType, playableID, size, fileExtension), otherType, otherID)
  {
    var opath := PathJoin(ContentPath, KindDir(otherType));
    var files := disk.listings[opath];
    var i := FirstMatch(files, otherID + ".").value;
    var after := StoreContent(disk, contentType, playableID, size, fileExtension);
    var path := PathJoin(ContentPath, KindDir(contentType));
    var d1 := MakeDir(disk, ContentPath, KindDir(contentType));
    if opath == path {
      assert d1.listings[path] == files;
      assert files[i] in files;
      if files[i] in after.listings[path] {
        MatchInListing(after.listings[path], files[i], otherID + ".");
      } else {
        MatchInListing(after.listings[path], File(playableID + fileExtension, size), otherID + ".");
      }
    } else {
      assert opath != ContentPath by {
        assert |opath| > |ContentPath|;
      }
      assert after.listings[opath] == files;
    }
  }

  /** Storing a cover leaves the stored content as it was. */
  lemma CoverLeavesContent(disk: Disk, contentType: string, playableID: string, size: nat, fileExtension: string,
                           otherType: string, otherID: string)
    ensures IsContentStored(StoreCover(disk, contentType, playableID, size, fileExtension), otherType, otherID) <==>
      IsContentStored(disk, otherType, otherID)
  {
    var opath := PathJoin(ContentPath, KindDir(otherType));
    var cpath := PathJoin(CoversPath, KindDir(contentType));
    assert opath != cpath by {
      assert opath[2] == 'n' && cpath[2] == 'v';
    }
    assert opath != CoversPath by {
      assert |opath| > |CoversPath|;
    }
    var after := StoreCover(disk, contentType, playableID, size, fileExtension);
    assert opath in after.listings <==> opath in disk.listings;
    assert opath in disk.listings ==> after.listings[opath] == disk.listings[opath];
  }

  /** After a record's files are removed its content is still stored
    * exactly when it had more than one matching content file. */
  lemma RemoveThenStored(disk: Disk, p: Media.Playable)
    requires PathJoin(ContentPath, KindDir(Media.GetType(p))) in disk.listings
    ensures var files := disk.listings[PathJoin(ContentPath, KindDir(Media.GetType(p)))];
      IsContentStored(RemovePlayableFiles(disk, p).0, Media.GetType(p), Media.GetID(p)) <==>
      CountMatches(files, Media.GetID(p) + ".") >= 2
  {
    var dir := KindDir(Media.GetType(p));
    var content := PathJoin(ContentPath, dir);
    var covers := PathJoin(CoversPath, dir);
    var prefix := Media.GetID(p) + ".";
    var files := disk.listings[content];
    var after := RemovePlayableFiles(disk, p).0;
    assert content != covers by {
      assert content[0] == 'c' && covers[0] == 'c';
      assert content[1] == 'o' && covers[1] == 'o';
      assert content[2] == 'n' && covers[2] == 'v';
    }
    assert after.listings[content] == RemoveFirst(files, prefix).0;
    RemoveFirstCount(files, prefix);
    var left := RemoveFirst(files, prefix).0;
    if FirstMatch(left, prefix).None? {
      NoMatchCountsZero(left, prefix);
    } else {
      MatchCountsPositive(left, prefix);
    }
  }

  lemma {:induction false} MatchCountsPositive(files: seq<Entry>, prefix: string)
    requires FirstMatch(files, prefix).Some?
    ensures CountMatches(files, prefix) > 0
    decreases |files|
  {
    if !IsMatch(files[0], prefix) {
      MatchCountsPositive(files[1..], prefix);
    }
  }

  // ---------------------------------------------------------------------
  // The clean-up loop
  // ---------------------------------------------------------------------

  /** The outcome of the clean-up: the directory afterwards, the size the
    * loop last believed the store to have, the records whose files were
    * removed in order, and whether it gave up with a warning. */
  datatype Eviction = Eviction(disk: Disk, sum: int, evicted: seq<Media.Playable>, warned: bool)

  /** The removal of one record's files and the bytes it frees;
    * RemovePlayableFiles in the clean-up. */
  type Remover = (Disk, Media.Playable) -> (Disk, nat)

  /** The eviction loop as written: while the size is over the limit the
    * next candidate's files are removed, but the size is never lowered. */
  function EvictAsWritten(remove: Remover, disk: Disk, sum: int, limit: int, candidates: seq<Media.Playable>): Eviction
    decreases |candidates|
  {
    if sum <= limit then Eviction(disk, sum, [], false)
    else if |candidates| == 0 then Eviction(disk, sum, [], true)
    else
      var rest := EvictAsWritten(remove, remove(disk, candidates[0]).0, sum, limit, candidates[1..]);
      Eviction(rest.disk, rest.sum, [candidates[0]] + rest.evicted, rest.warned)
  }

  /** Once over the limit, the written loop removes every candidate and
    * then warns; under the limit it removes nothing. */
  lemma {:induction false} AsWrittenEvictsAll(remove: Remover, disk: Disk, sum: int, limit: int, candidates: seq<Media.Playable>)
    ensures sum > limit ==> EvictAsWritten(remove, disk, sum, limit, candidates).evicted == candidates &&
                            EvictAsWritten(remove, disk, sum, limit, candidates).warned
    ensures sum <= limit ==> EvictAsWritten(remove, disk, sum, limit, candidates).evicted == []
    decreases |candidates|
  {
    if sum > limit && |candidates| > 0 {
      AsWrittenEvictsAll(remove, remove(disk, candidates[0]).0, sum, limit, candidates[1..]);
      assert candidates == [candidates[0]] + candidates[1..];
    }
  }

  /** Removing a list of records' files in order, lowering the size by
    * what each removal frees. */
  function RunRemovals(remove: Remover, disk: Disk, sum: int, ps: seq<Media.Playable>): (Disk, int)
    decreases |ps|
  {
    if |ps| == 0 then (disk, sum)
    else
      var (d1, freed) := remove(disk, ps[0]);
      RunRemovals(remove, d1, sum - freed, ps[1..])
  }

  /** The eviction loop with the size lowered by the bytes each removal
    * frees. */
  function Evict(remove: Remover, disk: Disk, sum: int, limit: int, candidates: seq<Media.Playable>): Eviction
    decreases |candidates|
  {
    if sum <= limit then Eviction(disk, sum, [], false)
    else if |candidates| == 0 then Eviction(disk, sum, [], true)
    else
      var (d1, freed) := remove(disk, candidates[0]);
      var rest := Evict(remove, d1, sum - freed, limit, candidates[1..]);
      Eviction(rest.disk, rest.sum, [candidates[0]] + rest.evicted, rest.warned)
  }

  /** The corrected loop removes a prefix of the candidates and ends in
    * the state of removing that prefix. */
  lemma {:induction false} EvictRemovesPrefix(remove: Remover, disk: Disk, sum: int, limit: int, candidates: seq<Media.Playable>)
    ensures var r := Evict(remove, disk, sum, limit, candidates);
      |r.evicted| <= |candidates| && r.evicted == candidates[..|r.evicted|] &&
      (r.disk, r.sum) == RunRemovals(remove, disk, sum, r.evicted)
    decreases |candidates|
  {
    if sum > limit && |candidates| > 0 {
      var (d1, freed) := remove(disk, candidates[0]);
      var tail := candidates[1..];
      EvictRemovesPrefix(remove, d1, sum - freed, limit, tail);
      var rest := Evict(remove, d1, sum - freed, limit, tail);
      var ev := [candidates[0]] + rest.evicted;
      assert Evict(remove, disk, sum, limit, candidates).evicted == ev;
      assert candidates[..|ev|] == [candidates[0]] + tail[..|rest.evicted|];
      assert ev[1..] == rest.evicted;
    }
  }

  /** The corrected loop warns exactly when it ends over the limit, and
    * then it has removed every candidate. */
  lemma {:induction false} EvictWarnsOnlyWhenExhausted(remove: Remover, disk: Disk, sum: int, limit: int, candidates: seq<Media.Playable>)
    ensures var r := Evict(remove, disk, sum, limit, candidates);
      (r.warned <==> r.sum > limit) && (r.warned ==> r.evicted == candidates)
    decreases |candidates|
  {
    if sum > limit && |candidates| > 0 {
      var (d1, freed) := remove(disk, candidates[0]);
      EvictWarnsOnlyWhenExhausted(remove, d1, sum - freed, limit, candidates[1..]);
      assert candidates == [candidates[0]] + candidates[1..];
    }
  }

  /** The corrected loop stops at the shortest prefix after which the size
    * fits: before each removal the size was still over the limit. */
  lemma {:induction false} EvictStopsWhenFits(remove: Remover, disk: Disk, sum: int, limit: int, candidates: seq<Media.Playable>)
    ensures var r := Evict(remove, disk, sum, limit, candidates);
      |r.evicted| <= |candidates| &&
      forall k :: 0 <= k < |r.evicted| ==> RunRemovals(remove, disk, sum, candidates[..k]).1 > limit
    decreases |candidates|
  {
    if sum > limit && |candidates| > 0 {
      var (d1, freed) := remove(disk, candidates[0]);
      var tail := candidates[1..];
      EvictStopsWhenFits(remove, d1, sum - freed, limit, tail);
      var rest := Evict(remove, d1, sum - freed, limit, tail);
      var ev := [candidates[0]] + rest.evicted;
      assert Evict(remove, disk, sum, limit, candidates).evicted == ev;
      forall k | 0 <= k < |ev|
        ensures RunRemovals(remove, disk, sum, candidates[..k]).1 > limit
      {
        if k > 0 {
          assert candidates[..k][1..] == tail[..k - 1];
          assert RunRemovals(remove, disk, sum, candidates[..k]) == RunRemovals(remove, d1, sum - freed, tail[..k - 1]);
        }
      }
    }
  }

  /** When the first candidate frees enough, the corrected loop removes it
    * alone, while the written loop removes every candidate. */
  lemma OneRemovalSuffices(remove: Remover, disk: Disk, sum: int, limit: int, candidates: seq<Media.Playable>)
    requires sum > limit && |candidates| >= 2
    requires sum - remove(disk, candidates[0]).1 <= limit
    ensures Evict(remove, disk, sum, limit, candidates).evicted == [candidates[0]]
    ensures EvictAsWritten(remove, disk, sum, limit, candidates).evicted == candidates
  {
    AsWrittenEvictsAll(remove, disk, sum, limit, candidates);
  }

  // ---------------------------------------------------------------------
  // CleanOverfilledStorage
  // ---------------------------------------------------------------------

  /** CleanOverfilledStorage as written: nothing happens when the content
    * root cannot be read; otherwise the exact-key candidates, ordered by
    * view count, go through the written loop. `sum` is the total size of
    * the files under the storage directory. */
  function CleanAsWritten(disk: Disk, tracks: seq<Media.Track>, videos: seq<Media.Video>,
                          now: int, threshold: int, sum: int, limit: int): Eviction {
    if ContentPath !in disk.listings then Eviction(disk, sum, [], false)
    else
      var candidates := CandidatesAsWritten(tracks, videos, StoredKeys(disk), now, threshold);
      EvictAsWritten(RemovePlayableFiles, disk, sum, limit, SortByViews(candidates))
  }

  /** CleanOverfilledStorage with stored files recognised by their id and
    * the size lowered as files are removed. */
  function Clean(disk: Disk, tracks: seq<Media.Track>, videos: seq<Media.Video>,
                 now: int, threshold: int, sum: int, limit: int): Eviction {
    if ContentPath !in disk.listings then Eviction(disk, sum, [], false)
    else
      var candidates := Candidates(tracks, videos, StoredKeys(disk), now, threshold);
      Evict(RemovePlayableFiles, disk, sum, limit, SortByViews(candidates))
  }

  /** Sorting keeps exactly the same records. */
  lemma SortKeepsMembers(ps: seq<Media.Playable>)
    ensures forall p :: p in SortByViews(ps) <==> p in ps
  {
    var r := SortByViews(ps);
    assert forall p :: p in r <==> p in multiset(r);
    assert forall p :: p in ps <==> p in multiset(ps);
  }

  /** The corrected loop only removes candidates. */
  lemma EvictedAreCandidates(remove: Remover, disk: Disk, sum: int, limit: int, candidates: seq<Media.Playable>)
    ensures forall p :: p in Evict(remove, disk, sum, limit, candidates).evicted ==> p in candidates
  {
    EvictRemovesPrefix(remove, disk, sum, limit, candidates);
    var ev := Evict(remove, disk, sum, limit, candidates).evicted;
    forall p | p in ev
      ensures p in candidates
    {
      var i :| 0 <= i < |ev| && ev[i] == p;
      assert candidates[..|ev|][i] == candidates[i];
    }
  }

  /** The clean-up ends under the limit unless it warns, and removes only
    * old enough tracks and videos of the given lists whose content is
    * stored under "<kind>_<id>.". */
  lemma CleanRemovesOnlyCandidates(disk: Disk, tracks: seq<Media.Track>, videos: seq<Media.Video>,
                                   now: int, threshold: int, sum: int, limit: int)
    ensures var r := Clean(disk, tracks, videos, now, threshold, sum, limit);
      (r.warned ==> r.sum > limit) &&
      (!r.warned ==> r.sum <= limit || ContentPath !in disk.listings) &&
      forall p :: p in r.evicted ==>
        OldEnough(p, now, threshold) &&
        ((p.TrackItem? && p in Tracks(tracks) && AnyKeyStartsWith(StoredKeys(disk), "track_" + Media.GetID(p) + ".")) ||
         (p.VideoItem? && p in Videos(videos) && AnyKeyStartsWith(StoredKeys(disk), "video_" + Media.GetID(p) + ".")))
  {
    if ContentPath in disk.listings {
      var candidates := Candidates(tracks, videos, StoredKeys(disk), now, threshold);
      var sorted := SortByViews(candidates);
      EvictWarnsOnlyWhenExhausted(RemovePlayableFiles, disk, sum, limit, sorted);
      EvictedAreCandidates(RemovePlayableFiles, disk, sum, limit, sorted);
      SortKeepsMembers(candidates);
      assert forall i :: 0 <= i < |tracks| ==> Tracks(tracks)[i].TrackItem?;
      assert forall i :: 0 <= i < |videos| ==> Videos(videos)[i].VideoItem?;
    }
  }

  /** A track stored with an extension is never a candidate of the
    * written selection, however old it is, when no file is named by its
    * bare id; the corrected selection does pick it. */
  lemma StoredTrackMissedAsWritten(t: Media.Track, ext: string, size: nat, now: int, threshold: int)
    requires |ext| > 0 && ext[0] == '.'
    requires OldEnough(Media.TrackItem(t), now, threshold)
    ensures var disk := Disk(map[ContentPath := [Dir("tracks")], PathJoin(ContentPath, "tracks") := [File(t.id + ext, size)]]);
      Media.TrackItem(t) !in CandidatesAsWritten([t], [], StoredKeys(disk), now, threshold) &&
      Media.TrackItem(t) in Candidates([t], [], StoredKeys(disk), now, threshold)
  {
    var disk := Disk(map[ContentPath := [Dir("tracks")], PathJoin(ContentPath, "tracks") := [File(t.id + ext, size)]]);
    var files := [File(t.id + ext, size)];
    var dirs := GetDirectories(disk.listings[ContentPath]);
    assert "tracks" in dirs;
    assert forall k :: k in dirs ==> k == "tracks";
    var keys := StoredKeys(disk);
    assert "tracks"[..5] == "track";
    var key := "track_" + t.id + ext;
    assert ContentKey("tracks", t.id + ext) == key;
    assert forall k :: k in keys <==> k == key by {
      forall k
        ensures k in keys <==> k == key
      {
        if k in keys {
          var j :| 0 <= j < |dirs| && PathJoin(ContentPath, dirs[j]) in disk.listings &&
            k in KeysIn(dirs[j], disk.listings[PathJoin(ContentPath, dirs[j])]);
          assert dirs[j] in dirs;
        }
        if k == key {
          assert KeyOf("tracks", files[0], k);
          assert k in KeysIn("tracks", files);
          assert IsContentKey(disk, dirs, k);
        }
      }
    }
    assert "track_" + t.id !in keys by {
      assert |"track_" + t.id| < |key|;
    }
    assert key in keys;
    var i :| 0 <= i < |keys| && keys[i] == key;
    assert HasPrefix(keys[i], "track_" + t.id + ".") by {
      assert key[..|"track_" + t.id + "."|] == "track_" + t.id + ".";
    }
    assert Tracks([t]) == [Media.TrackItem(t)];
  }
}

=== FILE: store.dfy ===
/**
 * The record store behind the Database interface, for both engines. Tables
 * are sequences of rows in storage order; the SQL text, connection pools and
 * column (un)marshalling are not modelled. Where the engines differ the
 * functions take the engine as a parameter.
 */
module Store {
  import opened Wrappers
  import opened Strs
  import opened Media

  datatype Engine = SQLite | PostgreSQL

  /** ErrNotFound, ErrTooMany, and any other driver error by its text. */
  datatype StoreError = NotFound | TooMany | Failed(msg: string)

  /** The error's Error() text, which the handlers send back. */
  function ErrorText(e: StoreError): string {
    match e
    case NotFound => "not found in database"
    case TooMany => "too many found in database"
    case Failed(msg) => msg
  }

  const SQLiteNames: seq<string> := ["sqlite", "sqlite3"]
  const PostgreSQLNames: seq<string> := ["postgresql", "postgres", "postgre", "pgsql", "pg"]

  /** Satisfies: the configured engine name, lower-cased, is one of the
    * engine's names. */
  predicate Satisfies(e: Engine, engine: string) {
    Lower(engine) in (if e.SQLite? then SQLiteNames else PostgreSQLNames)
  }

  /** The names are case-insensitive, and no name selects both engines. */
  lemma SatisfiesExclusive(engine: string)
    ensures Satisfies(SQLite, engine) <==> Satisfies(SQLite, Lower(engine))
    ensures Satisfies(PostgreSQL, engine) <==> Satisfies(PostgreSQL, Lower(engine))
    ensures !(Satisfies(SQLite, engine) && Satisfies(PostgreSQL, engine))
  {
    LowerIdempotent(engine);
    var l := Lower(engine);
    if l in SQLiteNames {
      assert l[0] == 's';
      assert forall n :: n in PostgreSQLNames ==> n[0] == 'p';
    }
  }

  datatype ConnectError = Unsupported(engine: string) | ConnectFailed(msg: string)

  /** The global DB after ConnectDatabase, and what it returned. */
  datatype Connection = Connection(db: Option<Engine>, error: Option<ConnectError>)

  /** The first registry entry that accepts the engine name. */
  function Choose(registry: seq<Engine>, engine: string): (r: Option<Engine>)
    ensures r.Some? ==> r.value in registry && Satisfies(r.value, engine)
    ensures r.None? <==> forall e :: e in registry ==> !Satisfies(e, engine)
  {
    if |registry| == 0 then None
    else if Satisfies(registry[0], engine) then Some(registry[0])
    else Choose(registry[1..], engine)
  }

  /**
   * ConnectDatabase. `registry` is the order in which the map of engines is
   * visited and `connect` stands for each engine's Connect. The DB is set
   * before Connect runs, so it stays set when the connection fails.
   */
  function ConnectDatabase(current: Option<Engine>, registry: seq<Engine>, engine: string,
                           connect: Engine -> Option<string>): (r: Connection)
    ensures current.Some? ==> r == Connection(current, None)
    ensures current.None? && r.db.Some? ==> r.db.value in registry && Satisfies(r.db.value, engine)
    ensures current.None? ==> (r.db.None? <==> forall e :: e in registry ==> !Satisfies(e, engine))
    ensures r.error == Some(Unsupported(engine)) <==>
      current.None? && forall e :: e in registry ==> !Satisfies(e, engine)
    ensures r.error.Some? && r.error.value.ConnectFailed? ==> r.db.Some?
  {
    if current.Some? then Connection(current, None)
    else
      match Choose(registry, engine)
      case None => Connection(None, Some(Unsupported(engine)))
      case Some(e) =>
        match connect(e)
        case Some(msg) => Connection(Some(e), Some(ConnectFailed(msg)))
        case None => Connection(Some(e), None)
  }

  /** The order the registry map is visited in does not matter: at most one
    * engine accepts a name. */
  lemma ConnectOrderIrrelevant(current: Option<Engine>, r1: seq<Engine>, r2: seq<Engine>, engine: string,
                               connect: Engine -> Option<string>)
    requires forall e :: e in r1 <==> e in r2
    ensures ConnectDatabase(current, r1, engine, connect) == ConnectDatabase(current, r2, engine, connect)
  {
    SatisfiesExclusive(engine);
    var c1 := Choose(r1, engine);
    var c2 := Choose(r2, engine);
    if c1.Some? && c2.Some? {
      assert c1.value == c2.value;
    }
  }

  /** The PostgreSQL pool: whether Close has run, and how many times the
    * pool was actually shut down. */
  datatype Pool = Pool(closed: bool, shutdowns: nat)

  /** PostgreSQLDatabase.Close: shuts the pool down once and returns nil. */
  function CloseOnce(p: Pool): (r: (Pool, Option<StoreError>))
    ensures r.1.None? && r.0.closed
    ensures p.closed ==> r.0 == p
  {
    if p.closed then (p, None) else (Pool(true, p.shutdowns + 1), None)
  }

  function CloseTimes(p: Pool, k: nat): Pool
    decreases k
  {
    if k == 0 then p else CloseTimes(CloseOnce(p).0, k - 1)
  }

  /** However often Close is called, the pool is shut down once. */
  lemma {:induction false} CloseIdempotent(k: nat)
    requires k >= 1
    ensures CloseTimes(Pool(false, 0), k) == Pool(true, 1)
  {
    var p := CloseOnce(Pool(false, 0)).0;
    assert p == Pool(true, 1);
    ClosedStays(p, k - 1);
  }

  lemma {:induction false} ClosedStays(p: Pool, k: nat)
    requires p.closed
    ensures CloseTimes(p, k) == p
    decreases k
  {
    if k > 0 {
      ClosedStays(CloseOnce(p).0, k - 1);
    }
  }

  /** pgx's "no rows" error, or any other driver error. */
  datatype DriverError = NoRows | DriverFailed(msg: string)

  /** normalizePostgreSQLError */
  function Normalize(e: Option<DriverError>): (r: Option<StoreError>)
    ensures r == Some(NotFound) <==> e == Some(NoRows)
    ensures r.None? <==> e.None?
    ensures r != Some(TooMany)
    ensures e.Some? && e.value.DriverFailed? ==> r == Some(Failed(e.value.msg))
  {
    match e
    case None => None
    case Some(NoRows) => Some(NotFound)
    case Some(DriverFailed(m)) => Some(Failed(m))
  }

  /** PostgreSQL migrationsTableExists: a missing row means "no table", not
    * an error. */
  function PgTableExists(q: Result<bool, DriverError>): (r: Result<bool, StoreError>)
    ensures q == Failure(NoRows) ==> r == Success(false)
    ensures q.Success? ==> r == Success(q.value)
    ensures r.Failure? <==> q.Failure? && q.error.DriverFailed?
  {
    match q
    case Success(b) => Success(b)
    case Failure(NoRows) => Success(false)
    case Failure(DriverFailed(m)) => Failure(Failed(m))
  }

  /** SQLite migrationsTableExists: the table exists when the lookup
    * produced a row; a driver error is returned as is. */
  function SQLiteTableExists(rows: nat, err: Option<string>): (r: Result<bool, StoreError>)
    ensures r.Success? <==> err.None?
    ensures r.Success? ==> (r.value <==> rows > 0)
  {
    if err.Some? then Failure(Failed(err.value)) else Success(rows > 0)
  }

  /** The rows a WHERE clause selects, in storage order. */
  function Select<R(==,!new)>(t: seq<R>, p: R -> bool): (r: seq<R>)
    ensures |r| <= |t|
    ensures forall x :: x in r <==> x in t && p(x)
  {
    if |t| == 0 then []
    else if p(t[0]) then [t[0]] + Select(t[1..], p)
    else Select(t[1..], p)
  }

  /**
   * A single-row getter. SQLite scans every row and fails with ErrTooMany
   * on a second one; PostgreSQL's QueryRow scans the first row and drops
   * the rest. Both report ErrNotFound when nothing matches.
   */
  function QueryOne<R(==,!new)>(engine: Engine, t: seq<R>, p: R -> bool): (r: Result<R, StoreError>)
    ensures r.Success? ==> r.value in t && p(r.value)
    ensures r == Failure(NotFound) <==> forall x :: x in t ==> !p(x)
    ensures r == Failure(TooMany) <==> engine == SQLite && |Select(t, p)| > 1
    ensures r.Success? ==> r.value == Select(t, p)[0]
    ensures r.Success? || r == Failure(NotFound) || r == Failure(TooMany)
  {
    var rows := Select(t, p);
    if |rows| == 0 then Failure(NotFound)
    else if engine == SQLite && |rows| > 1 then
      assert rows[0] in rows;
      Failure(TooMany)
    else
      assert rows[0] in rows;
      Success(rows[0])
  }

  /** GetTrack, GetAlbum, … and GetUser: the row with that id. */
  function Get<R(==,!new)>(engine: Engine, t: seq<R>, key: R -> string, id: string): (r: Result<R, StoreError>)
    ensures r.Success? ==> r.value in t && key(r.value) == id
    ensures r == Failure(NotFound) <==> forall x :: x in t ==> key(x) != id
  {
    QueryOne(engine, t, x => key(x) == id)
  }

  /** AddTrack, AddAlbum, …, CreateUser: an INSERT. */
  function Add<R(==,!new)>(t: seq<R>, x: R): (r: seq<R>)
    ensures forall y :: y in r <==> y in t || y == x
  {
    t + [x]
  }

  /** UpdateTrack, …: every row with the record's id takes its values. */
  function Update<R(==,!new)>(t: seq<R>, key: R -> string, x: R): (r: seq<R>)
    ensures |r| == |t|
    ensures forall i :: 0 <= i < |t| ==> r[i] == (if key(t[i]) == key(x) then x else t[i])
  {
    seq(|t|, i requires 0 <= i < |t| => if key(t[i]) == key(x) then x else t[i])
  }

  /** DeleteTrack, …: removes every row with that id. */
  function Delete<R(==,!new)>(t: seq<R>, key: R -> string, id: string): (r: seq<R>)
    ensures forall y :: y in r <==> y in t && key(y) != id
  {
    Select(t, x => key(x) != id)
  }

  /** GetTracks(userID), …: the rows owned by one user, in storage order. */
  function OwnedBy<R(==,!new)>(t: seq<R>, owner: R -> string, userId: string): (r: seq<R>)
    ensures forall y :: y in r <==> y in t && owner(y) == userId
  {
    Select(t, x => owner(x) == userId)
  }

  /** A record added under a fresh id is read back unchanged, on both
    * engines. */
  lemma AddThenGet<R(!new)>(engine: Engine, t: seq<R>, key: R -> string, x: R)
    requires forall y :: y in t ==> key(y) != key(x)
    ensures Get(engine, Add(t, x), key, key(x)) == Success(x)
  {
    var p := (y: R) => key(y) == key(x);
    SelectAppend(t, p, x);
    EmptyOrFirst(Select(t, p));
  }

  lemma {:induction false} SelectAppend<R(!new)>(t: seq<R>, p: R -> bool, x: R)
    ensures Select(t + [x], p) == Select(t, p) + (if p(x) then [x] else [])
    decreases |t|
  {
    if |t| > 0 {
      assert (t + [x])[1..] == t[1..] + [x];
      SelectAppend(t[1..], p, x);
    } else {
      assert t + [x] == [x];
    }
  }

  /** Adding a record does not change what another id reads. */
  lemma AddKeepsOthers<R(!new)>(engine: Engine, t: seq<R>, key: R -> string, x: R, id: string)
    requires key(x) != id
    ensures Get(engine, Add(t, x), key, id) == Get(engine, t, key, id)
  {
    SelectAppend(t, y => key(y) == id, x);
  }

  /** After a delete, the id is not found; other rows stay. */
  lemma DeleteThenGet<R(!new)>(engine: Engine, t: seq<R>, key: R -> string, id: string, y: R)
    ensures Get(engine, Delete(t, key, id), key, id) == Failure(NotFound)
    ensures y in t && key(y) != id ==> y in Delete(t, key, id)
  {
  }

  /** Reading an updated record returns the new values, when the id was
    * readable before. */
  lemma UpdateThenGet<R(!new)>(engine: Engine, t: seq<R>, key: R -> string, x: R)
    requires Get(engine, t, key, key(x)).Success?
    ensures Get(engine, Update(t, key, x), key, key(x)) == Success(x)
  {
    var p := (y: R) => key(y) == key(x);
    UpdateSelect(t, key, x);
  }

  /** The rows an update touches are exactly the rows with its id, all now
    * equal to the record. */
  lemma {:induction false} UpdateSelect<R(!new)>(t: seq<R>, key: R -> string, x: R)
    ensures Select(Update(t, key, x), y => key(y) == key(x))
      == seq(|Select(t, y => key(y) == key(x))|, _ => x)
    decreases |t|
  {
    var p := (y: R) => key(y) == key(x);
    if |t| > 0 {
      var u := Update(t, key, x);
      assert u[1..] == Update(t[1..], key, x);
      UpdateSelect(t[1..], key, x);
      var n := |Select(t[1..], p)|;
      if p(t[0]) {
        assert u[0] == x;
        assert Select(u, p) == [x] + Select(u[1..], p);
        assert seq(n + 1, _ => x) == [x] + seq(n, _ => x);
      } else {
        assert u[0] == t[0];
      }
    }
  }

  /** The provider account table: (user_id, provider, provider_user_id). */
  datatype ProviderLink = ProviderLink(userId: string, provider: string, providerUserId: string)

  /** The rows of `users JOIN auth_providers` for one provider account. */
  function LinkedUsers(users: seq<DatabaseUser>, links: seq<ProviderLink>, provider: string,
                       providerUserId: string): (r: seq<DatabaseUser>)
    ensures forall u :: u in r ==> u in users
    decreases |links|
  {
    if |links| == 0 then []
    else
      var l := links[0];
      var here := if l.provider == provider && l.providerUserId == providerUserId
        then Select(users, (u: DatabaseUser) => u.id == l.userId) else [];
      here + LinkedUsers(users, links[1..], provider, providerUserId)
  }

  /** A user is in the join exactly when one of the account's links points
    * at its id. */
  lemma {:induction false} LinkedUsersMembers(users: seq<DatabaseUser>, links: seq<ProviderLink>, provider: string,
                                              providerUserId: string, u: DatabaseUser)
    ensures u in LinkedUsers(users, links, provider, providerUserId) <==> (u in users &&
      exists l :: l in links && l.provider == provider && l.providerUserId == providerUserId && l.userId == u.id)
    decreases |links|
  {
    if |links| > 0 {
      LinkedUsersMembers(users, links[1..], provider, providerUserId, u);
      assert links == [links[0]] + links[1..];
    }
  }

  /** GetProviderUser */
  function GetProviderUser(engine: Engine, users: seq<DatabaseUser>, links: seq<ProviderLink>,
                           provider: string, providerUserId: string): (r: Result<DatabaseUser, StoreError>)
    ensures r.Success? ==> r.value in users
    ensures r.Success? ==> exists l :: l in links && l.provider == provider && l.providerUserId == providerUserId && l.userId == r.value.id
    ensures r == Failure(NotFound) <==> forall u :: u in users ==>
      forall l :: l in links && l.provider == provider && l.providerUserId == providerUserId ==> l.userId != u.id
  {
    var rows := LinkedUsers(users, links, provider, providerUserId);
    EmptyOrFirst(rows);
    assert forall x :: x in rows ==>
      exists l :: l in links && l.provider == provider && l.providerUserId == providerUserId && l.userId == x.id
    by {
      forall x | x in rows {
        LinkedUsersMembers(users, links, provider, providerUserId, x);
      }
    }
    assert |rows| == 0 <==> forall u :: u in users ==>
      forall l :: l in links && l.provider == provider && l.providerUserId == providerUserId ==> l.userId != u.id
    by {
      forall u | u in users {
        LinkedUsersMembers(users, links, provider, providerUserId, u);
      }
    }
    QueryOne(engine, rows, (u: DatabaseUser) => true)
  }

  /** A sequence is empty or holds its first element. */
  lemma EmptyOrFirst<T>(s: seq<T>)
    ensures |s| == 0 || s[0] in s
  {
  }

  /** IsProviderLinked */
  predicate IsProviderLinked(links: seq<ProviderLink>, provider: string, userId: string) {
    exists l :: l in links && l.provider == provider && l.userId == userId
  }

  /** LinkProviderAccount */
  function LinkProviderAccount(links: seq<ProviderLink>, provider: string, userId: string,
                               providerUserId: string): (r: seq<ProviderLink>)
    ensures IsProviderLinked(r, provider, userId)
    ensures forall l :: l in links ==> l in r
  {
    var l := ProviderLink(userId, provider, providerUserId);
    assert l in links + [l];
    links + [l]
  }

  /** DisconnectProviderAccount: removes the user's links to that provider,
    * and only those. */
  function DisconnectProviderAccount(links: seq<ProviderLink>, provider: string, userId: string): (r: seq<ProviderLink>)
    ensures !IsProviderLinked(r, provider, userId)
    ensures forall l :: l in r <==> l in links && !(l.userId == userId && l.provider == provider)
  {
    Select(links, (l: ProviderLink) => !(l.userId == userId && l.provider == provider))
  }

  /** A linked account finds its user, when user ids are unique and no
    * other user is linked to that account. */
  lemma LinkThenGetProviderUser(engine: Engine, users: seq<DatabaseUser>, links: seq<ProviderLink>,
                                provider: string, u: DatabaseUser, providerUserId: string)
    requires u in users
    requires forall i, j :: 0 <= i < j < |users| ==> users[i].id != users[j].id
    requires forall l :: l in links ==> !(l.provider == provider && l.providerUserId == providerUserId)
    ensures GetProviderUser(engine, users, LinkProviderAccount(links, provider, u.id, providerUserId),
                            provider, providerUserId) == Success(u)
  {
    var l := ProviderLink(u.id, provider, providerUserId);
    LinkedUsersAppend(users, links, provider, providerUserId, l);
    EmptyOrFirst(LinkedUsers(users, links, provider, providerUserId));
    forall v | v in users ensures v !in LinkedUsers(users, links, provider, providerUserId) {
      LinkedUsersMembers(users, links, provider, providerUserId, v);
    }
    UniqueIdSelect(users, u);
  }

  lemma {:induction false} LinkedUsersAppend(users: seq<DatabaseUser>, links: seq<ProviderLink>, provider: string,
                                             providerUserId: string, l: ProviderLink)
    requires l.provider == provider && l.providerUserId == providerUserId
    ensures LinkedUsers(users, links + [l], provider, providerUserId)
      == LinkedUsers(users, links, provider, providerUserId) + Select(users, (v: DatabaseUser) => v.id == l.userId)
    decreases |links|
  {
    if |links| == 0 {
      assert links + [l] == [l];
      assert [l][1..] == [];
    } else {
      assert (links + [l])[1..] == links[1..] + [l];
      LinkedUsersAppend(users, links[1..], provider, providerUserId, l);
    }
  }

  /** With unique ids, selecting by a user's id finds that user alone. */
  lemma {:induction false} UniqueIdSelect(users: seq<DatabaseUser>, u: DatabaseUser)
    requires u in users
    requires forall i, j :: 0 <= i < j < |users| ==> users[i].id != users[j].id
    ensures Select(users, (v: DatabaseUser) => v.id == u.id) == [u]
    decreases |users|
  {
    var p := (v: DatabaseUser) => v.id == u.id;
    var rest := users[1..];
    if users[0] == u {
      assert forall v :: v in rest ==> v.id != u.id by {
        forall v | v in rest ensures v.id != u.id {
          var j :| 0 <= j < |rest| && rest[j] == v;
          assert users[j + 1] == v;
        }
      }
      EmptyOrFirst(Select(rest, p));
    } else {
      assert u in rest;
      assert users[0].id != u.id by {
        var j :| 0 <= j < |rest| && rest[j] == u;
        assert users[j + 1] == u;
      }
      UniqueIdSelect(rest, u);
    }
  }

  /** The per-user lookups. On PostgreSQL the argument is lower-cased first
    * and GetUserByUsername matches the e-mail as well; SQLite compares the
    * username exactly. */
  function LookupKey(engine: Engine, s: string): string {
    if engine == PostgreSQL then Lower(s) else s
  }

  function GetUserByUsername(engine: Engine, users: seq<DatabaseUser>, username: string): (r: Result<DatabaseUser, StoreError>)
    ensures r.Success? ==> r.value in users
    ensures r.Success? && engine == SQLite ==> r.value.username == username
    ensures r.Success? && engine == PostgreSQL ==>
      r.value.username == Lower(username) || r.value.email == Lower(username)
    ensures r == Failure(NotFound) <==> forall u :: u in users ==>
      u.username != LookupKey(engine, username) && (engine == SQLite || u.email != Lower(username))
  {
    var k := LookupKey(engine, username);
    QueryOne(engine, users, (u: DatabaseUser) => u.username == k || (engine == PostgreSQL && u.email == k))
  }

  predicate UsernameExists(engine: Engine, users: seq<DatabaseUser>, username: string) {
    exists u :: u in users && u.username == LookupKey(engine, username)
  }

  predicate EmailExists(engine: Engine, users: seq<DatabaseUser>, email: string) {
    exists u :: u in users && u.email == LookupKey(engine, email)
  }

  /** On PostgreSQL the lookups ignore the case of their argument. */
  lemma PgLookupsIgnoreCase(users: seq<DatabaseUser>, a: string, b: string)
    requires Lower(a) == Lower(b)
    ensures GetUserByUsername(PostgreSQL, users, a) == GetUserByUsername(PostgreSQL, users, b)
    ensures UsernameExists(PostgreSQL, users, a) == UsernameExists(PostgreSQL, users, b)
    ensures EmailExists(PostgreSQL, users, a) == EmailExists(PostgreSQL, users, b)
  {
    var pa := (u: DatabaseUser) => u.username == Lower(a) || (PostgreSQL == PostgreSQL && u.email == Lower(a));
    var pb := (u: DatabaseUser) => u.username == Lower(b) || (PostgreSQL == PostgreSQL && u.email == Lower(b));
    assert pa == pb;
  }

  /** A created user's name and e-mail exist afterwards; on PostgreSQL only
    * when they are stored in lower case. */
  lemma CreateThenExists(engine: Engine, users: seq<DatabaseUser>, u: DatabaseUser)
    requires engine == PostgreSQL ==> Lower(u.username) == u.username && Lower(u.email) == u.email
    ensures UsernameExists(engine, Add(users, u), u.username)
    ensures EmailExists(engine, Add(users, u), u.email)
  {
    assert u in Add(users, u);
  }

  /** A stored name with an upper-case letter is never found on PostgreSQL
    * under that name, unless another user's row matches. */
  lemma PgMixedCaseUnreachable(users: seq<DatabaseUser>, u: DatabaseUser)
    requires users == [u]
    requires Lower(u.username) != u.username && Lower(u.username) != u.email
    ensures !UsernameExists(PostgreSQL, users, u.username)
    ensures GetUserByUsername(PostgreSQL, users, u.username) == Failure(NotFound)
  {
  }

  /** A newly created user whose name no stored user has is what a later
    * SQLite lookup of that name returns. */
  lemma AddedUserFound(users: seq<DatabaseUser>, u: DatabaseUser)
    requires forall x :: x in users ==> x.username != u.username
    ensures GetUserByUsername(SQLite, Add(users, u), u.username) == Success(u)
  {
    var p := (v: DatabaseUser) => v.username == u.username || (SQLite == PostgreSQL && v.email == u.username);
    SelectAppend(users, p, u);
    EmptyOrFirst(Select(users, p));
  }

  /** A blacklisted token and its expiry time (seconds). */
  datatype BlacklistEntry = BlacklistEntry(token: string, expiration: int)

  function BlacklistToken(bl: seq<BlacklistEntry>, token: string, expiration: int): (r: seq<BlacklistEntry>)
    ensures IsTokenBlacklisted(r, token)
    ensures forall e :: e in bl ==> e in r
  {
    var e := BlacklistEntry(token, expiration);
    assert e in bl + [e];
    bl + [e]
  }

  predicate IsTokenBlacklisted(bl: seq<BlacklistEntry>, token: string) {
    exists e :: e in bl && e.token == token
  }

  /** CleanExpiredTokens: drops the entries whose expiry is before `now`. */
  function CleanExpiredTokens(bl: seq<BlacklistEntry>, now: int): (r: seq<BlacklistEntry>)
    ensures forall e :: e in r <==> e in bl && e.expiration >= now
  {
    Select(bl, (e: BlacklistEntry) => !(e.expiration < now))
  }

  /** After cleaning, a token is blacklisted exactly when it has an entry
    * that has not expired. */
  lemma CleanKeepsLive(bl: seq<BlacklistEntry>, now: int, token: string)
    ensures IsTokenBlacklisted(CleanExpiredTokens(bl, now), token) <==>
      exists e :: e in bl && e.token == token && e.expiration >= now
  {
    var r := CleanExpiredTokens(bl, now);
    if exists e :: e in bl && e.token == token && e.expiration >= now {
      var e :| e in bl && e.token == token && e.expiration >= now;
      assert e in r;
    }
  }

  /** A token blacklisted with an expiry in the past is gone after
    * cleaning, when it was its only entry. */
  lemma ExpiredTokenCleaned(bl: seq<BlacklistEntry>, token: string, expiration: int, now: int)
    requires expiration < now
    requires !IsTokenBlacklisted(bl, token)
    ensures !IsTokenBlacklisted(CleanExpiredTokens(BlacklistToken(bl, token, expiration), now), token)
  {
    CleanKeepsLive(BlacklistToken(bl, token, expiration), now, token);
  }

  /** The order GetAllPlayables and GetPlayables list kinds in. */
  function Rank(p: Playable): nat {
    match p
    case TrackItem(_) => 0
    case AlbumItem(_) => 1
    case VideoItem(_) => 2
    case ArtistItem(_) => 3
    case PlaylistItem(_) => 4
    case UserItem(_) => 5
  }

  function Tracks(s: seq<Track>): (r: seq<Playable>)
    ensures |r| == |s| && forall i :: 0 <= i < |s| ==> r[i] == TrackItem(s[i])
    ensures forall x :: x in r ==> x.TrackItem? && x.track in s
  {
    seq(|s|, i requires 0 <= i < |s| => TrackItem(s[i]))
  }

  function Albums(s: seq<Album>): (r: seq<Playable>)
    ensures |r| == |s| && forall i :: 0 <= i < |s| ==> r[i] == AlbumItem(s[i])
    ensures forall x :: x in r ==> x.AlbumItem? && x.album in s
  {
    seq(|s|, i requires 0 <= i < |s| => AlbumItem(s[i]))
  }

  function Videos(s: seq<Video>): (r: seq<Playable>)
    ensures |r| == |s| && forall i :: 0 <= i < |s| ==> r[i] == VideoItem(s[i])
    ensures forall x :: x in r ==> x.VideoItem? && x.video in s
  {
    seq(|s|, i requires 0 <= i < |s| => VideoItem(s[i]))
  }

  function Artists(s: seq<Artist>): (r: seq<Playable>)
    ensures |r| == |s| && forall i :: 0 <= i < |s| ==> r[i] == ArtistItem(s[i])
    ensures forall x :: x in r ==> x.ArtistItem? && x.artist in s
  {
    seq(|s|, i requires 0 <= i < |s| => ArtistItem(s[i]))
  }

  function Playlists(s: seq<Playlist>): (r: seq<Playable>)
    ensures |r| == |s| && forall i :: 0 <= i < |s| ==> r[i] == PlaylistItem(s[i])
    ensures forall x :: x in r ==> x.PlaylistItem? && x.playlist in s
  {
    seq(|s|, i requires 0 <= i < |s| => PlaylistItem(s[i]))
  }

  /**
   * GetAllPlayables and GetPlayables: the five queries in order, tracks,
   * albums, videos, artists, playlists; the first failing query's error is
   * returned and nothing else.
   */
  function CollectPlayables(tracks: Result<seq<Track>, StoreError>, albums: Result<seq<Album>, StoreError>,
                            videos: Result<seq<Video>, StoreError>, artists: Result<seq<Artist>, StoreError>,
                            playlists: Result<seq<Playlist>, StoreError>): (r: Result<seq<Playable>, StoreError>)
    ensures tracks.Failure? ==> r == Failure(tracks.error)
    ensures tracks.Success? && albums.Failure? ==> r == Failure(albums.error)
    ensures tracks.Success? && albums.Success? && videos.Failure? ==> r == Failure(videos.error)
    ensures tracks.Success? && albums.Success? && videos.Success? && artists.Failure? ==> r == Failure(artists.error)
    ensures tracks.Success? && albums.Success? && videos.Success? && artists.Success? && playlists.Failure?
      ==> r == Failure(playlists.error)
    ensures r.Success? <==> tracks.Success? && albums.Success? && videos.Success? && artists.Success? && playlists.Success?
    ensures r.Success? ==> forall i, j :: 0 <= i < j < |r.value| ==> Rank(r.value[i]) <= Rank(r.value[j])
    ensures r.Success? ==> |r.value| == |tracks.value| + |albums.value| + |videos.value| + |artists.value| + |playlists.value|
    ensures r.Success? ==> forall i :: 0 <= i < |r.value| ==> !r.value[i].UserItem?
  {
    if tracks.Failure? then Failure(tracks.error)
    else if albums.Failure? then Failure(albums.error)
    else if videos.Failure? then Failure(videos.error)
    else if artists.Failure? then Failure(artists.error)
    else if playlists.Failure? then Failure(playlists.error)
    else
      var all := Tracks(tracks.value) + Albums(albums.value) + Videos(videos.value)
        + Artists(artists.value) + Playlists(playlists.value);
      RankedConcat(tracks.value, albums.value, videos.value, artists.value, playlists.value);
      Success(all)
  }

  lemma RankedConcat(t: seq<Track>, a: seq<Album>, v: seq<Video>, ar: seq<Artist>, p: seq<Playlist>)
    ensures var all := Tracks(t) + Albums(a) + Videos(v) + Artists(ar) + Playlists(p);
      forall i, j :: 0 <= i < j < |all| ==> Rank(all[i]) <= Rank(all[j])
    ensures var all := Tracks(t) + Albums(a) + Videos(v) + Artists(ar) + Playlists(p);
      forall i :: 0 <= i < |all| ==> Rank(all[i]) < 5
  {
    var all := Tracks(t) + Albums(a) + Videos(v) + Artists(ar) + Playlists(p);
    var b1, b2, b3, b4 := |t|, |t| + |a|, |t| + |a| + |v|, |t| + |a| + |v| + |ar|;
    forall i | 0 <= i < |all|
      ensures Rank(all[i]) == (if i < b1 then 0 else if i < b2 then 1 else if i < b3 then 2 else if i < b4 then 3 else 4)
    {
      if i < b1 {
        assert all[i] == TrackItem(t[i]);
      } else if i < b2 {
        assert all[i] == AlbumItem(a[i - b1]);
      } else if i < b3 {
        assert all[i] == VideoItem(v[i - b2]);
      } else if i < b4 {
        assert all[i] == ArtistItem(ar[i - b3]);
      } else {
        assert all[i] == PlaylistItem(p[i - b4]);
      }
    }
  }

  /** The whole store, one table per record kind. */
  datatype Db = Db(tracks: seq<Track>, albums: seq<Album>, videos: seq<Video>, artists: seq<Artist>,
                   playlists: seq<Playlist>, users: seq<DatabaseUser>, links: seq<ProviderLink>,
                   blacklist: seq<BlacklistEntry>)

  /** GetPlayables(userID) with every query succeeding lists only that
    * user's records. */
  lemma UserPlayablesOwned(db: Db, userId: string)
    ensures var r := CollectPlayables(
      Success(OwnedBy(db.tracks, (x: Track) => x.userId, userId)),
      Success(OwnedBy(db.albums, (x: Album) => x.userId, userId)),
      Success(OwnedBy(db.videos, (x: Video) => x.userId, userId)),
      Success(OwnedBy(db.artists, (x: Artist) => x.userId, userId)),
      Success(OwnedBy(db.playlists, (x: Playlist) => x.userId, userId)));
      r.Success? && forall x :: x in r.value ==> GetUserID(x) == userId
  {
    CollectOwned(OwnedBy(db.tracks, (x: Track) => x.userId, userId),
                 OwnedBy(db.albums, (x: Album) => x.userId, userId),
                 OwnedBy(db.videos, (x: Video) => x.userId, userId),
                 OwnedBy(db.artists, (x: Artist) => x.userId, userId),
                 OwnedBy(db.playlists, (x: Playlist) => x.userId, userId), userId);
  }

  lemma CollectOwned(t: seq<Track>, a: seq<Album>, v: seq<Video>, ar: seq<Artist>, p: seq<Playlist>, userId: string)
    requires forall x :: x in t ==> x.userId == userId
    requires forall x :: x in a ==> x.userId == userId
    requires forall x :: x in v ==> x.userId == userId
    requires forall x :: x in ar ==> x.userId == userId
    requires forall x :: x in p ==> x.userId == userId
    ensures var r := CollectPlayables(Success(t), Success(a), Success(v), Success(ar), Success(p));
      r.Success? && forall x :: x in r.value ==> GetUserID(x) == userId
  {
    var all := Tracks(t) + Albums(a) + Videos(v) + Artists(ar) + Playlists(p);
    assert CollectPlayables(Success(t), Success(a), Success(v), Success(ar), Success(p)) == Success(all);
    assert forall x :: x in all ==> x in Tracks(t) || x in Albums(a) || x in Videos(v) || x in Artists(ar) || x in Playlists(p);
  }
}

=== FILE: strings.dfy ===
/**
 * String helpers with the semantics of Go's `strings` package (and of
 * Python's `str.split`/`str.replace`, which agree on the cases used here).
 * Strings are sequences of characters; case folding is ASCII only.
 */
module Strs {
  import opened Wrappers

  /** `sub` occurs in `s` starting at position `i`. */
  predicate At(s: string, sub: string, i: nat) {
    i + |sub| <= |s| && s[i..i + |sub|] == sub
  }

  /** strings.Contains */
  predicate Contains(s: string, sub: string) {
    exists i: nat | i <= |s| :: At(s, sub, i)
  }

  /** The first occurrence of `sub` at or after position `k`. */
  function IndexFrom(s: string, sub: string, k: nat): (r: Option<nat>)
    ensures r.Some? ==> k <= r.value && At(s, sub, r.value)
    ensures r.Some? ==> forall j: nat :: k <= j < r.value ==> !At(s, sub, j)
    ensures r.None? ==> forall j: nat :: k <= j ==> !At(s, sub, j)
    decreases |s| - k
  {
    if k + |sub| > |s| then None
    else if s[k..k + |sub|] == sub then Some(k)
    else IndexFrom(s, sub, k + 1)
  }

  /** The position of the first occurrence of a character that occurs. */
  function FirstIndex(s: string, c: char): (k: nat)
    requires c in s
    ensures k < |s| && s[k] == c && c !in s[..k]
  {
    if s[0] == c then 0
    else
      assert c in s[1..] by {
        var i :| 0 <= i < |s| && s[i] == c;
        assert s[1..][i - 1] == c;
      }
      var k := FirstIndex(s[1..], c);
      assert s[..k + 1] == [s[0]] + s[1..][..k];
      k + 1
  }

  /** The first position of a character known to occur, for proofs that
    * need its properties but not its definition. */
  lemma FirstChar(a: string, c: char) returns (k: nat)
    requires c in a
    ensures k < |a| && a[k] == c && c !in a[..k]
  {
    k := FirstIndex(a, c);
  }

  /** No position before the first occurrence holds the character. */
  lemma FirstIndexBefore(s: string, c: char)
    requires c in s
    ensures forall j :: 0 <= j < FirstIndex(s, c) ==> s[j] != c
  {
    var k := FirstIndex(s, c);
    forall j | 0 <= j < k
      ensures s[j] != c
    {
      assert s[..k][j] == s[j];
    }
  }

  /** strings.Index, with "not found" as None. */
  function IndexOf(s: string, sub: string): (r: Option<nat>)
    ensures r.Some? <==> Contains(s, sub)
    ensures r.Some? ==> At(s, sub, r.value) && forall j: nat :: j < r.value ==> !At(s, sub, j)
  {
    IndexFrom(s, sub, 0)
  }

  lemma AtShift(s: string, sub: string, j: nat)
    requires |s| > 0
    requires At(s[1..], sub, j)
    ensures At(s, sub, j + 1)
  {
    assert s[j + 1..j + 1 + |sub|] == s[1..][j..j + |sub|];
  }

  lemma NotContainsTail(s: string, sub: string)
    requires |s| > 0 && !Contains(s, sub)
    ensures !Contains(s[1..], sub)
  {
    if Contains(s[1..], sub) {
      var j: nat :| At(s[1..], sub, j);
      AtShift(s, sub, j);
    }
  }

  lemma AtPrefix(s: string, sub: string, k: nat, j: nat)
    requires k <= |s| && At(s[..k], sub, j)
    ensures At(s, sub, j)
  {
    assert s[j..j + |sub|] == s[..k][j..j + |sub|];
  }

  /** strings.Join */
  function Join(parts: seq<string>, sep: string): string
    decreases |parts|
  {
    if |parts| == 0 then ""
    else if |parts| == 1 then parts[0]
    else parts[0] + sep + Join(parts[1..], sep)
  }

  /** strings.Split for a non-empty separator: the pieces between successive
    * leftmost occurrences of `sep`. */
  function Split(s: string, sep: string): (r: seq<string>)
    requires |sep| > 0
    ensures |r| >= 1
    decreases |s|
  {
    match IndexOf(s, sep)
    case None => [s]
    case Some(k) => [s[..k]] + Split(s[k + |sep|..], sep)
  }

  /** Join of a head and a non-empty tail. */
  lemma JoinCons(head: string, tail: seq<string>, sep: string)
    requires |tail| >= 1
    ensures Join([head] + tail, sep) == head + sep + Join(tail, sep)
  {
    assert ([head] + tail)[1..] == tail;
  }

  /** Joining the pieces of a split gives back the input. */
  lemma {:induction false} SplitJoin(s: string, sep: string)
    requires |sep| > 0
    ensures Join(Split(s, sep), sep) == s
    decreases |s|
  {
    match IndexOf(s, sep)
    case None =>
      assert Split(s, sep) == [s];
    case Some(k) =>
      var head, rest := s[..k], s[k + |sep|..];
      var tail := Split(rest, sep);
      assert Split(s, sep) == [head] + tail;
      SplitJoin(rest, sep);
      JoinCons(head, tail, sep);
      PutBack(s, sep, k);
  }

  /** The text around a found separator, with the separator put back. */
  lemma PutBack(s: string, sep: string, k: nat)
    requires k + |sep| <= |s| && s[k..k + |sep|] == sep
    ensures s == s[..k] + sep + s[k + |sep|..]
  {
    assert s[k..] == s[k..k + |sep|] + s[k + |sep|..];
    assert s == s[..k] + s[k..];
  }

  /** No piece of a split contains the separator. */
  lemma {:induction false} SplitPieces(s: string, sep: string)
    requires |sep| > 0
    ensures forall i :: 0 <= i < |Split(s, sep)| ==> !Contains(Split(s, sep)[i], sep)
    decreases |s|
  {
    match IndexOf(s, sep)
    case None =>
    case Some(k) =>
      var rest := s[k + |sep|..];
      SplitPieces(rest, sep);
      var head := s[..k];
      assert !Contains(head, sep) by {
        if Contains(head, sep) {
          var j: nat :| j <= |head| && At(head, sep, j);
          AtPrefix(s, sep, k, j);
        }
      }
  }

  /** The first piece of a split ends at the first separator, if any. */
  lemma SplitFirst(s: string, sep: string)
    requires |sep| > 0
    ensures |Split(s, sep)| == 1 <==> !Contains(s, sep)
    ensures !Contains(s, sep) ==> Split(s, sep)[0] == s
    ensures Contains(s, sep) ==> Split(s, sep)[0] == s[..IndexOf(s, sep).value]
    ensures Contains(s, sep) ==> Split(s, sep)[1..] == Split(s[IndexOf(s, sep).value + |sep|..], sep)
  {
  }

  /** Splitting a string that does not contain the separator yields it alone. */
  lemma SplitNoSep(s: string, sep: string)
    requires |sep| > 0 && !Contains(s, sep)
    ensures Split(s, sep) == [s]
  {
  }

  /** If the first occurrence of `sep` in `a + sep + b` is the visible one,
    * splitting peels `a` off the front. */
  lemma SplitCons(a: string, sep: string, b: string)
    requires |sep| > 0
    requires forall j: nat :: j < |a| ==> !At(a + sep + b, sep, j)
    ensures Split(a + sep + b, sep) == [a] + Split(b, sep)
  {
    var s := a + sep + b;
    assert At(s, sep, |a|) by {
      assert s[|a|..|a| + |sep|] == sep;
    }
    var k := IndexOf(s, sep);
    assert k == Some(|a|);
    assert s[..|a|] == a;
    assert s[|a| + |sep|..] == b;
  }

  /** SplitCons for a one-character separator: `a` only needs to avoid it. */
  lemma SplitConsChar(a: string, c: char, b: string)
    requires c !in a
    ensures Contains(a + [c] + b, [c])
    ensures Split(a + [c] + b, [c]) == [a] + Split(b, [c])
  {
    assert At(a + [c] + b, [c], |a|) by {
      assert (a + [c] + b)[|a|..|a| + 1] == [c];
    }
    forall j: nat | j < |a|
      ensures !At(a + [c] + b, [c], j)
    {
      assert (a + [c] + b)[j] == a[j];
    }
    SplitCons(a, [c], b);
  }

  lemma NoCharNoContains(s: string, c: char)
    requires c !in s
    ensures !Contains(s, [c])
  {
    if Contains(s, [c]) {
      ContainsCharIn(s, c);
    }
  }

  lemma ContainsCharIn(s: string, c: char)
    requires Contains(s, [c])
    ensures c in s
  {
    var j: nat :| j <= |s| && At(s, [c], j);
    assert s[j..j + 1][0] == s[j];
  }

  lemma SplitAppendNoChar(a: string, c: char, b: string)
    requires c !in a
    ensures Split(a + [c] + b, [c]) == Split(a, [c]) + Split(b, [c])
  {
    SplitConsChar(a, c, b);
    NoCharNoContains(a, c);
    SplitNoSep(a, [c]);
  }

  /** The inductive step of SplitAppendChar, peeling the first piece `a0`. */
  lemma SplitAppendFirst(a0: string, a1: string, c: char, b: string)
    requires c !in a0
    requires Split(a1 + [c] + b, [c]) == Split(a1, [c]) + Split(b, [c])
    ensures Split(a0 + [c] + (a1 + [c] + b), [c]) == Split(a0 + [c] + a1, [c]) + Split(b, [c])
  {
    var p, q := Split(a1, [c]), Split(b, [c]);
    assert Split(a0 + [c] + (a1 + [c] + b), [c]) == [a0] + (p + q) by {
      SplitConsChar(a0, c, a1 + [c] + b);
    }
    assert Split(a0 + [c] + a1, [c]) == [a0] + p by {
      SplitConsChar(a0, c, a1);
    }
    assert [a0] + (p + q) == ([a0] + p) + q;
  }
  /** Splitting at a one-character separator distributes over concatenation. */
  lemma {:induction false} SplitAppendChar(a: string, c: char, b: string)
    ensures Split(a + [c] + b, [c]) == Split(a, [c]) + Split(b, [c])
    decreases |a|
  {
    if c !in a {
      SplitAppendNoChar(a, c, b);
    } else {
      var k := FirstChar(a, c);
      var a0, a1 := a[..k], a[k + 1..];
      assert a == a0 + [c] + a1;
      assert a + [c] + b == a0 + [c] + (a1 + [c] + b);
      SplitAppendChar(a1, c, b);
      SplitAppendFirst(a0, a1, c, b);
    }
  }

  lemma NotContainsChar(s: string, c: char)
    requires !Contains(s, [c])
    ensures c !in s
  {
    if c in s {
      var j :| 0 <= j < |s| && s[j] == c;
      assert s[j..j + 1] == [c];
      assert At(s, [c], j);
    }
  }

  /** The first occurrence of a character is found after a prefix free of it. */
  lemma IndexOfChar(a: string, c: char, b: string)
    requires c !in a
    ensures IndexOf(a + [c] + b, [c]) == Some(|a|)
  {
    var s := a + [c] + b;
    assert At(s, [c], |a|) by {
      assert s[|a|..|a| + 1] == [c];
    }
    forall j: nat | j < |a|
      ensures !At(s, [c], j)
    {
      assert s[j] == a[j];
    }
  }

  /** A character that does not occur is not found. */
  lemma IndexOfNoChar(a: string, c: char)
    requires c !in a
    ensures IndexOf(a, [c]) == None
  {
    NoCharNoContains(a, c);
  }

  /** strings.HasPrefix */
  predicate HasPrefix(s: string, prefix: string) {
    prefix <= s
  }

  /** strings.TrimPrefix: removes one leading copy of `prefix`, if present. */
  function TrimPrefix(s: string, prefix: string): (r: string)
    ensures HasPrefix(s, prefix) ==> prefix + r == s
    ensures !HasPrefix(s, prefix) ==> r == s
  {
    if prefix <= s then s[|prefix|..] else s
  }

  /** strings.ReplaceAll (and Python's str.replace) for a non-empty pattern:
    * a left-to-right scan replacing non-overlapping occurrences. */
  function ReplaceAll(s: string, pat: string, rep: string): (r: string)
    requires |pat| > 0
    ensures !Contains(s, pat) ==> r == s
    decreases |s|
  {
    if |s| < |pat| then s
    else if s[..|pat|] == pat then
      assert At(s, pat, 0);
      rep + ReplaceAll(s[|pat|..], pat, rep)
    else
      var rest := ReplaceAll(s[1..], pat, rep);
      assert !Contains(s, pat) ==> rest == s[1..] by {
        if !Contains(s, pat) {
          NotContainsTail(s, pat);
        }
      }
      [s[0]] + rest
  }

  /** ReplaceAll introduces no character that neither the text nor the
    * replacement holds. */
  lemma {:induction false} ReplaceAllKeepsOut(s: string, pat: string, rep: string, c: char)
    requires |pat| > 0 && c !in s && c !in rep
    ensures c !in ReplaceAll(s, pat, rep)
    decreases |s|
  {
    if |s| >= |pat| {
      if s[..|pat|] == pat {
        ReplaceAllKeepsOut(s[|pat|..], pat, rep, c);
      } else {
        ReplaceAllKeepsOut(s[1..], pat, rep, c);
      }
    }
  }

  /** Replacing every occurrence of one character leaves none of it, unless
    * the replacement brings it back. */
  lemma {:induction false} ReplaceAllRemoves(s: string, c: char, rep: string)
    requires c !in rep
    ensures c !in ReplaceAll(s, [c], rep)
    decreases |s|
  {
    if |s| >= 1 {
      ReplaceAllRemoves(s[1..], c, rep);
      if s[..1] != [c] {
        assert s[0] != c;
      }
    }
  }

  /** Replacing a one-character pattern by a one-character text is a
    * character-wise substitution. */
  function MapChar(s: string, a: char, b: char): (r: string)
    ensures |r| == |s|
    ensures forall i :: 0 <= i < |s| ==> r[i] == (if s[i] == a then b else s[i])
  {
    seq(|s|, i requires 0 <= i < |s| => if s[i] == a then b else s[i])
  }

  lemma {:induction false} ReplaceAllChar(s: string, a: char, b: char)
    ensures ReplaceAll(s, [a], [b]) == MapChar(s, a, b)
    decreases |s|
  {
    if |s| > 0 {
      ReplaceAllChar(s[1..], a, b);
      MapCharCons(s, a, b);
      if s[0] == a {
        assert s[..1] == [a];
      } else {
        assert s[..1][0] != a;
      }
    }
  }

  lemma MapCharCons(s: string, a: char, b: char)
    requires |s| > 0
    ensures MapChar(s, a, b) == [if s[0] == a then b else s[0]] + MapChar(s[1..], a, b)
  {
  }

  function LowerChar(c: char): (r: char)
    ensures 'A' <= c <= 'Z' ==> 'a' <= r <= 'z' && r as int - c as int == 32
    ensures !('A' <= c <= 'Z') ==> r == c
  {
    if 'A' <= c <= 'Z' then (c as int + 32) as char else c
  }

  /** strings.ToLower, restricted to ASCII letters. */
  function Lower(s: string): (r: string)
    ensures |r| == |s|
    ensures forall i :: 0 <= i < |s| ==> r[i] == LowerChar(s[i])
  {
    seq(|s|, i requires 0 <= i < |s| => LowerChar(s[i]))
  }

  lemma LowerIdempotent(s: string)
    ensures Lower(Lower(s)) == Lower(s)
  {
  }

  lemma LowerConcat(a: string, b: string)
    ensures Lower(a + b) == Lower(a) + Lower(b)
  {
  }

  /** strings.EqualFold, restricted to ASCII letters. */
  predicate EqualFold(a: string, b: string) {
    Lower(a) == Lower(b)
  }

  /** unicode.IsSpace: the six ASCII spaces, U+0085 and U+00A0, and the
    * characters beyond Latin-1 with the Unicode White_Space property. */
  predicate IsSpace(c: char) {
    c == ' ' || c == '\t' || c == '\n' || c == '\r' || c == 11 as char || c == 12 as char ||
    c == 0x85 as char || c == 0xA0 as char || c == 0x1680 as char ||
    (0x2000 as char <= c <= 0x200A as char) || c == 0x2028 as char || c == 0x2029 as char ||
    c == 0x202F as char || c == 0x205F as char || c == 0x3000 as char
  }

  /** strings.TrimSpace(s) == "": every character is white space. */
  predicate IsBlank(s: string) {
    forall i :: 0 <= i < |s| ==> IsSpace(s[i])
  }

  /**
   * `a <= b` on Go strings (strings.Compare(a, b) <= 0): lexicographic order
   * by character code, which agrees with the byte order of UTF-8.
   */
  predicate LexLe(a: string, b: string)
    decreases |a|
  {
    |a| == 0 || (|b| > 0 && (a[0] < b[0] || (a[0] == b[0] && LexLe(a[1..], b[1..]))))
  }

  lemma {:induction false} LexLeRefl(a: string)
    ensures LexLe(a, a)
    decreases |a|
  {
    if |a| > 0 {
      LexLeRefl(a[1..]);
    }
  }

  lemma {:induction false} LexLeTotal(a: string, b: string)
    ensures LexLe(a, b) || LexLe(b, a)
    decreases |a|
  {
    if |a| > 0 && |b| > 0 && a[0] == b[0] {
      LexLeTotal(a[1..], b[1..]);
    }
  }

  lemma {:induction false} LexLeTrans(a: string, b: string, c: string)
    requires LexLe(a, b) && LexLe(b, c)
    ensures LexLe(a, c)
    decreases |a|
  {
    if |a| > 0 && a[0] == b[0] && b[0] == c[0] {
      LexLeTrans(a[1..], b[1..], c[1..]);
    }
  }

  lemma {:induction false} LexLeAntisym(a: string, b: string)
    requires LexLe(a, b) && LexLe(b, a)
    ensures a == b
    decreases |a|
  {
    if |a| > 0 {
      LexLeAntisym(a[1..], b[1..]);
      assert a == [a[0]] + a[1..];
      assert b == [b[0]] + b[1..];
    }
  }
}

=== FILE: versions.dfy ===
/**
 * Semantic versions as the server stores and compares them: three integer
 * components and a free-form suffix such as "-beta.1".
 */
module Versions {
  import opened Wrappers
  import opened Strs
  import opened Numbers

  datatype Version = Version(major: int, minor: int, patch: int, suffix: string)

  /** Version.String: "Major.Minor.Patch" followed by the suffix verbatim. */
  function String(v: Version): (s: string)
    ensures FormatInt(v.major) + "." <= s
    ensures |v.suffix| <= |s| && s[|s| - |v.suffix|..] == v.suffix
  {
    FormatInt(v.major) + "." + FormatInt(v.minor) + "." + FormatInt(v.patch) + v.suffix
  }

  /**
   * Version.IsAtLeast: lexicographic on the three components, then the
   * suffixes in byte order.
   */
  predicate IsAtLeast(v: Version, other: Version) {
    if v.major != other.major then v.major > other.major
    else if v.minor != other.minor then v.minor > other.minor
    else if v.patch != other.patch then v.patch > other.patch
    else LexLe(other.suffix, v.suffix)
  }

  lemma IsAtLeastReflexive(v: Version)
    ensures IsAtLeast(v, v)
  {
    LexLeRefl(v.suffix);
  }

  lemma IsAtLeastTotal(a: Version, b: Version)
    ensures IsAtLeast(a, b) || IsAtLeast(b, a)
  {
    LexLeTotal(a.suffix, b.suffix);
  }

  lemma IsAtLeastAntisymmetric(a: Version, b: Version)
    requires IsAtLeast(a, b) && IsAtLeast(b, a)
    ensures a == b
  {
    if a.major == b.major && a.minor == b.minor && a.patch == b.patch {
      LexLeAntisym(a.suffix, b.suffix);
    }
  }

  lemma IsAtLeastTransitive(a: Version, b: Version, c: Version)
    requires IsAtLeast(a, b) && IsAtLeast(b, c)
    ensures IsAtLeast(a, c)
  {
    if a.major == b.major == c.major && a.minor == b.minor == c.minor && a.patch == b.patch == c.patch {
      LexLeTrans(c.suffix, b.suffix, a.suffix);
    }
  }

  /**
   * The two halves of strings.SplitN(text, "-", 2) as ParseVersion uses
   * them: the numeric part before the first "-", and the suffix from that
   * "-" on ("" when there is none).
   */
  function SplitSuffix(text: string): (r: (string, string))
    ensures r.0 + r.1 == text
    ensures '-' !in r.0
    ensures r.1 == "" || r.1[0] == '-'
  {
    match IndexOf(text, "-")
    case None =>
      NotContainsChar(text, '-');
      (text, "")
    case Some(k) =>
      assert text[k..k + 1] == "-";
      assert '-' !in text[..k] by {
        if '-' in text[..k] {
          var j :| 0 <= j < k && text[j] == '-';
          assert At(text, "-", j) by {
            assert text[j..j + 1] == "-";
          }
        }
      }
      (text[..k], text[k..])
  }

  /** The dot-separated components of the numeric part. */
  function Components(text: string): (parts: seq<string>)
    ensures |parts| >= 1
  {
    Split(SplitSuffix(text).0, ".")
  }

  /** types.ParseVersion */
  function ParseVersion(text: string): (r: Result<Version, NumError>)
    ensures r.Success? <==> forall i :: 0 <= i < |Components(text)| && i < 3 ==> Atoi(Components(text)[i]).Success?
    ensures r.Success? ==> r.value.suffix == SplitSuffix(text).1
    ensures r.Success? ==> InInt64(r.value.major) && InInt64(r.value.minor) && InInt64(r.value.patch)
  {
    var split := SplitSuffix(text);
    var parts := Components(text);
    var major := Atoi(parts[0]);
    var minor := if |parts| > 1 then Atoi(parts[1]) else Success(0);
    var patch := if |parts| > 2 then Atoi(parts[2]) else Success(0);
    if major.Failure? then
      assert !Atoi(parts[0]).Success?;
      Failure(major.error)
    else if minor.Failure? then Failure(minor.error)
    else if patch.Failure? then Failure(patch.error)
    else Success(Version(major.value, minor.value, patch.value, split.1))
  }

  predicate Printable(v: Version) {
    0 <= v.major <= MaxInt64 && 0 <= v.minor <= MaxInt64 && 0 <= v.patch <= MaxInt64
    && (v.suffix == "" || v.suffix[0] == '-')
  }

  lemma NoDashInDigits(d: string)
    requires AllDigits(d)
    ensures '-' !in d && '.' !in d
  {
  }

  /** Splitting three dot-separated digit strings at "." gives them back. */
  lemma SplitThree(a: string, b: string, c: string)
    requires AllDigits(a) && AllDigits(b) && AllDigits(c)
    ensures Split(a + "." + b + "." + c, ".") == [a, b, c]
  {
    NoDashInDigits(a);
    NoDashInDigits(b);
    NoDashInDigits(c);
    assert a + "." + b + "." + c == a + "." + (b + "." + c);
    SplitConsChar(a, '.', b + "." + c);
    SplitConsChar(b, '.', c);
    SplitNoSep(c, ".") by {
      NoCharNoContains(c, '.');
    }
  }

  /** ParseVersion inverts String for non-negative components and a suffix
    * that is empty or starts with "-". */
  lemma ParseString(v: Version)
    requires Printable(v)
    ensures ParseVersion(String(v)) == Success(v)
  {
    var a, b, c := NatDigits(v.major), NatDigits(v.minor), NatDigits(v.patch);
    var nums := a + "." + b + "." + c;
    assert String(v) == nums + v.suffix;
    NumbersNoDash(a, b, c);
    SuffixOfPrinted(nums, v.suffix);
    SplitThree(a, b, c);
    ParseParts(String(v), a, b, c);
    NatDigitsValue(v.major);
    NatDigitsValue(v.minor);
    NatDigitsValue(v.patch);
    AtoiDigits(a);
    AtoiDigits(b);
    AtoiDigits(c);
  }

  lemma NumbersNoDash(a: string, b: string, c: string)
    requires AllDigits(a) && AllDigits(b) && AllDigits(c)
    ensures '-' !in a + "." + b + "." + c
  {
    NoDashInDigits(a);
    NoDashInDigits(b);
    NoDashInDigits(c);
  }

  /** A dash-free number part followed by an empty or dash-led suffix
    * splits back into the two. */
  lemma SuffixOfPrinted(nums: string, suffix: string)
    requires '-' !in nums && (suffix == "" || suffix[0] == '-')
    ensures SplitSuffix(nums + suffix) == (nums, suffix)
  {
    if suffix == "" {
      IndexOfNoChar(nums, '-');
      assert nums + suffix == nums;
    } else {
      IndexOfChar(nums, '-', suffix[1..]);
      assert nums + [suffix[0]] + suffix[1..] == nums + suffix;
      assert (nums + suffix)[|nums|..] == suffix;
    }
  }

  /** ParseVersion reads the first three components and keeps the suffix. */
  lemma ParseParts(text: string, a: string, b: string, c: string)
    requires |Components(text)| >= 3 && Components(text)[..3] == [a, b, c]
    ensures ParseVersion(text) ==
      if Atoi(a).Failure? then Failure(Atoi(a).error)
      else if Atoi(b).Failure? then Failure(Atoi(b).error)
      else if Atoi(c).Failure? then Failure(Atoi(c).error)
      else Success(Version(Atoi(a).value, Atoi(b).value, Atoi(c).value, SplitSuffix(text).1))
  {
    var parts := Components(text);
    assert parts[0] == a && parts[1] == b && parts[2] == c by {
      assert parts[..3][0] == parts[0] && parts[..3][1] == parts[1] && parts[..3][2] == parts[2];
    }
  }

  /** Missing minor and patch components default to 0. */
  lemma ParseMajorOnly(n: nat)
    requires n <= MaxInt64
    ensures ParseVersion(NatDigits(n)) == Success(Version(n, 0, 0, ""))
  {
    var a := NatDigits(n);
    NoDashInDigits(a);
    IndexOfNoChar(a, '-');
    SplitNoSep(a, ".") by {
      NoCharNoContains(a, '.');
    }
    NatDigitsValue(n);
    AtoiDigits(a);
  }

  /** Components after the third are ignored, whatever they hold. */
  lemma ParseIgnoresExtra(a: string, b: string, c: string, rest: string)
    requires AllDigits(a) && AllDigits(b) && AllDigits(c) && '-' !in rest
    ensures ParseVersion(a + "." + b + "." + c + "." + rest) == ParseVersion(a + "." + b + "." + c)
  {
    var three := a + "." + b + "." + c;
    var long := three + "." + rest;
    NumbersNoDash(a, b, c);
    assert '-' !in long;
    PlainComponents(long);
    PlainComponents(three);
    SplitThree(a, b, c);
    ExtraComponents(three, rest, [a, b, c]);
    ParseParts(long, a, b, c);
    ParseParts(three, a, b, c);
  }

  /** Without a "-" there is no suffix and the components are the whole
    * text split at ".". */
  lemma PlainComponents(text: string)
    requires '-' !in text
    ensures SplitSuffix(text).1 == "" && Components(text) == Split(text, ".")
  {
    SuffixOfPrinted(text, "");
    assert text + "" == text;
  }

  /** Splitting at "." after more text appends the further pieces. */
  lemma ExtraComponents(three: string, rest: string, parts: seq<string>)
    requires Split(three, ".") == parts && |parts| == 3
    ensures |Split(three + "." + rest, ".")| >= 3 && Split(three + "." + rest, ".")[..3] == parts
  {
    SplitAppendChar(three, '.', rest);
    assert three + "." + rest == three + ['.'] + rest;
  }
}

=== FILE: wrappers.dfy ===
/** Optional values and error-carrying results shared by every module. */
module Wrappers {

  datatype Option<+T> = None | Some(value: T)
  {
    function UnwrapOr(default: T): (r: T)
      ensures this.Some? ==> r == value
      ensures this.None? ==> r == default
    {
      match this
      case Some(v) => v
      case None => default
    }
  }

  datatype Result<+R, +E> = Success(value: R) | Failure(error: E)
  {
    predicate IsFailure() {
      Failure?
    }
  }
}

=== FILE: youtube.dfy ===
/**
 * The YouTube source: how the entries the search script prints become
 * tracks, albums, videos, artists and playlists, the commands the source
 * runs for content and lyrics, and the small text rules it applies to what
 * the script reports (years, track numbers, view counts).
 */
module YouTube {
  import opened Wrappers
  import opened Strs
  import opened CharFilter
  import opened Numbers
  import Media
  import Sources
  import LinkedSources
  import Ids

  /** Which result kinds are wanted and how videos are presented. */
  datatype Settings = Settings(
    includeVideoResults: bool, videoAudioOnly: bool,
    inheritListenCounts: bool, artistListenCountsByTrack: bool)

  /** One entry of the search script's output, with the fields the source
    * reads. `album` and `year` are null for some entries. */
  datatype SearchEntry = SearchEntry(
    resultType: string, title: string, artist: string,
    artists: seq<map<string, string>>, album: Option<map<string, string>>,
    year: Option<int>, durationSeconds: int,
    videoId: string, browseId: string, thumbnailURLs: seq<string>)

  /** Why an entry could not be turned into a record, or a record not
    * completed: a kind the source does not offer, a failed image download,
    * a field whose shape the code asserts and that is missing (a panic in
    * the source), a failed script run, a date that is not RFC 3339, or a
    * count that is not an integer. */
  datatype ParseError =
    | Unsupported(mediaType: string)
    | DownloadFailed(message: string)
    | Malformed(field: string)
    | CommandFailed(message: string)
    | BadDate(message: string)
    | BadNumber(text: string)

  /** The image downloader: an opaque handle to the downloaded bytes, or an
    * error text. */
  type Fetch = string -> Result<nat, string>

  const SourceID: string := "youtube"

  const SongURL: string := "https://music.youtube.com/watch?v="
  const AlbumURL: string := "https://music.youtube.com/browse/"
  const VideoURL: string := "https://www.youtube.com/watch?v="
  const ArtistURL: string := "https://music.youtube.com/channel/"
  const PlaylistURL: string := "https://music.youtube.com/playlist?list="

  /** The linked source recorded as a record's metadata source. */
  function MetadataSource(prefix: string, id: string): string {
    SourceID + LinkedSources.Separator + prefix + id
  }

  /** A missing key of a JSON object of strings reads as "". */
  function Get(m: map<string, string>, key: string): string {
    if key in m then m[key] else ""
  }

  /** The display names of an entry's artists, in order. */
  function Names(artists: seq<map<string, string>>): (r: seq<string>)
    ensures |r| == |artists|
    ensures forall i :: 0 <= i < |artists| ==> r[i] == Get(artists[i], "name")
  {
    seq(|artists|, i requires 0 <= i < |artists| => Get(artists[i], "name"))
  }

  /** A missing year is ""; a present one its decimal form. */
  function YearText(year: Option<int>): (r: string)
    ensures year.None? ==> r == ""
    ensures year.Some? ==> |r| > 0
  {
    if year.None? then "" else FormatInt(year.value)
  }

  /** The release date a present year becomes reads back as the year. */
  lemma YearReadsBack(year: int)
    requires InInt64(year)
    ensures Atoi(YearText(Some(year))) == Success(year)
  {
    AtoiFormatInt(year);
  }

  /** The last (largest) thumbnail, downloaded. */
  function CoverArt(urls: seq<string>, fetch: Fetch): (r: Result<Media.Meta, ParseError>)
    ensures |urls| == 0 ==> r == Failure(Malformed("thumbnails"))
    ensures r.Success? ==> exists tag :: fetch(urls[|urls| - 1]) == Success(tag) && r.value == Media.MetaOpaque(tag)
    ensures |urls| > 0 && fetch(urls[|urls| - 1]).Failure? ==> r == Failure(DownloadFailed(fetch(urls[|urls| - 1]).error))
  {
    if |urls| == 0 then Failure(Malformed("thumbnails"))
    else
      match fetch(urls[|urls| - 1])
      case Failure(e) => Failure(DownloadFailed(e))
      case Success(tag) => Success(Media.MetaOpaque(tag))
  }

  function NewTrack(title: string, duration: int, releaseDate: string, meta: Media.MetaMap, source: string): Media.Track {
    Media.Track("", "", "", title, [], [], "", 0, duration, "", releaseDate, map[], 0, 0, 0,
                [], meta, map[], [], "", source, map[])
  }

  function NewVideo(title: string, duration: int, releaseDate: string, meta: Media.MetaMap, source: string): Media.Video {
    Media.Video("", "", title, [], duration, "", releaseDate, map[], 0, 0, 0,
                [], meta, map[], [], "", source, map[])
  }

  function NewAlbum(title: string, releaseDate: string, meta: Media.MetaMap, source: string): Media.Album {
    Media.Album("", "", "", title, [], [], "", releaseDate, 0, 0, 0, [], meta, map[], [], source)
  }

  function NewArtist(name: string, meta: Media.MetaMap, source: string): Media.Artist {
    Media.Artist("", "", name, [], [], "", "", 0, 0, 0, [], meta, map[], [], source)
  }

  function NewPlaylist(title: string, meta: Media.MetaMap, source: string): Media.Playlist {
    Media.Playlist("", "", title, [], 0, 0, "", "", 0, [], meta, map[], source)
  }

  /** parseSongResult */
  function ParseSong(v: SearchEntry, fetch: Fetch): Result<Media.Playable, ParseError> {
    match CoverArt(v.thumbnailURLs, fetch)
    case Failure(e) => Failure(e)
    case Success(cover) =>
      if v.album.None? then Failure(Malformed("album"))
      else
        var meta := map[
          "display_artists" := Media.MetaList(Names(v.artists)),
          "display_album" := Media.MetaText(Get(v.album.value, "name")),
          "display_cover_art" := cover,
          "yt_id" := Media.MetaText(v.videoId),
          "yt_artists" := Media.MetaDicts(v.artists),
          "yt_album" := Media.MetaDict(v.album.value)];
        Success(Media.TrackItem(NewTrack(v.title, v.durationSeconds, YearText(v.year), meta, MetadataSource(SongURL, v.videoId))))
  }

  /** parseAlbumResult */
  function ParseAlbum(v: SearchEntry, fetch: Fetch): Result<Media.Playable, ParseError> {
    match CoverArt(v.thumbnailURLs, fetch)
    case Failure(e) => Failure(e)
    case Success(cover) =>
      var meta := map[
        "display_artists" := Media.MetaList(Names(v.artists)),
        "display_cover_art" := cover,
        "yt_id" := Media.MetaText(v.browseId),
        "yt_artists" := Media.MetaDicts(v.artists)];
      Success(Media.AlbumItem(NewAlbum(v.title, YearText(v.year), meta, MetadataSource(AlbumURL, v.browseId))))
  }

  /** parseVideoResult: refused unless video results are included; with
    * audio-only videos it is a track flagged as a video, whose album is ""
    * when the entry has none. */
  function ParseVideo(settings: Settings, v: SearchEntry, fetch: Fetch): Result<Media.Playable, ParseError> {
    if !settings.includeVideoResults then Failure(Unsupported(v.resultType))
    else
      match CoverArt(v.thumbnailURLs, fetch)
      case Failure(e) => Failure(e)
      case Success(cover) =>
        if settings.videoAudioOnly then
          var album := if v.album.None? then "" else Get(v.album.value, "name");
          var meta := map[
            "display_artists" := Media.MetaList(Names(v.artists)),
            "display_album" := Media.MetaText(album),
            "display_cover_art" := cover,
            "is_video" := Media.MetaBool(true),
            "yt_id" := Media.MetaText(v.videoId),
            "yt_artists" := Media.MetaDicts(v.artists),
            "yt_album" := Media.MetaText(album)];
          Success(Media.TrackItem(NewTrack(v.title, v.durationSeconds, YearText(v.year), meta, MetadataSource(SongURL, v.videoId))))
        else
          var meta := map[
            "display_artists" := Media.MetaList(Names(v.artists)),
            "display_thumbnail" := cover,
            "yt_id" := Media.MetaText(v.videoId),
            "yt_artists" := Media.MetaDicts(v.artists)];
          Success(Media.VideoItem(NewVideo(v.title, v.durationSeconds, YearText(v.year), meta, MetadataSource(VideoURL, v.videoId))))
  }

  /** parseArtistResult */
  function ParseArtist(v: SearchEntry, fetch: Fetch): Result<Media.Playable, ParseError> {
    match CoverArt(v.thumbnailURLs, fetch)
    case Failure(e) => Failure(e)
    case Success(cover) =>
      var meta := map["display_cover_art" := cover, "yt_id" := Media.MetaText(v.browseId)];
      Success(Media.ArtistItem(NewArtist(v.artist, meta, MetadataSource(ArtistURL, v.browseId))))
  }

  /** parsePlaylistResult */
  function ParsePlaylist(v: SearchEntry, fetch: Fetch): Result<Media.Playable, ParseError> {
    match CoverArt(v.thumbnailURLs, fetch)
    case Failure(e) => Failure(e)
    case Success(cover) =>
      var meta := map[
        "display_artists" := Media.MetaList(Names(v.artists)),
        "display_cover_art" := cover,
        "yt_id" := Media.MetaText(v.browseId),
        "yt_artists" := Media.MetaDicts(v.artists)];
      Success(Media.PlaylistItem(NewPlaylist(v.title, meta, MetadataSource(PlaylistURL, v.browseId))))
  }

  /** The result kinds the source understands. */
  predicate KnownType(t: string) {
    t in ["song", "album", "video", "artist", "playlist"]
  }

  /** The id an entry of a kind is known by on YouTube. */
  function EntryID(v: SearchEntry): string {
    if v.resultType in ["song", "video"] then v.videoId else v.browseId
  }

  /** The URL prefix of the metadata source an entry becomes. */
  function URLPrefix(settings: Settings, t: string): string {
    if t == "song" then SongURL
    else if t == "album" then AlbumURL
    else if t == "video" then (if settings.videoAudioOnly then SongURL else VideoURL)
    else if t == "artist" then ArtistURL
    else PlaylistURL
  }

  /** The id stored under "yt_id", if it is text. */
  function YtID(p: Media.Playable): Option<string> {
    var meta := Media.GetAdditionalMeta(p);
    if "yt_id" in meta && meta["yt_id"].MetaText? then Some(meta["yt_id"].text) else None
  }

  function MetadataSourceOf(p: Media.Playable): string {
    match p
    case TrackItem(t) => t.metadataSource
    case AlbumItem(a) => a.metadataSource
    case VideoItem(v) => v.metadataSource
    case ArtistItem(a) => a.metadataSource
    case PlaylistItem(l) => l.metadataSource
    case UserItem(_) => ""
  }

  /** The kind of record an entry of a result type becomes. */
  predicate KindFits(settings: Settings, t: string, p: Media.Playable) {
    if t == "song" then p.TrackItem?
    else if t == "album" then p.AlbumItem?
    else if t == "video" then
      (if settings.videoAudioOnly then p.TrackItem? && "is_video" in p.track.additionalMeta &&
         p.track.additionalMeta["is_video"] == Media.MetaBool(true)
       else p.VideoItem?)
    else if t == "artist" then p.ArtistItem?
    else t == "playlist" && p.PlaylistItem?
  }

  /** parseSearchResult: dispatch on the result type; an unknown type is
    * an unsupported media type. */
  function ParseSearchResult(settings: Settings, v: SearchEntry, fetch: Fetch): Result<Media.Playable, ParseError> {
    var t := v.resultType;
    if t == "song" then ParseSong(v, fetch)
    else if t == "album" then ParseAlbum(v, fetch)
    else if t == "video" then ParseVideo(settings, v, fetch)
    else if t == "artist" then ParseArtist(v, fetch)
    else if t == "playlist" then ParsePlaylist(v, fetch)
    else Failure(Unsupported(t))
  }

  /** Exactly the unknown result types, and videos while video results are
    * off, are refused as unsupported; every known kind fails only when its
    * image cannot be had or a song has no album. */
  lemma ParseRefusals(settings: Settings, v: SearchEntry, fetch: Fetch)
    ensures var r := ParseSearchResult(settings, v, fetch);
      (r.Failure? && r.error.Unsupported?) <==>
        (!KnownType(v.resultType) || (v.resultType == "video" && !settings.includeVideoResults))
    ensures var r := ParseSearchResult(settings, v, fetch);
      r.Failure? && r.error.Unsupported? ==> r.error.mediaType == v.resultType
    ensures KnownType(v.resultType) && !(v.resultType == "video" && !settings.includeVideoResults) ==>
      (ParseSearchResult(settings, v, fetch).Success? <==>
        CoverArt(v.thumbnailURLs, fetch).Success? && (v.resultType == "song" ==> v.album.Some?))
  {
  }

  /** A parsed entry becomes a record of the matching kind that carries the
    * entry's id under "yt_id" and links back to the entry's page. */
  lemma ParsedRecord(settings: Settings, v: SearchEntry, fetch: Fetch)
    requires ParseSearchResult(settings, v, fetch).Success?
    ensures var p := ParseSearchResult(settings, v, fetch).value;
      KindFits(settings, v.resultType, p) &&
      YtID(p) == Some(EntryID(v)) &&
      MetadataSourceOf(p) == MetadataSource(URLPrefix(settings, v.resultType), EntryID(v))
  {
  }

  /** Every record a search produces names the YouTube source as the source
    * of its metadata. */
  lemma ParsedNamesYouTube(settings: Settings, v: SearchEntry, fetch: Fetch)
    requires ParseSearchResult(settings, v, fetch).Success?
    ensures LinkedSources.ID(MetadataSourceOf(ParseSearchResult(settings, v, fetch).value)) == Sources.GetID(Sources.YouTube)
  {
    ParsedRecord(settings, v, fetch);
    var url := URLPrefix(settings, v.resultType) + EntryID(v);
    assert MetadataSource(URLPrefix(settings, v.resultType), EntryID(v)) == SourceID + LinkedSources.Separator + url;
    SourceIDIsClean();
    LinkedSources.NoEarlierSeparator(SourceID, url);
    SplitCons(SourceID, LinkedSources.Separator, url);
  }

  lemma SourceIDIsClean()
    ensures LinkedSources.CleanID(SourceID)
  {
    forall j: nat
      ensures !At(SourceID, LinkedSources.Separator, j)
    {
      if j + 2 <= |SourceID| {
        assert SourceID[j..j + 2][0] == SourceID[j];
      }
    }
  }

  /** Parsing a list in order until the first entry that fails: the
    * records parsed before it, and its error if there is one. */
  function ParseUntilFailure(parse: SearchEntry -> Result<Media.Playable, ParseError>, output: seq<SearchEntry>): (r: (seq<Media.Playable>, Option<ParseError>))
    ensures |r.0| <= |output|
    ensures forall i :: 0 <= i < |r.0| ==> parse(output[i]) == Success(r.0[i])
    ensures r.1.None? ==> |r.0| == |output|
    ensures r.1.Some? ==> |r.0| < |output| && parse(output[|r.0|]) == Failure(r.1.value)
    decreases |output|
  {
    if |output| == 0 then ([], None)
    else
      match parse(output[0])
      case Failure(e) => ([], Some(e))
      case Success(p) =>
        var rest := ParseUntilFailure(parse, output[1..]);
        ([p] + rest.0, rest.1)
  }

  /** Search: the entries are parsed in order and the first that fails
    * aborts the search; the records parsed before it are returned with the
    * error. */
  function Search(settings: Settings, output: seq<SearchEntry>, fetch: Fetch): (r: (seq<Media.Playable>, Option<ParseError>))
    ensures |r.0| <= |output|
    ensures forall i :: 0 <= i < |r.0| ==> ParseSearchResult(settings, output[i], fetch) == Success(r.0[i])
    ensures r.1.None? ==> |r.0| == |output|
    ensures r.1.Some? ==> |r.0| < |output| && ParseSearchResult(settings, output[|r.0|], fetch) == Failure(r.1.value)
  {
    ParseUntilFailure(v => ParseSearchResult(settings, v, fetch), output)
  }

  /** The track number is the last "-"-separated piece of the lyrics id when
    * that piece is an integer; otherwise it is left as it was. */
  function TrackNumber(lyricsId: Option<string>, current: int): (r: int)
    ensures lyricsId.None? ==> r == current
  {
    if lyricsId.None? then current
    else
      var pieces := Split(lyricsId.value, "-");
      match Atoi(pieces[|pieces| - 1])
      case Success(n) => n
      case Failure(_) => current
  }

  /** A lyrics id ending in "-" and an integer yields that integer. */
  lemma TrackNumberFromSuffix(prefix: string, last: string, current: int)
    requires '-' !in last
    ensures TrackNumber(Some(prefix + "-" + last), current) ==
      (if Atoi(last).Success? then Atoi(last).value else current)
  {
    assert "-" == ['-'];
    SplitAppendChar(prefix, '-', last);
    NoCharNoContains(last, '-');
    SplitNoSep(last, "-");
  }

  /** A lyrics id without "-" is read as a whole. */
  lemma TrackNumberWhole(lyricsId: string, current: int)
    requires '-' !in lyricsId
    ensures TrackNumber(Some(lyricsId), current) ==
      (if Atoi(lyricsId).Success? then Atoi(lyricsId).value else current)
  {
    assert "-" == ['-'];
    NoCharNoContains(lyricsId, '-');
    SplitNoSep(lyricsId, "-");
  }

  /** An artist's view count text with the thousands separators and the
    * " views"/" view" suffix removed. */
  function ArtistViewText(s: string): string {
    ReplaceAll(ReplaceAll(ReplaceAll(s, ",", ""), " views", ""), " view", "")
  }

  /** One step of removing a one-character pattern. */
  lemma ReplaceCharStep(s: string, c: char)
    requires |s| > 0
    ensures ReplaceAll(s, [c], "") == (if s[0] == c then "" else [s[0]]) + ReplaceAll(s[1..], [c], "")
  {
    assert s[..1] == [s[0]];
  }

  /** Replacing a one-character pattern by nothing deletes that character. */
  lemma {:induction false} WithoutIsReplaceAll(s: string, c: char)
    ensures ReplaceAll(s, [c], "") == Without(s, c)
    decreases |s|
  {
    if |s| > 0 {
      ReplaceCharStep(s, c);
      WithoutIsReplaceAll(s[1..], c);
    }
  }

  /** A suffix starting with a space is removed from a text without
    * spaces, and nothing else is. */
  lemma {:induction false} DropSuffix(s: string, suffix: string)
    requires |suffix| > 0 && suffix[0] == ' ' && ' ' !in s
    ensures ReplaceAll(s + suffix, suffix, "") == s
    decreases |s|
  {
    if |s| == 0 {
      assert s + suffix == suffix;
      assert ReplaceAll(suffix[|suffix|..], suffix, "") == "";
    } else {
      DropSuffix(s[1..], suffix);
      assert s[0] in s;
      KeepFirst(s, suffix);
    }
  }

  /** A text whose first character is not a space keeps that character in
    * front of the rest's replacement. */
  lemma KeepFirst(s: string, suffix: string)
    requires |suffix| > 0 && suffix[0] == ' ' && |s| > 0 && s[0] != ' '
    ensures ReplaceAll(s + suffix, suffix, "") == [s[0]] + ReplaceAll(s[1..] + suffix, suffix, "")
  {
    assert (s + suffix)[..|suffix|] != suffix by {
      assert (s + suffix)[0] == s[0];
    }
    assert (s + suffix)[1..] == s[1..] + suffix;
  }

  lemma NoSpaceNoPattern(s: string, pat: string)
    requires |pat| > 0 && pat[0] == ' ' && ' ' !in s
    ensures ReplaceAll(s, pat, "") == s
  {
    forall j: nat
      ensures !At(s, pat, j)
    {
      if j + |pat| <= |s| {
        assert s[j..j + |pat|][0] == s[j];
      }
    }
  }

  lemma DigitsHaveNoSeparators(d: string)
    requires AllDigits(d)
    ensures ',' !in d && ' ' !in d
  {
  }

  lemma DropTrailingSeparator(a: string, c: char)
    requires c !in a
    ensures Without(a + [c], c) == a
  {
    WithoutConcat(a, [c], c);
    WithoutAbsent(a, c);
    assert Without([c], c) == "" by {
      assert Without([c][1..], c) == "";
    }
  }

  lemma DropAbsentPair(b: string, suffix: string, c: char)
    requires c !in b && c !in suffix
    ensures Without(b + suffix, c) == b + suffix
  {
    WithoutConcat(b, suffix, c);
    WithoutAbsent(b, c);
    WithoutAbsent(suffix, c);
  }

  /** A separator character between two groups is dropped. */
  lemma DropSeparator(a: string, b: string, suffix: string, c: char)
    requires c !in a && c !in b && c !in suffix
    ensures ReplaceAll(a + [c] + b + suffix, [c], "") == (a + b) + suffix
  {
    var left := a + [c];
    var right := b + suffix;
    assert a + [c] + b + suffix == left + right;
    DropTrailingSeparator(a, c);
    DropAbsentPair(b, suffix, c);
    WithoutConcat(left, right, c);
    WithoutIsReplaceAll(left + right, c);
  }

  /** A count written with a thousands separator and " views" reads back as
    * the digits without the separator. */
  lemma ArtistViewsGrouped(a: string, b: string)
    requires AllDigits(a) && AllDigits(b)
    ensures ArtistViewText(a + "," + b + " views") == a + b
  {
    DigitsHaveNoSeparators(a);
    DigitsHaveNoSeparators(b);
    assert "," == [','];
    DropSeparator(a, b, " views", ',');
    assert ' ' !in a + b;
    DropSuffix(a + b, " views");
    NoSpaceNoPattern(a + b, " view");
  }

  /** The command that runs the YouTube script with the given arguments:
    * the configured interpreter command split on spaces, then the script. */
  function ScriptCommand(pythonCommand: string, location: string, args: seq<string>): seq<string> {
    Split(pythonCommand, " ") + [location] + args
  }

  /** A script command is never empty, so ExecCommand never answers "no
    * command provided" for it: the runner gets the first word of the
    * interpreter command as the program, and the remaining words, the
    * script and its arguments as the program's arguments. */
  lemma ScriptCommandRuns(pythonCommand: string, location: string, args: seq<string>,
                          run: (string, seq<string>) -> Result<string, string>)
    ensures var words := Split(pythonCommand, " ");
      Ids.ExecCommand(ScriptCommand(pythonCommand, location, args), run) == run(words[0], words[1..] + [location] + args)
  {
    var words := Split(pythonCommand, " ");
    var command := ScriptCommand(pythonCommand, location, args);
    assert command[0] == words[0];
    assert command[1..] == words[1..] + [location] + args;
  }

  /** What a content or lyrics request does: run the script, refuse, or
    * fail the "yt_id" assertion (a panic in the source). */
  datatype Request = Run(command: seq<string>) | Refused(error: Sources.SourceError) | MissingID

  /** GetContent: tracks are fetched as audio, videos as video, every other
    * kind is refused. */
  function Content(pythonCommand: string, location: string, p: Media.Playable): (r: Request)
    ensures !(p.TrackItem? || p.VideoItem?) ==> r == Refused(Sources.UnsupportedMediaType(Media.GetType(p)))
    ensures (p.TrackItem? || p.VideoItem?) && YtID(p).None? ==> r == MissingID
    ensures (p.TrackItem? || p.VideoItem?) && YtID(p).Some? ==>
      r == Run(ScriptCommand(pythonCommand, location,
        ["content", if p.TrackItem? then "type=audio" else "type=video", "id=" + YtID(p).value]))
  {
    var t := Media.GetType(p);
    Sources.PlayableSupport(Sources.YouTube, p);
    if !Sources.SupportsMediaType(Sources.MediaTypes(Sources.YouTube), t) then Refused(Sources.UnsupportedMediaType(t))
    else if t == "track" || t == "video" then
      if YtID(p).None? then MissingID
      else Run(ScriptCommand(pythonCommand, location, ["content", if t == "track" then "type=audio" else "type=video", "id=" + YtID(p).value]))
    else Refused(Sources.UnsupportedMediaType(t))
  }

  /** Videos, and tracks flagged as videos, have subtitles rather than
    * lyrics. */
  predicate VideoLike(p: Media.Playable) {
    var meta := Media.GetAdditionalMeta(p);
    p.VideoItem? || ("is_video" in meta && meta["is_video"] == Media.MetaBool(true))
  }

  /** GetLyrics: every kind but users is accepted; the subtitles action is
    * used for video-like records, the lyrics action otherwise. */
  function Lyrics(pythonCommand: string, location: string, p: Media.Playable): (r: Request)
    ensures r.Refused? <==> p.UserItem?
    ensures r.Refused? ==> r.error == Sources.UnsupportedMediaType("user")
    ensures !p.UserItem? && YtID(p).None? ==> r == MissingID
    ensures !p.UserItem? && YtID(p).Some? ==>
      r == Run(ScriptCommand(pythonCommand, location, [if VideoLike(p) then "subtitles" else "lyrics", "id=" + YtID(p).value]))
  {
    var t := Media.GetType(p);
    Sources.PlayableSupport(Sources.YouTube, p);
    if !Sources.SupportsMediaType(Sources.MediaTypes(Sources.YouTube), t) then Refused(Sources.UnsupportedMediaType(t))
    else if YtID(p).None? then MissingID
    else Run(ScriptCommand(pythonCommand, location, [if t == "video" || VideoLike(p) then "subtitles" else "lyrics", "id=" + YtID(p).value]))
  }

  /** An audio-only video found by search asks for subtitles, a song for
    * lyrics. */
  lemma SearchedLyricsAction(settings: Settings, v: SearchEntry, fetch: Fetch, pythonCommand: string, location: string)
    requires ParseSearchResult(settings, v, fetch).Success?
    requires v.resultType in ["song", "video"]
    ensures var r := Lyrics(pythonCommand, location, ParseSearchResult(settings, v, fetch).value);
      r.Run? && r.command[|r.command| - 2] == (if v.resultType == "video" then "subtitles" else "lyrics") &&
      r.command[|r.command| - 1] == "id=" + v.videoId
  {
    ParsedRecord(settings, v, fetch);
    var p := ParseSearchResult(settings, v, fetch).value;
    if v.resultType == "song" {
      assert p.TrackItem? && !("is_video" in p.track.additionalMeta);
    }
  }
}

=== FILE: youtube_legacy.dfy ===
/**
 * The earlier YouTube source, kept beside the current one. It parses search
 * entries the same way, asks the same script for content, lyrics and
 * details, and differs in two places: its search skips the entries it does
 * not offer instead of stopping at them, and its metadata completion hands
 * back the record it was given rather than the completed copy.
 */
module LegacyYouTube {
  import opened Wrappers
  import Media
  import opened YouTube
  import opened YouTubeMetadata

  /** An entry whose parse is refused as unsupported. */
  predicate Refused(parse: SearchEntry -> Result<Media.Playable, ParseError>, v: SearchEntry) {
    parse(v).Failure? && parse(v).error.Unsupported?
  }

  /** Parsing a list in order, passing over refused entries, until the
    * first entry that fails in another way. */
  function SkipRefused(parse: SearchEntry -> Result<Media.Playable, ParseError>, output: seq<SearchEntry>): (r: (seq<Media.Playable>, Option<ParseError>))
    ensures r.1.Some? ==> !r.1.value.Unsupported?
    decreases |output|
  {
    if |output| == 0 then ([], None)
    else
      match parse(output[0])
      case Failure(e) =>
        if e.Unsupported? then SkipRefused(parse, output[1..]) else ([], Some(e))
      case Success(p) =>
        var rest := SkipRefused(parse, output[1..]);
        ([p] + rest.0, rest.1)
  }

  /** The entries that are not refused, in order. */
  function Kept(parse: SearchEntry -> Result<Media.Playable, ParseError>, output: seq<SearchEntry>): (r: seq<SearchEntry>)
    ensures |r| <= |output|
    ensures forall i :: 0 <= i < |r| ==> !Refused(parse, r[i])
    decreases |output|
  {
    if |output| == 0 then []
    else if Refused(parse, output[0]) then Kept(parse, output[1..])
    else [output[0]] + Kept(parse, output[1..])
  }

  /** Skipping refused entries is stopping at the first failure of the
    * list with the refused entries taken out. */
  lemma {:induction false} SkipIsFilteredStop(parse: SearchEntry -> Result<Media.Playable, ParseError>, output: seq<SearchEntry>)
    ensures SkipRefused(parse, output) == ParseUntilFailure(parse, Kept(parse, output))
    decreases |output|
  {
    if |output| > 0 {
      SkipIsFilteredStop(parse, output[1..]);
      if !Refused(parse, output[0]) {
        var k := Kept(parse, output);
        assert k[0] == output[0] && k[1..] == Kept(parse, output[1..]);
      }
    }
  }

  /** A search result type the source offers under these settings. */
  predicate Offered(settings: Settings, v: SearchEntry) {
    KnownType(v.resultType) && !(v.resultType == "video" && !settings.includeVideoResults)
  }

  /** The offered entries, in order. */
  function OfferedEntries(settings: Settings, output: seq<SearchEntry>): seq<SearchEntry>
    decreases |output|
  {
    if |output| == 0 then []
    else if Offered(settings, output[0]) then [output[0]] + OfferedEntries(settings, output[1..])
    else OfferedEntries(settings, output[1..])
  }

  /** Search (earlier source): entries of a kind the source does not offer
    * are reported and passed over; any other failure ends the search with
    * the records parsed so far. */
  function LegacySearch(settings: Settings, output: seq<SearchEntry>, fetch: Fetch): (r: (seq<Media.Playable>, Option<ParseError>))
    ensures r.1.Some? ==> !r.1.value.Unsupported?
  {
    SkipRefused(v => ParseSearchResult(settings, v, fetch), output)
  }

  /** The refused entries are exactly the ones not offered. */
  lemma {:induction false} KeptAreOffered(settings: Settings, output: seq<SearchEntry>, fetch: Fetch)
    ensures Kept(v => ParseSearchResult(settings, v, fetch), output) == OfferedEntries(settings, output)
    decreases |output|
  {
    if |output| > 0 {
      ParseRefusals(settings, output[0], fetch);
      KeptAreOffered(settings, output[1..], fetch);
    }
  }

  /** The earlier search is the current search run on the offered entries
    * only: it returns the same records and the same error. */
  lemma LegacySearchIsOfferedSearch(settings: Settings, output: seq<SearchEntry>, fetch: Fetch)
    ensures LegacySearch(settings, output, fetch) == Search(settings, OfferedEntries(settings, output), fetch)
  {
    var parse := v => ParseSearchResult(settings, v, fetch);
    SkipIsFilteredStop(parse, output);
    KeptAreOffered(settings, output, fetch);
  }

  /** When every entry is offered, the two searches agree. */
  lemma {:induction false} AllOfferedSameSearch(settings: Settings, output: seq<SearchEntry>, fetch: Fetch)
    requires forall i :: 0 <= i < |output| ==> Offered(settings, output[i])
    ensures LegacySearch(settings, output, fetch) == Search(settings, output, fetch)
  {
    OfferedAll(settings, output);
    LegacySearchIsOfferedSearch(settings, output, fetch);
  }

  lemma {:induction false} OfferedAll(settings: Settings, output: seq<SearchEntry>)
    requires forall i :: 0 <= i < |output| ==> Offered(settings, output[i])
    ensures OfferedEntries(settings, output) == output
    decreases |output|
  {
    if |output| > 0 {
      assert Offered(settings, output[0]);
      OfferedAll(settings, output[1..]);
    }
  }

  /** The record with its metadata replaced. */
  function WithMeta(p: Media.Playable, meta: Media.MetaMap): Media.Playable {
    match p
    case TrackItem(t) => Media.TrackItem(t.(additionalMeta := meta))
    case AlbumItem(a) => Media.AlbumItem(a.(additionalMeta := meta))
    case VideoItem(v) => Media.VideoItem(v.(additionalMeta := meta))
    case ArtistItem(a) => Media.ArtistItem(a.(additionalMeta := meta))
    case PlaylistItem(l) => Media.PlaylistItem(l.(additionalMeta := meta))
    case UserItem(_) => p
  }

  /** CompleteMetadata (earlier source) as written: the steps are those of
    * the current source, and every early return hands back the copy being
    * completed, but the final return hands back the record it was given.
    * That record shares its metadata map with the copy, so it carries the
    * completed metadata and none of the other completed fields. */
  function CompleteMetadataAsWritten(settings: Settings, pythonCommand: string, location: string, p: Media.Playable,
                                     run: Runner, reformat: Reformat, fetch: Fetch): Completion {
    var r := CompleteMetadata(settings, pythonCommand, location, p, run, reformat, fetch);
    if r.error.None? then Completion(WithMeta(p, Media.GetAdditionalMeta(r.record)), None) else r
  }

  /** The written completion agrees with the current one whenever it ends
    * in an error, and otherwise differs from it only outside the
    * metadata. */
  lemma AsWrittenDiffersOnlyOnSuccess(settings: Settings, pythonCommand: string, location: string, p: Media.Playable,
                                      run: Runner, reformat: Reformat, fetch: Fetch)
    ensures var w := CompleteMetadataAsWritten(settings, pythonCommand, location, p, run, reformat, fetch);
      var c := CompleteMetadata(settings, pythonCommand, location, p, run, reformat, fetch);
      w.error == c.error &&
      (c.error.Some? ==> w == c) &&
      Media.GetAdditionalMeta(w.record) == Media.GetAdditionalMeta(c.record) &&
      Media.GetType(w.record) == Media.GetType(p)
  {
    var c := CompleteMetadata(settings, pythonCommand, location, p, run, reformat, fetch);
    assert OnlyCompleted(p, c.record);
  }

  /** A track whose details carry a new description comes back from the
    * written completion with its old description, although the completion
    * succeeded. */
  lemma CompletionLosesDescription(settings: Settings, pythonCommand: string, location: string, t: Media.Track,
                                   d: Details, run: Runner, reformat: Reformat, fetch: Fetch)
    requires YtID(Media.TrackItem(t)).Some?
    requires run(ScriptCommand(pythonCommand, location, ["track", "id=" + YtID(Media.TrackItem(t)).value])) == Success(d)
    requires CompleteTrack(settings, t, d, reformat, fetch).error.None?
    requires d.description != t.description
    ensures CompleteMetadataAsWritten(settings, pythonCommand, location, Media.TrackItem(t), run, reformat, fetch).record.track.description == t.description
    ensures CompleteMetadata(settings, pythonCommand, location, Media.TrackItem(t), run, reformat, fetch).record.track.description == d.description
  {
    TrackCompleted(settings, t, d, reformat, fetch);
  }

  /** The current completion, which returns the completed copy, keeps every
    * field the details filled. */
  lemma CorrectedKeepsFilledFields(settings: Settings, pythonCommand: string, location: string, t: Media.Track,
                                   d: Details, run: Runner, reformat: Reformat, fetch: Fetch)
    requires YtID(Media.TrackItem(t)).Some?
    requires run(ScriptCommand(pythonCommand, location, ["track", "id=" + YtID(Media.TrackItem(t)).value])) == Success(d)
    requires CompleteTrack(settings, t, d, reformat, fetch).error.None?
    ensures CompleteMetadata(settings, pythonCommand, location, Media.TrackItem(t), run, reformat, fetch) ==
      CompleteTrack(settings, t, d, reformat, fetch)
  {
  }
}

=== FILE: youtube_metadata.dfy ===
/**
 * Completing a YouTube record: the script is asked for the full details of
 * the record's YouTube id, and the answer fills the record's description,
 * dates, counts, images and the lists of related results. The steps run in
 * a fixed order and the first that fails ends the completion; the fields
 * filled before it are kept in the record that is returned with the error.
 */
module YouTubeMetadata {
  import opened Wrappers
  import opened Numbers
  import Media
  import Sources
  import opened YouTube

  /** The fields of the script's answer that completion reads. For tracks
    * and videos the description, publish date and view count come from the
    * video's microformat and the images from the track part; for the other
    * kinds they come from the top level of the answer. */
  datatype Details = Details(
    lyricsId: Option<string>, description: string,
    publishDate: Option<string>, viewCount: Option<string>, year: Option<string>,
    thumbnailURLs: seq<string>,
    tracks: seq<map<string, string>>, trackCount: int,
    songs: seq<map<string, string>>, albums: seq<map<string, string>>,
    singles: seq<map<string, string>>, videos: seq<map<string, string>>)

  /** Parsing an RFC 3339 time and printing it as "2006-01-02 15:04:05":
    * the printed date, or the parser's error text. */
  type Reformat = string -> Result<string, string>

  /** Running the script and decoding its JSON answer: the details, or an
    * error text. */
  type Runner = seq<string> -> Result<Details, string>

  /** The record a completion returns and the error that ended it, if any. */
  datatype Completion = Completion(record: Media.Playable, error: Option<ParseError>)

  /** The release date after the publish-date step. */
  function NewDate(publishDate: Option<string>, current: string, reformat: Reformat): Result<string, ParseError> {
    if publishDate.None? then Success(current)
    else
      match reformat(publishDate.value)
      case Success(date) => Success(date)
      case Failure(e) => Failure(BadDate(e))
  }

  /** The listen or watch count after the view-count step: kept unless
    * counts are inherited and the answer has one. */
  function NewCount(inherit: bool, views: Option<string>, current: int): Result<int, ParseError> {
    if !inherit || views.None? then Success(current)
    else
      match Atoi(views.value)
      case Success(n) => Success(n)
      case Failure(_) => Failure(BadNumber(views.value))
  }

  /** completeTrackMetadata */
  function CompleteTrack(settings: Settings, t: Media.Track, d: Details, reformat: Reformat, fetch: Fetch): Completion {
    var t1 := t.(trackNumber := TrackNumber(d.lyricsId, t.trackNumber), description := d.description);
    match NewDate(d.publishDate, t1.releaseDate, reformat)
    case Failure(e) => Completion(Media.TrackItem(t1), Some(e))
    case Success(date) =>
      var t2 := t1.(releaseDate := date);
      match NewCount(settings.inheritListenCounts, d.viewCount, t2.listenCount)
      case Failure(e) => Completion(Media.TrackItem(t2), Some(e))
      case Success(n) =>
        var t3 := t2.(listenCount := n);
        match CoverArt(d.thumbnailURLs, fetch)
        case Failure(e) => Completion(Media.TrackItem(t3), Some(e))
        case Success(cover) =>
          Completion(Media.TrackItem(t3.(additionalMeta := t3.additionalMeta["display_cover_art" := cover])), None)
  }

  /** completeAlbumMetadata */
  function CompleteAlbum(a: Media.Album, d: Details, fetch: Fetch): Completion {
    var a1 := a.(description := d.description);
    match CoverArt(d.thumbnailURLs, fetch)
    case Failure(e) => Completion(Media.AlbumItem(a1), Some(e))
    case Success(cover) =>
      var meta := a1.additionalMeta["display_cover_art" := cover]
                                   ["yt_tracks" := Media.MetaDicts(d.tracks)]
                                   ["display_track_count" := Media.MetaInt(d.trackCount)];
      Completion(Media.AlbumItem(a1.(additionalMeta := meta)), None)
  }

  /** completeVideoMetadata */
  function CompleteVideo(settings: Settings, v: Media.Video, d: Details, reformat: Reformat, fetch: Fetch): Completion {
    var v1 := v.(description := d.description);
    match NewDate(d.publishDate, v1.releaseDate, reformat)
    case Failure(e) => Completion(Media.VideoItem(v1), Some(e))
    case Success(date) =>
      var v2 := v1.(releaseDate := date);
      match NewCount(settings.inheritListenCounts, d.viewCount, v2.watchCount)
      case Failure(e) => Completion(Media.VideoItem(v2), Some(e))
      case Success(n) =>
        var v3 := v2.(watchCount := n);
        match CoverArt(d.thumbnailURLs, fetch)
        case Failure(e) => Completion(Media.VideoItem(v3), Some(e))
        case Success(cover) =>
          Completion(Media.VideoItem(v3.(additionalMeta := v3.additionalMeta["display_thumbnail" := cover])), None)
  }

  /** The artist's view count with its separators and unit removed. */
  function ArtistViews(views: Option<string>): Option<string> {
    if views.None? then None else Some(ArtistViewText(views.value))
  }

  /** The metadata an artist gains from its result lists. */
  function ArtistLists(meta: Media.MetaMap, d: Details): Media.MetaMap {
    meta["yt_tracks" := Media.MetaDicts(d.songs)]
        ["yt_albums" := Media.MetaDicts(d.albums)]
        ["yt_singles" := Media.MetaDicts(d.singles)]
        ["yt_videos" := Media.MetaDicts(d.videos)]
        ["display_track_count" := Media.MetaInt(|d.songs|)]
        ["display_album_count" := Media.MetaInt(|d.albums|)]
        ["display_single_count" := Media.MetaInt(|d.singles|)]
        ["display_video_count" := Media.MetaInt(|d.videos|)]
  }

  /** What ArtistLists writes: the four lists and their lengths, every
    * other entry kept. */
  lemma ArtistListsEntries(meta: Media.MetaMap, d: Details)
    ensures var m := ArtistLists(meta, d);
      m.Keys == meta.Keys + {"yt_tracks", "yt_albums", "yt_singles", "yt_videos",
                             "display_track_count", "display_album_count", "display_single_count", "display_video_count"} &&
      m["yt_tracks"] == Media.MetaDicts(d.songs) && m["display_track_count"] == Media.MetaInt(|d.songs|) &&
      m["yt_albums"] == Media.MetaDicts(d.albums) && m["display_album_count"] == Media.MetaInt(|d.albums|) &&
      m["yt_singles"] == Media.MetaDicts(d.singles) && m["display_single_count"] == Media.MetaInt(|d.singles|) &&
      m["yt_videos"] == Media.MetaDicts(d.videos) && m["display_video_count"] == Media.MetaInt(|d.videos|)
  {
  }

  /** Writing the lists over metadata that already holds them changes
    * nothing. */
  lemma ArtistListsAgain(meta: Media.MetaMap, d: Details)
    ensures ArtistLists(ArtistLists(meta, d), d) == ArtistLists(meta, d)
  {
    ArtistListsEntries(meta, d);
    ArtistListsEntries(ArtistLists(meta, d), d);
  }

  /** The metadata a completed artist ends with: its cover, then its
    * lists. */
  function ArtistMeta(meta: Media.MetaMap, cover: Media.Meta, d: Details): Media.MetaMap {
    ArtistLists(meta["display_cover_art" := cover], d)
  }

  lemma ArtistMetaAgain(meta: Media.MetaMap, cover: Media.Meta, d: Details)
    ensures ArtistMeta(ArtistMeta(meta, cover, d), cover, d) == ArtistMeta(meta, cover, d)
  {
    var m := meta["display_cover_art" := cover];
    var base := ArtistLists(m, d);
    ArtistListsEntries(m, d);
    assert base["display_cover_art" := cover] == base;
    ArtistListsAgain(m, d);
  }

  /** completeArtistMetadata: the view count is inherited only when artist
    * counts are not summed from their tracks. */
  function CompleteArtist(settings: Settings, a: Media.Artist, d: Details, fetch: Fetch): Completion {
    var a1 := a.(description := d.description);
    var inherit := settings.inheritListenCounts && !settings.artistListenCountsByTrack;
    match NewCount(inherit, ArtistViews(d.viewCount), a1.listenCount)
    case Failure(e) => Completion(Media.ArtistItem(a1), Some(e))
    case Success(n) =>
      var a2 := a1.(listenCount := n);
      match CoverArt(d.thumbnailURLs, fetch)
      case Failure(e) => Completion(Media.ArtistItem(a2), Some(e))
      case Success(cover) =>
        Completion(Media.ArtistItem(a2.(additionalMeta := ArtistMeta(a2.additionalMeta, cover, d))), None)
  }

  /** completePlaylistMetadata: a present year becomes the creation date. */
  function CompletePlaylist(settings: Settings, l: Media.Playlist, d: Details, fetch: Fetch): Completion {
    var l1 := l.(description := d.description,
                 creationDate := if d.year.Some? then d.year.value else l.creationDate);
    match NewCount(settings.inheritListenCounts, d.viewCount, l1.listenCount)
    case Failure(e) => Completion(Media.PlaylistItem(l1), Some(e))
    case Success(n) =>
      var l2 := l1.(listenCount := n);
      match CoverArt(d.thumbnailURLs, fetch)
      case Failure(e) => Completion(Media.PlaylistItem(l2), Some(e))
      case Success(cover) =>
        var meta := l2.additionalMeta["display_cover_art" := cover]
                                     ["yt_tracks" := Media.MetaDicts(d.tracks)]
                                     ["display_track_count" := Media.MetaInt(d.trackCount)];
        Completion(Media.PlaylistItem(l2.(additionalMeta := meta)), None)
  }

  /** The dispatch on the record's kind; a kind without a completion is
    * returned as it is. */
  function CompleteRecord(settings: Settings, p: Media.Playable, d: Details, reformat: Reformat, fetch: Fetch): Completion {
    match p
    case TrackItem(t) => CompleteTrack(settings, t, d, reformat, fetch)
    case AlbumItem(a) => CompleteAlbum(a, d, fetch)
    case VideoItem(v) => CompleteVideo(settings, v, d, reformat, fetch)
    case ArtistItem(a) => CompleteArtist(settings, a, d, fetch)
    case PlaylistItem(l) => CompletePlaylist(settings, l, d, fetch)
    case UserItem(_) => Completion(p, None)
  }

  /** The metadata keys a completion may write. */
  const FilledKeys: set<string> := {
    "display_cover_art", "display_thumbnail",
    "yt_tracks", "yt_albums", "yt_singles", "yt_videos",
    "display_track_count", "display_album_count", "display_single_count", "display_video_count"}

  /** `after` keeps every entry of `before` and adds or changes only the
    * keys a completion writes. */
  predicate MetaExtended(before: Media.MetaMap, after: Media.MetaMap) {
    before.Keys <= after.Keys &&
    after.Keys <= before.Keys + FilledKeys &&
    forall k :: k in before && k !in FilledKeys ==> after[k] == before[k]
  }

  /** `q` is `p` with at most its descriptive fields (description, dates,
    * counts, track number) and its metadata changed, the metadata only
    * under the keys a completion writes: ids, titles, sources and every
    * other field are kept. */
  predicate OnlyCompleted(p: Media.Playable, q: Media.Playable) {
    match p
    case TrackItem(t) =>
      q.TrackItem? &&
      q.track == t.(trackNumber := q.track.trackNumber, description := q.track.description,
                    releaseDate := q.track.releaseDate, listenCount := q.track.listenCount,
                    additionalMeta := q.track.additionalMeta) &&
      MetaExtended(t.additionalMeta, q.track.additionalMeta)
    case AlbumItem(a) =>
      q.AlbumItem? &&
      q.album == a.(description := q.album.description, additionalMeta := q.album.additionalMeta) &&
      MetaExtended(a.additionalMeta, q.album.additionalMeta)
    case VideoItem(v) =>
      q.VideoItem? &&
      q.video == v.(description := q.video.description, releaseDate := q.video.releaseDate,
                    watchCount := q.video.watchCount, additionalMeta := q.video.additionalMeta) &&
      MetaExtended(v.additionalMeta, q.video.additionalMeta)
    case ArtistItem(a) =>
      q.ArtistItem? &&
      q.artist == a.(description := q.artist.description, listenCount := q.artist.listenCount,
                     additionalMeta := q.artist.additionalMeta) &&
      MetaExtended(a.additionalMeta, q.artist.additionalMeta)
    case PlaylistItem(l) =>
      q.PlaylistItem? &&
      q.playlist == l.(description := q.playlist.description, creationDate := q.playlist.creationDate,
                       listenCount := q.playlist.listenCount, additionalMeta := q.playlist.additionalMeta) &&
      MetaExtended(l.additionalMeta, q.playlist.additionalMeta)
    case UserItem(_) => q == p
  }

  /** CompleteMetadata: users are refused; a record without a string
    * "yt_id", on which the source's type assertion panics, is reported as
    * malformed; a failed run returns the record untouched;
    * otherwise the answer completes the record. Whatever happens, only the
    * descriptive fields and the completion's metadata keys change. */
  function CompleteMetadata(settings: Settings, pythonCommand: string, location: string, p: Media.Playable,
                            run: Runner, reformat: Reformat, fetch: Fetch): (r: Completion)
    ensures r.error == Some(Unsupported(Media.GetType(p))) <==> p.UserItem?
    ensures p.UserItem? || YtID(p).None? ==> r.record == p
    ensures !p.UserItem? && YtID(p).Some? ==>
      var command := ScriptCommand(pythonCommand, location, [Media.GetType(p), "id=" + YtID(p).value]);
      (run(command).Failure? ==> r == Completion(p, Some(CommandFailed(run(command).error)))) &&
      (run(command).Success? ==> r == CompleteRecord(settings, p, run(command).value, reformat, fetch))
    ensures OnlyCompleted(p, r.record)
  {
    var t := Media.GetType(p);
    Sources.PlayableSupport(Sources.YouTube, p);
    OnlyCompletedSelf(p);
    if !Sources.SupportsMediaType(Sources.MediaTypes(Sources.YouTube), t) then Completion(p, Some(Unsupported(t)))
    else if YtID(p).None? then Completion(p, Some(Malformed("yt_id")))
    else
      match run(ScriptCommand(pythonCommand, location, [t, "id=" + YtID(p).value]))
      case Failure(e) => Completion(p, Some(CommandFailed(e)))
      case Success(d) =>
        CompleteOnlyFills(settings, p, d, reformat, fetch);
        CompleteNeverUnsupported(settings, p, d, reformat, fetch);
        CompleteRecord(settings, p, d, reformat, fetch)
  }

  /** No completion step reports an unsupported kind. */
  lemma CompleteNeverUnsupported(settings: Settings, p: Media.Playable, d: Details, reformat: Reformat, fetch: Fetch)
    ensures var r := CompleteRecord(settings, p, d, reformat, fetch);
      r.error.Some? ==> !r.error.value.Unsupported?
  {
  }

  /** An unchanged record changes only what a completion may change. */
  lemma OnlyCompletedSelf(p: Media.Playable)
    ensures OnlyCompleted(p, p)
  {
  }

  /** Writing one more completion key keeps the metadata an extension of
    * what it was. */
  lemma MetaExtendedWrite(before: Media.MetaMap, after: Media.MetaMap, k: string, v: Media.Meta)
    requires MetaExtended(before, after) && k in FilledKeys
    ensures MetaExtended(before, after[k := v])
  {
  }

  lemma MetaExtendedSelf(m: Media.MetaMap)
    ensures MetaExtended(m, m)
  {
  }

  lemma ArtistListsExtend(before: Media.MetaMap, after: Media.MetaMap, d: Details)
    requires MetaExtended(before, after)
    ensures MetaExtended(before, ArtistLists(after, d))
  {
    var m1 := after["yt_tracks" := Media.MetaDicts(d.songs)];
    MetaExtendedWrite(before, after, "yt_tracks", Media.MetaDicts(d.songs));
    var m2 := m1["yt_albums" := Media.MetaDicts(d.albums)];
    MetaExtendedWrite(before, m1, "yt_albums", Media.MetaDicts(d.albums));
    var m3 := m2["yt_singles" := Media.MetaDicts(d.singles)];
    MetaExtendedWrite(before, m2, "yt_singles", Media.MetaDicts(d.singles));
    var m4 := m3["yt_videos" := Media.MetaDicts(d.videos)];
    MetaExtendedWrite(before, m3, "yt_videos", Media.MetaDicts(d.videos));
    var m5 := m4["display_track_count" := Media.MetaInt(|d.songs|)];
    MetaExtendedWrite(before, m4, "display_track_count", Media.MetaInt(|d.songs|));
    var m6 := m5["display_album_count" := Media.MetaInt(|d.albums|)];
    MetaExtendedWrite(before, m5, "display_album_count", Media.MetaInt(|d.albums|));
    var m7 := m6["display_single_count" := Media.MetaInt(|d.singles|)];
    MetaExtendedWrite(before, m6, "display_single_count", Media.MetaInt(|d.singles|));
    MetaExtendedWrite(before, m7, "display_video_count", Media.MetaInt(|d.videos|));
  }

  /** The album and playlist metadata writes. */
  lemma ListWritesExtend(m: Media.MetaMap, cover: Media.Meta, d: Details)
    ensures MetaExtended(m, m["display_cover_art" := cover]
                             ["yt_tracks" := Media.MetaDicts(d.tracks)]
                             ["display_track_count" := Media.MetaInt(d.trackCount)])
  {
    MetaExtendedSelf(m);
    MetaExtendedWrite(m, m, "display_cover_art", cover);
    var m1 := m["display_cover_art" := cover];
    MetaExtendedWrite(m, m1, "yt_tracks", Media.MetaDicts(d.tracks));
    MetaExtendedWrite(m, m1["yt_tracks" := Media.MetaDicts(d.tracks)], "display_track_count", Media.MetaInt(d.trackCount));
  }

  lemma TrackOnlyFills(settings: Settings, t: Media.Track, d: Details, reformat: Reformat, fetch: Fetch)
    ensures OnlyCompleted(Media.TrackItem(t), CompleteTrack(settings, t, d, reformat, fetch).record)
  {
    MetaExtendedSelf(t.additionalMeta);
    var c := CoverArt(d.thumbnailURLs, fetch);
    if c.Success? {
      MetaExtendedWrite(t.additionalMeta, t.additionalMeta, "display_cover_art", c.value);
    }
  }

  lemma AlbumOnlyFills(a: Media.Album, d: Details, fetch: Fetch)
    ensures OnlyCompleted(Media.AlbumItem(a), CompleteAlbum(a, d, fetch).record)
  {
    MetaExtendedSelf(a.additionalMeta);
    var c := CoverArt(d.thumbnailURLs, fetch);
    if c.Success? {
      ListWritesExtend(a.additionalMeta, c.value, d);
    }
  }

  lemma VideoOnlyFills(settings: Settings, v: Media.Video, d: Details, reformat: Reformat, fetch: Fetch)
    ensures OnlyCompleted(Media.VideoItem(v), CompleteVideo(settings, v, d, reformat, fetch).record)
  {
    MetaExtendedSelf(v.additionalMeta);
    var c := CoverArt(d.thumbnailURLs, fetch);
    if c.Success? {
      MetaExtendedWrite(v.additionalMeta, v.additionalMeta, "display_thumbnail", c.value);
    }
  }

  lemma ArtistOnlyFills(settings: Settings, a: Media.Artist, d: Details, fetch: Fetch)
    ensures OnlyCompleted(Media.ArtistItem(a), CompleteArtist(settings, a, d, fetch).record)
  {
    MetaExtendedSelf(a.additionalMeta);
    var c := CoverArt(d.thumbnailURLs, fetch);
    if c.Success? {
      MetaExtendedWrite(a.additionalMeta, a.additionalMeta, "display_cover_art", c.value);
      ArtistListsExtend(a.additionalMeta, a.additionalMeta["display_cover_art" := c.value], d);
    }
  }

  lemma PlaylistOnlyFills(settings: Settings, l: Media.Playlist, d: Details, fetch: Fetch)
    ensures OnlyCompleted(Media.PlaylistItem(l), CompletePlaylist(settings, l, d, fetch).record)
  {
    MetaExtendedSelf(l.additionalMeta);
    var c := CoverArt(d.thumbnailURLs, fetch);
    if c.Success? {
      ListWritesExtend(l.additionalMeta, c.value, d);
    }
  }

  /** Completion changes only the descriptive fields and the metadata keys
    * it writes, and the record keeps its kind. */
  lemma CompleteOnlyFills(settings: Settings, p: Media.Playable, d: Details, reformat: Reformat, fetch: Fetch)
    ensures OnlyCompleted(p, CompleteRecord(settings, p, d, reformat, fetch).record)
  {
    match p
    case TrackItem(t) => TrackOnlyFills(settings, t, d, reformat, fetch);
    case AlbumItem(a) => AlbumOnlyFills(a, d, fetch);
    case VideoItem(v) => VideoOnlyFills(settings, v, d, reformat, fetch);
    case ArtistItem(a) => ArtistOnlyFills(settings, a, d, fetch);
    case PlaylistItem(l) => PlaylistOnlyFills(settings, l, d, fetch);
    case UserItem(_) =>
  }

  /** A completed track has the answer's description, the track number
    * its lyrics id ends in, the reformatted publish date, the inherited
    * view count and the downloaded cover. */
  lemma TrackCompleted(settings: Settings, t: Media.Track, d: Details, reformat: Reformat, fetch: Fetch)
    requires CompleteTrack(settings, t, d, reformat, fetch).error.None?
    ensures var q := CompleteTrack(settings, t, d, reformat, fetch).record.track;
      q.description == d.description &&
      q.trackNumber == TrackNumber(d.lyricsId, t.trackNumber) &&
      q.releaseDate == (if d.publishDate.None? then t.releaseDate else reformat(d.publishDate.value).value) &&
      q.listenCount == (if settings.inheritListenCounts && d.viewCount.Some? then Atoi(d.viewCount.value).value
                        else t.listenCount) &&
      |d.thumbnailURLs| > 0 &&
      q.additionalMeta["display_cover_art"] == Media.MetaOpaque(fetch(d.thumbnailURLs[|d.thumbnailURLs| - 1]).value)
  {
  }

  /** A publish date that does not parse ends a track's completion: the
    * description and track number are already filled, the release date,
    * count and metadata are not. */
  lemma TrackBadDateKeepsEarlierSteps(settings: Settings, t: Media.Track, d: Details, reformat: Reformat, fetch: Fetch)
    requires d.publishDate.Some? && reformat(d.publishDate.value).Failure?
    ensures CompleteTrack(settings, t, d, reformat, fetch) ==
      Completion(Media.TrackItem(t.(trackNumber := TrackNumber(d.lyricsId, t.trackNumber), description := d.description)),
                 Some(BadDate(reformat(d.publishDate.value).error)))
  {
  }

  /** A completed artist's display counts are the lengths of the lists it
    * stores. */
  lemma ArtistCountsAgree(settings: Settings, a: Media.Artist, d: Details, fetch: Fetch)
    requires CompleteArtist(settings, a, d, fetch).error.None?
    ensures var m := CompleteArtist(settings, a, d, fetch).record.artist.additionalMeta;
      m["yt_tracks"] == Media.MetaDicts(d.songs) && m["display_track_count"] == Media.MetaInt(|d.songs|) &&
      m["yt_albums"] == Media.MetaDicts(d.albums) && m["display_album_count"] == Media.MetaInt(|d.albums|) &&
      m["yt_singles"] == Media.MetaDicts(d.singles) && m["display_single_count"] == Media.MetaInt(|d.singles|) &&
      m["yt_videos"] == Media.MetaDicts(d.videos) && m["display_video_count"] == Media.MetaInt(|d.videos|)
  {
    var c := CoverArt(d.thumbnailURLs, fetch).value;
    var a1 := CompleteArtist(settings, a, d, fetch).record.artist;
    ArtistListsEntries(a1.additionalMeta, d);
    assert a1.additionalMeta == ArtistMeta(a.additionalMeta, c, d);
    ArtistListsEntries(a.additionalMeta["display_cover_art" := c], d);
  }

  /** An artist whose view count reads "a,b views", with digit groups a and
    * b, inherits the count a followed by b. */
  lemma ArtistInheritsGroupedViews(settings: Settings, ar: Media.Artist, d: Details, fetch: Fetch, a: string, b: string)
    requires settings.inheritListenCounts && !settings.artistListenCountsByTrack
    requires d.viewCount == Some(a + "," + b + " views")
    requires AllDigits(a) && AllDigits(b) && |a| > 0
    requires DigitsValue(a + b) <= MaxInt64
    ensures CompleteArtist(settings, ar, d, fetch).record.artist.listenCount == DigitsValue(a + b)
  {
    ArtistViewsGrouped(a, b);
    assert AllDigits(a + b) by {
      forall i | 0 <= i < |a + b|
        ensures IsDigit((a + b)[i])
      {
        if i < |a| { assert (a + b)[i] == a[i]; } else { assert (a + b)[i] == b[i - |a|]; }
      }
    }
    AtoiDigits(a + b);
  }

  lemma TrackIdempotent(settings: Settings, t: Media.Track, d: Details, reformat: Reformat, fetch: Fetch)
    requires CompleteTrack(settings, t, d, reformat, fetch).error.None?
    ensures var q := CompleteTrack(settings, t, d, reformat, fetch).record.track;
      CompleteTrack(settings, q, d, reformat, fetch) == Completion(Media.TrackItem(q), None)
  {
    var q := CompleteTrack(settings, t, d, reformat, fetch).record.track;
    TrackNumberIdempotent(d.lyricsId, t.trackNumber);
    var m := q.additionalMeta;
    assert m["display_cover_art" := m["display_cover_art"]] == m;
  }

  lemma AlbumIdempotent(a: Media.Album, d: Details, fetch: Fetch)
    requires CompleteAlbum(a, d, fetch).error.None?
    ensures var q := CompleteAlbum(a, d, fetch).record.album;
      CompleteAlbum(q, d, fetch) == Completion(Media.AlbumItem(q), None)
  {
    var q := CompleteAlbum(a, d, fetch).record.album;
    var m := q.additionalMeta;
    assert m["display_cover_art" := m["display_cover_art"]]["yt_tracks" := m["yt_tracks"]]
            ["display_track_count" := m["display_track_count"]] == m;
  }

  lemma VideoIdempotent(settings: Settings, v: Media.Video, d: Details, reformat: Reformat, fetch: Fetch)
    requires CompleteVideo(settings, v, d, reformat, fetch).error.None?
    ensures var q := CompleteVideo(settings, v, d, reformat, fetch).record.video;
      CompleteVideo(settings, q, d, reformat, fetch) == Completion(Media.VideoItem(q), None)
  {
    var q := CompleteVideo(settings, v, d, reformat, fetch).record.video;
    var m := q.additionalMeta;
    assert m["display_thumbnail" := m["display_thumbnail"]] == m;
  }

  lemma ArtistIdempotent(settings: Settings, a: Media.Artist, d: Details, fetch: Fetch)
    requires CompleteArtist(settings, a, d, fetch).error.None?
    ensures var q := CompleteArtist(settings, a, d, fetch).record.artist;
      CompleteArtist(settings, q, d, fetch) == Completion(Media.ArtistItem(q), None)
  {
    ArtistMetaAgain(a.additionalMeta, CoverArt(d.thumbnailURLs, fetch).value, d);
  }

  lemma PlaylistIdempotent(settings: Settings, l: Media.Playlist, d: Details, fetch: Fetch)
    requires CompletePlaylist(settings, l, d, fetch).error.None?
    ensures var q := CompletePlaylist(settings, l, d, fetch).record.playlist;
      CompletePlaylist(settings, q, d, fetch) == Completion(Media.PlaylistItem(q), None)
  {
    var q := CompletePlaylist(settings, l, d, fetch).record.playlist;
    var m := q.additionalMeta;
    assert m["display_cover_art" := m["display_cover_art"]]["yt_tracks" := m["yt_tracks"]]
            ["display_track_count" := m["display_track_count"]] == m;
  }

  /** Completing a completed record again with the same answer changes
    * nothing. */
  lemma CompleteIdempotent(settings: Settings, p: Media.Playable, d: Details, reformat: Reformat, fetch: Fetch)
    requires CompleteRecord(settings, p, d, reformat, fetch).error.None?
    ensures var q := CompleteRecord(settings, p, d, reformat, fetch).record;
      CompleteRecord(settings, q, d, reformat, fetch) == Completion(q, None)
  {
    match p
    case TrackItem(t) => TrackIdempotent(settings, t, d, reformat, fetch);
    case AlbumItem(a) => AlbumIdempotent(a, d, fetch);
    case VideoItem(v) => VideoIdempotent(settings, v, d, reformat, fetch);
    case ArtistItem(a) => ArtistIdempotent(settings, a, d, fetch);
    case PlaylistItem(l) => PlaylistIdempotent(settings, l, d, fetch);
    case UserItem(_) =>
  }

  /** Reading the track number a second time from the same lyrics id gives
    * the same number. */
  lemma TrackNumberIdempotent(lyricsId: Option<string>, current: int)
    ensures TrackNumber(lyricsId, TrackNumber(lyricsId, current)) == TrackNumber(lyricsId, current)
  {
  }
}
